=== FILE: README.md ===
# chatgenius, modelled in Dafny

chatgenius is a Slack-like chat application. Workspaces hold channels, which may be public or private, and direct chats between two users. Messages carry emoji reactions and may have thread replies, and a presence table records who is online. The server side is a set of server actions over a Postgres database. The client side is a set of React views that load a snapshot through those actions and then follow the database's change feed. An identity-provider webhook keeps the users table in step with the sign-up service.

This project models that core as pure functions over an in-memory store and proves properties of them. Every operation is deterministic once I/O is abstracted.

- **The store** (`Schema`) is one sequence of rows per table: users, workspaces and their members, channels and their members, direct chats, channel messages, direct messages, presence and attachments. Each row type is a datatype whose columns, defaults and cascades follow the table declarations. Neither messages table declares an author-name column, so a stored message carries no name. The name appears only on answers: the reads that join the users table, and the answers of `createMessageAction` and `createThreadMessageAction`. Channel and direct messages share one `Message` datatype with two constructors, so "the author is `userId`, else `senderId`" reads as it does in the views.
- **Server actions** (`MessagesActions`, `DirectMessagesActions`, `ChannelsActions`, `WorkspacesActions`, `UsersActions`, `PresenceActions`) are functions from a store to a pair `(ActionState<T>, Store)`. The first component is the `{isSuccess, message, data}` answer. Fresh ids and the current time are parameters. A failed action leaves the store unchanged, except where the source writes before the step that fails:
  - `createChannelAction` and `createWorkspaceAction` keep the new channel or workspace when a member insert fails (`ChannelsActions.CreateChannel`, `WorkspacesActions.CreateWorkspace`);
  - `createMessageAction` looks up the author after its insert, outside a transaction, and would keep the row if the lookup failed. The insert's foreign key already requires the author, so in the model that branch is never taken (`MessagesActions.CreateMessage`).
  - The reaction read-modify-write and its invariant (no emoji maps to an empty list) live in `Reactions`.
  - Thread replies and the parent's reply counter live in `MessageStore`.
  - Snapshot ordering and limits live in `Sorting` and `MessageTable`.
- **The change feed** (`Realtime`, `Records`) delivers untyped rows to the hooks of lib/hooks/use-realtime.ts, which the chat message list, the chat thread panel and the presence provider use. These rows carry the database's snake-case column names, exactly as the feed sends them. A subscription is a table plus an optional `column=eq.value` filter. `Realtime` dispatches INSERT, UPDATE and DELETE to the callbacks and adds the camel-case date keys that `normalizeRecord` adds. The workspace views and both sidebars use a `useRealtimeTable` hook instead, which no file defines. For them the model assumes that it delivers typed camel-case rows, filtered by one column (see "## Left out").
- **Client views** are functions from the view's state, a server answer or a feed event to the next state:
  - the workspace message list, thread panel and sidebars, and the user cache (`UserMap`);
  - the chat message list, thread panel and sidebar;
  - the presence provider, the workspace picker and search page, and the top search bar.

  `Reconcile` holds the shared append, replace-by-id and remove-by-id steps. Lemmas named `...AgainstStore`, or that call a store action, tie each view to the actions whose answers it consumes.
- **Paths** (`Routes`) read ids back from URLs. The lemmas show that every path the sidebars navigate to reads back as the ids it was built from.
- **The webhook** (`ClerkWebhook`) covers the header guard, the derived username and full name, and the user upsert on create and update. The signature check is a boolean parameter.

The chat thread panel's `handleSubmitReply` (app/chat/_components/thread-panel.tsx:107-132) sends the same draft as the workspace panel's, so `WorkspaceThreadPanel.SubmitReply` models both. The chat sidebar's user search (app/chat/_components/sidebar.tsx:157-170) is the workspace sidebar's, so `WorkspaceSidebar.SearchResults` models both.

Where the code does something its surroundings evidently do not intend, the model states the behaviour as written. When the corrected behaviour is what the rest of the model builds on, it is also given as a separate member (see "## Findings"). Several other quirks are proved as written, without a correction, because they are plausibly deliberate or harmless:

- the top bar's channel-only search repeats the workspace-wide results, because the search action drops its filters (`TopSearchBar.ChannelOnlyRepeatsWorkspaceResults`);
- a thread reply sent from the workspace panel puts the parent author's name in its draft, which no column takes, so the stored reply carries no name and the answer names the replier (`WorkspaceThreadPanel.ReplyAnswerNamesReplier`);
- under the assumption about `useRealtimeTable`, the chat sidebar's direct-chat feed is filtered on `user1_id` only, so a chat another user starts is seen only on reload (`ChatSidebar.ChatStartedByOtherMissedLive`);
- under the same assumption, the channel feed is filtered on `type=eq.public`, so a new private channel appears in the chat sidebar only on reload (`ChatSidebar.PrivateChannelOnlyOnReload`);
- deleting a reply leaves its parent's reply count as it was (`MessageTable.DeleteLeavesReplyCountStale`);
- the left joins list a channel or public workspace once per matching membership row (`ChannelsActions.RepeatedMembershipRepeatsChannel`, `WorkspacesActions.PublicWorkspaceRepeatsPerMember`);
- the webhook answers 200 to a delete whatever the action answered (`ClerkWebhook.UserDeletedAnswersOk`).

## Model

| member | source | states |
|---|---|---|
| Schema.NewRow | db/schema/messages-schema.ts:12-33 | a new message row has the given id, parent, content, file fields, author and conversation, the insert time, an empty reactions object and a reply count of 0; it carries no author name, since no column takes the draft's name key |
| Schema.WithAuthorName | actions/db/messages-actions.ts:49-53 | the joined answer carries the given author name and keeps every column of the stored row |
| Schema.FindUser | actions/db/users-actions.ts:37-44 | the lookup by id answers a row of the table with that id, and nothing exactly when no row has it |
| MessageTable.IndexOfId | actions/db/messages-actions.ts:151-153 | the first row with the id, and none exactly when the id is absent |
| MessageTable.FindById | actions/db/messages-actions.ts:151-156 | a row of the table with that id, none exactly when the id is absent; with unique keys it is the only such row |
| MessageTable.UpdateWhereId | actions/db/messages-actions.ts:166-170 | the update rewrites exactly the rows with that id and leaves the length and every other row unchanged |
| MessageTable.SetReactions | actions/db/messages-actions.ts:166-170 | writing the reactions column changes only that column of the rows with that id; ids and parents stay put |
| MessageTable.SetReactionsReadBack | actions/db/messages-actions.ts:166-170 | reading the row back after the write yields the old row with exactly the new reactions; the keys stay unique |
| MessageTable.SetReactionsTwice | actions/db/messages-actions.ts:166-170 | a second write of the reactions column overrides the first |
| MessageTable.SetReactionsUnchanged | actions/db/messages-actions.ts:166-170 | writing back the reactions a row already has leaves the table unchanged |
| MessageTable.BumpReplyCount | actions/db/messages-actions.ts:114-119 | the parent's `reply_count` rises by exactly one and every other row is untouched; the statement fails when the 32-bit column would overflow |
| MessageTable.ParentColumn | db/schema/messages-schema.ts:24-26 | the parent reference of every row, in table order |
| MessageTable.CountParentAbsent | db/schema/messages-schema.ts:24-26 | a parent column with no reference to `p` counts no reply to `p` |
| MessageTable.NoRepliesToAbsent | db/schema/messages-schema.ts:24-26 | when every parent reference resolves, a message not in the table has no replies |
| MessageTable.CountRepliesAppend | actions/db/messages-actions.ts:108-111 | appending a row adds one to its parent's reply count and nothing to any other |
| MessageTable.TopLevelInsertKeepsCounts | actions/db/messages-actions.ts:14-42 | inserting a fresh top-level row keeps the keys unique, the parents present and every reply counter exact |
| MessageTable.BumpKeepsStructure | actions/db/messages-actions.ts:114-119 | the counter bump changes no key and no parent reference, hence no number of replies |
| MessageTable.AppendKeepsIntegrity | db/schema/messages-schema.ts:13-26 | appending a fresh row whose parent exists keeps the keys unique and every parent present |
| MessageTable.ReplyInsertCountAt | actions/db/messages-actions.ts:106-119 | after a reply insert and the parent's bump, each row's counter equals its number of replies |
| MessageTable.ReplyInsertKeepsCounts | actions/db/messages-actions.ts:106-119 | the reply transaction keeps the keys unique, the parents present and every reply counter exact |
| MessageTable.DeleteLeavesReplyCountStale | actions/db/messages-actions.ts:221-235 | on a two-row table of a parent and its reply, deleting the reply leaves the parent's counter at 1 with no reply left |
| MessageTable.Children | db/schema/messages-schema.ts:24-26 | the rows whose parent is in the set are rows of the table |
| MessageTable.Closure | db/schema/messages-schema.ts:24-26 | the rows a delete removes contain the deleted ids, lie in the table, and are closed under the parent cascade |
| MessageTable.ClosureLeast | db/schema/messages-schema.ts:24-26 | the cascade removes nothing beyond the least cascade-closed set that contains the deleted id |
| MessageTable.Survivors | actions/db/messages-actions.ts:225 | the rows kept are exactly those whose id is not removed, in table order |
| MessageTable.SurvivorsKeepUniqueIds | actions/db/messages-actions.ts:225 | removing rows keeps the keys unique |
| MessageTable.DeleteById | actions/db/messages-actions.ts:225 | after the delete the id is gone, no surviving row references it as parent, and every survivor was in the table |
| MessageTable.DeleteSurvivorsExact | db/schema/messages-schema.ts:24-26 | a row survives exactly when some cascade-closed set containing the deleted id leaves it out |
| MessageTable.DeleteKeepsIntegrity | db/schema/messages-schema.ts:24-26 | the cascade leaves no dangling parent reference and no duplicate key |
| MessageTable.JoinAuthor | actions/db/messages-actions.ts:55 | the inner join keeps a row exactly when its author exists, with the author's current username |
| MessageTable.Joined | actions/db/messages-actions.ts:54-61 | exactly the rows the where clause selects whose author exists, each joined with its author |
| MessageTable.ByCreatedAtIsTotalPreorder | actions/db/messages-actions.ts:62 | ordering by `created_at` is a total preorder |
| MessageTable.ConversationPage | actions/db/messages-actions.ts:49-63 | at most `limit` top-level rows of the conversation with existing authors, oldest first; all of them when there are no more than `limit` |
| MessageTable.ConversationPageKeepsOldest | actions/db/messages-actions.ts:62-63 | the page is a prefix of the sorted matches, so no left-out row is older than a kept one |
| MessageTable.ThreadPage | actions/db/messages-actions.ts:80-88 | a permutation of the replies to the parent whose authors exist, oldest first |
| MessageStore.Insert | actions/db/messages-actions.ts:14-42 | the insert succeeds exactly when the key is fresh and the conversation, author and parent exist; it then appends the new row to the kind's table and changes nothing else |
| MessageStore.InsertReply | actions/db/messages-actions.ts:106-132 | the reply transaction inserts the row and bumps a truthy parent's counter, or does nothing at all when either statement fails |
| MessageStore.React | actions/db/messages-actions.ts:145-219 | the read-modify-write fails exactly for an unknown id; otherwise it writes the intent applied to the row's reactions and answers the updated row |
| MessageStore.DropAttachments | db/schema/attachments-schema.ts:7-13 | exactly the attachments whose reference into the kind's table does not name a removed message |
| MessageStore.Delete | db/schema/attachments-schema.ts:7-13 | deleting a message removes it with its replies, transitively, and exactly the attachments of the removed messages |
| MessageStore.ConversationMessageIds | db/schema/messages-schema.ts:14-16 | every message of the conversation is in the set |
| MessageStore.ConversationDead | db/schema/messages-schema.ts:14-26 | the ids a conversation delete removes hold all of the conversation's messages, lie in the table and are closed under the reply cascade |
| MessageStore.DeleteConversationMessages | db/schema/messages-schema.ts:14-26 | deleting a channel or chat leaves none of its messages and no reply pointing at one of them; a row stays exactly when it is outside the cascade, and an attachment stays exactly when its message does; the other tables do not change |
| MessageStore.ConversationSurvivorsExact | db/schema/messages-schema.ts:14-26 | a row survives a conversation delete exactly when some cascade-closed set holding all of the conversation's messages leaves it out |
| MessageStore.InsertReplyKeepsConsistent | actions/db/messages-actions.ts:106-132 | a successful reply transaction keeps unique keys, present parents and exact reply counters |
| MessageStore.ReactKeepsConsistent | actions/db/messages-actions.ts:166-170 | reacting changes only the reactions column, so it keeps the table consistent |
| MessageStore.ReactRoundTrip | actions/db/messages-actions.ts:158-164 | adding a reaction the user had not made and then removing it restores the store |
| MessageStore.ReactIdempotent | actions/db/messages-actions.ts:158-164 | applying the same intent twice has the effect of applying it once |
| MessageStore.ReactKeepsWellFormed | actions/db/messages-actions.ts:196-202 | neither intent leaves an emoji with an empty list of reactors |
| MessagesActions.CreateMessage | actions/db/messages-actions.ts:14-42 | succeeds exactly when the row can be inserted, appending it with empty reactions and a zero count and answering the author's username; a failure leaves the store |
| MessagesActions.GetChannelMessages | actions/db/messages-actions.ts:44-74 | only the channel's top-level rows whose author exists, oldest first, at most `limit` (50 by default), and all of them when they fit |
| MessagesActions.GetThreadMessages | actions/db/messages-actions.ts:76-99 | exactly the replies to the parent whose author exists, oldest first |
| MessagesActions.CreateThreadMessage | actions/db/messages-actions.ts:101-143 | on success one row is appended and the parent's counter rises by exactly one, nothing else changes; on failure the store is untouched |
| MessagesActions.AddReaction | actions/db/messages-actions.ts:145-181 | fails with "Message not found" exactly for an unknown id; otherwise the user is among the emoji's reactors and only that row's reactions change |
| MessagesActions.RemoveReaction | actions/db/messages-actions.ts:183-219 | fails with "Message not found" exactly for an unknown id; otherwise the user no longer reacts with the emoji and only that row's reactions change |
| MessagesActions.DeleteMessage | actions/db/messages-actions.ts:221-235 | always succeeds; the message, its replies (transitively) and their attachments are gone and every unrelated row stays |
| MessagesActions.AddThenRemoveReactionRestores | actions/db/messages-actions.ts:145-219 | add then remove of a reaction the user had not made restores the whole store |
| MessagesActions.ReactionActionsIdempotent | actions/db/messages-actions.ts:145-219 | repeating an add, or a remove, changes nothing more |
| MessagesActions.ReactionActionsKeepNoEmptyLists | actions/db/messages-actions.ts:145-219 | both actions keep every reactions map free of empty lists |
| MessagesActions.CreateThreadMessageKeepsCounts | actions/db/messages-actions.ts:101-143 | a reply keeps every reply counter equal to the number of replies |
| MessagesActions.DeleteMessageKeepsReferences | actions/db/messages-actions.ts:221-235 | deleting keeps keys unique and parents present |
| DirectMessagesActions.FindChat | actions/db/direct-messages-actions.ts:26-37 | the first chat joining the two users, in either order, in the workspace; none exactly when no chat joins them |
| DirectMessagesActions.CreateDirectChat | actions/db/direct-messages-actions.ts:19-61 | an existing chat of the pair, in either order, is returned and nothing is inserted; otherwise exactly one chat with the given users and workspace is inserted, or the action fails with the store unchanged |
| DirectMessagesActions.FindChatSymmetric | actions/db/direct-messages-actions.ts:26-37 | the lookup answers the same chat whichever user is named first |
| DirectMessagesActions.CreateDirectChatIdempotent | actions/db/direct-messages-actions.ts:19-61 | after a successful create, asking again for the pair, in either order and with any fresh id, returns the same chat and inserts nothing |
| DirectMessagesActions.FindChatAppend | actions/db/direct-messages-actions.ts:44-53 | a chat appended for a pair that had none is the one the lookup then finds |
| DirectMessagesActions.CreateDirectChatKeepsPairsUnique | db/schema/direct-messages-schema.ts:4-17 | creating chats only through the action never makes two chats of one pair in one workspace, though the table does not forbid it |
| DirectMessagesActions.ChatsOf | actions/db/direct-messages-actions.ts:68-73 | exactly the workspace's chats that have the user on either side |
| DirectMessagesActions.GetUserDirectChats | actions/db/direct-messages-actions.ts:63-83 | succeeds with exactly the workspace's chats where the user is `user1` or `user2` |
| DirectMessagesActions.CreateDirectMessage | actions/db/direct-messages-actions.ts:85-103 | succeeds exactly when the row can be inserted; the row is appended and answered as stored: the given id, content and sender, empty reactions, a zero count and no sender name; a failure answers "Failed to create direct message" and leaves the store |
| DirectMessagesActions.GetDirectChatMessages | actions/db/direct-messages-actions.ts:105-135 | only the chat's top-level rows whose sender exists, oldest first, at most `limit` (50 by default), and all of them when they fit |
| DirectMessagesActions.GetDirectThreadMessages | actions/db/direct-messages-actions.ts:137-160 | exactly the replies to the parent whose sender exists, oldest first |
| DirectMessagesActions.AddDirectMessageReaction | actions/db/direct-messages-actions.ts:162-198 | fails with "Direct message not found" exactly for an unknown id; otherwise the user is among the emoji's reactors and only that row's reactions change |
| DirectMessagesActions.RemoveDirectMessageReaction | actions/db/direct-messages-actions.ts:200-236 | fails with "Direct message not found" exactly for an unknown id; otherwise the user no longer reacts with the emoji and only that row's reactions change |
| DirectMessagesActions.DeleteDirectMessage | actions/db/direct-messages-actions.ts:238-252 | always succeeds; the message, its replies (transitively) and their attachments are gone and every unrelated row stays |
| DirectMessagesActions.CreateDirectThreadMessage | actions/db/direct-messages-actions.ts:254-284 | succeeds exactly when the reply can be inserted and, for a truthy parent id, the parent exists; the stored reply, with its id, parent and sender and no sender name, is appended and answered, the parent's counter rises by exactly one and nothing else changes; on failure the store is untouched |
| DirectMessagesActions.DeleteChatRow | db/schema/direct-messages-schema.ts:21-31 | removing a chat row removes exactly that chat; a direct message stays exactly when it is outside the cascade from the chat's messages, and an attachment exactly when its direct message stays; the users, workspaces, memberships, channels, channel messages and presence rows do not change |
| DirectMessagesActions.RemoveChat | db/schema/direct-messages-schema.ts:4-17 | exactly the chats with another id remain |
| DirectMessagesActions.AddThenRemoveDirectReactionRestores | actions/db/direct-messages-actions.ts:162-236 | add then remove of a reaction the user had not made restores the whole store |
| DirectMessagesActions.DirectReactionActionsIdempotent | actions/db/direct-messages-actions.ts:162-236 | repeating an add, or a remove, changes nothing more |
| DirectMessagesActions.DirectReactionActionsKeepNoEmptyLists | actions/db/direct-messages-actions.ts:162-236 | both actions keep every reactions map free of empty lists |
| DirectMessagesActions.CreateDirectThreadMessageKeepsCounts | actions/db/direct-messages-actions.ts:259-273 | a reply keeps every reply counter equal to the number of replies |
| Reactions.Without | actions/db/messages-actions.ts:198 | the filtered list holds exactly the other reactors, and is the list itself when the user was not in it |
| Reactions.Add | actions/db/messages-actions.ts:158-164 | the user ends up among the emoji's reactors, the key is created when absent, every other emoji is untouched, and a repeat reaction changes nothing |
| Reactions.Remove | actions/db/messages-actions.ts:196-202 | the user ends up absent, the key goes when its list empties, every other emoji is untouched, and an absent emoji changes nothing |
| Reactions.AddKeepsNoEmptyLists | actions/db/messages-actions.ts:158-164 | adding keeps every reactor list non-empty |
| Reactions.RemoveKeepsNoEmptyLists | actions/db/messages-actions.ts:196-202 | removing keeps every reactor list non-empty |
| Reactions.AddIdempotent | actions/db/messages-actions.ts:162-164 | adding twice is adding once |
| Reactions.RemoveIdempotent | actions/db/messages-actions.ts:196-202 | removing twice is removing once |
| Reactions.AddThenRemoveRestores | actions/db/messages-actions.ts:145-219 | add then remove restores the map when the user had not reacted and no list was empty |
| Reactions.WithoutAppended | actions/db/messages-actions.ts:158-202 | filtering out a user just appended gives back the list before the append |
| Reactions.ToggleIntent | app/workspace/_components/message-list.tsx:203-225 | the view asks for a removal exactly when the user already reacted with the emoji, and for an add otherwise |
| Reactions.ApplyIntent | app/workspace/_components/message-list.tsx:208-212 | after the chosen call the user has reacted with the emoji exactly when it was an add; every other emoji keeps its reactors |
| Reactions.ToggleFlips | app/workspace/_components/message-list.tsx:203-225 | a click flips whether the user has reacted with the emoji |
| Reactions.ToggleTwiceRestores | app/workspace/_components/message-list.tsx:203-225 | two clicks from a state where the user had not reacted restore the map |
| Reactions.TwoReactorsScenario | actions/db/messages-actions.ts:145-219 | two users react with one emoji and the first takes it back: only the second remains |
| Sorting.InsertSorted | actions/db/messages-actions.ts:62 | inserting keeps every element and adds exactly the new one |
| Sorting.SortBy | actions/db/messages-actions.ts:62 | the ordered result is a permutation of the rows |
| Sorting.InsertSortedKeepsOrder | actions/db/messages-actions.ts:62 | under a total preorder, inserting into a sorted list keeps it sorted |
| Sorting.SortBySorted | actions/db/messages-actions.ts:62 | under a total preorder the result is sorted |
| Sorting.Take | actions/db/messages-actions.ts:63 | `.limit(n)` keeps the first `n` rows, or all of them when there are fewer |
| Sorting.TakeOfSortedIsLeast | actions/db/messages-actions.ts:62-63 | ordering then limiting keeps the `n` least rows: nothing left out is smaller than anything kept |
| Sequences.Filter | app/workspace/_components/workspace-search.tsx:42-44 | the filtered list holds exactly the elements that pass, as an order-preserving subsequence, and each of them as often as the input does |
| Sequences.First | app/chat/_components/message-list.tsx:157 | nothing is found exactly when no element passes; what is found is a listed element that passes, with none passing before it |
| Sequences.ReplaceWhere | app/workspace/_components/sidebar.tsx:90-92 | the length is kept; every element that passes becomes the row and every other stays in place |
| Sequences.FilterAll | app/workspace/_components/workspace-search.tsx:40 | a filter every element passes is the identity |
| Sequences.Unique | app/workspace/_components/user-map-provider.tsx:82-84 | `Array.from(new Set(xs))` holds each element of the list exactly once |
| Sequences.UniqueOfDistinct | app/workspace/_components/user-map-provider.tsx:82-84 | on a list without repeats the de-duplication changes nothing |
| Reconcile.ReplaceById | app/workspace/_components/message-list.tsx:121-129 | an update replaces exactly the entries with the row's id and keeps the length and every other entry in place |
| Reconcile.RemoveById | app/workspace/_components/message-list.tsx:132-136 | a delete keeps exactly the entries with another id |
| Reconcile.Apply | app/workspace/_components/message-list.tsx:121-136 | an insert appends the row behind the unchanged list; an update keeps the length and puts the row in place of every entry with its id; a delete keeps exactly the entries with another id |
| Reconcile.Ids | app/workspace/_components/message-list.tsx:121-136 | the ids of a list, position by position |
| Reconcile.RemoveDistributes | app/workspace/_components/message-list.tsx:132-136 | removal keeps the survivors in their original order |
| Reconcile.RemoveAbsentIsIdentity | app/workspace/_components/message-list.tsx:132-136 | removing an id no entry carries changes nothing |
| Reconcile.RemoveIdempotent | app/workspace/_components/message-list.tsx:132-136 | a replayed delete changes nothing more |
| Reconcile.UpdateIdempotent | app/workspace/_components/message-list.tsx:121-129 | an update keeps the sequence of ids, and a replayed update changes nothing more |
| Reconcile.InsertThenDelete | app/workspace/_components/message-list.tsx:81-137 | an insert followed by the delete of the same row restores a list that did not hold its id |
| Reconcile.CountIdAppend | app/workspace/_components/message-list.tsx:88-92 | an insert adds one entry with the row's id |
| Reconcile.InsertDuplicates | app/workspace/_components/message-list.tsx:88-92 | inserts are not de-duplicated: replaying an insert of a listed row leaves its id twice |
| Reconcile.CountIdPositive | app/workspace/_components/message-list.tsx:88-92 | a listed row's id is counted at least once |
| Reconcile.ApplyKeeps | app/workspace/_components/sidebar.tsx:86-112 | reconciliation only adds the event's row or keeps rows it had, so a property of all of them survives |
| Text.TrimStart | app/workspace/_components/sidebar.tsx:162 | the suffix left after dropping leading white space, which does not start with white space |
| Text.TrimEnd | app/workspace/_components/sidebar.tsx:162 | the prefix left after dropping trailing white space, which does not end with white space |
| Text.Trim | app/workspace/_components/sidebar.tsx:162-165 | `trim()` yields the infix surrounded only by white space, neither starting nor ending with it |
| Text.TrimOfTrimmed | app/workspace/_components/sidebar.tsx:162-165 | a string that neither starts nor ends with white space is its own trim |
| Text.BlankIffAllSpace | app/workspace/_components/sidebar.tsx:162 | `!s.trim()` holds exactly when every character is white space |
| Text.TrimIdempotent | app/workspace/_components/sidebar.tsx:165 | trimming twice is trimming once |
| Text.ToLower | app/workspace/_components/workspace-search.tsx:43 | lower-casing keeps the length, maps each character, and leaves no upper-case letter |
| Text.ToLowerIdempotent | app/workspace/_components/workspace-search.tsx:43 | lower-casing twice is lower-casing once |
| Text.IndexFrom | app/workspace/_components/workspace-search.tsx:43 | the first occurrence at or after the start index, none exactly when there is none |
| Text.IndexOf | app/workspace/_components/workspace-search.tsx:43 | the first occurrence of the pattern, none exactly when it does not occur |
| Text.IncludesIffOccurs | app/workspace/_components/workspace-search.tsx:43 | `includes` holds exactly when the pattern occurs somewhere |
| Text.ContainsIgnoringCaseFacts | app/workspace/_components/workspace-search.tsx:43 | the empty query matches every name, and lower-casing the query first changes nothing |
| Text.Before | app/api/webhooks/clerk/route.ts:72 | `split(c)[0]` is the longest prefix without `c` |
| Text.ReplaceFirst | app/chat/_components/message-list.tsx:41-43 | a one-character `replace` changes only the first occurrence |
| Text.Decimal | app/workspace/_components/user-map-provider.tsx:24-26 | the decimal text of an index, the key an array element gets when spread into an object, is non-empty and all digits |
| Text.SegmentAfter | app/workspace/_components/workspaces-sidebar.tsx:69 | the segment after the first marker up to the next `/`, and none exactly when the marker does not occur |
| Text.SegmentAfterRoundTrip | app/workspace/_components/workspaces-sidebar.tsx:69 | a path built from a marker, a segment and a `/`-led rest reads back that segment |
| Text.BeforeOfConcat | app/workspace/_components/workspaces-sidebar.tsx:69 | splitting `a + b` at a `c` that starts `b` and is absent from `a` gives `a` |
| Text.OrElse | app/workspace/_components/top-search-bar.tsx:45-48 | the first value when it is a non-empty string, otherwise the second |
| Text.LexLeTotal | actions/db/workspaces-actions.ts:164 | the name order compares any two names |
| Text.LexLeTransitive | actions/db/workspaces-actions.ts:164 | the name order chains |
| Records.HasKeyCons | app/chat/_components/message-list.tsx:34 | a record has a key exactly when its first field or one of the rest has it |
| Records.Get | app/chat/_components/message-list.tsx:34 | reading a key gives the value of a field with that key, and `undefined` when there is none |
| Records.FirstIndex | app/chat/_components/message-list.tsx:40-46 | the position of the first field with the key |
| Records.Set | app/chat/_components/message-list.tsx:40-46 | assigning a key overwrites its first field in place, or appends a field when the key is new |
| Records.SetThenGet | app/chat/_components/message-list.tsx:40-46 | an assignment is read back, and every other key reads as before |
| Records.SetKeys | app/chat/_components/message-list.tsx:40-46 | an assignment adds exactly its key, and distinct keys stay distinct |
| Records.SetKeysAt | app/chat/_components/message-list.tsx:40-46 | an assignment keeps every existing key in its place |
| Records.SetExisting | lib/hooks/use-realtime.ts:35-39 | assigning a key the value it already has changes nothing |
| Records.Keys | app/chat/_components/message-list.tsx:34 | the keys of a record in insertion order |
| Records.CamelKey | app/chat/_components/message-list.tsx:35-37 | the camel-cased key is no longer than the column name |
| Records.SnakeKey | db/schema/messages-schema.ts:12-33 | the column name of a field name is no shorter than it |
| Records.CamelOfSnake | app/chat/_components/message-list.tsx:35-37 | camel-casing the column name of an underscore-free field name gives back the field name |
| Records.CamelKeyNoUnderscore | app/chat/_components/message-list.tsx:35-37 | a key without underscores is its own camel-cased form |
| Records.ColumnNames | app/chat/_components/message-list.tsx:35-37 | `created_at` camel-cases to `createdAt` |
| Records.ChannelIdColumn | app/chat/_components/message-list.tsx:35-37 | `channel_id` camel-cases to `channelId` |
| Records.ChatIdColumn | app/chat/_components/message-list.tsx:35-37 | `chat_id` camel-cases to `chatId` |
| Records.ParentIdColumn | app/chat/_components/message-list.tsx:35-37 | `parent_id` camel-cases to `parentId` |
| Records.AliasKeys | lib/hooks/use-realtime.ts:35-39 | the two aliases the feed adds are their own camel-cased forms |
| Records.ParseTimestamp | app/chat/_components/message-list.tsx:39-43 | a string timestamp becomes a date read from the text with its first space made a `T` and `Z` appended; anything else throws |
| Records.Converted | app/chat/_components/message-list.tsx:38-46 | a timestamp column is parsed and every other value is copied unchanged |
| Records.CamelCasedKeys | app/chat/_components/message-list.tsx:32-49 | the conversion fails exactly when a timestamp column is not a string, and otherwise has exactly the camel-cased keys of the row |
| Records.CamelCasedValues | app/chat/_components/message-list.tsx:32-49 | a field whose camel-cased key no later field shares is read back converted under that key |
| Records.GetFirst | app/chat/_components/message-list.tsx:34 | reading a key reads its first field |
| Records.SetKeepsSoleSource | app/chat/_components/message-list.tsx:40-46 | writing a key that camel-cases differently keeps another key the only source of its name, with its value |
| Records.CamelCasedGet | app/chat/_components/message-list.tsx:32-49 | a field that is the only source of its camel-cased name is read back, converted, under that name |
| Records.IndexFields | app/workspace/_components/user-map-provider.tsx:24-26 | spreading an array gives one field per element, keyed by its index |
| Records.Spread | app/workspace/_components/user-map-provider.tsx:24-26 | `{ ...v }` is always an object, and copies an object unchanged |
| Realtime.Normalize | lib/hooks/use-realtime.ts:35-39 | `createdAt` and `updatedAt` copy `created_at` and `updated_at`; every other key reads as before, and only those two keys are added |
| Realtime.NormalizeIdempotent | lib/hooks/use-realtime.ts:35-39 | normalizing twice is normalizing once |
| Realtime.NormalizeKeepsSoleSource | lib/hooks/use-realtime.ts:35-39 | normalizing keeps a column the only source of its camel-cased name, with its value |
| Realtime.Dispatch | lib/hooks/use-realtime.ts:41-54 | INSERT reaches the insert callback with the new row, UPDATE the update callback with the new row, DELETE the delete callback with the old row; other types reach none |
| Realtime.MessagesFeed | lib/hooks/use-realtime.ts:12-68 | nothing for an empty channel id; otherwise exactly the changes of `messages` rows of that channel, normalized and dispatched by type |
| Realtime.DirectMessagesFeed | lib/hooks/use-realtime.ts:70-123 | nothing for an empty chat id; otherwise exactly the changes of `direct_messages` rows of that chat, dispatched by type |
| Realtime.TableFeedsUnfiltered | lib/hooks/use-realtime.ts:125-222 | the channel and direct-chat feeds apply no row filter, only the table |
| Realtime.Column | lib/hooks/use-realtime.ts:28 | the filterable columns of a message row read as its parent, channel or chat id |
| Realtime.ConversationFeeds | app/workspace/_components/message-list.tsx:139-148 | the feed filtered on `channel_id` delivers exactly the channel's messages, and the one filtered on `chat_id` exactly the chat's |
| WorkspaceMessageList.FeedSubscription | app/workspace/_components/message-list.tsx:139-148 | the list's feed delivers exactly the messages of its own kind and conversation |
| WorkspaceMessageList.HandleInsert | app/workspace/_components/message-list.tsx:81-92 | an insert with a truthy parent id is skipped; any other row is appended at the end, without de-duplication |
| WorkspaceMessageList.HandleEvent | app/workspace/_components/message-list.tsx:81-148 | the list only ever gains the event's row; a reply insert is skipped and a top-level insert goes last; an update keeps the length and every entry with another id; a delete keeps exactly the entries with another id |
| WorkspaceMessageList.EventKeepsConversation | app/workspace/_components/message-list.tsx:81-148 | every event the feed delivers keeps the list to its conversation's top-level messages |
| WorkspaceMessageList.LoadMessages | app/workspace/_components/message-list.tsx:161-179 | with a truthy conversation id a successful snapshot replaces the list; otherwise the list stays |
| WorkspaceMessageList.LoadShowsConversation | app/workspace/_components/message-list.tsx:161-179 | loading from the store shows at most 50 of the conversation's top-level messages, and only those |
| WorkspaceMessageList.MessageIds | app/workspace/_components/message-list.tsx:184-185 | the ids of the loaded messages, in order |
| WorkspaceMessageList.AttachmentRequests | app/workspace/_components/message-list.tsx:184-189 | a fetch is made exactly for the listed ids without an entry in the map, in list order, one per listed message: an id listed twice is fetched twice |
| WorkspaceMessageList.StoreAttachments | app/workspace/_components/message-list.tsx:190-195 | a successful fetch sets that message's entry; a failed one leaves the map |
| WorkspaceMessageList.StoreAll | app/workspace/_components/message-list.tsx:184-197 | the map gains exactly the ids whose fetch succeeded, and keeps every entry it was not asked about |
| WorkspaceMessageList.BulkLoadAttachments | app/workspace/_components/message-list.tsx:181-198 | no cached entry is touched, and every new entry belongs to a listed message |
| WorkspaceMessageList.BulkLoadAttachmentsKeepsCached | app/workspace/_components/message-list.tsx:181-198 | cached entries are never refetched or overwritten, and a listed message lacks an entry afterwards only when its fetch failed |
| WorkspaceMessageList.ReactionChoice | app/workspace/_components/message-list.tsx:200-226 | no call for an unlisted message; otherwise a removal exactly when the listed message shows the user's reaction with the emoji |
| WorkspaceMessageList.Perform | app/workspace/_components/message-list.tsx:203-225 | the channel list's call changes only `messages` and the direct list's only `direct_messages`; a failure changes nothing; a success answers the clicked message, with the user's reaction present exactly when an add was asked for |
| WorkspaceMessageList.ReactionClickToggles | app/workspace/_components/message-list.tsx:200-226 | when the listed reactions match the stored ones, a click flips in the store whether the user has reacted with the emoji |
| UserMap.ParsedDate | app/workspace/_components/user-map-provider.tsx:18-23 | a text date becomes a date read from the text with `Z` appended, anything else is kept |
| UserMap.WithParsedDate | app/workspace/_components/user-map-provider.tsx:18-23 | converting one date field keeps every key and every other field |
| UserMap.DatesParsed | app/workspace/_components/user-map-provider.tsx:10-28 | `transformMessage` adds and drops no key, keeps every field other than the two dates and the reactions, parses text dates and copies truthy reactions |
| UserMap.WithSpread | app/workspace/_components/user-map-provider.tsx:24-26 | a truthy field is replaced by its spread copy, everything else kept |
| UserMap.DatesParsedIdempotent | app/workspace/_components/user-map-provider.tsx:10-28 | converting a converted message changes nothing more |
| UserMap.Authors | app/workspace/_components/user-map-provider.tsx:83 | the author id is `userId` for channel messages and `senderId` for direct ones |
| UserMap.MissingIds | app/workspace/_components/user-map-provider.tsx:82-85 | each author not already cached, exactly once |
| UserMap.FilterKeepsDistinct | app/workspace/_components/user-map-provider.tsx:85 | filtering a list without repeats keeps it without repeats |
| UserMap.Overlay | app/workspace/_components/user-map-provider.tsx:91-94 | the new map holds every cached entry and every fetched user under its id; entries not fetched keep their value |
| UserMap.BulkLoadUsers | app/workspace/_components/user-map-provider.tsx:81-97 | no request and no change when no author is missing; on failure nothing changes; on success the fetched users are laid over the cache, which loses no entry |
| UserMap.AuthorLoad | app/workspace/_components/message-list.tsx:94-101 | the insert handlers' user load: a cached author or a failed lookup leaves the cache; no entry is lost; new entries come only from the fetched users, each under its own id |
| UserMap.AuthorLoadIsBulkLoad | app/workspace/_components/thread-panel.tsx:89-96 | the cache check both insert handlers make before `bulkLoadUsers([msg])` changes nothing: the load is exactly `bulkLoadUsers([msg])` |
| UserMap.LoadAgainstStore | app/workspace/_components/user-map-provider.tsx:81-97 | loading against the store caches every existing author, changes no cached entry, and adds only stored users who wrote one of the messages |
| WorkspaceThreadPanel.ThreadSubscription | app/workspace/_components/thread-panel.tsx:120-126 | the panel's feed delivers exactly the rows of its kind whose parent is this message |
| WorkspaceThreadPanel.HandleReplyInsert | app/workspace/_components/thread-panel.tsx:81-89 | an inserted reply to this parent is appended; a row with any other parent leaves the list |
| WorkspaceThreadPanel.HandleEvent | app/workspace/_components/thread-panel.tsx:82-126 | the replies only ever gain the event's row; an insert is appended exactly when its parent is this message; an update keeps the length and every reply with another id; a delete keeps exactly the replies with another id |
| WorkspaceThreadPanel.EventKeepsThread | app/workspace/_components/thread-panel.tsx:81-126 | every event the feed delivers keeps the panel to replies of its kind to this parent |
| WorkspaceThreadPanel.LoadReplies | app/workspace/_components/thread-panel.tsx:130-155 | with a non-empty parent id a successful answer replaces the list; otherwise the list stays |
| WorkspaceThreadPanel.LoadShowsThread | app/workspace/_components/thread-panel.tsx:130-155 | loading from the store shows only replies of the kind to the parent, oldest first |
| WorkspaceThreadPanel.SubmitReply | app/workspace/_components/thread-panel.tsx:160-189 | a blank box sends nothing and keeps its text; otherwise the untrimmed text goes to the parent's conversation as a reply to the parent, under the user's id and the parent author's name, and the box is cleared |
| WorkspaceThreadPanel.ReplyAnswerNamesReplier | app/workspace/_components/thread-panel.tsx:161-189 | the draft carries the parent author's name, but the stored reply carries none; a channel reply's answer names the replier's own username, and a direct reply's answer names nobody |
| WorkspaceThreadPanel.SubmittedReplyReachesPanel | app/workspace/_components/thread-panel.tsx:81-189 | a submitted reply is stored as a reply to the parent in its conversation, the panel's feed delivers it, and the insert handler shows it |
| WorkspaceThreadPanel.ReactionTarget | app/workspace/_components/thread-panel.tsx:194-214 | the parent when the id is the parent's, otherwise the reply with that id, and none when there is no such reply |
| WorkspaceThreadPanel.ReactionChoice | app/workspace/_components/thread-panel.tsx:191-221 | no call without a target; otherwise a removal exactly when the target lists the user under the emoji |
| WorkspaceThreadPanel.ReactionClickTwiceRestores | app/workspace/_components/thread-panel.tsx:191-221 | clicking an emoji twice, with the panel showing the stored reactions each time, restores the target's reactions |
| WorkspaceSidebar.ChannelEvent | app/workspace/_components/sidebar.tsx:86-96 | the channels only ever gain the event's row; an inserted row, or an updated row of a listed id, is shown; a delete keeps exactly the channels with another id |
| WorkspaceSidebar.ChatEvent | app/workspace/_components/sidebar.tsx:102-112 | the chats only ever gain the event's row; an inserted row, or an updated row of a listed id, is shown; a delete keeps exactly the chats with another id |
| WorkspaceSidebar.FeedsKeepWorkspace | app/workspace/_components/sidebar.tsx:82-112 | events on the two feeds filtered by `workspace_id` keep both lists to the workspace's channels and chats |
| WorkspaceSidebar.OtherUser | app/workspace/_components/sidebar.tsx:135-136 | the other side of the pair: `user2Id` when the user is `user1Id`, else `user1Id` |
| WorkspaceSidebar.OtherUserOfParticipant | app/workspace/_components/sidebar.tsx:135-136 | for a participant the other user is the user only in a chat with oneself, and taking the other side twice returns to the user |
| WorkspaceSidebar.Others | app/workspace/_components/sidebar.tsx:134-136 | the other participant of each listed chat, in order |
| WorkspaceSidebar.ChatUserRequests | app/workspace/_components/sidebar.tsx:133-142 | the lookups cover exactly the uncached other participants, in chat order, one per chat: a user shared by several chats is looked up once per chat |
| WorkspaceSidebar.Fetched | app/workspace/_components/sidebar.tsx:146-151 | exactly the users of the successful lookups |
| WorkspaceSidebar.FillChatUsers | app/workspace/_components/sidebar.tsx:131-156 | nothing happens when no lookup is needed; no entry is lost; every fetched user is cached; every new entry is the id of a successful lookup's user |
| WorkspaceSidebar.FillAgainstStore | app/workspace/_components/sidebar.tsx:131-156 | with `getUserAction` answering from the store, every existing other participant is cached, cached entries never change, and each new entry is a stored user under its own id |
| WorkspaceSidebar.CreateChannelRequest | app/workspace/_components/sidebar.tsx:160-170 | nothing for a blank name; otherwise the trimmed, non-blank name, the chosen visibility, the user as creator and only member, in this workspace |
| WorkspaceSidebar.AfterCreateChannel | app/workspace/_components/sidebar.tsx:171-176 | on success the box is cleared and the view goes to the new channel's page; otherwise nothing changes |
| WorkspaceSidebar.CreatedChannelInSidebar | app/workspace/_components/sidebar.tsx:160-179 | a channel created from the sidebar belongs to the workspace, carries the trimmed name and is visible to its creator |
| WorkspaceSidebar.SearchResults | app/workspace/_components/sidebar.tsx:181-194 | a blank query clears the results; a successful search replaces them; a failed one keeps them |
| WorkspaceSidebar.SearchOffersOtherUsers | app/workspace/_components/sidebar.tsx:181-194 | searching the store offers exactly the other users whose user name or full name contains the query, ignoring case |
| WorkspaceSidebar.AfterCreateDirectChat | app/workspace/_components/sidebar.tsx:196-209 | the view goes to the chat's page exactly when the action succeeds |
| WorkspaceSidebar.StartChatTwiceOpensSameChat | app/workspace/_components/sidebar.tsx:196-209 | starting a chat with the same user twice opens the same chat both times |
| WorkspaceSidebar.AfterDeleteChannel | app/workspace/_components/sidebar.tsx:211-223 | on failure nothing changes; on success the channel leaves the list, and the view goes to the workspace home exactly when it showed that channel |
| WorkspaceSidebar.DeleteChannelEverywhere | app/workspace/_components/sidebar.tsx:211-223 | deleting through the store removes the channel from the sidebar and the store and keeps every other listed channel |
| ChannelsActions.MemberRows | actions/db/channels-actions.ts:27-30 | one membership row per listed id, in order, repeats kept |
| ChannelsActions.CreateChannel | actions/db/channels-actions.ts:14-42 | a falsy workspace id fails with "workspaceId is required" and changes nothing; success exactly when the id is free, the creator exists and the member insert can run, adding the channel and its member rows; a failed member insert leaves the channel stored |
| ChannelsActions.GetChannel | actions/db/channels-actions.ts:44-63 | fails with "Channel not found" exactly when no channel has the id; otherwise a stored channel with that id |
| ChannelsActions.FindChannel | actions/db/channels-actions.ts:48-53 | the first channel with the id, or "Channel not found" when there is none |
| ChannelsActions.JoinCopies | actions/db/channels-actions.ts:70-85 | the joined query yields some row for a channel exactly when it is public or the user is a member |
| ChannelsActions.UserChannelRows | actions/db/channels-actions.ts:70-85 | the joined rows hold exactly the channels visible to the user |
| ChannelsActions.GetUserChannels | actions/db/channels-actions.ts:65-96 | succeeds and returns a channel exactly when it is stored and public or the user has a membership row for it |
| ChannelsActions.RepeatedMembershipRepeatsChannel | actions/db/channels-actions.ts:70-85 | a membership row stored twice returns the private channel twice |
| ChannelsActions.AddChannelMember | actions/db/channels-actions.ts:98-116 | succeeds exactly when the channel and the user exist, appending one membership row; otherwise fails and changes nothing |
| ChannelsActions.WithoutMember | actions/db/channels-actions.ts:123-130 | the rows kept are exactly those not matching both ids |
| ChannelsActions.RemoveChannelMember | actions/db/channels-actions.ts:118-140 | always succeeds, removes exactly the rows matching both the channel and the user, and changes no other table |
| ChannelsActions.AddedMemberSeesChannel | actions/db/channels-actions.ts:65-116 | after being added, the user's channel list includes the channel |
| ChannelsActions.RemovedMemberSeesOnlyPublic | actions/db/channels-actions.ts:65-140 | after being removed, the user still sees the channel exactly when it is public |
| ChannelsActions.CreatedChannelVisibleToMembers | actions/db/channels-actions.ts:14-96 | every listed member of a newly created channel sees it |
| ChannelsActions.ChannelsExcept | actions/db/channels-actions.ts:144 | exactly the channels with another id |
| ChannelsActions.MembersExcept | db/schema/channels-schema.ts:24-26 | exactly the membership rows of other channels, as the cascade leaves them |
| ChannelsActions.DeleteChannel | actions/db/channels-actions.ts:142-154 | always succeeds; the channel and, by cascade, its membership rows go; a message stays exactly when it is outside the cascade from the channel's messages, and an attachment exactly when its message stays; direct messages, chats, users, workspaces, workspace memberships and presence stay |
| ChannelsActions.DeletedChannelInvisible | actions/db/channels-actions.ts:65-154 | after deletion no user's channel list contains the channel |
| WorkspacesActions.WorkspaceMemberRows | actions/db/workspaces-actions.ts:25-30 | one membership row per listed id, in order |
| WorkspacesActions.CreateWorkspace | actions/db/workspaces-actions.ts:15-41 | success exactly when the id is free, the creator exists and the member rows can be inserted under the unique index, adding the workspace and its rows; a failed member insert leaves the workspace stored |
| WorkspacesActions.CreateWorkspaceKeepsMembershipUnique | db/schema/workspaces-schema.ts:45-53 | creating a workspace never stores a membership pair twice |
| WorkspacesActions.GetWorkspace | actions/db/workspaces-actions.ts:43-62 | fails with "Workspace not found" exactly when no workspace has the id; otherwise a stored workspace with that id |
| WorkspacesActions.FindWorkspace | actions/db/workspaces-actions.ts:47-52 | the first workspace with the id, or "Workspace not found" when there is none |
| WorkspacesActions.RowsOf | actions/db/workspaces-actions.ts:72-75 | a workspace has no membership row exactly when no row names it |
| WorkspacesActions.JoinCopies | actions/db/workspaces-actions.ts:69-84 | the joined query yields some row for a workspace exactly when it is public or the user is a member |
| WorkspacesActions.UserWorkspaceRows | actions/db/workspaces-actions.ts:69-84 | the joined rows hold exactly the workspaces visible to the user |
| WorkspacesActions.GetUserWorkspaces | actions/db/workspaces-actions.ts:64-94 | succeeds and returns a workspace exactly when it is stored and public or the user is a member |
| WorkspacesActions.PublicWorkspaceRepeatsPerMember | actions/db/workspaces-actions.ts:69-84 | because the join ignores the user, a public workspace with two members comes back twice |
| WorkspacesActions.JoinWorkspace | actions/db/workspaces-actions.ts:96-135 | an existing pair is answered unchanged; otherwise the pair is added, or the join fails without change exactly when the workspace or the user is missing |
| WorkspacesActions.JoinWorkspaceIdempotent | actions/db/workspaces-actions.ts:96-135 | joining a second time answers the same and changes nothing |
| WorkspacesActions.JoinWorkspaceKeepsMembershipUnique | db/schema/workspaces-schema.ts:45-53 | joining never stores a pair twice, and a joined user sees the workspace |
| WorkspacesActions.WorkspacesExcept | actions/db/workspaces-actions.ts:141-143 | exactly the workspaces with another id |
| WorkspacesActions.MembersExcept | db/schema/workspaces-schema.ts:33-35 | exactly the membership rows of other workspaces, as the cascade leaves them |
| WorkspacesActions.DeleteWorkspace | actions/db/workspaces-actions.ts:137-152 | always succeeds; the workspace and its memberships go, and no other table changes |
| WorkspacesActions.DeletedWorkspaceInvisible | actions/db/workspaces-actions.ts:64-152 | after deletion no user's workspace list holds the workspace, and every other workspace is listed for exactly the users who saw it before |
| WorkspacesActions.SearchableRows | actions/db/workspaces-actions.ts:159-162 | exactly the workspaces that are public or created by the user |
| WorkspacesActions.Searchable | actions/db/workspaces-actions.ts:159-162 | anyone finds a public workspace; only its creator finds a private one |
| WorkspacesActions.ByName | actions/db/workspaces-actions.ts:163 | an empty name sorts first, equal names are in order either way, and of any two names one sorts before the other |
| WorkspacesActions.ByNameIsTotalPreorder | actions/db/workspaces-actions.ts:163 | ordering by name is a total preorder |
| WorkspacesActions.SearchableVia | db/db.ts:26-40 | through an unregistered key the query fails; through a registered one it answers the searchable workspaces, as a permutation of the matching rows, sorted by name |
| WorkspacesActions.GetSearchableWorkspacesAsWritten | actions/db/workspaces-actions.ts:154-175 | as written the action always fails |
| WorkspacesActions.GetSearchableWorkspaces | actions/db/workspaces-actions.ts:154-175 | as intended it succeeds with exactly the public workspaces and the user's own, sorted by name |
| WorkspacesActions.SearchableAsWrittenMissesPublicWorkspace | actions/db/workspaces-actions.ts:158 | with a public workspace stored, the action as written fails where the intended query lists it |
| UsersActions.ReplaceUser | actions/db/users-actions.ts:15-24 | the rows with the id become the new row; the others are untouched |
| UsersActions.CreateUser | actions/db/users-actions.ts:8-35 | always succeeds with the supplied id, names, email and image; a new user is appended with the default status, no custom status and created now; an existing user keeps status, custom status and creation time, and `updatedAt` becomes now |
| UsersActions.FindOnlyUser | db/schema/users-schema.ts:10 | with ids unique, the lookup answers the user's only row |
| UsersActions.CreateUserKeepsUniqueIds | actions/db/users-actions.ts:8-35 | the upsert keeps ids unique, and reading the id back answers the upserted row |
| UsersActions.CreateUserIdempotent | actions/db/users-actions.ts:8-35 | the same upsert a second time answers the same and changes nothing |
| UsersActions.GetUser | actions/db/users-actions.ts:37-54 | fails with "User not found" exactly when no user has the id; otherwise a stored user with that id |
| UsersActions.PatchedUser | actions/db/users-actions.ts:61-64 | the supplied columns are set, `updatedAt` becomes now, and every other column and the id are kept |
| UsersActions.UpdateUser | actions/db/users-actions.ts:56-75 | fails with "Failed to update user" and no change exactly when the patch sets no column; otherwise succeeds, every row with the id is patched and no other row changes, and the answer is the patched first row, absent exactly when no row has the id |
| UsersActions.UpdateThenGetUser | actions/db/users-actions.ts:37-75 | after an update ids stay unique; reading the user back answers the patched row, or the unchanged row when the patch set nothing |
| UsersActions.UsersExcept | actions/db/users-actions.ts:79 | exactly the users with another id |
| UsersActions.PresenceExcept | db/schema/presence-schema.ts:10-13 | exactly the presence rows of other users, as the cascade leaves them |
| UsersActions.DeleteUser | actions/db/users-actions.ts:77-89 | fails without change exactly when another row still references the user; otherwise the user and its presence row go and nothing else changes |
| UsersActions.MatchingUsers | actions/db/users-actions.ts:97-103 | exactly the users other than the caller whose user name or full name contains the query, ignoring case |
| UsersActions.SearchUsers | actions/db/users-actions.ts:91-114 | always succeeds with exactly the other users whose user name or full name contains the query, ignoring case |
| UsersActions.SearchUsersFacts | actions/db/users-actions.ts:97-103 | the result does not depend on the query's case, and the empty query finds every other user |
| UsersActions.SameMatches | actions/db/users-actions.ts:97-103 | two queries matching the same users give the same answer |
| UsersActions.UsersWithIds | actions/db/users-actions.ts:120-122 | exactly the users whose id is listed |
| UsersActions.GetUsersByIds | actions/db/users-actions.ts:116-133 | always succeeds with exactly the stored users whose id is listed |
| PresenceActions.FindPresence | actions/db/presence-actions.ts:14-16 | a row of the user when there is one, none exactly when the user has no row |
| PresenceActions.Patched | actions/db/presence-actions.ts:40-43 | the supplied columns override, the others and the user are kept |
| PresenceActions.UpdateWhereUser | actions/db/presence-actions.ts:38-45 | the user's rows become the new row; the others are untouched |
| PresenceActions.UpsertPresence | actions/db/presence-actions.ts:8-56 | the first write inserts an "online" row last seen now, the supplied columns overriding, and fails without change for an unknown user; a later write updates only the supplied columns and stamps `updatedAt` with now |
| PresenceActions.UpsertPresenceKeepsOneRowPerUser | db/schema/presence-schema.ts:10-13 | the upsert never makes a second row for a user and keeps every other user's row |
| PresenceActions.GetPresence | actions/db/presence-actions.ts:58-75 | always succeeds; no data exactly when the user has no row, otherwise a stored row of the user |
| PresenceActions.UpsertThenGetPresence | actions/db/presence-actions.ts:8-75 | after a successful upsert, reading the user's presence answers the upserted row |
| PresenceActions.OnlyRowOfUser | db/schema/presence-schema.ts:10-13 | with one row per user, the lookup answers that row |
| PresenceActions.RowsOfUsers | actions/db/presence-actions.ts:81-83 | exactly the rows whose user is listed |
| PresenceActions.GetPresences | actions/db/presence-actions.ts:77-94 | always succeeds with exactly the stored rows whose user is listed |
| ClerkWebhook.OrEmpty | app/api/webhooks/clerk/route.ts:64 | a truthy string itself, otherwise the empty string |
| ClerkWebhook.FullName | app/api/webhooks/clerk/route.ts:64-81 | the trimmed "first last", or the email when that is empty; never empty when the email is not |
| ClerkWebhook.FullNameCases | app/api/webhooks/clerk/route.ts:64-81 | with both names present and unpadded the full name is "first last"; with neither it is the email |
| ClerkWebhook.DisplayUsername | app/api/webhooks/clerk/route.ts:72 | the username when truthy, else the email before its first "@", else the id; never empty when the id is not |
| ClerkWebhook.DisplayUsernameFromAddress | app/api/webhooks/clerk/route.ts:72 | without a username, "local@domain" gives the local part, or the id when the local part is empty |
| ClerkWebhook.HandleWebhook | app/api/webhooks/clerk/route.ts:11-121 | missing headers or a failed signature answer 400 and change nothing; a user event without an email answers 400; any 400 changes nothing; other answers are 200, and an unhandled event type changes nothing |
| ClerkWebhook.UserEvent | app/api/webhooks/clerk/route.ts:52-107 | refused with 400 "No email found for user" and no change exactly when there is no email; otherwise answers 200 "User processed successfully"; only the users table changes |
| ClerkWebhook.UserUpdatedLeavesMessagesAsWritten | app/api/webhooks/clerk/route.ts:86-99 | as written, an update event leaves both message tables exactly as they were |
| ClerkWebhook.UserUpdatedShowsNewName | app/api/webhooks/clerk/route.ts:72-99 | an accepted update stores the user under the derived username and full name, and every message of the user that a channel or chat read answers carries the new name |
| ClerkWebhook.UserDeletedAnswersOk | app/api/webhooks/clerk/route.ts:109-118 | an accepted delete answers 200 whatever the action answered: an unreferenced user leaves with its presence row, a referenced one stays with the store unchanged |
| ClerkWebhook.UserUpdatedIdempotent | app/api/webhooks/clerk/route.ts:52-107 | replaying an update event changes nothing more |
| ChatMessageList.FeedIds | app/chat/_components/message-list.tsx:76-103 | only the hook of the view's kind gets a non-empty id, and that id is the view's truthy conversation id |
| ChatMessageList.ReplaceWhere | app/chat/_components/message-list.tsx:86-92 | every entry with the id is replaced and every other entry is kept, in place |
| ChatMessageList.HandleChange | app/chat/_components/message-list.tsx:78-99 | the callbacks with replies kept out: a conversion that throws leaves the list; an insert either leaves the list or appends the converted top-level record behind it, and it appends whenever the record converts and is top-level; an update keeps the length and every entry with another id; a delete keeps exactly the entries with another id |
| ChatMessageList.HandleFeeds | app/chat/_components/message-list.tsx:76-131 | a change reaches the list only through the hook of its kind: only a `messages` row of the open channel, or a `direct_messages` row of the open chat, changes it |
| ChatMessageList.HandleChangeAsWritten | app/chat/_components/message-list.tsx:76-131 | as written, updates and deletes act as in the corrected list; an insert appends the converted record whatever its parent |
| ChatMessageList.ChangeKeepsConversation | app/chat/_components/message-list.tsx:78-99 | a change of the conversation that does not turn a message into a reply keeps the list to the conversation's top-level messages |
| ChatMessageList.EventKeepsConversation | app/chat/_components/message-list.tsx:76-131 | every change the filtered feeds deliver keeps the corrected list to the conversation's top-level messages |
| ChatMessageList.ReplyJoinsListAsWritten | app/chat/_components/message-list.tsx:78-83 | a reply the feed delivers is appended as written, though it is not a top-level message; the corrected list keeps it out |
| ChatMessageList.LoadedEntries | app/chat/_components/message-list.tsx:141-150 | the snapshot rows, kept as returned and in order |
| ChatMessageList.LoadMessages | app/chat/_components/message-list.tsx:133-153 | with a truthy id for the view's kind a successful snapshot replaces the list; otherwise the list stays |
| ChatMessageList.LoadShowsConversation | app/chat/_components/message-list.tsx:133-153 | a snapshot from the store shows only the conversation's top-level messages |
| ChatMessageList.FindEntry | app/chat/_components/message-list.tsx:157 | a listed entry with the id, none exactly when no entry has it |
| ChatMessageList.ListedReacted | app/chat/_components/message-list.tsx:158-159 | reading an emoji off missing reactions throws; an emoji with no entry answers false; an array entry answers whether it holds the user's id; only a reactions object can answer true |
| ChatMessageList.EntryReacted | app/chat/_components/message-list.tsx:157-159 | a snapshot entry always answers, with whether the user is listed under the emoji; a feed entry answers true only when its reactions are an object |
| ChatMessageList.ReactionChoice | app/chat/_components/message-list.tsx:155-179 | no call when the message is not listed or reading its reactions throws; otherwise a removal exactly when the entry shows the user under the emoji |
| ChatMessageList.Strs | app/chat/_components/message-list.tsx:158 | each id as a string value, in order |
| ChatMessageList.LiveAndLoadedAgree | app/chat/_components/message-list.tsx:155-179 | a feed record and a snapshot row holding the same reactions lead to the same decision |
| ChatThreadPanel.HandleChange | app/chat/_components/thread-panel.tsx:49-67 | an insert is appended exactly when it passes the gate, behind the unchanged replies; an update keeps the length and puts the row in place of every reply with its id; a delete keeps exactly the replies with another id |
| ChatThreadPanel.FeedAsWritten | app/chat/_components/thread-panel.tsx:47-48 | the panel's feed as subscribed delivers nothing for an empty id, and only rows of the kind's table whose conversation column holds the parent's id |
| ChatThreadPanel.HandleFeedAsWritten | app/chat/_components/thread-panel.tsx:47-91 | as written, only a row whose conversation column holds the parent's id can change the replies, and by at most one entry |
| ChatThreadPanel.InsertNeverAppendedAsWritten | app/chat/_components/thread-panel.tsx:47-76 | as written, an insert whose row has no `parentId` field never reaches the replies |
| ChatThreadPanel.SampleReplyMissedAsWritten | app/chat/_components/thread-panel.tsx:47-53 | a reply to `m1` in channel `c1` is not delivered by the feed filtered on `channel_id=eq.m1`, and the replies stay as they were |
| ChatThreadPanel.ThreadFeed | app/chat/_components/thread-panel.tsx:47-91 | the corrected feed delivers only rows of the kind's table whose `parent_id` is the parent, keeping their id and parent, and delivers each of them as the conversation feed dispatches it |
| ChatThreadPanel.HandleFeed | app/chat/_components/thread-panel.tsx:47-91 | corrected, only a row of the kind's table whose `parent_id` is the parent's id can change the replies, and by at most one entry |
| ChatThreadPanel.ReplyAppendedIff | app/chat/_components/thread-panel.tsx:47-76 | an inserted row joins the corrected replies, as delivered, exactly when it is a reply to the parent |
| ChatThreadPanel.EventKeepsThread | app/chat/_components/thread-panel.tsx:47-91 | every change the corrected feed delivers keeps the panel to replies to the parent |
| ChatThreadPanel.LoadReplies | app/chat/_components/thread-panel.tsx:93-105 | a successful answer replaces the replies with its rows, whatever the parent id; a failed one keeps them |
| ChatThreadPanel.LoadShowsThread | app/chat/_components/thread-panel.tsx:93-105 | loading from the store shows only replies of the kind to the parent |
| ChatSidebar.ChannelFeed | app/chat/_components/sidebar.tsx:59-71 | a private channel's change is not delivered and leaves the list; a public one is reconciled exactly as the workspace sidebar reconciles its channels |
| ChatSidebar.ChannelFeedAddsOnlyPublic | app/chat/_components/sidebar.tsx:87-94 | the `type=eq.public` feed adds no channel but public ones |
| ChatSidebar.PrivateChannelOnlyOnReload | app/chat/_components/sidebar.tsx:87-117 | a private channel created with the user as member is not delivered live, yet the channel query lists it on the next load |
| ChatSidebar.ChatFeed | app/chat/_components/sidebar.tsx:73-85 | a change of a chat the user did not start is not delivered and leaves the list; one the user started is reconciled exactly as the workspace sidebar reconciles its chats |
| ChatSidebar.ChatFeedAddsOnlyOwnChats | app/chat/_components/sidebar.tsx:96-104 | the `user1_id` feed adds only chats the user started |
| ChatSidebar.ChatStartedByOtherMissedLive | app/chat/_components/sidebar.tsx:96-104 | a chat another user starts with this user is not delivered live, although the chat query lists it |
| ChatSidebar.LoadChannels | app/chat/_components/sidebar.tsx:111-117 | without a user nothing happens; a successful answer replaces the list; a failed one keeps it |
| ChatSidebar.LoadChannelsAgainstStore | app/chat/_components/sidebar.tsx:111-117 | loaded from the store, the list holds exactly the public channels and the user's own |
| ChatSidebar.ChatUsers | app/chat/_components/sidebar.tsx:124-133 | an entry exactly for each other participant whose lookup succeeded, holding a user that lookup answered |
| ChatSidebar.LoadDirectChats | app/chat/_components/sidebar.tsx:119-136 | without a user or on failure nothing changes; on success the chats replace the list and the users map is replaced, not merged, by the lookups' map |
| ChatSidebar.LoadDirectChatsAgainstStore | app/chat/_components/sidebar.tsx:119-136 | with lookups against the store, the users map holds exactly the existing other participants, each under its own id |
| ChatSidebar.LoadDirectChatsAsCalled | app/chat/_components/sidebar.tsx:119-121 | the chat request sent with no workspace id succeeds, and lists exactly the user's chats that carry no workspace id |
| ChatSidebar.CreateChannelRequestAsWritten | app/chat/_components/sidebar.tsx:138-149 | nothing for a blank name; otherwise the trimmed name, the chosen visibility, the user as creator and only member, and no workspace id |
| ChatSidebar.CreateChannelAlwaysFailsAsWritten | app/chat/_components/sidebar.tsx:138-155 | as written, every channel creation is refused with "workspaceId is required" and the store is unchanged |
| ChatSidebar.CreateChannelRequest | app/chat/_components/sidebar.tsx:138-149 | the same request carrying the workspace the channel belongs to |
| ChatSidebar.AfterCreateChannel | app/chat/_components/sidebar.tsx:150-154 | on success the box is cleared and the view opens the new channel; otherwise nothing changes |
| ChatSidebar.CreateChannelOpensChannel | app/chat/_components/sidebar.tsx:138-155 | with a workspace id, a fresh id and a known user, creation succeeds, the view opens the channel and its creator can see it |
| ChatSidebar.AfterCreateDirectChat | app/chat/_components/sidebar.tsx:172-180 | the view opens the chat exactly when the action succeeds |
| ChatSidebar.StartChatAsCalled | app/chat/_components/sidebar.tsx:172-180 | a chat started with no workspace id carries none and appears in the chats loaded the same way; the chats of every workspace are unchanged |
| ChatSidebar.AfterDeleteChannel | app/chat/_components/sidebar.tsx:182-193 | on failure nothing changes; on success exactly the other channels stay, and the view goes to the chat root exactly when it showed that channel |
| Routes.WorkspaceSegment | app/workspace/_components/workspaces-sidebar.tsx:69 | none exactly when the path has no `/workspace/` marker; otherwise a segment without a slash |
| Routes.NonEmpty | app/workspace/_components/top-search-bar.tsx:38-40 | the value when truthy, otherwise none |
| Routes.SegmentAt | app/workspace/_components/top-search-bar.tsx:38 | the segment after the first occurrence of a marker is what follows it up to the next slash |
| Routes.WorkspaceSegmentOfPath | app/workspace/_components/workspaces-sidebar.tsx:69 | every workspace path reads back its workspace id, whatever follows it |
| Routes.ChannelSegmentOfChannelPath | app/workspace/_components/top-search-bar.tsx:37-38 | a channel path reads back its channel id, unless the workspace id is itself `channel` |
| Routes.NoChannelInChatPath | app/workspace/_components/top-search-bar.tsx:37-40 | a direct-chat path has no `/channel/` marker, unless the workspace id is `channel` |
| Routes.ChatSegmentOfChatPath | app/workspace/_components/top-search-bar.tsx:39-40 | a direct-chat path reads back its chat id, unless the workspace id is `dm` |
| TopSearchBar.CurrentChannelId | app/workspace/_components/top-search-bar.tsx:37-38 | a non-empty slash-free segment only when the path holds `/channel/`, none otherwise |
| TopSearchBar.CurrentChatId | app/workspace/_components/top-search-bar.tsx:37-41 | none whenever the path holds `/channel/`; otherwise a non-empty segment only when it holds `/dm/` |
| TopSearchBar.EffectiveWorkspaceId | app/workspace/_components/top-search-bar.tsx:45-48 | the truthy prop, else the workspace segment of a path that has one, else the prop |
| TopSearchBar.ReadsChannelPath | app/workspace/_components/top-search-bar.tsx:34-48 | on a channel page the bar knows the channel and the workspace and no chat |
| TopSearchBar.ReadsChatPath | app/workspace/_components/top-search-bar.tsx:34-48 | on a direct-chat page the bar knows the chat and the workspace and no channel |
| TopSearchBar.SearchRequests | app/workspace/_components/top-search-bar.tsx:75-97 | no search for a blank query or without a workspace; otherwise the workspace-wide one first, and a channel-only second exactly when the path names a channel |
| TopSearchBar.HandleSearch | app/workspace/_components/top-search-bar.tsx:75-110 | cleared when nothing is searched; a failed workspace-wide search keeps the lists; otherwise the answers' lists, missing ones empty, the channel-only list empty unless a channel search succeeded |
| TopSearchBar.ChannelOnlyRepeatsWorkspaceResults | app/workspace/_components/top-search-bar.tsx:87-106 | since the search action drops the filters, the channel-only list repeats the workspace-wide channel results |
| TopSearchBar.ChannelPageSearchesChannel | app/workspace/_components/top-search-bar.tsx:75-97 | from a channel page a query asks for the workspace-wide and the channel's results |
| TopSearchBar.Shown | app/workspace/_components/top-search-bar.tsx:211 | a section shows the first five results, or all when there are fewer |
| TopSearchBar.EnterSearch | app/workspace/_components/top-search-bar.tsx:120-127 | Enter navigates exactly when a non-blank query and a workspace id exist, to that workspace's search page with the encoded query |
| TopSearchBar.EnterWhenSearching | app/workspace/_components/top-search-bar.tsx:75-127 | a live search runs exactly when Enter would navigate |
| WorkspacePicker.InitialSelection | app/workspace/_components/workspaces-sidebar.tsx:69-73 | the path's workspace when truthy, else the first user workspace with a non-empty id, else none; never an empty id |
| WorkspacePicker.SelectionOnPathChange | app/workspace/_components/workspaces-sidebar.tsx:81-85 | a truthy workspace in the new path becomes the selection; otherwise the selection stays |
| WorkspacePicker.WorkspacePageSelectsIt | app/workspace/_components/workspaces-sidebar.tsx:69-85 | on any page inside a workspace that workspace is selected, at first and after navigation |
| WorkspacePicker.IsUserWorkspace | app/workspace/_components/workspaces-sidebar.tsx:262-263 | true exactly when one of the user's workspaces has the id |
| WorkspacePicker.LoadSearchable | app/workspace/_components/workspaces-sidebar.tsx:94-101 | a successful answer replaces the list; a failed one keeps it |
| WorkspacePicker.FilterWorkspaces | app/workspace/_components/workspaces-sidebar.tsx:104-110 | everything for a blank query; otherwise exactly the workspaces whose lower-cased name contains the lower-cased query, in list order |
| WorkspacePicker.FilterNarrows | app/workspace/_components/workspace-search.tsx:39-45 | typing more only narrows the list |
| WorkspacePicker.SearchViewEmptyAsWritten | app/workspace/_components/workspaces-sidebar.tsx:94-110 | with the action as written the search view stays empty whatever the query |
| WorkspacePicker.SearchViewListsSearchable | app/workspace/_components/workspace-search.tsx:30-45 | with the intended action the view lists exactly the public and own workspaces whose name matches |
| WorkspacePicker.CreateWorkspaceRequest | app/workspace/_components/workspaces-sidebar.tsx:125-137 | nothing for a blank name; otherwise a public workspace with the trimmed, non-blank name and an empty description, the user as creator and only member |
| WorkspacePicker.AfterCreateWorkspace | app/workspace/_components/workspaces-sidebar.tsx:139-145 | on success the new workspace is selected and the box cleared; otherwise nothing changes |
| WorkspacePicker.CreateWorkspaceSelectsIt | app/workspace/_components/workspaces-sidebar.tsx:125-146 | creating through the store selects the workspace, and the user's workspaces include it |
| WorkspacePicker.AfterJoin | app/workspace/_components/workspaces-sidebar.tsx:148-156 | the view goes to the workspace exactly when joining succeeds |
| WorkspacePicker.JoinOpensWorkspace | app/workspace/_components/workspace-search.tsx:47-53 | joining a listed workspace through the store opens and selects it, and the user's workspaces then include it |
| PresenceView.Delivered | app/workspace/_components/presence-provider.tsx:42-55 | a row reaches the callback exactly when some user is listed and the change is on `presence`, and it is the event's new row |
| PresenceView.HandleEventAsWritten | app/workspace/_components/presence-provider.tsx:53-61 | no entry is lost; the map changes only for a `presence` change while some user is listed, and only by putting the delivered row under a listed user named by its `userId` field |
| PresenceView.EventIgnoredAsWritten | app/workspace/_components/presence-provider.tsx:53-61 | as written, a change whose row has no `userId` field leaves the map as it was |
| PresenceView.SampleRowMissedAsWritten | app/workspace/_components/presence-provider.tsx:53-61 | user `u1` coming online leaves the map unchanged as written, while the corrected callback shows the new row |
| PresenceView.HandleEvent | app/workspace/_components/presence-provider.tsx:53-61 | a row naming a listed user by `user_id` replaces that user's entry; every other entry stays and no other key appears |
| PresenceView.EventKeepsKeyed | app/workspace/_components/presence-provider.tsx:53-61 | every change keeps each entry under the listed user it describes |
| PresenceView.NoUsersNoChange | app/workspace/_components/presence-provider.tsx:41-86 | with no users listed neither a change nor a load alters the map |
| PresenceView.ByUser | app/workspace/_components/presence-provider.tsx:80-83 | an entry exactly for each user with a row, holding one of that user's rows, the last row winning |
| PresenceView.LoadInitial | app/workspace/_components/presence-provider.tsx:75-86 | nothing for an empty list or a failed answer; otherwise the map is replaced by one keyed by exactly the answer's users |
| PresenceView.LoadAgainstStore | app/workspace/_components/presence-provider.tsx:75-86 | loading from the store maps exactly the listed users who have a row, each to that row, so the map is keyed |
| Routes.WorkspaceOfChildPaths | app/workspace/_components/top-search-bar.tsx:45-48 | channel and direct-chat paths read back the workspace id they were built from |
| WorkspacePicker.CreatorListed | actions/db/workspaces-actions.ts:14-40 | a workspace created with its creator as the only member succeeds under the given id and name and is listed among the creator's workspaces |

## Left out

- Rendering is not modelled: the JSX, styling, dialogs, popovers, the emoji picker, scrolling and timers. The top bar clearing its query on a path change (app/workspace/_components/top-search-bar.tsx:61-69) is view state with no rule behind it.
- Navigation is modelled only as the path a handler would push. `router.refresh` is left out, and so are the auth-gated pages and layouts, because they are routing only.
- `handleStatusChange` (app/workspace/_components/workspaces-sidebar.tsx:112-117) is not modelled on its own. It is one status update plus a refresh, which `UsersActions.UpdateUser` covers.
- The realtime transport is not modelled: channel creation, `subscribe` and `removeChannel`. Events reach the handlers as values.
- `useRealtimeTable` is not part of this model, because no file defines it. The workspace views and both sidebars subscribe through it. The model assumes it delivers typed camel-case rows of its table, filtered by its one `column=eq.value` filter, to the insert, update and delete callbacks. The members below rest on that assumption. If the hook delivered raw snake-case rows, as the hooks of lib/hooks/use-realtime.ts do, their results would not hold as stated.
- WorkspaceMessageList.FeedSubscription: assumes `useRealtimeTable` filters by the one column it is given.
- WorkspaceMessageList.HandleInsert: assumes `useRealtimeTable` hands over a typed row whose `parentId` is set.
- WorkspaceMessageList.EventKeepsConversation: holds for events that `useRealtimeTable` is assumed to deliver.
- WorkspaceThreadPanel.ThreadSubscription: assumes `useRealtimeTable` filters by the one column it is given.
- WorkspaceThreadPanel.HandleReplyInsert: assumes `useRealtimeTable` hands over a typed row whose `parentId` is set.
- WorkspaceThreadPanel.EventKeepsThread: holds for events that `useRealtimeTable` is assumed to deliver.
- WorkspaceSidebar.FeedsKeepWorkspace: holds for events that `useRealtimeTable` is assumed to deliver.
- ChatSidebar.ChannelFeed: assumes `useRealtimeTable` delivers typed channel rows matching `type=eq.public`.
- ChatSidebar.ChannelFeedAddsOnlyPublic: holds for events that `useRealtimeTable` is assumed to deliver.
- ChatSidebar.ChatFeed: assumes `useRealtimeTable` delivers typed chat rows matching `user1_id=eq.<user>`.
- ChatSidebar.ChatFeedAddsOnlyOwnChats: holds for events that `useRealtimeTable` is assumed to deliver.
- ChatSidebar.ChatStartedByOtherMissedLive: follows from the `user1_id=eq.<user>` filter the sidebar passes, read under the assumption about `useRealtimeTable`.
- ChatSidebar.PrivateChannelOnlyOnReload: follows from the `type=eq.public` filter the sidebar passes, read under the assumption about `useRealtimeTable`.
- Text.LexLe: compares names by code point. `order by` compares text by the database's collation. The two agree under the C collation and need not agree under a linguistic one. The collation is not modelled.
- WorkspacesActions.GetSearchableWorkspaces: its `order by name` is modelled by `Text.LexLe`, so its order is the code-point order, not the database collation's.
- WorkspacesActions.ByNameIsTotalPreorder: proves the code-point order total. It says nothing about the database collation.
- The model's message rows leave out the `updated_at` column. The webhook's `.set` on the two messages tables writes only that column, so the model has it leave them unchanged.
- On a DELETE, the feed's `old` record is taken as the whole row. The backend's replica-identity setting, which decides how much of it arrives, is outside the source.
- Concurrency is not modelled. Each action is one atomic step on the store. The lost update between two concurrent reaction read-modify-writes, and feed events interleaved with snapshot loads, are left out.
- Dates are not modelled. Timestamps are naturals, used only for ordering and as "now" parameters. Parsing and formatting (`new Date(x + "Z")`, `format`) are left out.
- Blob storage, signed URLs, uploads and the message-input orchestration are left out. They are I/O wrappers. Attachments appear only as rows with their cascades and the view's cache check.
- Svix signature verification is a boolean parameter. Clerk's auth and profile calls are left out.
- The message search action (actions/search-actions.ts) is a parameter of the top bar. Its where clauses name tables that are never joined, so its answer cannot be pinned down. Only its signature, query and user, is used.
- actions/presence-actions.ts is not part of this model. It is a direct upsert and broadcast with no logic of its own.
- HTML sanitising and rich text are left out, because they delegate to third-party libraries.
- `ilike` patterns are modelled as plain case-insensitive substring tests. `%` and `_` in a query are not treated as wildcards.
- Lower-casing covers ASCII letters only. `trim` knows the ASCII white space, the line terminators, the no-break space and the byte-order mark, and not the other Unicode space separators.
- An `imageUrl` that is `undefined` is not told apart from one that is `null`. Both are `None`.
- JavaScript truthiness leaves out `NaN`. Property names that collide with `Object.prototype` members, and array indices used as keys, are not modelled.
- A feed callback that would throw is modelled as leaving the view's state as it was, the effect React's error path has on that state. The same holds for a conversion that throws, such as `replace` on a non-string date.
- The chat thread panel is modelled for a parent whose kind is known. A parent without a `type` field is not modelled.
- `encodeURIComponent` is a parameter of `TopSearchBar.EnterSearch`.
- The actions read and write a `workspaceId` on channels and direct chats that the table declarations lack. The model takes the actions' field set.
- The chat sidebar calls the direct-chat actions with no workspace id, so the argument is `undefined` (app/chat/_components/sidebar.tsx:121 and :173). The source does not settle what the database does with that bound value. The model stands the empty id (`ChatSidebar.NoWorkspace`) in for it. ChatSidebar.LoadDirectChatsAsCalled and ChatSidebar.StartChatAsCalled state what follows under that stand-in.
- Primary and foreign keys are enforced only where an action's outcome depends on them. These are user, workspace and presence ids; message parents, for the reply counter; and the workspace of a join. Other foreign keys are assumed to hold.
- Ids are strings, and the uuid type of the key, channel, chat, workspace and parent columns is not modelled. Every id an action binds to one of those columns is assumed to be a well-formed uuid. A malformed one, such as a route segment `abc`, makes Postgres reject the query (error 22P02). The action's catch then answers its "Failed to …" message. The model instead answers as for a well-formed id that matches no row. Inserts that check a referenced row agree either way, because a malformed id matches no stored row and the model's insert fails with the same message. The `workspaceId` of channels and direct chats is outside this, because the table declarations give that column no type. The members below differ for a malformed id.
- ChannelsActions.GetChannel: answers "Channel not found" for a malformed id, where the source answers "Failed to get channel".
- ChannelsActions.RemoveChannelMember: succeeds for a malformed channel id, where the source answers "Failed to remove channel member".
- ChannelsActions.DeleteChannel: succeeds for a malformed id, where the source answers "Failed to delete channel".
- WorkspacesActions.GetWorkspace: answers "Workspace not found" for a malformed id, where the source answers "Failed to get workspace".
- WorkspacesActions.DeleteWorkspace: succeeds for a malformed id, where the source answers "Failed to delete workspace".
- MessagesActions.GetChannelMessages: answers an empty list for a malformed channel id, where the source answers "Failed to get channel messages".
- MessagesActions.GetThreadMessages: answers an empty list for a malformed parent id, where the source answers "Failed to get thread messages".
- MessagesActions.AddReaction: answers "Message not found" for a malformed id, where the source answers "Failed to add reaction".
- MessagesActions.RemoveReaction: answers "Message not found" for a malformed id, where the source answers "Failed to remove reaction".
- MessagesActions.DeleteMessage: succeeds for a malformed id, where the source answers "Failed to delete message".
- DirectMessagesActions.GetDirectChatMessages: answers an empty list for a malformed chat id, where the source answers "Failed to get direct chat messages".
- DirectMessagesActions.GetDirectThreadMessages: answers an empty list for a malformed parent id, where the source answers "Failed to get thread messages".
- DirectMessagesActions.AddDirectMessageReaction: answers "Direct message not found" for a malformed id, where the source answers "Failed to add reaction".
- DirectMessagesActions.RemoveDirectMessageReaction: answers "Direct message not found" for a malformed id, where the source answers "Failed to remove reaction".
- DirectMessagesActions.DeleteDirectMessage: succeeds for a malformed id, where the source answers "Failed to delete direct message".
- Queries without an `order by` are modelled as returning rows in table order. The database promises no order for them. The members below build such results, and their order holds only under that reading.
- ChannelsActions.UserChannelRows: its order is table order, which the query does not promise.
- WorkspacesActions.UserWorkspaceRows: its order is table order, which the query does not promise.
- DirectMessagesActions.ChatsOf: its order is table order, which the query does not promise.
- PresenceActions.RowsOfUsers: its order is table order, which the query does not promise.
- UsersActions.UsersWithIds: its order is table order, which the query does not promise.
- UsersActions.MatchingUsers: its order is table order, which the query does not promise.
- WorkspacePicker.InitialSelection: the workspace it picks first depends on the order of `getUserWorkspacesAction`'s rows, which the database does not fix.
- PresenceView.ByUser: when two rows name the same user, the one that wins depends on the order of `getPresencesAction`'s rows, which the database does not fix.

## Findings

| source | as written | input that shows it | evidently intended | confidence | as-written member | corrected member |
|---|---|---|---|---|---|---|
| actions/db/workspaces-actions.ts:158 | the query reads `db.query.workspacesTable`, a key the database object does not register (its schema keys are `workspaces`, `channels` and so on), so the call throws and the action always answers failure | any store holding a public workspace, for any user | list the public workspaces and the user's own, ordered by name | not executed | WorkspacesActions.SearchableAsWrittenMissesPublicWorkspace | WorkspacesActions.GetSearchableWorkspaces |
| app/workspace/_components/workspace-search.tsx:30-37 | the search page and the rail's search view load through that action, so their list never fills | any store and query | show the searchable workspaces whose name matches | not executed | WorkspacePicker.SearchViewEmptyAsWritten | WorkspacePicker.SearchViewListsSearchable |
| app/chat/_components/thread-panel.tsx:47-76 | the reply feeds filter on `channel_id=eq.<parent id>` (or `chat_id`) and gate on a camel-case `parentId`, which feed rows do not carry, so no reply is appended | reply `r1` to message `m1` in channel `c1` | append a delivered row whose `parent_id` is the parent's id | not executed | ChatThreadPanel.SampleReplyMissedAsWritten | ChatThreadPanel.ReplyAppendedIff |
| app/chat/_components/message-list.tsx:78-83 | the insert callback appends every converted row, thread replies included, so a live reply joins the top-level list | a delivered row with a non-null `parent_id` in the open channel | append only top-level rows, as the snapshot holds only those | not executed | ChatMessageList.ReplyJoinsListAsWritten | ChatMessageList.EventKeepsConversation |
| app/chat/_components/sidebar.tsx:138-155 | `createChannelAction` is called without a `workspaceId`, which the action refuses | any non-blank channel name | create the channel in the current workspace | not executed | ChatSidebar.CreateChannelAlwaysFailsAsWritten | ChatSidebar.CreateChannelOpensChannel |
| app/workspace/_components/presence-provider.tsx:53-61 | the callback reads `row.userId`, but feed rows carry `user_id`, so no presence change reaches the map | user `u1` comes online with row `{user_id: "u1", status: "online"}` | replace the entry of the listed user the row names | not executed | PresenceView.SampleRowMissedAsWritten | PresenceView.EventKeepsKeyed |
| app/api/webhooks/clerk/route.ts:86-99 | on `user.updated` the handler runs `.set({ username })` on messages and `.set({ senderUsername })` on direct messages, but neither table declares such a column, so only `updated_at` is written and no message changes | a `user.updated` event that renames a user who has messages | the user's messages show the new name; the reads already give this, because they join `users.username` | not executed | ClerkWebhook.UserUpdatedLeavesMessagesAsWritten | ClerkWebhook.UserUpdatedShowsNewName |

=== FILE: channels_actions.dfy ===
/** The channel server actions: creation with its initial members, lookup, the visibility
    query, membership changes and deletion with its cascades. */
module ChannelsActions {
  import opened Wrappers
  import opened Schema
  import Sequences
  import opened MessageStore
  import Text

  /** The columns a caller supplies when creating a channel; `workspaceId` may be missing. */
  datatype ChannelDraft = ChannelDraft(
    name: string, description: Option<string>, kind: Visibility, creatorId: Id, workspaceId: Option<Id>)

  predicate ChannelIdTaken(s: Store, id: Id) {
    exists i :: 0 <= i < |s.channels| && s.channels[i].id == id
  }

  /** One membership row per listed member id, in order, duplicates included. */
  function MemberRows(channelId: Id, members: seq<Id>): (r: seq<ChannelMember>)
    ensures |r| == |members|
    ensures forall i :: 0 <= i < |members| ==> r[i] == ChannelMember(channelId, members[i])
  {
    seq(|members|, i requires 0 <= i < |members| => ChannelMember(channelId, members[i]))
  }

  /** A multi-row insert is one statement: it needs at least one row, and every row's
      `user_id` must reference a user. */
  predicate MembersInsertable(s: Store, members: seq<Id>) {
    |members| > 0 && forall i :: 0 <= i < |members| ==> FindUser(s.users, members[i]).Some?
  }

  /** `createChannelAction`: refuse a falsy workspace id; insert the channel; then insert the
      member rows. The two inserts are separate statements, so a failing member insert
      leaves the channel in place. */
  function CreateChannel(s: Store, d: ChannelDraft, members: seq<Id>, id: Id): (r: (ActionState<Channel>, Store))
    ensures !Text.Truthy(d.workspaceId) ==> r == (Failure("workspaceId is required"), s)
    ensures r.0.Success? <==> (Text.Truthy(d.workspaceId) && !ChannelIdTaken(s, id) &&
                               FindUser(s.users, d.creatorId).Some? && MembersInsertable(s, members))
    ensures r.0.Success? ==>
              && r.0 == Success("Channel created successfully",
                                Channel(id, d.workspaceId.value, d.name, d.description, d.kind, d.creatorId))
              && r.1 == s.(channels := s.channels + [r.0.data],
                           channelMembers := s.channelMembers + MemberRows(id, members))
    ensures r.0.Failure? && Text.Truthy(d.workspaceId) ==>
              && r.0.message == "Failed to create channel"
              && r.1.channelMembers == s.channelMembers
              && (r.1 == s || r.1.channels == s.channels + [Channel(id, d.workspaceId.value, d.name, d.description, d.kind, d.creatorId)])
  {
    if !Text.Truthy(d.workspaceId) then (Failure("workspaceId is required"), s)
    else if ChannelIdTaken(s, id) || FindUser(s.users, d.creatorId).None? then (Failure("Failed to create channel"), s)
    else
      var c := Channel(id, d.workspaceId.value, d.name, d.description, d.kind, d.creatorId);
      var s1 := s.(channels := s.channels + [c]);
      if MembersInsertable(s1, members) then
        (Success("Channel created successfully", c), s1.(channelMembers := s1.channelMembers + MemberRows(id, members)))
      else (Failure("Failed to create channel"), s1)
  }

  /** `getChannelAction`: the first channel with that id. */
  function GetChannel(s: Store, id: Id): (r: ActionState<Channel>)
    ensures r.Failure? <==> !ChannelIdTaken(s, id)
    ensures r.Failure? ==> r.message == "Channel not found"
    ensures r.Success? ==> r.message == "Channel retrieved successfully" && r.data in s.channels && r.data.id == id
  {
    FindChannel(s.channels, id)
  }

  function FindChannel(channels: seq<Channel>, id: Id): (r: ActionState<Channel>)
    ensures r.Failure? <==> forall i :: 0 <= i < |channels| ==> channels[i].id != id
    ensures r.Failure? ==> r.message == "Channel not found"
    ensures r.Success? ==> r.message == "Channel retrieved successfully" && r.data in channels && r.data.id == id
  {
    match Sequences.First(channels, (c: Channel) => c.id == id)
    case None =>
      assert forall i :: 0 <= i < |channels| ==> channels[i] in channels;
      Failure("Channel not found")
    case Some(c) => Success("Channel retrieved successfully", c)
  }

  /** The channel is public, or the user has a membership row for it. */
  predicate VisibleTo(c: Channel, members: seq<ChannelMember>, userId: Id) {
    c.kind == Public || ChannelMember(c.id, userId) in members
  }

  /** How many rows the left join with the user's membership rows, filtered by
      "public or member", produces for one channel: one per matching membership row, or a
      single null-extended row when there is none, which survives only if public. */
  function JoinCopies(c: Channel, members: seq<ChannelMember>, userId: Id): (n: nat)
    ensures n > 0 <==> VisibleTo(c, members, userId)
  {
    var k := multiset(members)[ChannelMember(c.id, userId)];
    if k > 0 then k else if c.kind == Public then 1 else 0
  }

  /** The rows of the joined query, channel by channel in table order. */
  function UserChannelRows(channels: seq<Channel>, members: seq<ChannelMember>, userId: Id): (r: seq<Channel>)
    ensures forall c :: c in r <==> c in channels && VisibleTo(c, members, userId)
  {
    if |channels| == 0 then []
    else
      assert forall c :: c in channels <==> c == channels[0] || c in channels[1..];
      Sequences.Repeat(channels[0], JoinCopies(channels[0], members, userId)) + UserChannelRows(channels[1..], members, userId)
  }

  /** `getUserChannelsAction`: a channel is returned iff it is public or the user is a member. */
  function GetUserChannels(s: Store, userId: Id): (r: ActionState<seq<Channel>>)
    ensures r.Success? && r.message == "Channels retrieved successfully"
    ensures forall c :: c in r.data <==> c in s.channels && (c.kind == Public || ChannelMember(c.id, userId) in s.channelMembers)
  {
    Success("Channels retrieved successfully", UserChannelRows(s.channels, s.channelMembers, userId))
  }

  /** Membership rows are not unique, so a repeated membership repeats the channel. */
  lemma RepeatedMembershipRepeatsChannel(c: Channel, userId: Id)
    requires c.kind == Private
    ensures var m := ChannelMember(c.id, userId);
            UserChannelRows([c], [m, m], userId) == [c, c]
  {
    var m := ChannelMember(c.id, userId);
    assert multiset([m, m])[m] == 2;
    assert UserChannelRows([c][1..], [m, m], userId) == [];
  }

  /** `addChannelMemberAction`: one insert; the channel and the user must exist. */
  function AddChannelMember(s: Store, channelId: Id, userId: Id): (r: (ActionState<ChannelMember>, Store))
    ensures r.0.Success? <==> ChannelIdTaken(s, channelId) && FindUser(s.users, userId).Some?
    ensures r.0.Success? ==> r == (Success("Member added successfully", ChannelMember(channelId, userId)),
                                   s.(channelMembers := s.channelMembers + [ChannelMember(channelId, userId)]))
    ensures r.0.Failure? ==> r == (Failure("Failed to add channel member"), s)
  {
    if ChannelIdTaken(s, channelId) && FindUser(s.users, userId).Some? then
      var m := ChannelMember(channelId, userId);
      (Success("Member added successfully", m), s.(channelMembers := s.channelMembers + [m]))
    else (Failure("Failed to add channel member"), s)
  }

  /** The membership rows that do not match both the channel and the user. */
  function WithoutMember(members: seq<ChannelMember>, channelId: Id, userId: Id): (r: seq<ChannelMember>)
    ensures |r| <= |members|
    ensures forall m :: m in r <==> m in members && m != ChannelMember(channelId, userId)
  {
    Sequences.Filter(members, (m: ChannelMember) => m != ChannelMember(channelId, userId))
  }

  /** `removeChannelMemberAction`: deletes exactly the rows matching both ids. */
  function RemoveChannelMember(s: Store, channelId: Id, userId: Id): (r: (ActionState<()>, Store))
    ensures r.0 == Success("Member removed successfully", ())
    ensures forall m :: m in r.1.channelMembers <==>
              m in s.channelMembers && !(m.channelId == channelId && m.userId == userId)
    ensures r.1 == s.(channelMembers := r.1.channelMembers)
  {
    (Success("Member removed successfully", ()), s.(channelMembers := WithoutMember(s.channelMembers, channelId, userId)))
  }

  /** After being added, the user sees the channel. */
  lemma AddedMemberSeesChannel(s: Store, c: Channel, userId: Id)
    requires c in s.channels
    requires AddChannelMember(s, c.id, userId).0.Success?
    ensures c in GetUserChannels(AddChannelMember(s, c.id, userId).1, userId).data
  {
    assert ChannelMember(c.id, userId) in AddChannelMember(s, c.id, userId).1.channelMembers;
  }

  /** After being removed, the user sees the channel iff it is public. */
  lemma RemovedMemberSeesOnlyPublic(s: Store, c: Channel, userId: Id)
    requires c in s.channels
    ensures c in GetUserChannels(RemoveChannelMember(s, c.id, userId).1, userId).data <==> c.kind == Public
  { }

  /** Every listed member of a newly created channel sees it. */
  lemma CreatedChannelVisibleToMembers(s: Store, d: ChannelDraft, members: seq<Id>, id: Id, i: nat)
    requires CreateChannel(s, d, members, id).0.Success?
    requires i < |members|
    ensures var (r, s1) := CreateChannel(s, d, members, id);
            r.data in GetUserChannels(s1, members[i]).data
  {
    var (r, s1) := CreateChannel(s, d, members, id);
    assert MemberRows(id, members)[i] == ChannelMember(id, members[i]);
    assert ChannelMember(id, members[i]) in s1.channelMembers;
    assert r.data in s1.channels;
  }

  function ChannelsExcept(channels: seq<Channel>, id: Id): (r: seq<Channel>)
    ensures forall c :: c in r <==> c in channels && c.id != id
  {
    Sequences.Filter(channels, (c: Channel) => c.id != id)
  }

  function MembersExcept(members: seq<ChannelMember>, channelId: Id): (r: seq<ChannelMember>)
    ensures forall m :: m in r <==> m in members && m.channelId != channelId
  {
    Sequences.Filter(members, (m: ChannelMember) => m.channelId != channelId)
  }

  /** `deleteChannelAction`: removes the channel and, by cascade, its membership rows, its
      messages with their replies, and their attachments. */
  function DeleteChannel(s: Store, id: Id): (r: (ActionState<()>, Store))
    ensures r.0 == Success("Channel deleted successfully", ())
    ensures forall c :: c in r.1.channels <==> c in s.channels && c.id != id
    ensures forall m :: m in r.1.channelMembers <==> m in s.channelMembers && m.channelId != id
    ensures forall m :: m in r.1.messages ==> m in s.messages && ConversationId(m) != id
    ensures forall m :: m in r.1.messages <==> m in s.messages && m.id !in ConversationDead(s.messages, id)
    ensures forall a :: a in r.1.attachments <==>
              a in s.attachments && !(a.messageId.Some? && a.messageId.value in ConversationDead(s.messages, id))
    ensures r.1.directMessages == s.directMessages && r.1.users == s.users && r.1.workspaces == s.workspaces
    ensures r.1.workspaceMembers == s.workspaceMembers && r.1.directChats == s.directChats && r.1.presence == s.presence
  {
    var s1 := DeleteConversationMessages(s, ChannelKind, id);
    (Success("Channel deleted successfully", ()),
     s1.(channels := ChannelsExcept(s.channels, id), channelMembers := MembersExcept(s.channelMembers, id)))
  }

  /** A deleted channel is no longer visible to anyone. */
  lemma DeletedChannelInvisible(s: Store, id: Id, userId: Id)
    ensures forall c :: c in GetUserChannels(DeleteChannel(s, id).1, userId).data ==> c.id != id
  { }
}

=== FILE: chat_message_list.dfy ===
/** The chat route's message list. Unlike the workspace views it keeps the rows the feeds
    deliver as plain objects: a listed entry is either a typed row from the snapshot or a
    converted feed record. Server responses are parameters; the lemmas tie them to the
    actions over a store. */
module ChatMessageList {
  import opened Wrappers
  import opened Schema
  import opened Records
  import opened Reconcile
  import Realtime
  import Reactions
  import Text
  import MessageTable
  import MessagesActions
  import DirectMessagesActions
  import Sequences

  /** A listed message: a snapshot row, or a record the feed delivered, converted. */
  datatype Entry = Loaded(m: Message) | Live(r: Record)

  /** `msg.id`. */
  function EntryId(e: Entry): Value {
    match e
    case Loaded(m) => Str(m.id)
    case Live(r) => Get(r, "id")
  }

  /** The column a row names its conversation by, and the field it becomes once converted. */
  function ConversationColumn(kind: MessageKind): string {
    match kind
    case ChannelKind => "channel_id"
    case DirectKind => "chat_id"
  }

  function ConversationField(kind: MessageKind): string {
    match kind
    case ChannelKind => "channelId"
    case DirectKind => "chatId"
  }

  /** The ids the two hooks get: `type === "channel" ? channelId || "" : ""`, and the same
      for direct chats. The hook of the other kind is given the empty id and subscribes to
      nothing. */
  function FeedIds(kind: MessageKind, channelId: Option<Id>, chatId: Option<Id>): (ids: (string, string))
    ensures kind == ChannelKind ==> ids.1 == [] && (ids.0 != [] <==> Text.Truthy(channelId))
    ensures kind == DirectKind ==> ids.0 == [] && (ids.1 != [] <==> Text.Truthy(chatId))
    ensures ids.0 != [] ==> channelId == Some(ids.0)
    ensures ids.1 != [] ==> chatId == Some(ids.1)
  {
    match kind
    case ChannelKind => (if channelId.Some? then channelId.value else [], [])
    case DirectKind => ([], if chatId.Some? then chatId.value else [])
  }

  /** `prev.map(msg => msg.id === id ? entry : msg)`. */
  function ReplaceWhere(list: seq<Entry>, id: Value, entry: Entry): (r: seq<Entry>)
    ensures |r| == |list|
    ensures forall i :: 0 <= i < |list| ==> r[i] == if EntryId(list[i]) == id then entry else list[i]
  {
    Sequences.ReplaceWhere(list, (e: Entry) => EntryId(e) == id, entry)
  }

  /** One callback, as the list applies it, with replies kept out of the list: an insert
      appends the converted record unless it is a reply, an update replaces every entry
      with the delivered id by the converted record, a delete drops them. A conversion that
      throws leaves the list as it was. */
  function HandleChange(list: seq<Entry>, ev: ChangeEvent<Record>): (r: seq<Entry>)
    ensures !ev.Deleted? && CamelCased(ev.row).None? ==> r == list
    ensures ev.Inserted? && r != list ==>
              CamelCased(ev.row).Some? && !Truthy(Get(CamelCased(ev.row).value, "parentId")) &&
              |r| == |list| + 1 && r[..|list|] == list && r[|list|] == Live(CamelCased(ev.row).value)
    ensures ev.Inserted? && CamelCased(ev.row).Some? && !Truthy(Get(CamelCased(ev.row).value, "parentId")) ==> |r| == |list| + 1
    ensures ev.Updated? ==> |r| == |list| && forall i :: 0 <= i < |list| && EntryId(list[i]) != Get(ev.row, "id") ==> r[i] == list[i]
    ensures ev.Deleted? ==> (forall i :: 0 <= i < |r| ==> r[i] in list && EntryId(r[i]) != Get(ev.row, "id"))
                            && (forall i :: 0 <= i < |list| && EntryId(list[i]) != Get(ev.row, "id") ==> list[i] in r)
  {
    match ev
    case Inserted(row) =>
      (match CamelCased(row)
       case None => list
       case Some(t) => if Truthy(Get(t, "parentId")) then list else list + [Live(t)])
    case Updated(row) =>
      (match CamelCased(row)
       case None => list
       case Some(t) => ReplaceWhere(list, Get(row, "id"), Live(t)))
    case Deleted(row) => RemoveById(list, Get(row, "id"), EntryId)
  }

  /** The insert callback as the file has it: every converted record is appended, a reply
      included. */
  function HandleChangeAsWritten(list: seq<Entry>, ev: ChangeEvent<Record>): (r: seq<Entry>)
    ensures !ev.Inserted? ==> r == HandleChange(list, ev)
  {
    match ev
    case Inserted(row) =>
      (match CamelCased(row)
       case None => list
       case Some(t) => list + [Live(t)])
    case _ => HandleChange(list, ev)
  }

  /** Both hooks' callbacks for one delivered change; each acts only for its own kind. */
  function HandleFeeds(list: seq<Entry>, kind: MessageKind, channelId: Option<Id>, chatId: Option<Id>,
                       table: string, p: Realtime.Payload): (r: seq<Entry>)
    ensures r != list && kind == ChannelKind ==>
              table == "messages" && channelId.Some? && Get(Realtime.EventRow(p), "channel_id") == Str(channelId.value)
    ensures r != list && kind == DirectKind ==>
              table == "direct_messages" && chatId.Some? && Get(Realtime.EventRow(p), "chat_id") == Str(chatId.value)
  {
    var ids := FeedIds(kind, channelId, chatId);
    var c := Realtime.MessagesFeed(ids.0, table, p);
    var d := Realtime.DirectMessagesFeed(ids.1, table, p);
    var l1 := if c.Some? && kind == ChannelKind then HandleChange(list, c.value) else list;
    if d.Some? && kind == DirectKind then HandleChange(l1, d.value) else l1
  }

  /** The record the list converts: normalized on the channel feed, as received on the
      direct one. */
  function FeedRow(kind: MessageKind, p: Realtime.Payload): Record {
    match kind
    case ChannelKind => Realtime.Normalize(Realtime.EventRow(p))
    case DirectKind => Realtime.EventRow(p)
  }

  // ---------------------------------------------------------------------------
  // What the list shows
  // ---------------------------------------------------------------------------

  /** A top-level message of conversation `c`, in either representation. */
  predicate TopLevelOf(e: Entry, kind: MessageKind, c: Id) {
    match e
    case Loaded(m) => KindOf(m) == kind && ConversationId(m) == c && !Text.Truthy(m.parentId)
    case Live(r) => Get(r, ConversationField(kind)) == Str(c) && !Truthy(Get(r, "parentId"))
  }

  ghost predicate ShowsConversation(list: seq<Entry>, kind: MessageKind, c: Id) {
    forall e :: e in list ==> TopLevelOf(e, kind, c)
  }

  /** One change keeps the list to the conversation's top-level messages when the converted
      record belongs to the conversation and an update does not turn a message into a reply. */
  lemma ChangeKeepsConversation(list: seq<Entry>, kind: MessageKind, c: Id, ev: ChangeEvent<Record>)
    requires ShowsConversation(list, kind, c)
    requires !ev.Deleted? && CamelCased(ev.row).Some? ==> Get(CamelCased(ev.row).value, ConversationField(kind)) == Str(c)
    requires ev.Updated? && CamelCased(ev.row).Some? ==> !Truthy(Get(CamelCased(ev.row).value, "parentId"))
    ensures ShowsConversation(HandleChange(list, ev), kind, c)
  {
    var r := HandleChange(list, ev);
    forall e | e in r ensures TopLevelOf(e, kind, c) {
      var i :| 0 <= i < |r| && r[i] == e;
      match ev
      case Inserted(row) =>
        if i < |list| {
          assert e == list[i];
        }
      case Updated(row) =>
        if CamelCased(row).Some? && EntryId(list[i]) != Get(row, "id") {
          assert e == list[i];
        }
      case Deleted(row) =>
    }
  }

  /** Changes the feeds deliver keep the list to the conversation's top-level messages: the
      filter admits only the conversation's rows, whose conversation column survives the
      conversion, and replies are not appended. */
  lemma EventKeepsConversation(list: seq<Entry>, kind: MessageKind, c: Id, table: string, p: Realtime.Payload)
    requires ShowsConversation(list, kind, c)
    requires SoleCamelSource(Realtime.EventRow(p), ConversationColumn(kind))
    requires p.eventType == "UPDATE" && CamelCased(FeedRow(kind, p)).Some? ==>
               !Truthy(Get(CamelCased(FeedRow(kind, p)).value, "parentId"))
    ensures ShowsConversation(HandleFeeds(list, kind, Some(c), Some(c), table, p), kind, c)
  {
    var ids := FeedIds(kind, Some(c), Some(c));
    var ev := match kind
              case ChannelKind => Realtime.MessagesFeed(ids.0, table, p)
              case DirectKind => Realtime.DirectMessagesFeed(ids.1, table, p);
    if ev.Some? {
      assert Get(Realtime.EventRow(p), ConversationColumn(kind)) == Str(c);
      assert ev.value.row == FeedRow(kind, p);
      FeedRowKeepsConversation(kind, c, p);
      ChangeKeepsConversation(list, kind, c, ev.value);
    }
  }

  /** A row of the conversation, whose conversation column is the only source of its field,
      still names the conversation once converted. */
  lemma FeedRowKeepsConversation(kind: MessageKind, c: Id, p: Realtime.Payload)
    requires SoleCamelSource(Realtime.EventRow(p), ConversationColumn(kind))
    requires Get(Realtime.EventRow(p), ConversationColumn(kind)) == Str(c)
    ensures CamelCased(FeedRow(kind, p)).Some? ==> Get(CamelCased(FeedRow(kind, p)).value, ConversationField(kind)) == Str(c)
  {
    var raw := Realtime.EventRow(p);
    var column := ConversationColumn(kind);
    if kind == ChannelKind { ChannelIdColumn(); } else { ChatIdColumn(); }
    AliasKeys();
    var row := FeedRow(kind, p);
    if kind == ChannelKind {
      Realtime.NormalizeKeepsSoleSource(raw, column);
    }
    if CamelCased(row).Some? {
      CamelCasedGet(row, column);
    }
  }

  /** As written, every insert the feed delivers for the conversation joins the main list.
      When the row is a reply, whose `parent_id` is the only field naming `parentId`, the
      appended entry carries the reply's parent, which the snapshot never lists; the
      corrected callback leaves the list as it was. */
  lemma ReplyJoinsListAsWritten(list: seq<Entry>, kind: MessageKind, c: Id, table: string, p: Realtime.Payload)
    requires p.eventType == "INSERT"
    requires c != [] && table == (if kind == ChannelKind then "messages" else "direct_messages")
    requires Get(p.newRecord, ConversationColumn(kind)) == Str(c)
    requires !Throws(p.newRecord)
    ensures CamelCased(FeedRow(kind, p)).Some?
    ensures var ev := Inserted(FeedRow(kind, p));
            var t := CamelCased(FeedRow(kind, p)).value;
            && (kind == ChannelKind ==> Realtime.MessagesFeed(c, table, p) == Some(ev))
            && (kind == DirectKind ==> Realtime.DirectMessagesFeed(c, table, p) == Some(ev))
            && HandleChangeAsWritten(list, ev) == list + [Live(t)]
            && (SoleCamelSource(p.newRecord, "parent_id") && Truthy(Get(p.newRecord, "parent_id")) ==>
                  !TopLevelOf(Live(t), kind, c) && HandleChange(list, ev) == list)
  {
    var raw := p.newRecord;
    var row := FeedRow(kind, p);
    if kind == ChannelKind {
      Realtime.NormalizeKeepsThrows(raw);
    }
    CamelCasedKeys(row);
    ReplyKeepsParent(kind, p);
  }

  /** A reply's converted record keeps its parent under `parentId`. */
  lemma ReplyKeepsParent(kind: MessageKind, p: Realtime.Payload)
    requires p.eventType == "INSERT" && !Throws(p.newRecord)
    ensures SoleCamelSource(p.newRecord, "parent_id") && Truthy(Get(p.newRecord, "parent_id")) ==>
              CamelCased(FeedRow(kind, p)).Some? && Truthy(Get(CamelCased(FeedRow(kind, p)).value, "parentId"))
  {
    var raw := p.newRecord;
    if SoleCamelSource(raw, "parent_id") && Truthy(Get(raw, "parent_id")) {
      if kind == ChannelKind {
        ParentIdColumn();
        AliasKeys();
        Realtime.NormalizeKeepsThrows(raw);
        Realtime.NormalizeKeepsSoleSource(raw, "parent_id");
      }
      RowKeepsParent(FeedRow(kind, p));
    }
  }

  /** A row that converts and whose only `parentId` source is a truthy `parent_id` keeps a
      truthy `parentId` once camel-cased. */
  lemma RowKeepsParent(row: Record)
    requires !Throws(row) && SoleCamelSource(row, "parent_id") && Truthy(Get(row, "parent_id"))
    ensures CamelCased(row).Some? && Truthy(Get(CamelCased(row).value, "parentId"))
  {
    ParentIdColumn();
    CamelCasedKeys(row);
    CamelCasedGet(row, "parent_id");
  }

  // ---------------------------------------------------------------------------
  // Snapshot
  // ---------------------------------------------------------------------------

  function LoadedEntries(ms: seq<Message>): (r: seq<Entry>)
    ensures |r| == |ms| && forall i :: 0 <= i < |ms| ==> r[i] == Loaded(ms[i])
  {
    seq(|ms|, i requires 0 <= i < |ms| => Loaded(ms[i]))
  }

  /** `loadMessages`: the snapshot of the view's conversation replaces the list when the id
      for its type is truthy and the action succeeds; the rows are kept as returned. */
  function LoadMessages(kind: MessageKind, channelId: Option<Id>, chatId: Option<Id>, current: seq<Entry>,
                        response: ActionState<seq<Message>>): (r: seq<Entry>)
    ensures var id := if kind == ChannelKind then channelId else chatId;
            && (Text.Truthy(id) && response.Success? ==> r == LoadedEntries(response.data))
            && (!Text.Truthy(id) || response.Failure? ==> r == current)
  {
    var id := if kind == ChannelKind then channelId else chatId;
    if Text.Truthy(id) && response.Success? then LoadedEntries(response.data) else current
  }

  /** The snapshot action of a kind. */
  function Snapshot(s: Store, kind: MessageKind, c: Id): ActionState<seq<Message>> {
    match kind
    case ChannelKind => MessagesActions.GetChannelMessages(s, c)
    case DirectKind => DirectMessagesActions.GetDirectChatMessages(s, c)
  }

  /** A snapshot from the store shows only the conversation's top-level messages. */
  lemma LoadShowsConversation(s: Store, kind: MessageKind, c: Id, current: seq<Entry>)
    requires c != []
    requires forall m :: m in MessagesOf(s, kind) ==> KindOf(m) == kind
    ensures ShowsConversation(LoadMessages(kind, Some(c), Some(c), current, Snapshot(s, kind, c)), kind, c)
  {
    var data := Snapshot(s, kind, c).data;
    var list := LoadMessages(kind, Some(c), Some(c), current, Snapshot(s, kind, c));
    forall e | e in list ensures TopLevelOf(e, kind, c) {
      var i :| 0 <= i < |list| && list[i] == e;
      var x := data[i];
      assert x in data;
      var m :| m in MessagesOf(s, kind) && MessageTable.JoinAuthor(s.users, m) == Some(x);
    }
  }

  // ---------------------------------------------------------------------------
  // Reactions
  // ---------------------------------------------------------------------------

  /** `reactions[emoji]?.includes(userId)` on a plain object's `reactions` value, read
      without a fallback: `None` where it throws (no reactions object, or an entry without
      `includes`). A text entry is searched as text. */
  function ListedReacted(reactions: Value, emoji: string, userId: Id): (r: Option<bool>)
    ensures reactions.Undefined? || reactions.Null? ==> r.None?
    ensures reactions.Object? && (Get(reactions.fields, emoji).Undefined? || Get(reactions.fields, emoji).Null?) ==> r == Some(false)
    ensures reactions.Object? && Get(reactions.fields, emoji).Array? ==> r == Some(Str(userId) in Get(reactions.fields, emoji).items)
    ensures r == Some(true) ==> reactions.Object?
  {
    match reactions
    case Undefined => None
    case Null => None
    case Object(fs) =>
      (match Get(fs, emoji)
       case Undefined => Some(false)
       case Null => Some(false)
       case Array(items) => Some(Str(userId) in items)
       case Str(s) => Some(Text.Includes(s, userId))
       case _ => None)
    case _ => Some(false)
  }

  /** Whether the user already reacted, as the entry shows it. */
  function EntryReacted(e: Entry, emoji: string, userId: Id): (r: Option<bool>)
    ensures e.Loaded? ==> r.Some? && (r.value <==> emoji in e.m.reactions && userId in e.m.reactions[emoji])
    ensures e.Live? && r == Some(true) ==> Get(e.r, "reactions").Object?
    ensures e.Live? && !Truthy(Get(e.r, "reactions")) ==> r != Some(true)
  {
    match e
    case Loaded(m) => Some(Reactions.HasReacted(m.reactions, emoji, userId))
    case Live(r) => ListedReacted(Get(r, "reactions"), emoji, userId)
  }

  /** `messages.find(m => m.id === id)`: the first entry with the id. */
  function FindEntry(list: seq<Entry>, id: Value): (r: Option<Entry>)
    ensures r.None? <==> forall e :: e in list ==> EntryId(e) != id
    ensures r.Some? ==> r.value in list && EntryId(r.value) == id
  {
    Sequences.First(list, (e: Entry) => EntryId(e) == id)
  }

  /** `handleReaction`'s decision: remove when the entry shows the user under the emoji, add
      otherwise; `None` when the message is not listed or reading its reactions throws. */
  function ReactionChoice(list: seq<Entry>, messageId: Id, userId: Id, emoji: string): (r: Option<Reactions.ReactionIntent>)
    ensures r.Some? <==> FindEntry(list, Str(messageId)).Some? && EntryReacted(FindEntry(list, Str(messageId)).value, emoji, userId).Some?
    ensures r.Some? ==> (r.value == Reactions.RemoveIntent <==> EntryReacted(FindEntry(list, Str(messageId)).value, emoji, userId) == Some(true))
  {
    match FindEntry(list, Str(messageId))
    case None => None
    case Some(e) =>
      match EntryReacted(e, emoji, userId)
      case None => None
      case Some(b) => Some(if b then Reactions.RemoveIntent else Reactions.AddIntent)
  }

  /** The user ids of a reactor list, as the JSON array holds them. */
  function Strs(ids: seq<string>): (r: seq<Value>)
    ensures |r| == |ids| && forall i :: 0 <= i < |ids| ==> r[i] == Str(ids[i])
  {
    seq(|ids|, i requires 0 <= i < |ids| => Str(ids[i]))
  }

  /** A plain object that holds exactly the reactions of a map, each as an array of ids. */
  ghost predicate EncodesReactions(v: Value, rm: Reactions.ReactionMap) {
    v.Object? && forall emoji :: Get(v.fields, emoji) == if emoji in rm then Array(Strs(rm[emoji])) else Undefined
  }

  /** A live record and a snapshot row that hold the same reactions lead to the same
      decision: the two representations agree. */
  lemma LiveAndLoadedAgree(m: Message, r: Record, emoji: string, userId: Id)
    requires EncodesReactions(Get(r, "reactions"), m.reactions)
    ensures EntryReacted(Live(r), emoji, userId) == EntryReacted(Loaded(m), emoji, userId)
  {
    if emoji in m.reactions {
      StrsHolds(m.reactions[emoji], userId);
    }
  }

  /** A user id is in the JSON array exactly when it is in the list. */
  lemma StrsHolds(ids: seq<string>, userId: Id)
    ensures Str(userId) in Strs(ids) <==> userId in ids
  {
    if Str(userId) in Strs(ids) {
      var i :| 0 <= i < |ids| && Strs(ids)[i] == Str(userId);
      assert ids[i] == userId;
    }
    if userId in ids {
      var i :| 0 <= i < |ids| && ids[i] == userId;
      assert Strs(ids)[i] == Str(userId);
    }
  }
}

=== FILE: chat_sidebar.dfy ===
/** The chat route's sidebar: the channels and direct chats on two filtered table feeds,
    the names of the other participants, and the create / delete / start-chat forms. This
    sidebar predates workspaces and sends no workspace id, which the channel action
    refuses. Server responses are parameters; the lemmas tie them to the actions over a
    store. */
module ChatSidebar {
  import opened Wrappers
  import opened Schema
  import opened Reconcile
  import Text
  import UserMap
  import ChannelsActions
  import DirectMessagesActions
  import UsersActions
  import WorkspaceSidebar

  /** The routes of the chat area. */
  const Home := "/chat"

  function ChannelPath(channelId: Id): string { Home + "/channel/" + channelId }

  function ChatPath(chatId: Id): string { Home + "/dm/" + chatId }

  // ---------------------------------------------------------------------------
  // The two feeds
  // ---------------------------------------------------------------------------

  /** The `channels` feed filtered on `type=eq.public`: a change of a private channel is
      not delivered; a delivered one is appended, replaced or removed by id. */
  function ChannelFeed(channels: seq<Channel>, ev: ChangeEvent<Channel>): (r: seq<Channel>)
    ensures ev.row.kind != Public ==> r == channels
    ensures ev.row.kind == Public ==> r == WorkspaceSidebar.ChannelEvent(channels, ev)
  {
    if ev.row.kind == Public then Apply(channels, ev, WorkspaceSidebar.ChannelIdOf) else channels
  }

  /** The feed adds nothing but public channels. */
  lemma ChannelFeedAddsOnlyPublic(channels: seq<Channel>, ev: ChangeEvent<Channel>)
    ensures forall c :: c in ChannelFeed(channels, ev) ==> c in channels || c.kind == Public
  {
    if ev.row.kind == Public {
      ApplyKeeps(channels, ev, WorkspaceSidebar.ChannelIdOf, (c: Channel) => c in channels || c.kind == Public);
    }
  }

  /** A private channel the user has just been made a member of does not appear live; the
      visibility query lists it once the channels are loaded again. */
  lemma PrivateChannelOnlyOnReload(s: Store, d: ChannelsActions.ChannelDraft, members: seq<Id>, id: Id,
                                   channels: seq<Channel>, i: nat)
    requires d.kind == Private && i < |members|
    requires ChannelsActions.CreateChannel(s, d, members, id).0.Success?
    ensures var (r, s1) := ChannelsActions.CreateChannel(s, d, members, id);
            && ChannelFeed(channels, Inserted(r.data)) == channels
            && r.data in ChannelsActions.GetUserChannels(s1, members[i]).data
  {
    ChannelsActions.CreatedChannelVisibleToMembers(s, d, members, id, i);
  }

  /** The `direct_chats` feed filtered on `user1_id=eq.<user>`. */
  function ChatFeed(chats: seq<DirectChat>, userId: Id, ev: ChangeEvent<DirectChat>): (r: seq<DirectChat>)
    ensures ev.row.user1Id != userId ==> r == chats
    ensures ev.row.user1Id == userId ==> r == WorkspaceSidebar.ChatEvent(chats, ev)
  {
    if ev.row.user1Id == userId then Apply(chats, ev, WorkspaceSidebar.ChatIdOf) else chats
  }

  /** The feed adds only chats the user started. */
  lemma ChatFeedAddsOnlyOwnChats(chats: seq<DirectChat>, userId: Id, ev: ChangeEvent<DirectChat>)
    ensures forall c :: c in ChatFeed(chats, userId, ev) ==> c in chats || c.user1Id == userId
  {
    if ev.row.user1Id == userId {
      ApplyKeeps(chats, ev, WorkspaceSidebar.ChatIdOf, (c: DirectChat) => c in chats || c.user1Id == userId);
    }
  }

  /** A chat another user starts with this user is not delivered, although the chat query
      lists it. */
  lemma ChatStartedByOtherMissedLive(s: Store, userId: Id, other: Id, ws: Id, id: Id, chats: seq<DirectChat>)
    requires other != userId
    requires DirectMessagesActions.FindChat(s.directChats, other, userId, ws).None?
    requires DirectMessagesActions.CanInsertChat(s, other, userId, id)
    ensures var (r, s1) := DirectMessagesActions.CreateDirectChat(s, other, userId, ws, id);
            && r.Success?
            && ChatFeed(chats, userId, Inserted(r.data)) == chats
            && r.data in DirectMessagesActions.GetUserDirectChats(s1, userId, ws).data
  {
  }

  // ---------------------------------------------------------------------------
  // Loading
  // ---------------------------------------------------------------------------

  /** `loadChannels`: nothing without a user; a successful answer replaces the list. */
  function LoadChannels(userId: Id, current: seq<Channel>, response: ActionState<seq<Channel>>): (r: seq<Channel>)
    ensures userId != [] && response.Success? ==> r == response.data
    ensures userId == [] || response.Failure? ==> r == current
  {
    if userId != [] && response.Success? then response.data else current
  }

  /** Loaded from the store, the sidebar lists every public channel and every channel the
      user is a member of, and nothing else. */
  lemma LoadChannelsAgainstStore(s: Store, userId: Id, current: seq<Channel>)
    requires userId != []
    ensures forall c :: c in LoadChannels(userId, current, ChannelsActions.GetUserChannels(s, userId)) <==>
              c in s.channels && (c.kind == Public || ChannelMember(c.id, userId) in s.channelMembers)
  {
  }

  /** The users map `loadDirectChats` builds: one entry per chat whose lookup succeeded,
      under the other participant's id; a later chat with the same participant wins. */
  function ChatUsers(chats: seq<DirectChat>, userId: Id, responses: seq<ActionState<User>>): (r: UserMap.UserCache)
    requires |responses| == |chats|
    ensures forall k :: k in r <==>
              exists i :: 0 <= i < |chats| && responses[i].Success? && WorkspaceSidebar.OtherUser(chats[i], userId) == k
    ensures forall k :: k in r ==>
              exists i :: 0 <= i < |chats| && responses[i].Success? && WorkspaceSidebar.OtherUser(chats[i], userId) == k &&
                          r[k] == responses[i].data
  {
    if |chats| == 0 then map[]
    else
      var n := |chats| - 1;
      var m := ChatUsers(chats[..n], userId, responses[..n]);
      assert forall i :: 0 <= i < n ==> chats[..n][i] == chats[i] && responses[..n][i] == responses[i];
      if responses[n].Success? then m[WorkspaceSidebar.OtherUser(chats[n], userId) := responses[n].data] else m
  }

  /** `loadDirectChats`: nothing without a user; on a successful answer the chats replace
      the list and the users map is replaced, not merged, by the one built from the lookups. */
  function LoadDirectChats(userId: Id, chats: seq<DirectChat>, chatUsers: UserMap.UserCache,
                           response: ActionState<seq<DirectChat>>, lookups: seq<ActionState<User>>): (r: (seq<DirectChat>, UserMap.UserCache))
    requires response.Success? ==> |lookups| == |response.data|
    ensures userId == [] || response.Failure? ==> r == (chats, chatUsers)
    ensures userId != [] && response.Success? ==> r == (response.data, ChatUsers(response.data, userId, lookups))
  {
    if userId != [] && response.Success? then (response.data, ChatUsers(response.data, userId, lookups))
    else (chats, chatUsers)
  }

  /** The workspace id this sidebar sends to the direct-chat actions: none. The source
      leaves the argument `undefined`; the model stands the empty id in for it. */
  const NoWorkspace: Id := []

  /** `loadDirectChats`' request as called, `getUserDirectChatsAction(userId)`: with the
      empty id standing in, the answer holds exactly the user's chats stored without a
      workspace, so no chat started from a workspace sidebar is listed. */
  lemma LoadDirectChatsAsCalled(s: Store, userId: Id)
    ensures var r := DirectMessagesActions.GetUserDirectChats(s, userId, NoWorkspace);
            && r.Success?
            && (forall c :: c in r.data <==>
                  c in s.directChats && c.workspaceId == NoWorkspace && (c.user1Id == userId || c.user2Id == userId))
            && (forall c :: c in s.directChats && c.workspaceId != NoWorkspace ==> c !in r.data)
  {
  }

  /** `getUserAction` for the other participant of each chat, in chat order. */
  function OtherUserLookups(s: Store, chats: seq<DirectChat>, userId: Id): (r: seq<ActionState<User>>)
    ensures |r| == |chats|
    ensures forall i :: 0 <= i < |chats| ==> r[i] == UsersActions.GetUser(s, WorkspaceSidebar.OtherUser(chats[i], userId))
  {
    seq(|chats|, i requires 0 <= i < |chats| => UsersActions.GetUser(s, WorkspaceSidebar.OtherUser(chats[i], userId)))
  }

  /** With `getUserAction` against the store, the users map holds exactly the other
      participants who exist, each under their own id; whatever was cached before and is no
      other participant is gone. */
  lemma LoadDirectChatsAgainstStore(s: Store, userId: Id, chats: seq<DirectChat>, chatUsers: UserMap.UserCache,
                                    response: ActionState<seq<DirectChat>>)
    requires userId != [] && response.Success?
    ensures var r := LoadDirectChats(userId, chats, chatUsers, response, OtherUserLookups(s, response.data, userId));
            && (forall k :: k in r.1 <==>
                  (exists c :: c in response.data && WorkspaceSidebar.OtherUser(c, userId) == k) &&
                  (exists u :: u in s.users && u.id == k))
            && (forall k :: k in r.1 ==> r.1[k] in s.users && r.1[k].id == k)
  {
    StoredParticipantsListed(s, response.data, userId);
  }

  /** Every other participant the store holds gets an entry. */
  lemma StoredParticipantsListed(s: Store, data: seq<DirectChat>, userId: Id)
    ensures forall k ::
              (exists c :: c in data && WorkspaceSidebar.OtherUser(c, userId) == k) && (exists u :: u in s.users && u.id == k)
              ==> k in ChatUsers(data, userId, OtherUserLookups(s, data, userId))
  {
    var lookups := OtherUserLookups(s, data, userId);
    forall k | (exists c :: c in data && WorkspaceSidebar.OtherUser(c, userId) == k) && (exists u :: u in s.users && u.id == k)
      ensures k in ChatUsers(data, userId, lookups)
    {
      var c :| c in data && WorkspaceSidebar.OtherUser(c, userId) == k;
      var i :| 0 <= i < |data| && data[i] == c;
      assert lookups[i].Success?;
    }
  }

  // ---------------------------------------------------------------------------
  // Forms
  // ---------------------------------------------------------------------------

  /** `handleCreateChannel` as written: the trimmed name, the chosen visibility and the user
      as creator and only member, but no workspace id. */
  function CreateChannelRequestAsWritten(userId: Id, name: string, kind: Visibility): (r: Option<(ChannelsActions.ChannelDraft, seq<Id>)>)
    ensures r.None? <==> Text.IsBlank(name)
    ensures r.Some? ==> r.value == (ChannelsActions.ChannelDraft(Text.Trim(name), None, kind, userId, None), [userId])
  {
    if Text.IsBlank(name) then None
    else Some((ChannelsActions.ChannelDraft(Text.Trim(name), None, kind, userId, None), [userId]))
  }

  /** As written, creating a channel from this sidebar never succeeds: the action refuses the
      missing workspace id and the store is left as it was. */
  lemma CreateChannelAlwaysFailsAsWritten(s: Store, userId: Id, name: string, kind: Visibility, id: Id)
    requires !Text.IsBlank(name)
    ensures var req := CreateChannelRequestAsWritten(userId, name, kind).value;
            ChannelsActions.CreateChannel(s, req.0, req.1, id) == (Failure("workspaceId is required"), s)
  {
  }

  /** The request with the workspace the channel belongs to, as the workspace sidebar sends it. */
  function CreateChannelRequest(workspaceId: Id, userId: Id, name: string, kind: Visibility): (r: Option<(ChannelsActions.ChannelDraft, seq<Id>)>)
    ensures r.None? <==> Text.IsBlank(name)
    ensures r.Some? ==> r.value.0 == CreateChannelRequestAsWritten(userId, name, kind).value.0.(workspaceId := Some(workspaceId))
    ensures r.Some? ==> r.value.1 == [userId]
  {
    WorkspaceSidebar.CreateChannelRequest(workspaceId, userId, name, kind)
  }

  /** Where the form goes after the action answers: to the new channel on success. */
  function AfterCreateChannel(name: string, response: ActionState<Channel>): (r: (string, Option<string>))
    ensures response.Success? ==> r == ([], Some(ChannelPath(response.data.id)))
    ensures response.Failure? ==> r == (name, None)
  {
    if response.Success? then ([], Some(ChannelPath(response.data.id))) else (name, None)
  }

  /** With a workspace id the request succeeds for a fresh id and a known user, the box is
      cleared and the view opens the new channel, which its creator can see. */
  lemma CreateChannelOpensChannel(s: Store, workspaceId: Id, userId: Id, name: string, kind: Visibility, id: Id)
    requires workspaceId != [] && !Text.IsBlank(name)
    requires !ChannelsActions.ChannelIdTaken(s, id) && FindUser(s.users, userId).Some?
    ensures var req := CreateChannelRequest(workspaceId, userId, name, kind).value;
            var r := ChannelsActions.CreateChannel(s, req.0, req.1, id);
            && r.0.Success? && r.0.data.name == Text.Trim(name)
            && AfterCreateChannel(name, r.0) == ([], Some(ChannelPath(id)))
            && ChannelsActions.VisibleTo(r.0.data, r.1.channelMembers, userId)
  {
    assert ChannelsActions.MembersInsertable(s, [userId]);
    WorkspaceSidebar.CreatedChannelInSidebar(s, workspaceId, userId, name, kind, id);
  }

  /** `handleCreateDirectMessage`: on success, go to the chat; otherwise stay. */
  function AfterCreateDirectChat(response: ActionState<DirectChat>): (r: Option<string>)
    ensures response.Success? <==> r.Some?
    ensures response.Success? ==> r.value == ChatPath(response.data.id)
  {
    if response.Success? then Some(ChatPath(response.data.id)) else None
  }

  /** `handleCreateDirectMessage`'s request as called, `createDirectChatAction(userId,
      selectedUserId)`: with the empty id standing in, a chat found or created is one
      without a workspace, this sidebar's own load lists it, and no workspace's chat list
      gains anything. */
  lemma StartChatAsCalled(s: Store, userId: Id, other: Id, id: Id)
    ensures var (r, s1) := DirectMessagesActions.CreateDirectChat(s, userId, other, NoWorkspace, id);
            && (r.Success? ==> r.data.workspaceId == NoWorkspace &&
                                r.data in DirectMessagesActions.GetUserDirectChats(s1, userId, NoWorkspace).data)
            && (forall ws, c :: ws != NoWorkspace ==>
                  (c in DirectMessagesActions.GetUserDirectChats(s1, userId, ws).data <==>
                   c in DirectMessagesActions.GetUserDirectChats(s, userId, ws).data))
  {
  }

  /** `handleDeleteChannel`: as in the workspace sidebar, with the chat root as home. */
  function AfterDeleteChannel(channels: seq<Channel>, shown: Option<Id>, target: Id, response: ActionState<()>): (r: (seq<Channel>, Option<string>))
    ensures response.Success? ==> (forall c :: c in r.0 ==> c in channels && c.id != target)
    ensures response.Success? ==> (forall c :: c in channels && c.id != target ==> c in r.0)
    ensures response.Success? ==> (r.1 == Some(Home) <==> shown == Some(target))
    ensures response.Failure? ==> r == (channels, None)
  {
    var r := WorkspaceSidebar.AfterDeleteChannel(channels, Home, shown, target, response);
    if response.Success? then
      assert forall c :: c in r.0 ==> c in channels && c.id != target by {
        forall c | c in r.0 ensures c in channels && c.id != target {
          var i :| 0 <= i < |r.0| && r.0[i] == c;
        }
      }
      assert forall c :: c in channels && c.id != target ==> c in r.0 by {
        forall c | c in channels && c.id != target ensures c in r.0 {
          var i :| 0 <= i < |channels| && channels[i] == c;
        }
      }
      r
    else r
  }
}

=== FILE: chat_thread_panel.dfy ===
/** The chat route's thread panel: the replies to one parent message. Feed rows are kept
    as delivered (normalized on the channel feed) next to the typed rows of the snapshot.
    The panel as written listens on the conversation filter with the parent's id and gates
    inserts on a camel-cased field raw rows do not have; the corrected panel listens on
    `parent_id` and gates on it. */
module ChatThreadPanel {
  import opened Wrappers
  import opened Schema
  import opened Records
  import opened Reconcile
  import Realtime
  import WorkspaceThreadPanel
  import ChatMessageList
  import MessageTable

  type Entry = ChatMessageList.Entry

  function TableName(kind: MessageKind): string {
    match kind
    case ChannelKind => "messages"
    case DirectKind => "direct_messages"
  }

  /** A feed's callbacks applied to the replies: an insert that passes `gate` is appended as
      delivered, an update replaces every reply with its id, a delete drops them. */
  function HandleChange(replies: seq<Entry>, gate: Record -> bool, ev: ChangeEvent<Record>): (r: seq<Entry>)
    ensures ev.Inserted? && !gate(ev.row) ==> r == replies
    ensures ev.Inserted? && gate(ev.row) ==>
              |r| == |replies| + 1 && r[..|replies|] == replies && r[|replies|] == ChatMessageList.Live(ev.row)
    ensures ev.Updated? ==> |r| == |replies|
    ensures ev.Updated? ==> forall i :: 0 <= i < |replies| ==>
              r[i] == if ChatMessageList.EntryId(replies[i]) == Get(ev.row, "id") then ChatMessageList.Live(ev.row) else replies[i]
    ensures ev.Deleted? ==> (forall i :: 0 <= i < |r| ==> r[i] in replies && ChatMessageList.EntryId(r[i]) != Get(ev.row, "id"))
                            && (forall i :: 0 <= i < |replies| && ChatMessageList.EntryId(replies[i]) != Get(ev.row, "id") ==> replies[i] in r)
  {
    match ev
    case Inserted(row) => if gate(row) then replies + [ChatMessageList.Live(row)] else replies
    case Updated(row) => ChatMessageList.ReplaceWhere(replies, Get(row, "id"), ChatMessageList.Live(row))
    case Deleted(row) => RemoveById(replies, Get(row, "id"), ChatMessageList.EntryId)
  }

  // ---------------------------------------------------------------------------
  // As written
  // ---------------------------------------------------------------------------

  /** `newMessage.parentId === parentMessage.id`. */
  predicate CamelParentGate(pid: Id, row: Record) {
    Get(row, "parentId") == Str(pid)
  }

  /** The feed as the panel subscribes to it: the conversation feed of its kind, given the
      parent's id as the conversation id. */
  function FeedAsWritten(kind: MessageKind, pid: Id, table: string, p: Realtime.Payload): (e: Option<ChangeEvent<Record>>)
    ensures pid == [] ==> e.None?
    ensures e.Some? ==> table == TableName(kind) && Get(Realtime.EventRow(p), ChatMessageList.ConversationColumn(kind)) == Str(pid)
  {
    match kind
    case ChannelKind => Realtime.MessagesFeed(pid, table, p)
    case DirectKind => Realtime.DirectMessagesFeed(pid, table, p)
  }

  /** As written, only a row whose conversation column holds the parent's id can change the
      replies. */
  function HandleFeedAsWritten(replies: seq<Entry>, kind: MessageKind, pid: Id, table: string, p: Realtime.Payload): (r: seq<Entry>)
    ensures r != replies ==> table == TableName(kind) && Get(Realtime.EventRow(p), ChatMessageList.ConversationColumn(kind)) == Str(pid)
    ensures |r| <= |replies| + 1
  {
    match FeedAsWritten(kind, pid, table, p)
    case None => replies
    case Some(ev) => HandleChange(replies, (row: Record) => CamelParentGate(pid, row), ev)
  }

  /** As written, no insert ever reaches the panel: rows arrive with snake-case columns, and
      neither feed adds a `parentId` field, so the gate compares `undefined` with the id. */
  lemma InsertNeverAppendedAsWritten(replies: seq<Entry>, kind: MessageKind, pid: Id, table: string, p: Realtime.Payload)
    requires p.eventType == "INSERT"
    requires !HasKey(p.newRecord, "parentId")
    ensures HandleFeedAsWritten(replies, kind, pid, table, p) == replies
  {
    var ev := FeedAsWritten(kind, pid, table, p);
    if ev.Some? {
      assert ev.value.Inserted?;
      assert Get(ev.value.row, "parentId") == Get(p.newRecord, "parentId");
    }
  }

  /** A reply row as the database sends it. */
  const SampleReply: Record := [Field("id", Str("r1")), Field("channel_id", Str("c1")), Field("parent_id", Str("m1"))]

  /** A reply `r1` to message `m1` in channel `c1`: the feed filtered on `channel_id=eq.m1`
      does not deliver it, and the panel's replies stay as they were. */
  lemma SampleReplyMissedAsWritten(replies: seq<Entry>)
    ensures Get(SampleReply, "parent_id") == Str("m1")
    ensures Realtime.MessagesFeed("m1", "messages", Realtime.Payload("INSERT", SampleReply, [])).None?
    ensures HandleFeedAsWritten(replies, ChannelKind, "m1", "messages", Realtime.Payload("INSERT", SampleReply, [])) == replies
  {
    assert Get(SampleReply, "channel_id") == Str("c1");
  }

  // ---------------------------------------------------------------------------
  // Corrected
  // ---------------------------------------------------------------------------

  /** The thread's feed: the kind's table filtered on `parent_id`, normalized on the channel
      side as the conversation feed is; nothing for an empty parent id. */
  function ThreadFeed(kind: MessageKind, pid: Id, table: string, p: Realtime.Payload): (e: Option<ChangeEvent<Record>>)
    ensures e.Some? ==> pid != [] && table == TableName(kind) && Get(Realtime.EventRow(p), "parent_id") == Str(pid)
    ensures e.Some? ==> Get(e.value.row, "parent_id") == Get(Realtime.EventRow(p), "parent_id")
    ensures e.Some? ==> Get(e.value.row, "id") == Get(Realtime.EventRow(p), "id")
    ensures pid != [] && table == TableName(kind) && Get(Realtime.EventRow(p), "parent_id") == Str(pid) ==>
              e == Realtime.Dispatch(p, kind == ChannelKind)
  {
    var sub := if pid == [] then None else Some(Realtime.Subscription(TableName(kind), Some(("parent_id", pid))));
    assert "parent_id"[0] == 'p' && "createdAt"[0] == 'c' && "updatedAt"[0] == 'u';
    Realtime.DispatchKeepsColumn(p, kind == ChannelKind, "parent_id");
    Realtime.DispatchKeepsColumn(p, kind == ChannelKind, "id");
    Realtime.Feed(sub, table, p, kind == ChannelKind)
  }

  /** `newMessage.parent_id === parentMessage.id`. */
  predicate ParentGate(pid: Id, row: Record) {
    Get(row, "parent_id") == Str(pid)
  }

  /** Only a row of the kind's table whose `parent_id` is the parent's id can change the
      replies. */
  function HandleFeed(replies: seq<Entry>, kind: MessageKind, pid: Id, table: string, p: Realtime.Payload): (r: seq<Entry>)
    ensures r != replies ==> pid != [] && table == TableName(kind) && Get(Realtime.EventRow(p), "parent_id") == Str(pid)
    ensures |r| <= |replies| + 1
  {
    match ThreadFeed(kind, pid, table, p)
    case None => replies
    case Some(ev) => HandleChange(replies, (row: Record) => ParentGate(pid, row), ev)
  }

  /** An inserted row of the kind's table joins the replies exactly when it is a reply to
      the parent; it joins as delivered. */
  lemma ReplyAppendedIff(replies: seq<Entry>, kind: MessageKind, pid: Id, p: Realtime.Payload)
    requires pid != [] && p.eventType == "INSERT"
    ensures var row := if kind == ChannelKind then Realtime.Normalize(p.newRecord) else p.newRecord;
            && (Get(p.newRecord, "parent_id") == Str(pid) ==>
                  HandleFeed(replies, kind, pid, TableName(kind), p) == replies + [ChatMessageList.Live(row)])
            && (Get(p.newRecord, "parent_id") != Str(pid) ==>
                  HandleFeed(replies, kind, pid, TableName(kind), p) == replies)
  {
  }

  /** What the panel is meant to show: replies of one kind to `pid`, either representation. */
  predicate ReplyOf(e: Entry, kind: MessageKind, pid: Id) {
    match e
    case Loaded(m) => KindOf(m) == kind && m.parentId == Some(pid)
    case Live(r) => Get(r, "parent_id") == Str(pid)
  }

  ghost predicate ShowsThread(replies: seq<Entry>, kind: MessageKind, pid: Id) {
    forall e :: e in replies ==> ReplyOf(e, kind, pid)
  }

  /** Every change the corrected feed delivers keeps the panel to the thread. */
  lemma EventKeepsThread(replies: seq<Entry>, kind: MessageKind, pid: Id, table: string, p: Realtime.Payload)
    requires ShowsThread(replies, kind, pid)
    ensures ShowsThread(HandleFeed(replies, kind, pid, table, p), kind, pid)
  {
    var ev := ThreadFeed(kind, pid, table, p);
    if ev.Some? {
      GatedChangeKeepsThread(replies, kind, pid, ev.value);
    }
  }

  /** One gated change keeps the panel to the thread when an updated row is still a reply
      to the parent. */
  lemma GatedChangeKeepsThread(replies: seq<Entry>, kind: MessageKind, pid: Id, ev: ChangeEvent<Record>)
    requires ShowsThread(replies, kind, pid)
    requires ev.Updated? ==> Get(ev.row, "parent_id") == Str(pid)
    ensures ShowsThread(HandleChange(replies, (row: Record) => ParentGate(pid, row), ev), kind, pid)
  {
    var r := HandleChange(replies, (row: Record) => ParentGate(pid, row), ev);
    forall e | e in r ensures ReplyOf(e, kind, pid) {
      var i :| 0 <= i < |r| && r[i] == e;
      match ev
      case Inserted(row) =>
        if i < |replies| {
          assert e == replies[i];
        }
      case Updated(row) =>
        if ChatMessageList.EntryId(replies[i]) != Get(row, "id") {
          assert e == replies[i];
        }
      case Deleted(row) =>
    }
  }

  // ---------------------------------------------------------------------------
  // Snapshot
  // ---------------------------------------------------------------------------

  /** `loadReplies`, run for any parent id: a successful answer replaces the replies. */
  function LoadReplies(current: seq<Entry>, response: ActionState<seq<Message>>): (r: seq<Entry>)
    ensures response.Success? ==> r == ChatMessageList.LoadedEntries(response.data)
    ensures response.Failure? ==> r == current
  {
    if response.Success? then ChatMessageList.LoadedEntries(response.data) else current
  }

  /** Loading from the store shows the thread. */
  lemma LoadShowsThread(s: Store, kind: MessageKind, pid: Id, current: seq<Entry>)
    requires forall m :: m in MessagesOf(s, kind) ==> KindOf(m) == kind
    ensures ShowsThread(LoadReplies(current, WorkspaceThreadPanel.ThreadSnapshot(s, kind, pid)), kind, pid)
  {
    var data := WorkspaceThreadPanel.ThreadSnapshot(s, kind, pid).data;
    var list := LoadReplies(current, WorkspaceThreadPanel.ThreadSnapshot(s, kind, pid));
    forall e | e in list ensures ReplyOf(e, kind, pid) {
      var i :| 0 <= i < |list| && list[i] == e;
      var x := data[i];
      assert x in data;
      var m :| m in MessagesOf(s, kind) && MessageTable.JoinAuthor(s.users, m) == Some(x);
    }
  }
}

=== FILE: direct_messages_actions.dfy ===
/** The direct-chat and direct-message server actions. Direct chats are looked up as an
    unordered pair of users within one workspace; the table itself has no uniqueness
    constraint, so the lookup is what keeps pairs from repeating. */
module DirectMessagesActions {
  import opened Wrappers
  import opened Schema
  import opened MessageTable
  import opened MessageStore
  import Reactions
  import Sorting
  import Sequences

  /** The chat joins `u1` and `u2`, in either order, in workspace `ws`. */
  predicate JoinsPair(c: DirectChat, u1: Id, u2: Id, ws: Id) {
    c.workspaceId == ws && ((c.user1Id == u1 && c.user2Id == u2) || (c.user1Id == u2 && c.user2Id == u1))
  }

  /** The first chat of the pair (`findFirst`). */
  function FindChat(chats: seq<DirectChat>, u1: Id, u2: Id, ws: Id): (r: Option<DirectChat>)
    ensures r.Some? ==> r.value in chats && JoinsPair(r.value, u1, u2, ws)
    ensures r.None? <==> forall c :: c in chats ==> !JoinsPair(c, u1, u2, ws)
  {
    Sequences.First(chats, (c: DirectChat) => JoinsPair(c, u1, u2, ws))
  }

  /** `createDirectChatAction`: return the pair's existing chat if there is one; otherwise
      insert one chat. The insert fails on a key conflict or an unknown user. */
  function CreateDirectChat(s: Store, u1: Id, u2: Id, ws: Id, id: Id): (r: (ActionState<DirectChat>, Store))
    ensures FindChat(s.directChats, u1, u2, ws).Some? ==>
              r == (Success("Direct chat already exists for these users in this workspace",
                            FindChat(s.directChats, u1, u2, ws).value), s)
    ensures FindChat(s.directChats, u1, u2, ws).None? && r.0.Success? ==>
              && r.0 == Success("Direct chat created successfully", DirectChat(id, u1, u2, ws))
              && r.1 == s.(directChats := s.directChats + [DirectChat(id, u1, u2, ws)])
    ensures r.0.Failure? ==> r.0.message == "Failed to create direct chat" && r.1 == s
    ensures r.0.Failure? <==> FindChat(s.directChats, u1, u2, ws).None? && !CanInsertChat(s, u1, u2, id)
  {
    match FindChat(s.directChats, u1, u2, ws)
    case Some(c) => (Success("Direct chat already exists for these users in this workspace", c), s)
    case None =>
      if CanInsertChat(s, u1, u2, id) then
        var c := DirectChat(id, u1, u2, ws);
        (Success("Direct chat created successfully", c), s.(directChats := s.directChats + [c]))
      else (Failure("Failed to create direct chat"), s)
  }

  /** A fresh key and existing users (the `user1_id` / `user2_id` foreign keys). */
  predicate CanInsertChat(s: Store, u1: Id, u2: Id, id: Id) {
    && (forall i :: 0 <= i < |s.directChats| ==> s.directChats[i].id != id)
    && FindUser(s.users, u1).Some? && FindUser(s.users, u2).Some?
  }

  /** The lookup does not depend on the order of the two users. */
  lemma {:induction false} FindChatSymmetric(chats: seq<DirectChat>, u1: Id, u2: Id, ws: Id)
    ensures FindChat(chats, u1, u2, ws) == FindChat(chats, u2, u1, ws)
    decreases |chats|
  {
    if |chats| > 0 {
      FindChatSymmetric(chats[1..], u1, u2, ws);
    }
  }

  /** Once `createDirectChatAction` succeeds, asking again for the same pair, in either order
      and with any fresh id, returns that same chat and inserts nothing. */
  lemma CreateDirectChatIdempotent(s: Store, u1: Id, u2: Id, ws: Id, id: Id, id2: Id)
    requires CreateDirectChat(s, u1, u2, ws, id).0.Success?
    ensures var (r1, s1) := CreateDirectChat(s, u1, u2, ws, id);
            && CreateDirectChat(s1, u1, u2, ws, id2) ==
                 (Success("Direct chat already exists for these users in this workspace", r1.data), s1)
            && CreateDirectChat(s1, u2, u1, ws, id2) ==
                 (Success("Direct chat already exists for these users in this workspace", r1.data), s1)
  {
    var (r1, s1) := CreateDirectChat(s, u1, u2, ws, id);
    FindChatSymmetric(s1.directChats, u1, u2, ws);
    if FindChat(s.directChats, u1, u2, ws).None? {
      FindChatAppend(s.directChats, r1.data, u1, u2, ws);
    }
  }

  lemma {:induction false} FindChatAppend(chats: seq<DirectChat>, c: DirectChat, u1: Id, u2: Id, ws: Id)
    requires FindChat(chats, u1, u2, ws).None? && JoinsPair(c, u1, u2, ws)
    ensures FindChat(chats + [c], u1, u2, ws) == Some(c)
    decreases |chats|
  {
    if |chats| > 0 {
      assert (chats + [c])[1..] == chats[1..] + [c];
      assert forall x :: x in chats[1..] ==> x in chats;
      FindChatAppend(chats[1..], c, u1, u2, ws);
    }
  }

  /** No two chats join the same pair in the same workspace. */
  ghost predicate PairsUnique(chats: seq<DirectChat>) {
    forall i, j :: 0 <= i < j < |chats| ==>
      !JoinsPair(chats[j], chats[i].user1Id, chats[i].user2Id, chats[i].workspaceId)
  }

  /** Creating chats only through the action never duplicates a pair. */
  lemma CreateDirectChatKeepsPairsUnique(s: Store, u1: Id, u2: Id, ws: Id, id: Id)
    requires PairsUnique(s.directChats)
    ensures PairsUnique(CreateDirectChat(s, u1, u2, ws, id).1.directChats)
  {
    var chats := s.directChats;
    if FindChat(chats, u1, u2, ws).None? && CanInsertChat(s, u1, u2, id) {
      var c := DirectChat(id, u1, u2, ws);
      var t := chats + [c];
      forall i, j | 0 <= i < j < |t| ensures !JoinsPair(t[j], t[i].user1Id, t[i].user2Id, t[i].workspaceId) {
        if j == |chats| {
          assert t[i] in chats;
          assert !JoinsPair(t[i], u1, u2, ws);
        }
      }
    }
  }

  /** The chats of one workspace that `userId` is part of, in table order. */
  function ChatsOf(chats: seq<DirectChat>, userId: Id, ws: Id): (r: seq<DirectChat>)
    ensures |r| <= |chats|
    ensures forall c :: c in r <==> c in chats && c.workspaceId == ws && (c.user1Id == userId || c.user2Id == userId)
  {
    Sequences.Filter(chats, (c: DirectChat) => c.workspaceId == ws && (c.user1Id == userId || c.user2Id == userId))
  }

  /** `getUserDirectChatsAction`. */
  function GetUserDirectChats(s: Store, userId: Id, ws: Id): (r: ActionState<seq<DirectChat>>)
    ensures r.Success? && r.message == "Direct chats retrieved successfully"
    ensures forall c :: c in r.data <==>
              c in s.directChats && c.workspaceId == ws && (c.user1Id == userId || c.user2Id == userId)
  {
    Success("Direct chats retrieved successfully", ChatsOf(s.directChats, userId, ws))
  }

  /** `createDirectMessageAction`: a plain insert answering with the stored row, which has no
      sender name whatever the draft carried. */
  function CreateDirectMessage(s: Store, d: MessageDraft, id: Id, now: nat): (r: (ActionState<Message>, Store))
    ensures r.0.Success? <==> CanInsert(s, DirectKind, d, id)
    ensures r.0.Failure? ==> r.0.message == "Failed to create direct message" && r.1 == s
    ensures r.0.Success? ==> r.0.data == NewRow(DirectKind, d, id, now)
    ensures r.0.Success? ==> r.0.data.id == id && r.0.data.content == d.content && AuthorId(r.0.data) == d.authorId &&
                             r.0.data.reactions == map[] && r.0.data.replyCount == 0 && AuthorName(r.0.data).None?
    ensures r.0.Success? ==> r.1 == s.(directMessages := s.directMessages + [r.0.data])
  {
    match Insert(s, DirectKind, d, id, now)
    case None => (Failure("Failed to create direct message"), s)
    case Some(s1) => (Success("Direct message created successfully", NewRow(DirectKind, d, id, now)), s1)
  }

  /** `getDirectChatMessagesAction`: the chat's top-level messages joined with their senders,
      oldest first, at most `limit` (50 by default). */
  function GetDirectChatMessages(s: Store, chatId: Id, limit: nat := DefaultLimit): (r: ActionState<seq<Message>>)
    ensures r.Success? && r.message == "Direct messages retrieved successfully"
    ensures |r.data| <= limit
    ensures forall x :: x in r.data ==> ConversationId(x) == chatId && x.parentId.None?
    ensures forall x :: x in r.data ==> exists m :: m in s.directMessages && JoinAuthor(s.users, m) == Some(x)
    ensures Sorting.SortedBy(r.data, ByCreatedAt)
    ensures var all := Joined(s.directMessages, s.users, TopLevelOf(chatId));
            |all| <= limit ==> multiset(r.data) == multiset(all)
  {
    Success("Direct messages retrieved successfully", ConversationPage(s.directMessages, s.users, chatId, limit))
  }

  /** `getDirectThreadMessagesAction`: every reply to `parentId` whose sender exists, oldest first. */
  function GetDirectThreadMessages(s: Store, parentId: Id): (r: ActionState<seq<Message>>)
    ensures r.Success? && r.message == "Thread messages retrieved successfully"
    ensures forall x :: x in r.data ==> x.parentId == Some(parentId)
    ensures forall m :: m in s.directMessages && m.parentId == Some(parentId) && FindUser(s.users, AuthorId(m)).Some? ==>
              WithAuthorName(m, FindUser(s.users, AuthorId(m)).value.username) in r.data
    ensures forall x :: x in r.data ==> exists m :: m in s.directMessages && JoinAuthor(s.users, m) == Some(x)
    ensures Sorting.SortedBy(r.data, ByCreatedAt)
  {
    Success("Thread messages retrieved successfully", ThreadPage(s.directMessages, s.users, parentId))
  }

  /** `addDirectMessageReactionAction`. */
  function AddDirectMessageReaction(s: Store, messageId: Id, userId: Id, emoji: string): (r: (ActionState<Message>, Store))
    ensures r.0.Failure? <==> messageId !in Ids(s.directMessages)
    ensures r.0.Failure? ==> r.0.message == "Direct message not found" && r.1 == s
    ensures r.0.Success? ==> var m := FindById(s.directMessages, messageId).value;
              && r.0.data == m.(reactions := Reactions.Add(m.reactions, emoji, userId))
              && Reactions.HasReacted(r.0.data.reactions, emoji, userId)
              && r.1 == s.(directMessages := SetReactions(s.directMessages, messageId, r.0.data.reactions))
  {
    match React(s, DirectKind, messageId, Reactions.AddIntent, emoji, userId)
    case None => (Failure("Direct message not found"), s)
    case Some(res) => (Success("Reaction added successfully", res.0), res.1)
  }

  /** `removeDirectMessageReactionAction`. */
  function RemoveDirectMessageReaction(s: Store, messageId: Id, userId: Id, emoji: string): (r: (ActionState<Message>, Store))
    ensures r.0.Failure? <==> messageId !in Ids(s.directMessages)
    ensures r.0.Failure? ==> r.0.message == "Direct message not found" && r.1 == s
    ensures r.0.Success? ==> var m := FindById(s.directMessages, messageId).value;
              && r.0.data == m.(reactions := Reactions.Remove(m.reactions, emoji, userId))
              && !Reactions.HasReacted(r.0.data.reactions, emoji, userId)
              && r.1 == s.(directMessages := SetReactions(s.directMessages, messageId, r.0.data.reactions))
  {
    match React(s, DirectKind, messageId, Reactions.RemoveIntent, emoji, userId)
    case None => (Failure("Direct message not found"), s)
    case Some(res) => (Success("Reaction removed successfully", res.0), res.1)
  }

  /** `deleteDirectMessageAction`, with the reply and attachment cascades. */
  function DeleteDirectMessage(s: Store, id: Id): (r: (ActionState<()>, Store))
    ensures r.0 == Success("Direct message deleted successfully", ())
    ensures id !in Ids(r.1.directMessages)
    ensures forall m :: m in r.1.directMessages ==> m in s.directMessages && (m.parentId.Some? ==> m.parentId.value != id)
    ensures forall m :: m in s.directMessages && m.id !in Closure(s.directMessages, {id}) ==> m in r.1.directMessages
    ensures forall a :: a in r.1.attachments ==> a in s.attachments && a.directMessageId != Some(id)
    ensures r.1 == s.(directMessages := r.1.directMessages, attachments := r.1.attachments)
  {
    (Success("Direct message deleted successfully", ()), Delete(s, DirectKind, id))
  }

  /** `createDirectThreadMessageAction`: insert and bump in one transaction; unlike the channel
      variant there is no author lookup and the answer is the stored row, with no sender name. */
  function CreateDirectThreadMessage(s: Store, d: MessageDraft, id: Id, now: nat): (r: (ActionState<Message>, Store))
    ensures r.0.Failure? ==> r.0.message == "Failed to create thread message" && r.1 == s
    ensures r.0.Success? <==> (CanInsert(s, DirectKind, d, id) &&
              (BumpsParent(d) ==> CanBumpReplyCount(s.directMessages + [NewRow(DirectKind, d, id, now)], d.parentId.value)))
    ensures r.0.Success? ==> r.0.data == NewRow(DirectKind, d, id, now)
    ensures r.0.Success? ==> r.0.data.id == id && r.0.data.parentId == d.parentId && AuthorId(r.0.data) == d.authorId &&
                             AuthorName(r.0.data).None?
    ensures r.0.Success? ==> r.1 == s.(directMessages := r.1.directMessages)
    ensures r.0.Success? ==> (|r.1.directMessages| == |s.directMessages| + 1 &&
                              r.1.directMessages[|s.directMessages|] == r.0.data)
    ensures r.0.Success? ==> forall i :: 0 <= i < |s.directMessages| ==>
              r.1.directMessages[i] == if BumpsParent(d) && s.directMessages[i].id == d.parentId.value
                                       then s.directMessages[i].(replyCount := s.directMessages[i].replyCount + 1)
                                       else s.directMessages[i]
  {
    match InsertReply(s, DirectKind, d, id, now)
    case None => (Failure("Failed to create thread message"), s)
    case Some(s1) => (Success("Thread message created successfully", NewRow(DirectKind, d, id, now)), s1)
  }

  /** `on delete cascade` from `direct_chats`: removing a chat row removes its messages, their
      replies and their attachments. No action deletes chats; this is the schema's rule. */
  function DeleteChatRow(s: Store, chatId: Id): (r: Store)
    ensures forall c :: c in r.directChats <==> c in s.directChats && c.id != chatId
    ensures forall m :: m in r.directMessages ==> m in s.directMessages && ConversationId(m) != chatId
    ensures forall m :: m in r.directMessages <==> m in s.directMessages && m.id !in ConversationDead(s.directMessages, chatId)
    ensures forall a :: a in r.attachments <==>
              a in s.attachments && !(a.directMessageId.Some? && a.directMessageId.value in ConversationDead(s.directMessages, chatId))
    ensures r.messages == s.messages && r.users == s.users && r.channels == s.channels
    ensures r.workspaces == s.workspaces && r.workspaceMembers == s.workspaceMembers
    ensures r.channelMembers == s.channelMembers && r.presence == s.presence
  {
    var rest := DeleteConversationMessages(s, DirectKind, chatId);
    rest.(directChats := RemoveChat(s.directChats, chatId))
  }

  function RemoveChat(chats: seq<DirectChat>, chatId: Id): (r: seq<DirectChat>)
    ensures forall c :: c in r <==> c in chats && c.id != chatId
  {
    Sequences.Filter(chats, (c: DirectChat) => c.id != chatId)
  }

  /** Adding then removing a reaction the sender had not made restores the store. */
  lemma AddThenRemoveDirectReactionRestores(s: Store, messageId: Id, userId: Id, emoji: string)
    requires UniqueIds(s.directMessages) && messageId in Ids(s.directMessages)
    requires Reactions.NoEmptyLists(FindById(s.directMessages, messageId).value.reactions)
    requires !Reactions.HasReacted(FindById(s.directMessages, messageId).value.reactions, emoji, userId)
    ensures RemoveDirectMessageReaction(AddDirectMessageReaction(s, messageId, userId, emoji).1, messageId, userId, emoji).1 == s
  {
    ReactRoundTrip(s, DirectKind, messageId, emoji, userId);
  }

  /** Repeating a direct-message add (or remove) changes nothing more. */
  lemma DirectReactionActionsIdempotent(s: Store, messageId: Id, userId: Id, emoji: string)
    requires UniqueIds(s.directMessages)
    ensures var once := AddDirectMessageReaction(s, messageId, userId, emoji);
            AddDirectMessageReaction(once.1, messageId, userId, emoji) == once
    ensures var once := RemoveDirectMessageReaction(s, messageId, userId, emoji);
            RemoveDirectMessageReaction(once.1, messageId, userId, emoji) == once
  {
    if messageId in Ids(s.directMessages) {
      ReactIdempotent(s, DirectKind, messageId, Reactions.AddIntent, emoji, userId);
      ReactIdempotent(s, DirectKind, messageId, Reactions.RemoveIntent, emoji, userId);
    }
  }

  /** Both direct reaction actions keep every reactions map free of empty lists. */
  lemma DirectReactionActionsKeepNoEmptyLists(s: Store, messageId: Id, userId: Id, emoji: string)
    requires ReactionsWellFormed(s.directMessages)
    ensures ReactionsWellFormed(AddDirectMessageReaction(s, messageId, userId, emoji).1.directMessages)
    ensures ReactionsWellFormed(RemoveDirectMessageReaction(s, messageId, userId, emoji).1.directMessages)
  {
    if messageId in Ids(s.directMessages) {
      ReactKeepsWellFormed(s, DirectKind, messageId, Reactions.AddIntent, emoji, userId);
      ReactKeepsWellFormed(s, DirectKind, messageId, Reactions.RemoveIntent, emoji, userId);
    }
  }

  /** A successful direct reply keeps every reply counter equal to the number of replies. */
  lemma CreateDirectThreadMessageKeepsCounts(s: Store, d: MessageDraft, id: Id, now: nat)
    requires Consistent(s.directMessages)
    requires d.parentId.Some? ==> d.parentId.value != ""
    ensures Consistent(CreateDirectThreadMessage(s, d, id, now).1.directMessages)
  {
    if InsertReply(s, DirectKind, d, id, now).Some? {
      InsertReplyKeepsConsistent(s, DirectKind, d, id, now);
    }
  }
}

=== FILE: message_store.dfy ===
/** The store-level steps the channel-message and direct-message actions share: a
    constrained insert, the reply transaction, the reaction read-modify-write and the
    cascading delete (which also removes the deleted messages' attachments). */
module MessageStore {
  import opened Wrappers
  import opened Schema
  import Sequences
  import opened MessageTable
  import Reactions
  import Text

  /** The conversation a new row references exists (`channel_id` / `chat_id` foreign key). */
  predicate ConversationExists(s: Store, kind: MessageKind, c: Id) {
    match kind
    case ChannelKind => exists i :: 0 <= i < |s.channels| && s.channels[i].id == c
    case DirectKind => exists i :: 0 <= i < |s.directChats| && s.directChats[i].id == c
  }

  /** The constraints an insert must meet: a fresh primary key, and existing conversation,
      author and (when given) parent rows. */
  predicate CanInsert(s: Store, kind: MessageKind, d: MessageDraft, id: Id) {
    && id !in Ids(MessagesOf(s, kind))
    && ConversationExists(s, kind, d.conversationId)
    && FindUser(s.users, d.authorId).Some?
    && (d.parentId.Some? ==> d.parentId.value in Ids(MessagesOf(s, kind)))
  }

  /** `insert … values(d) returning`: `None` when a constraint rejects the row. */
  function Insert(s: Store, kind: MessageKind, d: MessageDraft, id: Id, now: nat): (r: Option<Store>)
    ensures r.Some? <==> CanInsert(s, kind, d, id)
    ensures r.Some? ==> MessagesOf(r.value, kind) == MessagesOf(s, kind) + [NewRow(kind, d, id, now)]
    ensures r.Some? ==> r.value == WithMessages(s, kind, MessagesOf(r.value, kind))
  {
    if CanInsert(s, kind, d, id) then Some(WithMessages(s, kind, MessagesOf(s, kind) + [NewRow(kind, d, id, now)]))
    else None
  }

  /** `if (message.parentId)`: the transaction bumps the parent only for a truthy parent id. */
  predicate BumpsParent(d: MessageDraft) {
    Text.Truthy(d.parentId)
  }

  /** The reply transaction: insert the row, then bump the parent's counter when the parent id
      is truthy. `None` when either statement fails, which rolls both back. */
  function InsertReply(s: Store, kind: MessageKind, d: MessageDraft, id: Id, now: nat): (r: Option<Store>)
    ensures r.Some? ==> CanInsert(s, kind, d, id)
    ensures r.Some? ==> r.value == WithMessages(s, kind, MessagesOf(r.value, kind))
    ensures r.Some? && !BumpsParent(d) ==> r == Insert(s, kind, d, id, now)
    ensures r.Some? && BumpsParent(d) ==>
              Some(MessagesOf(r.value, kind)) == BumpReplyCount(MessagesOf(s, kind) + [NewRow(kind, d, id, now)], d.parentId.value)
    ensures r.None? <==> (!CanInsert(s, kind, d, id) ||
                          (BumpsParent(d) && !CanBumpReplyCount(MessagesOf(s, kind) + [NewRow(kind, d, id, now)], d.parentId.value)))
  {
    match Insert(s, kind, d, id, now)
    case None => None
    case Some(s1) =>
      if BumpsParent(d) then
        match BumpReplyCount(MessagesOf(s1, kind), d.parentId.value)
        case None => None
        case Some(t2) => Some(WithMessages(s, kind, t2))
      else Some(s1)
  }

  /** The reactions read-modify-write: find the row, apply the intent to its reactions and
      write them back. `None` when no row has that id. */
  function React(s: Store, kind: MessageKind, messageId: Id, intent: Reactions.ReactionIntent,
                 emoji: string, userId: Id): (r: Option<(Message, Store)>)
    ensures r.None? <==> messageId !in Ids(MessagesOf(s, kind))
    ensures r.Some? ==> var m := FindById(MessagesOf(s, kind), messageId).value;
              var rx := Reactions.ApplyIntent(m.reactions, intent, emoji, userId);
              && r.value.0 == m.(reactions := rx)
              && r.value.1 == WithMessages(s, kind, SetReactions(MessagesOf(s, kind), messageId, rx))
  {
    match FindById(MessagesOf(s, kind), messageId)
    case None => None
    case Some(m) =>
      var rx := Reactions.ApplyIntent(m.reactions, intent, emoji, userId);
      Some((m.(reactions := rx), WithMessages(s, kind, SetReactions(MessagesOf(s, kind), messageId, rx))))
  }

  /** The attachment's reference into the table of a kind. */
  function AttachmentParent(a: Attachment, kind: MessageKind): Option<Id> {
    match kind
    case ChannelKind => a.messageId
    case DirectKind => a.directMessageId
  }

  /** `on delete cascade` from a message table to `attachments`. */
  function DropAttachments(atts: seq<Attachment>, kind: MessageKind, dead: set<Id>): (r: seq<Attachment>)
    ensures |r| <= |atts|
    ensures forall a :: a in r <==> a in atts && !(AttachmentParent(a, kind).Some? && AttachmentParent(a, kind).value in dead)
  {
    Sequences.Filter(atts, (a: Attachment) => !(AttachmentParent(a, kind).Some? && AttachmentParent(a, kind).value in dead))
  }

  /** `delete … where id = x`, with both cascades: replies (transitively) and attachments. */
  function Delete(s: Store, kind: MessageKind, id: Id): (r: Store)
    ensures MessagesOf(r, kind) == DeleteById(MessagesOf(s, kind), id)
    ensures r == WithMessages(s, kind, MessagesOf(r, kind)).(attachments := r.attachments)
    ensures forall a :: a in r.attachments <==>
              a in s.attachments && !(AttachmentParent(a, kind).Some? &&
                                      AttachmentParent(a, kind).value in Closure(MessagesOf(s, kind), {id}))
  {
    var dead := Closure(MessagesOf(s, kind), {id});
    WithMessages(s, kind, Survivors(MessagesOf(s, kind), dead)).(attachments := DropAttachments(s.attachments, kind, dead))
  }

  /** The ids of a conversation's messages. */
  function ConversationMessageIds(t: seq<Message>, c: Id): (r: set<Id>)
    ensures forall m :: m in t && ConversationId(m) == c ==> m.id in r
  {
    set m | m in t && ConversationId(m) == c :: m.id
  }

  /** The ids that deleting conversation `c` removes from a table: its messages and all their
      replies, transitively. */
  function ConversationDead(t: seq<Message>, c: Id): (r: set<Id>)
    ensures ConversationMessageIds(t, c) <= r && r <= Ids(t)
    ensures Closed(t, r)
  {
    Closure(t, ConversationMessageIds(t, c))
  }

  /** The cascade of deleting a conversation row: its messages, their replies (transitively)
      and the attachments of all of them; every other row stays. */
  function DeleteConversationMessages(s: Store, kind: MessageKind, c: Id): (r: Store)
    ensures r == WithMessages(s, kind, MessagesOf(r, kind)).(attachments := r.attachments)
    ensures forall m :: m in MessagesOf(r, kind) ==> m in MessagesOf(s, kind) && ConversationId(m) != c
    ensures forall m :: m in MessagesOf(r, kind) && m.parentId.Some? ==>
              m.parentId.value !in ConversationMessageIds(MessagesOf(s, kind), c)
    ensures forall m :: m in MessagesOf(r, kind) <==>
              m in MessagesOf(s, kind) && m.id !in ConversationDead(MessagesOf(s, kind), c)
    ensures forall a :: a in r.attachments <==>
              a in s.attachments && !(AttachmentParent(a, kind).Some? &&
                                      AttachmentParent(a, kind).value in ConversationDead(MessagesOf(s, kind), c))
  {
    var t := MessagesOf(s, kind);
    var dead := ConversationDead(t, c);
    WithMessages(s, kind, Survivors(t, dead)).(attachments := DropAttachments(s.attachments, kind, dead))
  }

  /** A row survives a conversation delete exactly when it does not descend, through parent
      links, from a message of that conversation: some closed set holding all of the
      conversation's messages leaves it out. */
  lemma ConversationSurvivorsExact(s: Store, kind: MessageKind, c: Id, m: Message)
    requires m in MessagesOf(s, kind)
    ensures m in MessagesOf(DeleteConversationMessages(s, kind, c), kind) <==>
              exists d :: ConversationMessageIds(MessagesOf(s, kind), c) <= d && Closed(MessagesOf(s, kind), d) && m.id !in d
  {
    var t := MessagesOf(s, kind);
    forall d | ConversationMessageIds(t, c) <= d && Closed(t, d) && m.id !in d
      ensures m.id !in ConversationDead(t, c)
    {
      ClosureLeast(t, ConversationMessageIds(t, c), d);
    }
  }

  /** The table invariant the actions maintain: unique keys, existing parents and exact
      reply counters. */
  ghost predicate Consistent(t: seq<Message>) {
    UniqueIds(t) && ParentsExist(t) && ReplyCountsExact(t)
  }

  /** A successful reply transaction keeps the table consistent, given that message ids are
      never empty (they are generated uuids). */
  lemma InsertReplyKeepsConsistent(s: Store, kind: MessageKind, d: MessageDraft, id: Id, now: nat)
    requires Consistent(MessagesOf(s, kind))
    requires d.parentId.Some? ==> d.parentId.value != ""
    ensures InsertReply(s, kind, d, id, now).Some? ==> Consistent(MessagesOf(InsertReply(s, kind, d, id, now).value, kind))
  {
    if InsertReply(s, kind, d, id, now).Some? {
      var t := MessagesOf(s, kind);
      var row := NewRow(kind, d, id, now);
      if BumpsParent(d) {
        ReplyInsertKeepsCounts(t, row, MessagesOf(InsertReply(s, kind, d, id, now).value, kind));
      } else {
        TopLevelInsertKeepsCounts(t, row);
      }
    }
  }

  /** Reacting changes only the reactions column, so it keeps the table consistent. */
  lemma ReactKeepsConsistent(s: Store, kind: MessageKind, messageId: Id, intent: Reactions.ReactionIntent,
                             emoji: string, userId: Id)
    requires Consistent(MessagesOf(s, kind))
    ensures React(s, kind, messageId, intent, emoji, userId).Some? ==>
              Consistent(MessagesOf(React(s, kind, messageId, intent, emoji, userId).value.1, kind))
  {
    if React(s, kind, messageId, intent, emoji, userId).Some? {
      var t := MessagesOf(s, kind);
      var m := FindById(t, messageId).value;
      var rx := Reactions.ApplyIntent(m.reactions, intent, emoji, userId);
      var t2 := SetReactions(t, messageId, rx);
      SetReactionsReadBack(t, messageId, rx);
      assert ParentColumn(t2) == ParentColumn(t);
      forall i | 0 <= i < |t2| && t2[i].parentId.Some? ensures t2[i].parentId.value in Ids(t2) {
        assert t2[i].parentId == t[i].parentId;
      }
    }
  }

  /** Adding a reaction the user had not made and then removing it restores the store, when
      the message's reactions have no empty lists. */
  lemma ReactRoundTrip(s: Store, kind: MessageKind, messageId: Id, emoji: string, userId: Id)
    requires UniqueIds(MessagesOf(s, kind)) && messageId in Ids(MessagesOf(s, kind))
    requires Reactions.NoEmptyLists(FindById(MessagesOf(s, kind), messageId).value.reactions)
    requires !Reactions.HasReacted(FindById(MessagesOf(s, kind), messageId).value.reactions, emoji, userId)
    ensures var s1 := React(s, kind, messageId, Reactions.AddIntent, emoji, userId).value.1;
            React(s1, kind, messageId, Reactions.RemoveIntent, emoji, userId).value.1 == s
  {
    var t := MessagesOf(s, kind);
    var m := FindById(t, messageId).value;
    var added := Reactions.Add(m.reactions, emoji, userId);
    var t1 := SetReactions(t, messageId, added);
    var s1 := WithMessages(s, kind, t1);
    assert React(s, kind, messageId, Reactions.AddIntent, emoji, userId).value.1 == s1;
    SetReactionsReadBack(t, messageId, added);
    Reactions.AddThenRemoveRestores(m.reactions, emoji, userId);
    assert React(s1, kind, messageId, Reactions.RemoveIntent, emoji, userId).value.1 ==
           WithMessages(s1, kind, SetReactions(t1, messageId, m.reactions));
    SetReactionsTwice(t, messageId, added, m.reactions);
    SetReactionsUnchanged(t, messageId);
    assert WithMessages(s1, kind, t) == s;
  }

  /** Applying the same intent twice has the effect of applying it once. */
  lemma ReactIdempotent(s: Store, kind: MessageKind, messageId: Id, intent: Reactions.ReactionIntent,
                        emoji: string, userId: Id)
    requires UniqueIds(MessagesOf(s, kind)) && messageId in Ids(MessagesOf(s, kind))
    ensures var once := React(s, kind, messageId, intent, emoji, userId).value;
            React(once.1, kind, messageId, intent, emoji, userId).value == once
  {
    var t := MessagesOf(s, kind);
    var m := FindById(t, messageId).value;
    var rx := Reactions.ApplyIntent(m.reactions, intent, emoji, userId);
    SetReactionsReadBack(t, messageId, rx);
    match intent {
      case AddIntent => Reactions.AddIdempotent(m.reactions, emoji, userId);
      case RemoveIntent => Reactions.RemoveIdempotent(m.reactions, emoji, userId);
    }
    SetReactionsTwice(t, messageId, rx, rx);
  }

  /** Neither reaction operation leaves an emoji with an empty reactor list. */
  lemma ReactKeepsWellFormed(s: Store, kind: MessageKind, messageId: Id, intent: Reactions.ReactionIntent,
                             emoji: string, userId: Id)
    requires ReactionsWellFormed(MessagesOf(s, kind))
    requires messageId in Ids(MessagesOf(s, kind))
    ensures ReactionsWellFormed(MessagesOf(React(s, kind, messageId, intent, emoji, userId).value.1, kind))
  {
    var t := MessagesOf(s, kind);
    var m := FindById(t, messageId).value;
    var k :| 0 <= k < |t| && t[k] == m;
    assert Reactions.NoEmptyLists(m.reactions);
    var rx := Reactions.ApplyIntent(m.reactions, intent, emoji, userId);
    match intent {
      case AddIntent => Reactions.AddKeepsNoEmptyLists(m.reactions, emoji, userId);
      case RemoveIntent => Reactions.RemoveKeepsNoEmptyLists(m.reactions, emoji, userId);
    }
    SetReactionsKeepsWellFormed(t, messageId, rx);
  }

  /** Writing a reaction map with no empty list keeps the table free of empty lists. */
  lemma SetReactionsKeepsWellFormed(t: seq<Message>, id: Id, rx: Reactions.ReactionMap)
    requires ReactionsWellFormed(t) && Reactions.NoEmptyLists(rx)
    ensures ReactionsWellFormed(SetReactions(t, id, rx))
  {
  }
}

=== FILE: message_table.dfy ===
/** The operations both message tables share: lookup by id, the in-place column updates,
    the reply counter, the cascading delete over the `parent_id` self-reference, and the
    joined, ordered snapshot queries. */
module MessageTable {
  import opened Wrappers
  import opened Schema
  import Reactions
  import Sorting

  /** The primary keys present in a table. */
  function Ids(t: seq<Message>): set<Id> {
    set m | m in t :: m.id
  }

  /** The primary key is unique. */
  ghost predicate UniqueIds(t: seq<Message>) {
    forall i, j :: 0 <= i < j < |t| ==> t[i].id != t[j].id
  }

  /** Position of the first row with the given id (`findFirst where id = …`). */
  function IndexOfId(t: seq<Message>, id: Id): (r: Option<nat>)
    ensures r.Some? ==> r.value < |t| && t[r.value].id == id
    ensures r.Some? ==> forall k :: 0 <= k < r.value ==> t[k].id != id
    ensures r.None? <==> id !in Ids(t)
  {
    if |t| == 0 then None
    else if t[0].id == id then Some(0)
    else
      var r := IndexOfId(t[1..], id);
      assert forall m :: m in t ==> m == t[0] || m in t[1..];
      if r.None? then None else Some(r.value + 1)
  }

  /** The row with the given id, if any. */
  function FindById(t: seq<Message>, id: Id): (r: Option<Message>)
    ensures r.Some? ==> r.value in t && r.value.id == id
    ensures r.None? <==> id !in Ids(t)
    ensures r.Some? && UniqueIds(t) ==> forall i :: 0 <= i < |t| && t[i].id == id ==> t[i] == r.value
  {
    var k := IndexOfId(t, id);
    if k.None? then None else Some(t[k.value])
  }

  /** `update … set … where id = …`: applies `f` to every row with that id. */
  function UpdateWhereId(t: seq<Message>, id: Id, f: Message -> Message): (r: seq<Message>)
    ensures |r| == |t|
    ensures forall i :: 0 <= i < |t| && t[i].id != id ==> r[i] == t[i]
    ensures forall i :: 0 <= i < |t| && t[i].id == id ==> r[i] == f(t[i])
  {
    seq(|t|, i requires 0 <= i < |t| => if t[i].id == id then f(t[i]) else t[i])
  }

  /** `update … set reactions = rx where id = …`. */
  function SetReactions(t: seq<Message>, id: Id, rx: Reactions.ReactionMap): (r: seq<Message>)
    ensures |r| == |t|
    ensures forall i :: 0 <= i < |t| ==> r[i].id == t[i].id && r[i].parentId == t[i].parentId
    ensures forall i :: 0 <= i < |t| && t[i].id != id ==> r[i] == t[i]
    ensures forall i :: 0 <= i < |t| && t[i].id == id ==> r[i] == t[i].(reactions := rx)
  {
    UpdateWhereId(t, id, (m: Message) => m.(reactions := rx))
  }

  /** Writing the reactions column and reading the row back yields the row with exactly that
      column changed, and every other row is untouched. */
  lemma SetReactionsReadBack(t: seq<Message>, id: Id, rx: Reactions.ReactionMap)
    requires UniqueIds(t) && id in Ids(t)
    ensures FindById(SetReactions(t, id, rx), id) == Some(FindById(t, id).value.(reactions := rx))
    ensures UniqueIds(SetReactions(t, id, rx)) && Ids(SetReactions(t, id, rx)) == Ids(t)
  {
    var r := SetReactions(t, id, rx);
    var k := IndexOfId(t, id).value;
    assert r[k] == t[k].(reactions := rx);
    SameIdsAt(t, r);
    assert r[k] in r;
  }

  /** Rows that keep their ids position by position keep the table's ids, and keep them
      unique. */
  lemma SameIdsAt(t: seq<Message>, r: seq<Message>)
    requires |r| == |t| && forall i :: 0 <= i < |t| ==> r[i].id == t[i].id
    ensures Ids(r) == Ids(t)
    ensures UniqueIds(t) ==> UniqueIds(r)
  {
    forall x | x in Ids(t) ensures x in Ids(r) {
      var m :| m in t && m.id == x;
      var i :| 0 <= i < |t| && t[i] == m;
      assert r[i] in r;
    }
    forall x | x in Ids(r) ensures x in Ids(t) {
      var m :| m in r && m.id == x;
      var i :| 0 <= i < |r| && r[i] == m;
      assert t[i] in t;
    }
  }

  /** A second write of the reactions column overrides the first. */
  lemma SetReactionsTwice(t: seq<Message>, id: Id, a: Reactions.ReactionMap, b: Reactions.ReactionMap)
    ensures SetReactions(SetReactions(t, id, a), id, b) == SetReactions(t, id, b)
  {
    var l := SetReactions(SetReactions(t, id, a), id, b);
    var r := SetReactions(t, id, b);
    forall i | 0 <= i < |t| ensures l[i] == r[i] {
      if t[i].id == id {
        assert l[i] == t[i].(reactions := a).(reactions := b);
      }
    }
  }

  /** Writing back the reactions a unique row already has changes nothing. */
  lemma SetReactionsUnchanged(t: seq<Message>, id: Id)
    requires UniqueIds(t) && id in Ids(t)
    ensures SetReactions(t, id, FindById(t, id).value.reactions) == t
  {
    var m := FindById(t, id).value;
    var r := SetReactions(t, id, m.reactions);
    forall i | 0 <= i < |t| ensures r[i] == t[i] {
      if t[i].id == id {
        assert t[i] == m;
      }
    }
  }

  /** Every row's reactions map has no empty reactor list. */
  ghost predicate ReactionsWellFormed(t: seq<Message>) {
    forall i :: 0 <= i < |t| ==> Reactions.NoEmptyLists(t[i].reactions)
  }

  /** Whether `set reply_count = reply_count + 1 where id = p` stays inside the 32-bit column. */
  predicate CanBumpReplyCount(t: seq<Message>, p: Id) {
    forall i :: 0 <= i < |t| && t[i].id == p ==> t[i].replyCount < MaxInt32
  }

  /** `set reply_count = reply_count + 1 where id = p`; `None` when the statement would
      overflow the integer column, which makes the database reject it. */
  function BumpReplyCount(t: seq<Message>, p: Id): (r: Option<seq<Message>>)
    ensures r.None? <==> !CanBumpReplyCount(t, p)
    ensures r.Some? ==> |r.value| == |t|
    ensures r.Some? ==> forall i :: 0 <= i < |t| && t[i].id != p ==> r.value[i] == t[i]
    ensures r.Some? ==> forall i :: 0 <= i < |t| && t[i].id == p ==>
              r.value[i] == t[i].(replyCount := t[i].replyCount + 1) && r.value[i].replyCount <= MaxInt32
  {
    if CanBumpReplyCount(t, p) then Some(UpdateWhereId(t, p, (m: Message) => m.(replyCount := m.replyCount + 1)))
    else None
  }

  /** The parent column of every row, in table order. */
  function ParentColumn(t: seq<Message>): (r: seq<Option<Id>>)
    ensures |r| == |t| && forall i :: 0 <= i < |t| ==> r[i] == t[i].parentId
  {
    seq(|t|, i requires 0 <= i < |t| => t[i].parentId)
  }

  /** How many entries of a parent column point at `p`. */
  function CountParent(ps: seq<Option<Id>>, p: Id): nat {
    if |ps| == 0 then 0
    else CountParent(ps[..|ps| - 1], p) + (if ps[|ps| - 1] == Some(p) then 1 else 0)
  }

  /** The number of rows whose `parent_id` is `p`. */
  function CountReplies(t: seq<Message>, p: Id): nat {
    CountParent(ParentColumn(t), p)
  }

  /** Every non-null `parent_id` references a row of the same table (the foreign key). */
  ghost predicate ParentsExist(t: seq<Message>) {
    forall i :: 0 <= i < |t| && t[i].parentId.Some? ==> t[i].parentId.value in Ids(t)
  }

  /** Every row's `reply_count` equals the number of its replies. */
  ghost predicate ReplyCountsExact(t: seq<Message>) {
    forall i :: 0 <= i < |t| ==> t[i].replyCount == CountReplies(t, t[i].id)
  }

  lemma {:induction false} CountParentAbsent(ps: seq<Option<Id>>, p: Id)
    requires forall i :: 0 <= i < |ps| ==> ps[i] != Some(p)
    ensures CountParent(ps, p) == 0
    decreases |ps|
  {
    if |ps| > 0 {
      CountParentAbsent(ps[..|ps| - 1], p);
    }
  }

  /** A message that is not in the table has no replies in a table whose parents exist. */
  lemma NoRepliesToAbsent(t: seq<Message>, p: Id)
    requires ParentsExist(t) && p !in Ids(t)
    ensures CountReplies(t, p) == 0
  {
    forall i | 0 <= i < |t| ensures ParentColumn(t)[i] != Some(p) {
      assert ParentColumn(t)[i] == t[i].parentId;
    }
    CountParentAbsent(ParentColumn(t), p);
  }

  /** Appending a row adds one to its parent's count and nothing to any other count. */
  lemma CountRepliesAppend(t: seq<Message>, row: Message, p: Id)
    ensures CountReplies(t + [row], p) == CountReplies(t, p) + (if row.parentId == Some(p) then 1 else 0)
  {
    var ps := ParentColumn(t + [row]);
    assert ps[..|ps| - 1] == ParentColumn(t);
  }

  /** A top-level insert of a fresh row keeps every counter exact and every parent present. */
  lemma TopLevelInsertKeepsCounts(t: seq<Message>, row: Message)
    requires UniqueIds(t) && ParentsExist(t) && ReplyCountsExact(t)
    requires row.id !in Ids(t) && row.parentId.None? && row.replyCount == 0
    ensures UniqueIds(t + [row]) && ParentsExist(t + [row]) && ReplyCountsExact(t + [row])
  {
    var u := t + [row];
    AppendKeepsIntegrity(t, row);
    forall i | 0 <= i < |u| ensures u[i].replyCount == CountReplies(u, u[i].id) {
      CountRepliesAppend(t, row, u[i].id);
      if i == |t| {
        NoRepliesToAbsent(t, row.id);
      }
    }
  }

  /** The counter bump changes no key and no parent reference, hence no reply count. */
  lemma BumpKeepsStructure(u: seq<Message>, p: Id, t2: seq<Message>)
    requires BumpReplyCount(u, p) == Some(t2)
    ensures ParentColumn(t2) == ParentColumn(u)
    ensures forall x :: CountReplies(t2, x) == CountReplies(u, x)
    ensures Ids(t2) == Ids(u)
    ensures UniqueIds(u) ==> UniqueIds(t2)
  {
    assert forall i :: 0 <= i < |u| ==> t2[i].id == u[i].id && t2[i].parentId == u[i].parentId;
    assert ParentColumn(t2) == ParentColumn(u);
    forall x | x in Ids(u) ensures x in Ids(t2) {
      var i :| 0 <= i < |u| && u[i].id == x;
      assert t2[i] in t2;
    }
    forall x | x in Ids(t2) ensures x in Ids(u) {
      var i :| 0 <= i < |t2| && t2[i].id == x;
      assert u[i] in u;
    }
  }

  /** Appending a fresh row keeps the keys unique and the parents present. */
  lemma AppendKeepsIntegrity(t: seq<Message>, row: Message)
    requires UniqueIds(t) && ParentsExist(t) && row.id !in Ids(t)
    requires row.parentId.Some? ==> row.parentId.value in Ids(t)
    ensures Ids(t + [row]) == Ids(t) + {row.id}
    ensures UniqueIds(t + [row]) && ParentsExist(t + [row])
  {
    var u := t + [row];
    assert forall i :: 0 <= i < |t| ==> u[i] == t[i] && t[i] in t;
    assert u[|t|] == row;
    assert Ids(u) == Ids(t) + {row.id};
  }

  /** The counter of one row after a reply insert and its parent's bump. */
  lemma ReplyInsertCountAt(t: seq<Message>, row: Message, t2: seq<Message>, i: nat)
    requires ParentsExist(t) && ReplyCountsExact(t)
    requires row.id !in Ids(t) && row.replyCount == 0
    requires row.parentId.Some? && row.parentId.value in Ids(t)
    requires BumpReplyCount(t + [row], row.parentId.value) == Some(t2)
    requires forall x :: CountReplies(t2, x) == CountReplies(t + [row], x)
    requires i < |t2|
    ensures t2[i].replyCount == CountReplies(t2, t2[i].id)
  {
    var u := t + [row];
    CountRepliesAppend(t, row, u[i].id);
    if i == |t| {
      NoRepliesToAbsent(t, row.id);
    } else {
      assert u[i] == t[i];
    }
  }

  /** A reply insert followed by the parent's counter bump (one transaction) keeps every
      counter exact: the parent gains exactly one reply and exactly one count. */
  lemma ReplyInsertKeepsCounts(t: seq<Message>, row: Message, t2: seq<Message>)
    requires UniqueIds(t) && ParentsExist(t) && ReplyCountsExact(t)
    requires row.id !in Ids(t) && row.replyCount == 0
    requires row.parentId.Some? && row.parentId.value in Ids(t)
    requires BumpReplyCount(t + [row], row.parentId.value) == Some(t2)
    ensures UniqueIds(t2) && ParentsExist(t2) && ReplyCountsExact(t2)
  {
    var u := t + [row];
    AppendKeepsIntegrity(t, row);
    BumpKeepsStructure(u, row.parentId.value, t2);
    forall i | 0 <= i < |t2| ensures t2[i].replyCount == CountReplies(t2, t2[i].id) {
      ReplyInsertCountAt(t, row, t2, i);
    }
    forall i | 0 <= i < |t2| && t2[i].parentId.Some? ensures t2[i].parentId.value in Ids(t2) {
      assert ParentColumn(t2)[i] == ParentColumn(u)[i];
    }
  }

  /** Deleting a reply does not touch its parent's counter, so the counter goes stale. */
  lemma DeleteLeavesReplyCountStale()
    ensures var parent := ChannelMessage("p", "c", "u", None, "hi", None, None, map[], None, 1, 0);
            var reply := ChannelMessage("r", "c", "u", None, "yo", None, None, map[], Some("p"), 0, 1);
            && ReplyCountsExact([parent, reply])
            && DeleteById([parent, reply], "r") == [parent]
            && !ReplyCountsExact([parent])
  {
    var parent := ChannelMessage("p", "c", "u", None, "hi", None, None, map[], None, 1, 0);
    var reply := ChannelMessage("r", "c", "u", None, "yo", None, None, map[], Some("p"), 0, 1);
    var t := [parent, reply];
    var ps := ParentColumn(t);
    assert ps == [None, Some("p")];
    assert ps[..1] == [None] && ps[..1][..0] == [];
    assert CountParent(ps[..1], "p") == 0 && CountParent(ps[..1], "r") == 0;
    assert CountParent(ps, "p") == 1;
    assert CountParent(ps, "r") == 0;
    assert ParentColumn([parent]) == ps[..1];
    assert CountReplies([parent], "p") == 0;
    assert Children(t, {"r"}) == {} by {
      forall m | m in t ensures !(m.parentId.Some? && m.parentId.value in {"r"}) { }
    }
    assert Closure(t, {"r"}) == {"r"};
  }

  // ---------------------------------------------------------------------------
  // Cascading delete over the parent reference.
  // ---------------------------------------------------------------------------

  /** The ids of rows whose parent is in `d`. */
  function Children(t: seq<Message>, d: set<Id>): (r: set<Id>)
    ensures r <= Ids(t)
  {
    set m | m in t && m.parentId.Some? && m.parentId.value in d :: m.id
  }

  /** `c` is closed under `on delete cascade`: a row whose parent is in `c` is in `c`. */
  ghost predicate Closed(t: seq<Message>, c: set<Id>) {
    forall m :: m in t && m.parentId.Some? && m.parentId.value in c ==> m.id in c
  }

  /** The ids a delete of `d` removes: `d` together with all replies, transitively. */
  function Closure(t: seq<Message>, d: set<Id>): (c: set<Id>)
    ensures d <= c && c <= d + Ids(t)
    ensures Closed(t, c)
    decreases Ids(t) - d
  {
    var d' := d + Children(t, d);
    if d' <= d then d
    else
      var x :| x in d' && x !in d;
      assert x in Ids(t) - d && x !in Ids(t) - d';
      Closure(t, d')
  }

  /** The closure is the least closed set containing the seed. */
  lemma {:induction false} ClosureLeast(t: seq<Message>, d: set<Id>, s: set<Id>)
    requires d <= s && Closed(t, s)
    ensures Closure(t, d) <= s
    decreases Ids(t) - d
  {
    var d' := d + Children(t, d);
    if !(d' <= d) {
      assert Children(t, d) <= s;
      var x :| x in d' && x !in d;
      assert x in Ids(t) - d && x !in Ids(t) - d';
      ClosureLeast(t, d', s);
    }
  }

  /** The rows whose id is not in `dead`, in table order. */
  function Survivors(t: seq<Message>, dead: set<Id>): (r: seq<Message>)
    ensures |r| <= |t|
    ensures forall m :: m in r <==> m in t && m.id !in dead
  {
    if |t| == 0 then []
    else
      var rest := Survivors(t[1..], dead);
      assert forall m :: m in t <==> m == t[0] || m in t[1..];
      if t[0].id in dead then rest else [t[0]] + rest
  }

  lemma {:induction false} SurvivorsKeepUniqueIds(t: seq<Message>, dead: set<Id>)
    requires UniqueIds(t)
    ensures UniqueIds(Survivors(t, dead))
    decreases |t|
  {
    if |t| > 0 {
      SurvivorsKeepUniqueIds(t[1..], dead);
      var rest := Survivors(t[1..], dead);
      forall m | m in rest ensures m.id != t[0].id {
        var j :| 0 <= j < |t[1..]| && t[1..][j] == m;
        assert t[j + 1] == m;
      }
    }
  }

  /** `delete … where id = x`, with the cascade through `parent_id`. */
  function DeleteById(t: seq<Message>, id: Id): (r: seq<Message>)
    ensures id !in Ids(r)
    ensures forall m :: m in r ==> m in t
    ensures forall m :: m in r && m.parentId.Some? ==> m.parentId.value != id
  {
    Survivors(t, Closure(t, {id}))
  }

  /** A row survives the delete of `id` exactly when it does not descend from `id`
      through parent links: it survives iff some closed set containing `id` leaves it out. */
  lemma DeleteSurvivorsExact(t: seq<Message>, id: Id, m: Message)
    requires m in t
    ensures m in DeleteById(t, id) <==> exists s :: id in s && Closed(t, s) && m.id !in s
  {
    var c := Closure(t, {id});
    if m in DeleteById(t, id) {
      assert id in c && Closed(t, c) && m.id !in c;
    }
    forall s | id in s && Closed(t, s) && m.id !in s ensures m.id !in c {
      ClosureLeast(t, {id}, s);
    }
  }

  /** The cascade never leaves a dangling parent reference, nor a duplicate key. */
  lemma DeleteKeepsIntegrity(t: seq<Message>, id: Id)
    requires UniqueIds(t) && ParentsExist(t)
    ensures UniqueIds(DeleteById(t, id)) && ParentsExist(DeleteById(t, id))
  {
    var c := Closure(t, {id});
    var r := DeleteById(t, id);
    SurvivorsKeepUniqueIds(t, c);
    forall i | 0 <= i < |r| && r[i].parentId.Some? ensures r[i].parentId.value in Ids(r) {
      var p := r[i].parentId.value;
      assert r[i] in t;
      var j :| 0 <= j < |t| && t[j] == r[i];
      var q :| q in t && q.id == p;
      assert p !in c;
      assert q in r;
    }
  }

  // ---------------------------------------------------------------------------
  // Snapshot queries: inner join with users, filter, order by created_at, limit.
  // ---------------------------------------------------------------------------

  /** The two `where` clauses the snapshot queries use. */
  datatype Selector =
    | TopLevelOf(conversation: Id)  // `conversation = c and parent_id is null`
    | RepliesTo(parent: Id)         // `parent_id = p`

  predicate Selects(sel: Selector, m: Message) {
    match sel
    case TopLevelOf(c) => ConversationId(m) == c && m.parentId.None?
    case RepliesTo(p) => m.parentId == Some(p)
  }

  /** The joined row: the author's current username replaces the stored one; `None`
      when the inner join finds no user. */
  function JoinAuthor(users: seq<User>, m: Message): (r: Option<Message>)
    ensures r.Some? <==> FindUser(users, AuthorId(m)).Some?
    ensures r.Some? ==> r.value == WithAuthorName(m, FindUser(users, AuthorId(m)).value.username)
  {
    match FindUser(users, AuthorId(m))
    case None => None
    case Some(u) => Some(WithAuthorName(m, u.username))
  }

  /** `from t inner join users where sel`, in table order. */
  function Joined(t: seq<Message>, users: seq<User>, sel: Selector): (r: seq<Message>)
    ensures |r| <= |t|
    ensures forall x :: x in r ==> Selects(sel, x) && exists m :: m in t && JoinAuthor(users, m) == Some(x)
    ensures forall m :: m in t && Selects(sel, m) && JoinAuthor(users, m).Some? ==> JoinAuthor(users, m).value in r
  {
    if |t| == 0 then []
    else
      var rest := Joined(t[1..], users, sel);
      assert forall m :: m in t <==> m == t[0] || m in t[1..];
      var j := JoinAuthor(users, t[0]);
      if Selects(sel, t[0]) && j.Some? then [j.value] + rest else rest
  }

  /** `order by created_at asc`. */
  function ByCreatedAt(a: Message, b: Message): bool {
    a.createdAt <= b.createdAt
  }

  lemma ByCreatedAtIsTotalPreorder()
    ensures Sorting.TotalPreorder(ByCreatedAt)
  { }

  /** The default page size of the conversation snapshot queries. */
  const DefaultLimit: nat := 50

  /** The top-level messages of a conversation, oldest first, at most `limit` of them. */
  function ConversationPage(t: seq<Message>, users: seq<User>, conversation: Id, limit: nat): (r: seq<Message>)
    ensures |r| <= limit
    ensures forall x :: x in r ==> ConversationId(x) == conversation && x.parentId.None?
    ensures forall x :: x in r ==> exists m :: m in t && JoinAuthor(users, m) == Some(x)
    ensures Sorting.SortedBy(r, ByCreatedAt)
    ensures var all := Joined(t, users, TopLevelOf(conversation));
            && |r| == (if |all| < limit then |all| else limit)
            && multiset(r) <= multiset(all)
            && (|all| <= limit ==> multiset(r) == multiset(all))
  {
    var all := Joined(t, users, TopLevelOf(conversation));
    ByCreatedAtIsTotalPreorder();
    Sorting.SortedPage(all, ByCreatedAt, limit);
    Sorting.Take(Sorting.SortBy(all, ByCreatedAt), limit)
  }

  /** The page keeps the oldest rows: any matching row left out is no older than any kept. */
  lemma ConversationPageKeepsOldest(t: seq<Message>, users: seq<User>, conversation: Id, limit: nat)
    ensures var sorted := Sorting.SortBy(Joined(t, users, TopLevelOf(conversation)), ByCreatedAt);
            && ConversationPage(t, users, conversation, limit) == sorted[..|ConversationPage(t, users, conversation, limit)|]
            && forall i, j :: 0 <= i < |ConversationPage(t, users, conversation, limit)| <= j < |sorted| ==>
                 sorted[i].createdAt <= sorted[j].createdAt
  {
    ByCreatedAtIsTotalPreorder();
    Sorting.TakeOfSortedIsLeast(Joined(t, users, TopLevelOf(conversation)), ByCreatedAt, limit);
  }

  /** The replies to a message, oldest first; a permutation of the joined matching rows. */
  function ThreadPage(t: seq<Message>, users: seq<User>, parent: Id): (r: seq<Message>)
    ensures forall x :: x in r ==> x.parentId == Some(parent)
    ensures forall m :: m in t && m.parentId == Some(parent) && JoinAuthor(users, m).Some? ==>
              JoinAuthor(users, m).value in r
    ensures forall x :: x in r ==> exists m :: m in t && JoinAuthor(users, m) == Some(x)
    ensures Sorting.SortedBy(r, ByCreatedAt)
    ensures multiset(r) == multiset(Joined(t, users, RepliesTo(parent)))
  {
    var all := Joined(t, users, RepliesTo(parent));
    ByCreatedAtIsTotalPreorder();
    Sorting.SortBySorted(all, ByCreatedAt);
    var r := Sorting.SortBy(all, ByCreatedAt);
    assert forall x :: x in r <==> x in all by {
      forall x ensures x in r <==> x in all {
        assert x in r <==> x in multiset(r);
      }
    }
    r
  }
}

=== FILE: messages_actions.dfy ===
/** The channel-message server actions. Each action is one atomic step on the store and
    answers with an `ActionState`; an exception inside an action becomes its catch-all
    failure message. */
module MessagesActions {
  import opened Wrappers
  import opened Schema
  import opened MessageTable
  import opened MessageStore
  import Reactions
  import Sorting

  /** `createMessageAction`: insert the row, then look up the author's username. The two
      steps are not one transaction, so a failing lookup would keep the row. */
  function CreateMessage(s: Store, d: MessageDraft, id: Id, now: nat): (r: (ActionState<Message>, Store))
    ensures r.0.Success? <==> CanInsert(s, ChannelKind, d, id)
    ensures r.0.Failure? ==> r.0.message == "Failed to create message" && r.1 == s
    ensures r.0.Success? ==> r.1 == s.(messages := s.messages + [NewRow(ChannelKind, d, id, now)])
    ensures r.0.Success? ==> r.0.data.id == id && r.0.data.parentId == d.parentId && r.0.data.replyCount == 0 &&
                             r.0.data.reactions == map[] &&
                             AuthorName(r.0.data) == Some(FindUser(s.users, d.authorId).value.username)
  {
    match Insert(s, ChannelKind, d, id, now)
    case None => (Failure("Failed to create message"), s)
    case Some(s1) =>
      match FindUser(s1.users, d.authorId)
      case None => (Failure("User not found"), s1)
      case Some(u) => (Success("Message created successfully", WithAuthorName(NewRow(ChannelKind, d, id, now), u.username)), s1)
  }

  /** `getChannelMessagesAction`: the channel's top-level messages joined with their authors,
      oldest first, at most `limit` (50 by default). */
  function GetChannelMessages(s: Store, channelId: Id, limit: nat := DefaultLimit): (r: ActionState<seq<Message>>)
    ensures r.Success? && r.message == "Messages retrieved successfully"
    ensures |r.data| <= limit
    ensures forall x :: x in r.data ==> ConversationId(x) == channelId && x.parentId.None?
    ensures forall x :: x in r.data ==> exists m :: m in s.messages && JoinAuthor(s.users, m) == Some(x)
    ensures Sorting.SortedBy(r.data, ByCreatedAt)
    ensures var all := Joined(s.messages, s.users, TopLevelOf(channelId));
            |all| <= limit ==> multiset(r.data) == multiset(all)
  {
    Success("Messages retrieved successfully", ConversationPage(s.messages, s.users, channelId, limit))
  }

  /** `getThreadMessagesAction`: every reply to `parentId` whose author exists, oldest first. */
  function GetThreadMessages(s: Store, parentId: Id): (r: ActionState<seq<Message>>)
    ensures r.Success? && r.message == "Thread messages retrieved successfully"
    ensures forall x :: x in r.data ==> x.parentId == Some(parentId)
    ensures forall m :: m in s.messages && m.parentId == Some(parentId) && FindUser(s.users, AuthorId(m)).Some? ==>
              WithAuthorName(m, FindUser(s.users, AuthorId(m)).value.username) in r.data
    ensures forall x :: x in r.data ==> exists m :: m in s.messages && JoinAuthor(s.users, m) == Some(x)
    ensures Sorting.SortedBy(r.data, ByCreatedAt)
  {
    Success("Thread messages retrieved successfully", ThreadPage(s.messages, s.users, parentId))
  }

  /** `createThreadMessageAction`: one transaction that inserts the reply, bumps the parent's
      counter when the parent id is truthy, and looks up the author; any failure rolls back. */
  function CreateThreadMessage(s: Store, d: MessageDraft, id: Id, now: nat): (r: (ActionState<Message>, Store))
    ensures r.0.Failure? ==> r.0.message == "Failed to create thread message" && r.1 == s
    ensures r.0.Success? <==> (CanInsert(s, ChannelKind, d, id) &&
              (BumpsParent(d) ==> CanBumpReplyCount(s.messages + [NewRow(ChannelKind, d, id, now)], d.parentId.value)))
    ensures r.0.Success? ==> r.1 == s.(messages := r.1.messages)
    ensures r.0.Success? ==> |r.1.messages| == |s.messages| + 1 && r.1.messages[|s.messages|] == NewRow(ChannelKind, d, id, now)
    ensures r.0.Success? ==> forall i :: 0 <= i < |s.messages| ==>
              r.1.messages[i] == if BumpsParent(d) && s.messages[i].id == d.parentId.value
                                 then s.messages[i].(replyCount := s.messages[i].replyCount + 1)
                                 else s.messages[i]
    ensures r.0.Success? ==> r.0.data.id == id && AuthorName(r.0.data) == Some(FindUser(s.users, d.authorId).value.username)
  {
    match InsertReply(s, ChannelKind, d, id, now)
    case None => (Failure("Failed to create thread message"), s)
    case Some(s1) =>
      match FindUser(s1.users, d.authorId)
      case None => (Failure("Failed to create thread message"), s)
      case Some(u) =>
        (Success("Thread message created successfully", WithAuthorName(NewRow(ChannelKind, d, id, now), u.username)), s1)
  }

  /** `addReactionAction`: read the row, add the user under the emoji, write the reactions back. */
  function AddReaction(s: Store, messageId: Id, userId: Id, emoji: string): (r: (ActionState<Message>, Store))
    ensures r.0.Failure? <==> messageId !in Ids(s.messages)
    ensures r.0.Failure? ==> r.0.message == "Message not found" && r.1 == s
    ensures r.0.Success? ==> var m := FindById(s.messages, messageId).value;
              && r.0.data == m.(reactions := Reactions.Add(m.reactions, emoji, userId))
              && Reactions.HasReacted(r.0.data.reactions, emoji, userId)
              && r.1 == s.(messages := SetReactions(s.messages, messageId, r.0.data.reactions))
  {
    match React(s, ChannelKind, messageId, Reactions.AddIntent, emoji, userId)
    case None => (Failure("Message not found"), s)
    case Some(res) => (Success("Reaction added successfully", res.0), res.1)
  }

  /** `removeReactionAction`: read the row, drop the user from the emoji's list (dropping the
      emoji once its list is empty), write the reactions back. */
  function RemoveReaction(s: Store, messageId: Id, userId: Id, emoji: string): (r: (ActionState<Message>, Store))
    ensures r.0.Failure? <==> messageId !in Ids(s.messages)
    ensures r.0.Failure? ==> r.0.message == "Message not found" && r.1 == s
    ensures r.0.Success? ==> var m := FindById(s.messages, messageId).value;
              && r.0.data == m.(reactions := Reactions.Remove(m.reactions, emoji, userId))
              && !Reactions.HasReacted(r.0.data.reactions, emoji, userId)
              && r.1 == s.(messages := SetReactions(s.messages, messageId, r.0.data.reactions))
  {
    match React(s, ChannelKind, messageId, Reactions.RemoveIntent, emoji, userId)
    case None => (Failure("Message not found"), s)
    case Some(res) => (Success("Reaction removed successfully", res.0), res.1)
  }

  /** `deleteMessageAction`: always succeeds; the replies (transitively) and the attachments of
      every removed message go with it. */
  function DeleteMessage(s: Store, id: Id): (r: (ActionState<()>, Store))
    ensures r.0 == Success("Message deleted successfully", ())
    ensures id !in Ids(r.1.messages)
    ensures forall m :: m in r.1.messages ==> m in s.messages && (m.parentId.Some? ==> m.parentId.value != id)
    ensures forall m :: m in s.messages && m.id !in Closure(s.messages, {id}) ==> m in r.1.messages
    ensures forall a :: a in r.1.attachments ==> a in s.attachments && a.messageId != Some(id)
    ensures r.1 == s.(messages := r.1.messages, attachments := r.1.attachments)
  {
    (Success("Message deleted successfully", ()), Delete(s, ChannelKind, id))
  }

  /** Adding then removing the same reaction restores the whole store, when the user had not
      reacted with that emoji and no emoji had an empty list. */
  lemma AddThenRemoveReactionRestores(s: Store, messageId: Id, userId: Id, emoji: string)
    requires UniqueIds(s.messages) && messageId in Ids(s.messages)
    requires Reactions.NoEmptyLists(FindById(s.messages, messageId).value.reactions)
    requires !Reactions.HasReacted(FindById(s.messages, messageId).value.reactions, emoji, userId)
    ensures RemoveReaction(AddReaction(s, messageId, userId, emoji).1, messageId, userId, emoji).1 == s
  {
    ReactRoundTrip(s, ChannelKind, messageId, emoji, userId);
  }

  /** Repeating an add (or a remove) changes nothing more. */
  lemma ReactionActionsIdempotent(s: Store, messageId: Id, userId: Id, emoji: string)
    requires UniqueIds(s.messages)
    ensures var once := AddReaction(s, messageId, userId, emoji);
            AddReaction(once.1, messageId, userId, emoji) == once
    ensures var once := RemoveReaction(s, messageId, userId, emoji);
            RemoveReaction(once.1, messageId, userId, emoji) == once
  {
    if messageId in Ids(s.messages) {
      ReactIdempotent(s, ChannelKind, messageId, Reactions.AddIntent, emoji, userId);
      ReactIdempotent(s, ChannelKind, messageId, Reactions.RemoveIntent, emoji, userId);
    }
  }

  /** Both reaction actions keep every reactions map free of empty lists. */
  lemma ReactionActionsKeepNoEmptyLists(s: Store, messageId: Id, userId: Id, emoji: string)
    requires ReactionsWellFormed(s.messages)
    ensures ReactionsWellFormed(AddReaction(s, messageId, userId, emoji).1.messages)
    ensures ReactionsWellFormed(RemoveReaction(s, messageId, userId, emoji).1.messages)
  {
    if messageId in Ids(s.messages) {
      ReactKeepsWellFormed(s, ChannelKind, messageId, Reactions.AddIntent, emoji, userId);
      ReactKeepsWellFormed(s, ChannelKind, messageId, Reactions.RemoveIntent, emoji, userId);
    }
  }

  /** A successful reply keeps every reply counter equal to the number of replies. */
  lemma CreateThreadMessageKeepsCounts(s: Store, d: MessageDraft, id: Id, now: nat)
    requires Consistent(s.messages)
    requires d.parentId.Some? ==> d.parentId.value != ""
    ensures Consistent(CreateThreadMessage(s, d, id, now).1.messages)
  {
    if InsertReply(s, ChannelKind, d, id, now).Some? {
      InsertReplyKeepsConsistent(s, ChannelKind, d, id, now);
    }
  }

  /** Deleting keeps keys unique and parents present; the reply counters are not maintained. */
  lemma DeleteMessageKeepsReferences(s: Store, id: Id)
    requires UniqueIds(s.messages) && ParentsExist(s.messages)
    ensures UniqueIds(DeleteMessage(s, id).1.messages) && ParentsExist(DeleteMessage(s, id).1.messages)
  {
    DeleteKeepsIntegrity(s.messages, id);
  }
}

=== FILE: presence_actions.dfy ===
/** The presence server actions over the `presence` table, which holds at most one row per
    user (the user id is its primary key). */
module PresenceActions {
  import opened Wrappers
  import opened Schema
  import Sequences

  /** The optional columns a caller may supply (`Partial<InsertPresence>`); `None` means
      "not supplied", and a supplied nullable column carries its own `Option`. */
  datatype PresencePatch = PresencePatch(
    status: Option<Status>, statusText: Option<Option<string>>, statusEmoji: Option<Option<string>>,
    lastSeen: Option<nat>, updatedAt: Option<nat>)

  /** No two presence rows share a user id. */
  ghost predicate OneRowPerUser(rows: seq<Presence>) {
    forall i, j :: 0 <= i < j < |rows| ==> rows[i].userId != rows[j].userId
  }

  /** `findFirst where presence.user_id = userId`. */
  function FindPresence(rows: seq<Presence>, userId: Id): (r: Option<Presence>)
    ensures r.Some? ==> r.value in rows && r.value.userId == userId
    ensures r.None? <==> forall p :: p in rows ==> p.userId != userId
  {
    Sequences.First(rows, (p: Presence) => p.userId == userId)
  }

  /** The supplied columns override those of `p`; the others keep their values. */
  function Patched(p: Presence, d: PresencePatch): (r: Presence)
    ensures r.userId == p.userId
    ensures r.status == (if d.status.Some? then d.status.value else p.status)
    ensures r.statusText == (if d.statusText.Some? then d.statusText.value else p.statusText)
    ensures r.statusEmoji == (if d.statusEmoji.Some? then d.statusEmoji.value else p.statusEmoji)
    ensures r.lastSeen == (if d.lastSeen.Some? then d.lastSeen.value else p.lastSeen)
    ensures r.updatedAt == (if d.updatedAt.Some? then d.updatedAt.value else p.updatedAt)
  {
    Presence(
      p.userId,
      match d.status case Some(v) => v case None => p.status,
      match d.statusText case Some(v) => v case None => p.statusText,
      match d.statusEmoji case Some(v) => v case None => p.statusEmoji,
      match d.lastSeen case Some(v) => v case None => p.lastSeen,
      match d.updatedAt case Some(v) => v case None => p.updatedAt)
  }

  /** Every row of the user replaced by `row`; the others untouched. */
  function UpdateWhereUser(rows: seq<Presence>, userId: Id, row: Presence): (r: seq<Presence>)
    ensures |r| == |rows|
    ensures forall i :: 0 <= i < |rows| ==> r[i] == if rows[i].userId == userId then row else rows[i]
  {
    Sequences.ReplaceWhere(rows, (p: Presence) => p.userId == userId, row)
  }

  /** `upsertPresenceAction`: the first write inserts an "online" row last seen now, with the
      supplied columns overriding those values; later writes update only the supplied
      columns and stamp `updatedAt` with now. The insert needs the user to exist. */
  function UpsertPresence(s: Store, userId: Id, d: PresencePatch, now: nat): (r: (ActionState<Presence>, Store))
    ensures FindPresence(s.presence, userId).None? ==>
              if FindUser(s.users, userId).None? then r == (Failure("Failed to update presence"), s)
              else
                && r.0.Success? && r.0.message == "Initial presence created successfully"
                && r.0.data.userId == userId
                && r.0.data.status == (if d.status.Some? then d.status.value else Online)
                && r.0.data.lastSeen == (if d.lastSeen.Some? then d.lastSeen.value else now)
                && r.0.data.updatedAt == (if d.updatedAt.Some? then d.updatedAt.value else now)
                && r.0.data.statusText == (if d.statusText.Some? then d.statusText.value else None)
                && r.0.data.statusEmoji == (if d.statusEmoji.Some? then d.statusEmoji.value else None)
                && r.1 == s.(presence := s.presence + [r.0.data])
    ensures FindPresence(s.presence, userId).Some? ==>
              var prior := FindPresence(s.presence, userId).value;
              && r.0.Success? && r.0.message == "Presence updated successfully"
              && r.0.data.userId == userId && r.0.data.updatedAt == now
              && r.0.data.status == (if d.status.Some? then d.status.value else prior.status)
              && r.0.data.statusText == (if d.statusText.Some? then d.statusText.value else prior.statusText)
              && r.0.data.statusEmoji == (if d.statusEmoji.Some? then d.statusEmoji.value else prior.statusEmoji)
              && r.0.data.lastSeen == (if d.lastSeen.Some? then d.lastSeen.value else prior.lastSeen)
              && r.1 == s.(presence := UpdateWhereUser(s.presence, userId, r.0.data))
  {
    match FindPresence(s.presence, userId)
    case None =>
      if FindUser(s.users, userId).None? then (Failure("Failed to update presence"), s)
      else
        var row := Patched(Presence(userId, Online, None, None, now, now), d);
        (Success("Initial presence created successfully", row), s.(presence := s.presence + [row]))
    case Some(p) =>
      var row := Patched(p, d).(updatedAt := now);
      (Success("Presence updated successfully", row), s.(presence := UpdateWhereUser(s.presence, userId, row)))
  }

  /** The upsert never creates a second row for a user, and only that user's row changes. */
  lemma UpsertPresenceKeepsOneRowPerUser(s: Store, userId: Id, d: PresencePatch, now: nat)
    requires OneRowPerUser(s.presence)
    ensures var s1 := UpsertPresence(s, userId, d, now).1;
            && OneRowPerUser(s1.presence)
            && forall p :: p in s.presence && p.userId != userId ==> p in s1.presence
  {
    var s1 := UpsertPresence(s, userId, d, now).1;
    if FindPresence(s.presence, userId).None? && s1 != s {
      var t := s1.presence;
      forall i, j | 0 <= i < j < |t| ensures t[i].userId != t[j].userId {
        if j == |s.presence| {
          assert t[i] in s.presence;
        }
      }
    }
    forall p | p in s.presence && p.userId != userId ensures p in s1.presence {
      var i :| 0 <= i < |s.presence| && s.presence[i] == p;
      assert s1.presence[i] == p;
    }
  }

  /** `getPresenceAction`: succeeds with no data when the user has no row. */
  function GetPresence(s: Store, userId: Id): (r: ActionState<Option<Presence>>)
    ensures r.Success? && r.message == "Presence retrieved successfully"
    ensures r.data.None? <==> forall p :: p in s.presence ==> p.userId != userId
    ensures r.data.Some? ==> r.data.value in s.presence && r.data.value.userId == userId
  {
    Success("Presence retrieved successfully", FindPresence(s.presence, userId))
  }

  /** After a successful upsert, reading the user's presence answers the upserted row. */
  lemma UpsertThenGetPresence(s: Store, userId: Id, d: PresencePatch, now: nat)
    requires OneRowPerUser(s.presence)
    requires UpsertPresence(s, userId, d, now).0.Success?
    ensures var (r, s1) := UpsertPresence(s, userId, d, now);
            GetPresence(s1, userId).data == Some(r.data)
  {
    var (r, s1) := UpsertPresence(s, userId, d, now);
    UpsertPresenceKeepsOneRowPerUser(s, userId, d, now);
    assert r.data in s1.presence by {
      if FindPresence(s.presence, userId).Some? {
        var i :| 0 <= i < |s.presence| && s.presence[i] == FindPresence(s.presence, userId).value;
        assert s1.presence[i] == r.data;
      }
    }
    OnlyRowOfUser(s1.presence, r.data);
  }

  /** With one row per user, the lookup answers the user's only row. */
  lemma {:induction false} OnlyRowOfUser(rows: seq<Presence>, p: Presence)
    requires OneRowPerUser(rows) && p in rows
    ensures FindPresence(rows, p.userId) == Some(p)
  {
    if rows[0] != p {
      assert rows[0].userId != p.userId by {
        var k :| 0 < k < |rows| && rows[k] == p;
      }
      assert p in rows[1..];
      OnlyRowOfUser(rows[1..], p);
    }
  }

  /** `inArray(presence.user_id, userIds)`, in table order. */
  function RowsOfUsers(rows: seq<Presence>, userIds: seq<Id>): (r: seq<Presence>)
    ensures |r| <= |rows|
    ensures forall p :: p in r <==> p in rows && p.userId in userIds
  {
    Sequences.Filter(rows, (p: Presence) => p.userId in userIds)
  }

  /** `getPresencesAction`: exactly the rows whose user is listed. */
  function GetPresences(s: Store, userIds: seq<Id>): (r: ActionState<seq<Presence>>)
    ensures r.Success? && r.message == "Presences retrieved successfully"
    ensures forall p :: p in r.data <==> p in s.presence && p.userId in userIds
  {
    Success("Presences retrieved successfully", RowsOfUsers(s.presence, userIds))
  }
}

=== FILE: presence_view.dfy ===
/** The workspace presence provider: a map from user id to presence row for the users the
    workspace lists, filled by an initial load and kept current by the `presence` table's
    change feed. Change-feed rows arrive with the database's snake-case column names; the
    provider as written reads the user from a camel-cased `userId` field those rows do not
    have, and the corrected provider reads `user_id`. */
module PresenceView {
  import opened Wrappers
  import opened Schema
  import opened Records
  import Realtime
  import PresenceActions

  /** An entry of the map: a typed row from the initial load, or a feed row as delivered. */
  datatype Shown = Loaded(p: Presence) | Live(r: Record)

  type PresenceMap = map<Id, Shown>

  /** The user an entry describes, read as the database names the column. */
  function ShownUser(e: Shown): Value {
    match e
    case Loaded(p) => Str(p.userId)
    case Live(r) => Get(r, "user_id")
  }

  /** Every entry sits under the user it describes, and only listed users have one. */
  ghost predicate Keyed(m: PresenceMap, userIds: seq<Id>) {
    forall u :: u in m ==> u in userIds && ShownUser(m[u]) == Str(u)
  }

  /** The `workspace-presence` subscription: every event of the `presence` table, unfiltered. */
  const PresenceSubscription := Realtime.Subscription("presence", None)

  /** The row the callback reads: `payload.new`, whatever the event type, and only while the
      provider lists some user (no subscription is made for an empty list). */
  function Delivered(userIds: seq<Id>, table: string, p: Realtime.Payload): (r: Option<Record>)
    ensures r.Some? <==> userIds != [] && table == "presence"
    ensures r.Some? ==> r.value == p.newRecord
  {
    if userIds != [] && Realtime.Delivers(PresenceSubscription, table, p.newRecord) then Some(p.newRecord) else None
  }

  // ---------------------------------------------------------------------------
  // The change feed as written
  // ---------------------------------------------------------------------------

  /** The callback as written: a row whose `userId` is a listed user replaces that user's entry. */
  function HandleEventAsWritten(m: PresenceMap, userIds: seq<Id>, table: string, p: Realtime.Payload): (r: PresenceMap)
    ensures forall u :: u in m ==> u in r
    ensures r != m ==> table == "presence" && userIds != []
    ensures r != m ==> exists u :: u in userIds && Get(p.newRecord, "userId") == Str(u) && r == m[u := Live(p.newRecord)]
  {
    match Delivered(userIds, table, p)
    case None => m
    case Some(row) =>
      match Get(row, "userId")
      case Str(u) => if u in userIds then m[u := Live(row)] else m
      case _ => m
  }

  /** As written, no change reaches the map: the feed's rows carry `user_id` and no `userId`
      field, so `userIds.includes(row.userId)` asks about `undefined`. */
  lemma EventIgnoredAsWritten(m: PresenceMap, userIds: seq<Id>, table: string, p: Realtime.Payload)
    requires !HasKey(p.newRecord, "userId")
    ensures HandleEventAsWritten(m, userIds, table, p) == m
  {
  }

  /** A presence row as the database sends it. */
  const SampleRow: Record := [Field("user_id", Str("u1")), Field("status", Str("online"))]

  /** User `u1` comes online: as written the map keeps its old entry for `u1`, while the
      corrected callback shows the new row. */
  lemma SampleRowMissedAsWritten(m: PresenceMap)
    ensures HandleEventAsWritten(m, ["u1"], "presence", Realtime.Payload("UPDATE", SampleRow, [])) == m
    ensures HandleEvent(m, ["u1"], "presence", Realtime.Payload("UPDATE", SampleRow, []))["u1"] == Live(SampleRow)
  {
    assert Get(SampleRow, "user_id") == Str("u1");
  }

  // ---------------------------------------------------------------------------
  // The corrected change feed
  // ---------------------------------------------------------------------------

  /** Whether a delivered change names the listed user `u`. */
  predicate Names(userIds: seq<Id>, table: string, p: Realtime.Payload, u: Id) {
    Delivered(userIds, table, p).Some? && Get(p.newRecord, "user_id") == Str(u) && u in userIds
  }

  /** The corrected callback: a row naming a listed user replaces that user's entry; every
      other entry stays, and a row naming nobody listed (a delete's empty `new` among them)
      changes nothing. */
  function HandleEvent(m: PresenceMap, userIds: seq<Id>, table: string, p: Realtime.Payload): (r: PresenceMap)
    ensures forall u :: u in r <==> u in m || Names(userIds, table, p, u)
    ensures forall u :: u in r ==> r[u] == if Names(userIds, table, p, u) then Live(p.newRecord) else m[u]
  {
    match Delivered(userIds, table, p)
    case None => m
    case Some(row) =>
      match Get(row, "user_id")
      case Str(u) => if u in userIds then m[u := Live(row)] else m
      case _ => m
  }

  /** Every delivered change keeps the map keyed by the users it describes. */
  lemma EventKeepsKeyed(m: PresenceMap, userIds: seq<Id>, table: string, p: Realtime.Payload)
    requires Keyed(m, userIds)
    ensures Keyed(HandleEvent(m, userIds, table, p), userIds)
  {
  }

  /** With no users listed there is no feed, so nothing changes. */
  lemma NoUsersNoChange(m: PresenceMap, table: string, p: Realtime.Payload, response: ActionState<seq<Presence>>)
    ensures HandleEvent(m, [], table, p) == m
    ensures LoadInitial(m, [], response) == m
  {
  }

  // ---------------------------------------------------------------------------
  // The initial load
  // ---------------------------------------------------------------------------

  /** The `forEach` over the answer: each row under its user, a later row for the same user
      replacing an earlier one. */
  function ByUser(rows: seq<Presence>): (r: PresenceMap)
    ensures forall u :: u in r <==> exists p :: p in rows && p.userId == u
    ensures forall u :: u in r ==> r[u].Loaded? && r[u].p in rows && r[u].p.userId == u
    ensures |rows| > 0 ==> r[rows[|rows| - 1].userId] == Loaded(rows[|rows| - 1])
  {
    if |rows| == 0 then map[]
    else
      var last := rows[|rows| - 1];
      var prefix := rows[..|rows| - 1];
      assert forall p :: p in rows <==> p in prefix || p == last;
      ByUser(prefix)[last.userId := Loaded(last)]
  }

  /** `loadInitialPresence`: nothing for an empty list; a successful answer replaces the
      whole map; a failed one leaves it. */
  function LoadInitial(m: PresenceMap, ids: seq<Id>, response: ActionState<seq<Presence>>): (r: PresenceMap)
    ensures ids == [] || response.Failure? ==> r == m
    ensures ids != [] && response.Success? ==>
              forall u :: u in r <==> exists p :: p in response.data && p.userId == u
  {
    if ids != [] && response.Success? then ByUser(response.data) else m
  }

  /** Loading from the store, which holds one row per user, maps exactly the listed users
      who have a row, each to that row; so the loaded map is keyed. */
  lemma LoadAgainstStore(s: Store, ids: seq<Id>, m: PresenceMap)
    requires PresenceActions.OneRowPerUser(s.presence) && ids != []
    ensures var r := LoadInitial(m, ids, PresenceActions.GetPresences(s, ids));
            && (forall u :: u in r <==> u in ids && PresenceActions.FindPresence(s.presence, u).Some?)
            && (forall u :: u in r ==> r[u] == Loaded(PresenceActions.FindPresence(s.presence, u).value))
            && Keyed(r, ids)
  {
    var data := PresenceActions.GetPresences(s, ids).data;
    var r := LoadInitial(m, ids, PresenceActions.GetPresences(s, ids));
    forall u | u in r
      ensures u in ids && PresenceActions.FindPresence(s.presence, u) == Some(r[u].p)
    {
      PresenceActions.OnlyRowOfUser(s.presence, r[u].p);
    }
    forall u | u in ids && PresenceActions.FindPresence(s.presence, u).Some?
      ensures u in r
    {
      assert PresenceActions.FindPresence(s.presence, u).value in data;
    }
  }
}

=== FILE: reactions.dfy ===
/** The reactions column of a message: a JSON object mapping each emoji to the ids of the
    users who reacted with it, edited by read-modify-write. */
module Reactions {

  /** `MessageReactions`: emoji to reactor ids. A new message starts with the empty map. */
  type ReactionMap = map<string, seq<string>>

  /** The invariant the two edits keep: no emoji is left with an empty reactor list. */
  ghost predicate NoEmptyLists(r: ReactionMap) {
    forall e :: e in r ==> r[e] != []
  }

  /** `reactions[emoji]?.includes(userId)`: the user already reacted with that emoji. */
  predicate HasReacted(r: ReactionMap, emoji: string, user: string) {
    emoji in r && user in r[emoji]
  }

  /** `list.filter(id => id !== user)`. */
  function Without(list: seq<string>, user: string): (r: seq<string>)
    ensures user !in r
    ensures forall x :: x in r <==> x in list && x != user
    ensures user !in list ==> r == list
  {
    if |list| == 0 then []
    else if list[0] == user then Without(list[1..], user)
    else
      assert list == [list[0]] + list[1..];
      [list[0]] + Without(list[1..], user)
  }

  /** The body of `addReactionAction`: create the emoji's list if absent, then append the
      user unless already present. */
  function Add(r: ReactionMap, emoji: string, user: string): (r': ReactionMap)
    ensures HasReacted(r', emoji, user)
    ensures r'.Keys == r.Keys + {emoji}
    ensures forall e :: e in r && e != emoji ==> r'[e] == r[e]
    ensures HasReacted(r, emoji, user) ==> r' == r
    ensures emoji in r && !HasReacted(r, emoji, user) ==> r'[emoji] == r[emoji] + [user]
    ensures emoji !in r ==> r'[emoji] == [user]
  {
    var list := if emoji in r then r[emoji] else [];
    if user in list then r else r[emoji := list + [user]]
  }

  /** The body of `removeReactionAction`: filter the user out of the emoji's list and
      delete the key when the list becomes empty; an absent emoji changes nothing. */
  function Remove(r: ReactionMap, emoji: string, user: string): (r': ReactionMap)
    ensures !HasReacted(r', emoji, user)
    ensures emoji in r' ==> r'[emoji] != [] && emoji in r && r'[emoji] == Without(r[emoji], user)
    ensures emoji in r && Without(r[emoji], user) != [] ==> emoji in r'
    ensures forall e :: e != emoji ==> (e in r' <==> e in r)
    ensures forall e :: e in r && e != emoji ==> r'[e] == r[e]
    ensures emoji !in r ==> r' == r
  {
    if emoji in r then
      var kept := Without(r[emoji], user);
      if kept == [] then r - {emoji} else r[emoji := kept]
    else r
  }

  /** Adding keeps the no-empty-list invariant. */
  lemma AddKeepsNoEmptyLists(r: ReactionMap, emoji: string, user: string)
    requires NoEmptyLists(r)
    ensures NoEmptyLists(Add(r, emoji, user))
  {
  }

  /** Removing keeps the no-empty-list invariant, and even repairs it for the emoji touched. */
  lemma RemoveKeepsNoEmptyLists(r: ReactionMap, emoji: string, user: string)
    requires NoEmptyLists(r)
    ensures NoEmptyLists(Remove(r, emoji, user))
  {
  }

  /** Adding twice is adding once. */
  lemma AddIdempotent(r: ReactionMap, emoji: string, user: string)
    ensures Add(Add(r, emoji, user), emoji, user) == Add(r, emoji, user)
  {
  }

  /** Removing twice is removing once. */
  lemma RemoveIdempotent(r: ReactionMap, emoji: string, user: string)
    ensures Remove(Remove(r, emoji, user), emoji, user) == Remove(r, emoji, user)
  {
  }

  /** Add then remove of the same (user, emoji) restores the map, provided the user had
      not reacted and no list was empty. */
  lemma AddThenRemoveRestores(r: ReactionMap, emoji: string, user: string)
    requires NoEmptyLists(r)
    requires !HasReacted(r, emoji, user)
    ensures Remove(Add(r, emoji, user), emoji, user) == r
  {
    var a := Add(r, emoji, user);
    var b := Remove(a, emoji, user);
    if emoji in r {
      WithoutAppended(r[emoji], user);
      assert a[emoji] == r[emoji] + [user];
      assert b[emoji] == r[emoji];
    } else {
      assert a[emoji] == [user];
      assert Without([user], user) == [];
    }
    assert b.Keys == r.Keys;
  }

  lemma {:induction false} WithoutAppended(list: seq<string>, user: string)
    requires user !in list
    ensures Without(list + [user], user) == list
  {
    if |list| == 0 {
      assert [] + [user] == [user];
      assert Without([user], user) == Without([], user);
    } else {
      assert (list + [user])[1..] == list[1..] + [user];
      WithoutAppended(list[1..], user);
      assert list == [list[0]] + list[1..];
    }
  }

  /** The client's decision: remove when the user already reacted with the emoji, add
      otherwise. A missing reactions object counts as empty. */
  datatype ReactionIntent = AddIntent | RemoveIntent

  function ToggleIntent(r: ReactionMap, emoji: string, user: string): (i: ReactionIntent)
    ensures i == RemoveIntent <==> HasReacted(r, emoji, user)
  {
    if HasReacted(r, emoji, user) then RemoveIntent else AddIntent
  }

  /** The edit an intent asks the server for. */
  function ApplyIntent(r: ReactionMap, i: ReactionIntent, emoji: string, user: string): (r': ReactionMap)
    ensures HasReacted(r', emoji, user) <==> i == AddIntent
    ensures forall e :: e != emoji ==> (e in r' <==> e in r)
    ensures forall e :: e in r && e != emoji ==> r'[e] == r[e]
  {
    match i
    case AddIntent => Add(r, emoji, user)
    case RemoveIntent => Remove(r, emoji, user)
  }

  /** Toggling flips whether the user has reacted with the emoji. */
  lemma ToggleFlips(r: ReactionMap, emoji: string, user: string)
    ensures HasReacted(ApplyIntent(r, ToggleIntent(r, emoji, user), emoji, user), emoji, user)
            <==> !HasReacted(r, emoji, user)
  {
  }

  /** Toggling twice from a state where the user had not reacted restores the map. */
  lemma ToggleTwiceRestores(r: ReactionMap, emoji: string, user: string)
    requires NoEmptyLists(r)
    requires !HasReacted(r, emoji, user)
    ensures var once := ApplyIntent(r, ToggleIntent(r, emoji, user), emoji, user);
            ApplyIntent(once, ToggleIntent(once, emoji, user), emoji, user) == r
  {
    AddThenRemoveRestores(r, emoji, user);
  }

  /** Two users react with the same emoji, then the first takes the reaction back. */
  lemma TwoReactorsScenario(x: string, y: string)
    requires x != y
    ensures var thumbs := "\U{1F44D}";
            var both := Add(Add(map[], thumbs, x), thumbs, y);
            both == map[thumbs := [x, y]] && Remove(both, thumbs, x) == map[thumbs := [y]]
  {
    var thumbs := "\U{1F44D}";
    var both := Add(Add(map[], thumbs, x), thumbs, y);
    assert both[thumbs] == [x, y];
    assert Without([x, y], x) == [y];
  }
}

=== FILE: realtime.dfy ===
/** The change-feed hooks: which rows a subscription delivers, how the event type picks the
    callback and its record, and the date aliases the channel-message feed adds. The
    transport itself (joining and leaving feeds) is not modelled; a delivered change is a
    `Payload` value. */
module Realtime {
  import opened Wrappers
  import opened Records
  import opened Reconcile
  import opened Schema

  /** One delivered change: its event type and the row after and before it. */
  datatype Payload = Payload(eventType: string, newRecord: Record, oldRecord: Record)

  /** A `postgres_changes` subscription on a table, with an optional `column=eq.value` filter. */
  datatype Subscription = Subscription(table: string, filter: Option<(string, string)>)

  /** The row a change is judged and reported by: the old row for deletes, else the new one. */
  function EventRow(p: Payload): Record {
    if p.eventType == "DELETE" then p.oldRecord else p.newRecord
  }

  predicate KnownEvent(p: Payload) {
    p.eventType == "INSERT" || p.eventType == "UPDATE" || p.eventType == "DELETE"
  }

  /** A subscription delivers a change of its table whose row satisfies the filter. */
  predicate Delivers(sub: Subscription, table: string, row: Record) {
    table == sub.table && (sub.filter.None? || Get(row, sub.filter.value.0) == Str(sub.filter.value.1))
  }

  /** `normalizeRecord`: `{ ...record, createdAt: record.created_at, updatedAt: record.updated_at }`. */
  function Normalize(r: Record): (n: Record)
    ensures Get(n, "createdAt") == Get(r, "created_at") && Get(n, "updatedAt") == Get(r, "updated_at")
    ensures forall k :: k != "createdAt" && k != "updatedAt" ==> Get(n, k) == Get(r, k)
    ensures forall k :: HasKey(n, k) <==> HasKey(r, k) || k == "createdAt" || k == "updatedAt"
  {
    var r1 := Set(r, "createdAt", Get(r, "created_at"));
    SetThenGet(r, "createdAt", Get(r, "created_at"));
    SetKeys(r, "createdAt", Get(r, "created_at"));
    SetThenGet(r1, "updatedAt", Get(r, "updated_at"));
    SetKeys(r1, "updatedAt", Get(r, "updated_at"));
    Set(r1, "updatedAt", Get(r, "updated_at"))
  }

  /** The aliases are no timestamp columns, so normalizing a row does not change whether
      its conversion throws. */
  lemma NormalizeKeepsThrows(r: Record)
    ensures Throws(Normalize(r)) <==> Throws(r)
  {
    var r1 := Set(r, "createdAt", Get(r, "created_at"));
    assert "createdAt"[1] == 'r' && "updatedAt"[1] == 'p';
    SetKeepsThrows(r, "createdAt", Get(r, "created_at"));
    SetKeepsThrows(r1, "updatedAt", Get(r, "updated_at"));
  }

  /** Normalizing twice is normalizing once: the aliases are already in place. */
  lemma NormalizeIdempotent(r: Record)
    ensures Normalize(Normalize(r)) == Normalize(r)
  {
    var n := Normalize(r);
    NormalizeAliased(r);
    SetExisting(n, "createdAt");
    var n1 := Set(n, "createdAt", Get(n, "created_at"));
    assert n1 == n;
    SetExisting(n, "updatedAt");
    assert Set(n1, "updatedAt", Get(n, "updated_at")) == n;
  }

  /** A normalized row holds both aliases, each equal to its snake-case column. */
  lemma NormalizeAliased(r: Record)
    ensures var n := Normalize(r);
            && HasKey(n, "createdAt") && HasKey(n, "updatedAt")
            && Get(n, "created_at") == Get(n, "createdAt") && Get(n, "updated_at") == Get(n, "updatedAt")
  {
    var c := Get(r, "created_at");
    var u := Get(r, "updated_at");
    var r1 := Set(r, "createdAt", c);
    assert "created_at"[7] == '_' && "createdAt"[7] == 'A' && "updated_at"[7] == '_' && "updatedAt"[7] == 'A';
    assert "created_at"[0] == 'c' && "createdAt"[0] == 'c' && "updated_at"[0] == 'u' && "updatedAt"[0] == 'u';
    SetKeepsOther(r, "createdAt", c, "created_at");
    SetKeepsOther(r, "createdAt", c, "updated_at");
    SetKeepsOther(r1, "updatedAt", u, "created_at");
    SetKeepsOther(r1, "updatedAt", u, "updated_at");
    SetKeepsOther(r1, "updatedAt", u, "createdAt");
    var n := Set(r1, "updatedAt", u);
    assert n == Normalize(r);
    SetHasKey(r, "createdAt", c, "createdAt");
    SetHasKey(r1, "updatedAt", u, "createdAt");
    SetHasKey(r1, "updatedAt", u, "updatedAt");
    SetThenGet(r, "createdAt", c);
    SetThenGet(r1, "updatedAt", u);
    assert Get(n, "created_at") == c == Get(n, "createdAt");
    assert Get(n, "updated_at") == u == Get(n, "updatedAt");
  }

  /** `normalizeRecord` keeps a field that is the only source of its camel-cased name so, and
      keeps its value, for any name other than the two aliases. */
  lemma NormalizeKeepsSoleSource(r: Record, key: string)
    requires SoleCamelSource(r, key)
    requires CamelKey(key) != "createdAt" && CamelKey(key) != "updatedAt"
    ensures SoleCamelSource(Normalize(r), key)
    ensures Get(Normalize(r), key) == Get(r, key)
  {
    AliasKeys();
    var r1 := Set(r, "createdAt", Get(r, "created_at"));
    SetKeepsSoleSource(r, "createdAt", Get(r, "created_at"), key);
    SetKeepsSoleSource(r1, "updatedAt", Get(r, "updated_at"), key);
  }

  /** The `switch (eventType)`: inserts and updates report the new row, deletes the old one,
      other event types nothing; the channel-message feed normalizes the row first. */
  function Dispatch(p: Payload, normalize: bool): (e: Option<ChangeEvent<Record>>)
    ensures e.None? <==> !KnownEvent(p)
    ensures e.Some? ==> e.value.row == (if normalize then Normalize(EventRow(p)) else EventRow(p))
    ensures e.Some? ==>
              && (e.value.Inserted? <==> p.eventType == "INSERT")
              && (e.value.Updated? <==> p.eventType == "UPDATE")
              && (e.value.Deleted? <==> p.eventType == "DELETE")
  {
    var row := if normalize then Normalize(EventRow(p)) else EventRow(p);
    if p.eventType == "INSERT" then Some(Inserted(row))
    else if p.eventType == "UPDATE" then Some(Updated(row))
    else if p.eventType == "DELETE" then Some(Deleted(row))
    else None
  }

  /** Every column other than the two aliases reads the same in the reported row as in the
      changed row. */
  lemma DispatchKeepsColumn(p: Payload, normalize: bool, k: string)
    requires k != "createdAt" && k != "updatedAt"
    ensures Dispatch(p, normalize).Some? ==> Get(Dispatch(p, normalize).value.row, k) == Get(EventRow(p), k)
  {
  }

  /** What the callbacks of a feed receive for one change of `table`. */
  function Feed(sub: Option<Subscription>, table: string, p: Payload, normalize: bool): Option<ChangeEvent<Record>> {
    if sub.Some? && Delivers(sub.value, table, EventRow(p)) then Dispatch(p, normalize) else None
  }

  /** `useRealtimeMessages`: no subscription for an empty channel id. */
  function MessagesSubscription(channelId: string): Option<Subscription> {
    if channelId == [] then None else Some(Subscription("messages", Some(("channel_id", channelId))))
  }

  /** `useRealtimeDirectMessages`: no subscription for an empty chat id. */
  function DirectMessagesSubscription(chatId: string): Option<Subscription> {
    if chatId == [] then None else Some(Subscription("direct_messages", Some(("chat_id", chatId))))
  }

  /** The channel-message feed: only changes of `messages` rows of that channel, normalized;
      nothing at all for an empty id. */
  function MessagesFeed(channelId: string, table: string, p: Payload): (e: Option<ChangeEvent<Record>>)
    ensures channelId == [] ==> e.None?
    ensures e.Some? ==> table == "messages" && Get(EventRow(p), "channel_id") == Str(channelId)
    ensures e.Some? ==> e.value.row == Normalize(EventRow(p))
    ensures channelId != [] && table == "messages" && Get(EventRow(p), "channel_id") == Str(channelId) ==>
              e == Dispatch(p, true)
  {
    Feed(MessagesSubscription(channelId), table, p, true)
  }

  /** The direct-message feed: only changes of `direct_messages` rows of that chat, as
      received; nothing at all for an empty id. */
  function DirectMessagesFeed(chatId: string, table: string, p: Payload): (e: Option<ChangeEvent<Record>>)
    ensures chatId == [] ==> e.None?
    ensures e.Some? ==> table == "direct_messages" && Get(EventRow(p), "chat_id") == Str(chatId)
    ensures e.Some? ==> e.value.row == EventRow(p)
    ensures chatId != [] && table == "direct_messages" && Get(EventRow(p), "chat_id") == Str(chatId) ==>
              e == Dispatch(p, false)
  {
    Feed(DirectMessagesSubscription(chatId), table, p, false)
  }

  /** `useRealtimeChannels` and `useRealtimeDirectChats` subscribe to the whole table. */
  const ChannelsSubscription := Subscription("channels", None)
  const DirectChatsSubscription := Subscription("direct_chats", None)

  /** Neither table feed filters rows: every change of the table reaches the callbacks,
      unnormalized. */
  lemma TableFeedsUnfiltered(p: Payload)
    ensures Feed(Some(ChannelsSubscription), "channels", p, false) == Dispatch(p, false)
    ensures Feed(Some(DirectChatsSubscription), "direct_chats", p, false) == Dispatch(p, false)
    ensures forall t :: t != "channels" ==> Feed(Some(ChannelsSubscription), t, p, false).None?
  {
  }

  // ---------------------------------------------------------------------------
  // Typed message rows.
  // ---------------------------------------------------------------------------

  /** The table a message row lives in. */
  function TableOf(m: Message): string {
    match m
    case ChannelMessage(_, _, _, _, _, _, _, _, _, _, _) => "messages"
    case DirectMessage(_, _, _, _, _, _, _, _, _, _, _) => "direct_messages"
  }

  /** The text of the columns a feed filter can name; `None` for a null or absent column. */
  function Column(m: Message, column: string): (v: Option<string>)
    ensures column == "parent_id" ==> v == m.parentId
    ensures column == "channel_id" ==> v == if m.ChannelMessage? then Some(m.channelId) else None
    ensures column == "chat_id" ==> v == if m.DirectMessage? then Some(m.chatId) else None
  {
    if column == "id" then Some(m.id)
    else if column == "parent_id" then m.parentId
    else if column == "channel_id" && m.ChannelMessage? then Some(m.channelId)
    else if column == "chat_id" && m.DirectMessage? then Some(m.chatId)
    else None
  }

  /** A subscription delivers the changes of a message row of its table that passes its filter. */
  predicate Receives(sub: Subscription, m: Message) {
    sub.table == TableOf(m) && (sub.filter.None? || Column(m, sub.filter.value.0) == Some(sub.filter.value.1))
  }

  /** The `messages` feed filtered on `channel_id` delivers exactly the channel's messages, and
      the `direct_messages` feed filtered on `chat_id` exactly the chat's. */
  lemma ConversationFeeds(m: Message, id: Id)
    ensures Receives(Subscription("messages", Some(("channel_id", id))), m) <==>
              m.ChannelMessage? && m.channelId == id
    ensures Receives(Subscription("direct_messages", Some(("chat_id", id))), m) <==>
              m.DirectMessage? && m.chatId == id
  {
  }
}

=== FILE: reconcile.dfy ===
/** Reconciliation of a change-feed event into an ordered in-memory list, the pattern
    every open view repeats: insert appends, update replaces by id, delete removes by id. */
module Reconcile {
  import Sequences

  /** A row-level change: the new row for inserts and updates, the old row for deletes. */
  datatype ChangeEvent<T> = Inserted(row: T) | Updated(row: T) | Deleted(row: T)

  /** `prev.map(x => x.id === row.id ? row : x)`. */
  function ReplaceById<T, K(==)>(xs: seq<T>, row: T, idOf: T -> K): (r: seq<T>)
    ensures |r| == |xs|
    ensures forall i :: 0 <= i < |xs| && idOf(xs[i]) == idOf(row) ==> r[i] == row
    ensures forall i :: 0 <= i < |xs| && idOf(xs[i]) != idOf(row) ==> r[i] == xs[i]
  {
    Sequences.ReplaceWhere(xs, (x: T) => idOf(x) == idOf(row), row)
  }

  /** `prev.filter(x => x.id !== id)`. */
  function RemoveById<T, K(==)>(xs: seq<T>, id: K, idOf: T -> K): (r: seq<T>)
    ensures |r| <= |xs|
    ensures forall i :: 0 <= i < |r| ==> r[i] in xs && idOf(r[i]) != id
    ensures forall i :: 0 <= i < |xs| && idOf(xs[i]) != id ==> xs[i] in r
  {
    if |xs| == 0 then []
    else if idOf(xs[0]) == id then RemoveById(xs[1..], id, idOf)
    else [xs[0]] + RemoveById(xs[1..], id, idOf)
  }

  /** Applies one event: insert appends without any de-duplication. */
  function Apply<T, K(==)>(xs: seq<T>, ev: ChangeEvent<T>, idOf: T -> K): (r: seq<T>)
    ensures ev.Inserted? ==> |r| == |xs| + 1 && r[..|xs|] == xs && r[|xs|] == ev.row
    ensures ev.Updated? ==> |r| == |xs| && forall i :: 0 <= i < |xs| ==> r[i] == (if idOf(xs[i]) == idOf(ev.row) then ev.row else xs[i])
    ensures ev.Deleted? ==> (forall i :: 0 <= i < |r| ==> r[i] in xs && idOf(r[i]) != idOf(ev.row))
                            && (forall i :: 0 <= i < |xs| && idOf(xs[i]) != idOf(ev.row) ==> xs[i] in r)
  {
    match ev
    case Inserted(row) => xs + [row]
    case Updated(row) => ReplaceById(xs, row, idOf)
    case Deleted(row) => RemoveById(xs, idOf(row), idOf)
  }

  /** How many entries carry `id`. */
  function CountId<T, K(==)>(xs: seq<T>, id: K, idOf: T -> K): nat {
    if |xs| == 0 then 0 else (if idOf(xs[0]) == id then 1 else 0) + CountId(xs[1..], id, idOf)
  }

  /** The ids of a list, in order. */
  function Ids<T, K(==)>(xs: seq<T>, idOf: T -> K): (r: seq<K>)
    ensures |r| == |xs| && forall i :: 0 <= i < |xs| ==> r[i] == idOf(xs[i])
  {
    seq(|xs|, i requires 0 <= i < |xs| => idOf(xs[i]))
  }

  /** Removal keeps the survivors in their original order: it distributes over concatenation. */
  lemma {:induction false} RemoveDistributes<T, K>(xs: seq<T>, ys: seq<T>, id: K, idOf: T -> K)
    ensures RemoveById(xs + ys, id, idOf) == RemoveById(xs, id, idOf) + RemoveById(ys, id, idOf)
  {
    if |xs| == 0 {
      assert xs + ys == ys;
    } else {
      assert (xs + ys)[0] == xs[0];
      assert (xs + ys)[1..] == xs[1..] + ys;
      RemoveDistributes(xs[1..], ys, id, idOf);
    }
  }

  /** Removing an id that no entry carries changes nothing. */
  lemma {:induction false} RemoveAbsentIsIdentity<T, K>(xs: seq<T>, id: K, idOf: T -> K)
    requires forall i :: 0 <= i < |xs| ==> idOf(xs[i]) != id
    ensures RemoveById(xs, id, idOf) == xs
  {
    if |xs| > 0 {
      RemoveAbsentIsIdentity(xs[1..], id, idOf);
      assert xs == [xs[0]] + xs[1..];
    }
  }

  /** Removing twice is removing once. */
  lemma RemoveIdempotent<T, K>(xs: seq<T>, id: K, idOf: T -> K)
    ensures RemoveById(RemoveById(xs, id, idOf), id, idOf) == RemoveById(xs, id, idOf)
  {
    var r := RemoveById(xs, id, idOf);
    RemoveAbsentIsIdentity(r, id, idOf);
  }

  /** An update never changes the length or the sequence of ids, and applying the same
      update twice is applying it once (the merge tolerates a replayed update). */
  lemma UpdateIdempotent<T, K>(xs: seq<T>, row: T, idOf: T -> K)
    ensures Ids(Apply(xs, Updated(row), idOf), idOf) == Ids(xs, idOf)
    ensures Apply(Apply(xs, Updated(row), idOf), Updated(row), idOf) == Apply(xs, Updated(row), idOf)
  {
  }

  /** A delete that follows an insert of the same row leaves the list as if the id had
      simply been removed; when the id was new, the list is restored exactly. */
  lemma InsertThenDelete<T, K>(xs: seq<T>, row: T, idOf: T -> K)
    ensures Apply(Apply(xs, Inserted(row), idOf), Deleted(row), idOf) == RemoveById(xs, idOf(row), idOf)
    ensures (forall i :: 0 <= i < |xs| ==> idOf(xs[i]) != idOf(row)) ==>
              Apply(Apply(xs, Inserted(row), idOf), Deleted(row), idOf) == xs
  {
    RemoveDistributes(xs, [row], idOf(row), idOf);
    assert RemoveById([row], idOf(row), idOf) == [];
    if forall i :: 0 <= i < |xs| ==> idOf(xs[i]) != idOf(row) {
      RemoveAbsentIsIdentity(xs, idOf(row), idOf);
    }
  }

  lemma {:induction false} CountIdAppend<T, K>(xs: seq<T>, row: T, idOf: T -> K)
    ensures CountId(xs + [row], idOf(row), idOf) == CountId(xs, idOf(row), idOf) + 1
  {
    if |xs| == 0 {
      assert xs + [row] == [row];
    } else {
      assert (xs + [row])[1..] == xs[1..] + [row];
      CountIdAppend(xs[1..], row, idOf);
    }
  }

  /** Inserts are not de-duplicated: replaying an insert for a row already in the list
      (say, one the initial snapshot also returned) leaves two entries with its id. */
  lemma InsertDuplicates<T, K>(xs: seq<T>, row: T, idOf: T -> K)
    requires row in xs
    ensures CountId(Apply(xs, Inserted(row), idOf), idOf(row), idOf) >= 2
  {
    CountIdAppend(xs, row, idOf);
    CountIdPositive(xs, row, idOf);
  }

  lemma {:induction false} CountIdPositive<T, K>(xs: seq<T>, row: T, idOf: T -> K)
    requires row in xs
    ensures CountId(xs, idOf(row), idOf) >= 1
  {
    if xs[0] != row {
      assert row in xs[1..];
      CountIdPositive(xs[1..], row, idOf);
    }
  }

  /** A property every listed row and the event's row have holds of every row afterwards:
      reconciliation only ever adds the event's row or keeps rows it had. */
  lemma ApplyKeeps<T, K>(xs: seq<T>, ev: ChangeEvent<T>, idOf: T -> K, p: T -> bool)
    requires forall x :: x in xs ==> p(x)
    requires p(ev.row)
    ensures forall x :: x in Apply(xs, ev, idOf) ==> p(x)
  {
    var r := Apply(xs, ev, idOf);
    forall x | x in r ensures p(x) {
      var i :| 0 <= i < |r| && r[i] == x;
      match ev
      case Inserted(row) =>
        if i < |xs| {
          assert x == xs[i];
        }
      case Updated(row) =>
        if idOf(xs[i]) != idOf(row) {
          assert x == xs[i];
        }
      case Deleted(row) =>
    }
  }
}

=== FILE: records.dfy ===
/** Untyped JavaScript records, the shape in which change-feed rows reach the views: an
    ordered list of fields, read by key and written by key with the object-literal rule
    (an existing key keeps its place, a new key goes last). */
module Records {
  import opened Wrappers
  import Text

  /** A JavaScript value as the views handle it; `Instant` is a `Date` built from a text. */
  datatype Value =
    | Undefined
    | Null
    | Bool(b: bool)
    | Number(n: int)
    | Str(s: string)
    | Instant(source: string)
    | Array(items: seq<Value>)
    | Object(fields: seq<Field>)

  datatype Field = Field(key: string, value: Value)

  /** A plain object: its own enumerable fields in insertion order. */
  type Record = seq<Field>

  /** JavaScript truthiness (`NaN` is not modelled). */
  predicate Truthy(v: Value) {
    match v
    case Undefined => false
    case Null => false
    case Bool(b) => b
    case Number(n) => n != 0
    case Str(s) => s != []
    case _ => true
  }

  predicate HasKey(r: Record, key: string) {
    exists i :: 0 <= i < |r| && r[i].key == key
  }

  lemma HasKeyCons(r: Record, key: string)
    requires |r| > 0
    ensures HasKey(r, key) <==> r[0].key == key || HasKey(r[1..], key)
  {
    if HasKey(r, key) && r[0].key != key {
      var i :| 0 <= i < |r| && r[i].key == key;
      assert r[1..][i - 1].key == key;
    }
    if HasKey(r[1..], key) {
      var i :| 0 <= i < |r| - 1 && r[1..][i].key == key;
      assert r[i + 1].key == key;
    }
  }

  /** `r[key]`: the value of the first field with that key, `undefined` when none. */
  function Get(r: Record, key: string): (v: Value)
    ensures !HasKey(r, key) ==> v == Undefined
    ensures HasKey(r, key) ==> exists i :: 0 <= i < |r| && r[i] == Field(key, v)
  {
    if |r| == 0 then Undefined
    else if r[0].key == key then r[0].value
    else
      var v := Get(r[1..], key);
      assert forall i :: 0 <= i < |r| - 1 ==> r[1..][i] == r[i + 1];
      v
  }

  /** No key occurs twice. */
  ghost predicate KeysUnique(r: Record) {
    forall i, j :: 0 <= i < j < |r| ==> r[i].key != r[j].key
  }

  /** The position of the first field with the key. */
  function FirstIndex(r: Record, key: string): (i: nat)
    requires HasKey(r, key)
    ensures i < |r| && r[i].key == key
    ensures forall j :: 0 <= j < i ==> r[j].key != key
  {
    HasKeyCons(r, key);
    if r[0].key == key then 0 else 1 + FirstIndex(r[1..], key)
  }

  /** `r[key] = v`: the first field with that key gets the value in place; without one, the
      field is appended. */
  function Set(r: Record, key: string, v: Value): (r': Record)
    ensures HasKey(r, key) ==> r' == r[FirstIndex(r, key) := Field(key, v)]
    ensures !HasKey(r, key) ==> r' == r + [Field(key, v)]
  {
    if |r| == 0 then [Field(key, v)]
    else if r[0].key == key then [Field(key, v)] + r[1..]
    else
      HasKeyCons(r, key);
      assert r == [r[0]] + r[1..];
      [r[0]] + Set(r[1..], key, v)
  }

  /** A write is read back, and every other key reads as before. */
  lemma {:induction false} SetThenGet(r: Record, key: string, v: Value)
    ensures Get(Set(r, key, v), key) == v
    ensures forall k :: k != key ==> Get(Set(r, key, v), k) == Get(r, k)
  {
    if |r| > 0 && r[0].key != key {
      SetThenGet(r[1..], key, v);
      HasKeyCons(r, key);
      assert Set(r, key, v)[1..] == Set(r[1..], key, v);
    }
  }

  /** `SetThenGet` at one other key. */
  lemma SetKeepsOther(r: Record, key: string, v: Value, other: string)
    requires other != key
    ensures Get(Set(r, key, v), other) == Get(r, other)
  {
    SetThenGet(r, key, v);
  }

  /** `SetKeys` at one key. */
  lemma SetHasKey(r: Record, key: string, v: Value, k: string)
    ensures HasKey(Set(r, key, v), k) <==> HasKey(r, k) || k == key
  {
    SetKeys(r, key, v);
  }

  /** Writing a key adds exactly that key, and distinct keys stay distinct. */
  lemma SetKeys(r: Record, key: string, v: Value)
    ensures forall k :: HasKey(Set(r, key, v), k) <==> HasKey(r, k) || k == key
    ensures KeysUnique(r) ==> KeysUnique(Set(r, key, v))
  {
    var r' := Set(r, key, v);
    if HasKey(r, key) {
      assert forall i :: 0 <= i < |r| ==> r'[i].key == r[i].key;
    } else {
      assert r'[|r|].key == key;
      assert forall i :: 0 <= i < |r| ==> r'[i] == r[i];
    }
  }

  /** A write keeps every existing key where it was; anything past the old end carries the
      written key. */
  lemma SetKeysAt(r: Record, key: string, v: Value)
    ensures |Set(r, key, v)| >= |r|
    ensures forall i :: 0 <= i < |r| ==> Set(r, key, v)[i].key == r[i].key
    ensures forall i :: |r| <= i < |Set(r, key, v)| ==> Set(r, key, v)[i].key == key
  {
  }

  /** Setting a key to the value it already has changes nothing. */
  lemma {:induction false} SetExisting(r: Record, key: string)
    requires HasKey(r, key)
    ensures Set(r, key, Get(r, key)) == r
  {
    if r[0].key != key {
      var i :| 0 <= i < |r| && r[i].key == key;
      assert r[1..][i - 1].key == key;
      SetExisting(r[1..], key);
    }
  }

  /** The keys of a record, in order. */
  function Keys(r: Record): (ks: seq<string>)
    ensures |ks| == |r| && forall i :: 0 <= i < |r| ==> ks[i] == r[i].key
  {
    seq(|r|, i requires 0 <= i < |r| => r[i].key)
  }

  // ---------------------------------------------------------------------------
  // snake_case to camelCase keys.
  // ---------------------------------------------------------------------------

  /** `key.replace(/_([a-z])/g, (_, l) => l.toUpperCase())`: scanning left to right, each
      `_` followed by a lower-case ASCII letter becomes that letter upper-cased. */
  function CamelKey(k: string): (r: string)
    ensures |r| <= |k|
  {
    if |k| >= 2 && k[0] == '_' && Text.IsLowerLetter(k[1]) then [Text.UpperChar(k[1])] + CamelKey(k[2..])
    else if |k| == 0 then []
    else [k[0]] + CamelKey(k[1..])
  }

  /** The column name of a camelCase field: each upper-case ASCII letter becomes `_` and its
      lower-case form. */
  function SnakeKey(k: string): (r: string)
    ensures |r| >= |k|
  {
    if |k| == 0 then []
    else if Text.IsUpperLetter(k[0]) then ['_', Text.LowerChar(k[0])] + SnakeKey(k[1..])
    else [k[0]] + SnakeKey(k[1..])
  }

  /** Converting the column name of an underscore-free field name back gives the field name. */
  lemma {:induction false} CamelOfSnake(k: string)
    requires '_' !in k
    ensures CamelKey(SnakeKey(k)) == k
  {
    if |k| > 0 {
      assert '_' !in k[1..];
      CamelOfSnake(k[1..]);
      var s := SnakeKey(k);
      if Text.IsUpperLetter(k[0]) {
        assert s[2..] == SnakeKey(k[1..]);
      } else {
        assert s[1..] == SnakeKey(k[1..]);
        assert k == [k[0]] + k[1..];
      }
    }
  }

  /** A key without underscores is its own camel-cased form. */
  lemma {:induction false} CamelKeyNoUnderscore(k: string)
    requires '_' !in k
    ensures CamelKey(k) == k
  {
    if |k| > 0 {
      assert '_' !in k[1..];
      CamelKeyNoUnderscore(k[1..]);
      assert k == [k[0]] + k[1..];
    }
  }

  /** A key with one `_` before a lower-case letter camel-cases to the key with that letter
      upper-cased and the `_` gone. */
  lemma {:induction false} OneUnderscore(a: string, l: char, b: string)
    requires '_' !in a && '_' !in b && Text.IsLowerLetter(l)
    ensures CamelKey(a + ['_', l] + b) == a + [Text.UpperChar(l)] + b
  {
    if a == [] {
      assert a + ['_', l] + b == ['_', l] + b;
      assert (['_', l] + b)[2..] == b;
      CamelKeyNoUnderscore(b);
    } else {
      var k := a + ['_', l] + b;
      assert k[0] == a[0] && k[1..] == a[1..] + ['_', l] + b;
      assert '_' !in a[1..];
      OneUnderscore(a[1..], l, b);
      assert a == [a[0]] + a[1..];
    }
  }

  lemma ColumnNames()
    ensures CamelKey("created_at") == "createdAt"
  {
    assert "created_at" == "created" + ['_', 'a'] + "t";
    OneUnderscore("created", 'a', "t");
  }

  lemma ChannelIdColumn()
    ensures CamelKey("channel_id") == "channelId"
  {
    assert "channel_id" == "channel" + ['_', 'i'] + "d";
    OneUnderscore("channel", 'i', "d");
  }

  lemma ChatIdColumn()
    ensures CamelKey("chat_id") == "chatId"
  {
    assert "chat_id" == "chat" + ['_', 'i'] + "d";
    OneUnderscore("chat", 'i', "d");
  }

  lemma ParentIdColumn()
    ensures CamelKey("parent_id") == "parentId"
  {
    assert "parent_id" == "parent" + ['_', 'i'] + "d";
    OneUnderscore("parent", 'i', "d");
  }

  /** The two aliases the channel-message feed adds are not column names of the
      conversation or thread references. */
  lemma AliasKeys()
    ensures CamelKey("createdAt") == "createdAt" && CamelKey("updatedAt") == "updatedAt"
  {
    CamelKeyNoUnderscore("createdAt");
    CamelKeyNoUnderscore("updatedAt");
  }

  // ---------------------------------------------------------------------------
  // The chat views' row conversion.
  // ---------------------------------------------------------------------------

  predicate IsTimestampColumn(key: string) {
    key == "created_at" || key == "updated_at"
  }

  /** `new Date((value as string).replace(" ", "T") + "Z")`; `None` where the cast fails at
      run time (the value is not a string, so `replace` throws). */
  function ParseTimestamp(v: Value): (r: Option<Value>)
    ensures r.Some? <==> v.Str?
    ensures v.Str? ==> r.value == Instant(Text.ReplaceFirst(v.s, ' ', 'T') + "Z")
  {
    match v
    case Str(t) => Some(Instant(Text.ReplaceFirst(t, ' ', 'T') + "Z"))
    case _ => None
  }

  /** The value a field contributes: timestamps parsed, everything else as is. */
  function Converted(f: Field): (r: Option<Value>)
    ensures !IsTimestampColumn(f.key) ==> r == Some(f.value)
    ensures IsTimestampColumn(f.key) ==> r == ParseTimestamp(f.value)
  {
    if IsTimestampColumn(f.key) then ParseTimestamp(f.value) else Some(f.value)
  }

  /** The chat views' `transformMessage`: every field, in order, is written under its
      camel-cased key into a fresh object, `created_at` and `updated_at` as dates; `None`
      when one of those two is not a string and the conversion throws. */
  function CamelCased(r: Record): (t: Option<Record>)
    decreases |r|
  {
    if |r| == 0 then Some([])
    else
      var last := r[|r| - 1];
      match CamelCased(r[..|r| - 1])
      case None => None
      case Some(acc) =>
        match Converted(last)
        case None => None
        case Some(v) => Some(Set(acc, CamelKey(last.key), v))
  }

  /** A timestamp column that is not a string. */
  predicate Throws(r: Record) {
    exists i :: 0 <= i < |r| && IsTimestampColumn(r[i].key) && !r[i].value.Str?
  }

  /** Writing a key that is not a timestamp column neither causes nor cures a throw. */
  lemma SetKeepsThrows(r: Record, key: string, v: Value)
    requires !IsTimestampColumn(key)
    ensures Throws(Set(r, key, v)) <==> Throws(r)
  {
    var r' := Set(r, key, v);
    if HasKey(r, key) {
      var j := FirstIndex(r, key);
      assert forall i :: 0 <= i < |r| && i != j ==> r'[i] == r[i];
      if Throws(r) {
        var i :| 0 <= i < |r| && IsTimestampColumn(r[i].key) && !r[i].value.Str?;
        assert r'[i] == r[i];
      }
    } else {
      assert forall i :: 0 <= i < |r| ==> r'[i] == r[i];
      if Throws(r') {
        var i :| 0 <= i < |r'| && IsTimestampColumn(r'[i].key) && !r'[i].value.Str?;
        assert i < |r|;
      }
    }
  }

  /** The conversion fails exactly when a timestamp column is not a string; otherwise the
      result has exactly the camel-cased keys of the input. */
  lemma {:induction false} CamelCasedKeys(r: Record)
    ensures CamelCased(r).None? <==> Throws(r)
    ensures CamelCased(r).Some? ==>
              forall k :: HasKey(CamelCased(r).value, k) <==> exists i :: 0 <= i < |r| && CamelKey(r[i].key) == k
  {
    if |r| > 0 {
      var init := r[..|r| - 1];
      CamelCasedKeys(init);
      ThrowsOfSnoc(r);
      if CamelCased(r).Some? {
        CamelCasedKeysStep(r, init);
      }
    }
  }

  /** A row throws when its front throws or its last field does. */
  lemma ThrowsOfSnoc(r: Record)
    requires |r| > 0
    ensures Throws(r) <==> Throws(r[..|r| - 1]) || (IsTimestampColumn(r[|r| - 1].key) && !r[|r| - 1].value.Str?)
  {
    var init := r[..|r| - 1];
    assert forall i :: 0 <= i < |init| ==> init[i] == r[i];
    if Throws(r) && !Throws(init) {
      var i :| 0 <= i < |r| && IsTimestampColumn(r[i].key) && !r[i].value.Str?;
      assert i == |r| - 1;
    }
  }

  /** The key step of `CamelCasedKeys`: the last field adds its camel-cased key to those of
      the front. */
  lemma CamelCasedKeysStep(r: Record, init: Record)
    requires |r| > 0 && init == r[..|r| - 1] && CamelCased(r).Some?
    requires forall k :: HasKey(CamelCased(init).value, k) <==> exists i :: 0 <= i < |init| && CamelKey(init[i].key) == k
    ensures forall k :: HasKey(CamelCased(r).value, k) <==> exists i :: 0 <= i < |r| && CamelKey(r[i].key) == k
  {
    var last := r[|r| - 1];
    SetKeys(CamelCased(init).value, CamelKey(last.key), Converted(last).value);
    forall k ensures HasKey(CamelCased(r).value, k) <==> exists i :: 0 <= i < |r| && CamelKey(r[i].key) == k {
      if exists i :: 0 <= i < |r| && CamelKey(r[i].key) == k {
        var i :| 0 <= i < |r| && CamelKey(r[i].key) == k;
        if i < |r| - 1 {
          assert CamelKey(init[i].key) == k;
        }
      }
      if exists i :: 0 <= i < |init| && CamelKey(init[i].key) == k {
        var i :| 0 <= i < |init| && CamelKey(init[i].key) == k;
        assert CamelKey(r[i].key) == k;
      }
    }
  }

  /** Later fields win: a field whose camel-cased key no later field shares is read back, in
      the result, as its converted value. So when no two keys camel-case alike, every field
      survives; and a camel-case key that also occurs raw after its snake form is
      overwritten by the raw one. */
  lemma {:induction false} CamelCasedValues(r: Record, i: nat)
    requires i < |r| && CamelCased(r).Some?
    requires forall j :: i < j < |r| ==> CamelKey(r[j].key) != CamelKey(r[i].key)
    ensures Converted(r[i]).Some?
    ensures Get(CamelCased(r).value, CamelKey(r[i].key)) == Converted(r[i]).value
  {
    var init := r[..|r| - 1];
    var last := r[|r| - 1];
    var acc := CamelCased(init).value;
    SetThenGet(acc, CamelKey(last.key), Converted(last).value);
    if i < |r| - 1 {
      assert init[i] == r[i];
      forall j | i < j < |init| ensures CamelKey(init[j].key) != CamelKey(init[i].key) {
        assert init[j] == r[j];
      }
      CamelCasedValues(init, i);
    }
  }

  /** `Get` reads the field at the first index of the key. */
  lemma {:induction false} GetFirst(r: Record, key: string)
    requires HasKey(r, key)
    ensures Get(r, key) == r[FirstIndex(r, key)].value
  {
    HasKeyCons(r, key);
    if r[0].key != key {
      GetFirst(r[1..], key);
    }
  }

  /** `key` is present and no other field, nor a repeat of it, camel-cases to the same name. */
  ghost predicate SoleCamelSource(r: Record, key: string) {
    HasKey(r, key) && forall j :: 0 <= j < |r| && CamelKey(r[j].key) == CamelKey(key) ==> j == FirstIndex(r, key)
  }

  /** Writing a key that camel-cases differently keeps `key` the only source of its name,
      with its value. */
  lemma SetKeepsSoleSource(r: Record, k: string, v: Value, key: string)
    requires SoleCamelSource(r, key)
    requires CamelKey(k) != CamelKey(key)
    ensures SoleCamelSource(Set(r, k, v), key)
    ensures Get(Set(r, k, v), key) == Get(r, key)
  {
    var n := Set(r, k, v);
    SetKeysAt(r, k, v);
    SetThenGet(r, k, v);
    SetKeys(r, k, v);
    var i := FirstIndex(r, key);
    assert n[i].key == key;
    var f := FirstIndex(n, key);
    forall j | 0 <= j < |n| && CamelKey(n[j].key) == CamelKey(key) ensures j == f {
      if j < |r| {
        assert CamelKey(r[j].key) == CamelKey(key);
      }
    }
  }

  /** A field that is the only source of its camel-cased name is read back under that name,
      converted. */
  lemma CamelCasedGet(r: Record, key: string)
    requires CamelCased(r).Some? && SoleCamelSource(r, key)
    ensures Converted(Field(key, Get(r, key))).Some?
    ensures Get(CamelCased(r).value, CamelKey(key)) == Converted(Field(key, Get(r, key))).value
  {
    var i := FirstIndex(r, key);
    GetFirst(r, key);
    assert r[i] == Field(key, Get(r, key));
    CamelCasedValues(r, i);
  }

  // ---------------------------------------------------------------------------
  // Object spread.
  // ---------------------------------------------------------------------------

  /** The fields `{...items}` gives an array or a string: one per index, keyed by the
      index in decimal. */
  function IndexFields(items: seq<Value>): (r: Record)
    ensures |r| == |items|
    ensures forall i :: 0 <= i < |items| ==> r[i] == Field(Text.Decimal(i), items[i])
  {
    seq(|items|, i requires 0 <= i < |items| => Field(Text.Decimal(i), items[i]))
  }

  /** `{ ...v }`: an object is copied field for field, an array or a string by index, and
      any other value gives an empty object. */
  function Spread(v: Value): (r: Value)
    ensures r.Object?
    ensures v.Object? ==> r == v
  {
    match v
    case Object(fs) => Object(fs)
    case Array(items) => Object(IndexFields(items))
    case Str(s) => Object(IndexFields(seq(|s|, i requires 0 <= i < |s| => Str([s[i]]))))
    case _ => Object([])
  }
}

=== FILE: routes.dfy ===
/** Reading ids back out of the current path. The views split the path on a marker such as
    `/channel/` and keep the text up to the next `/`; these lemmas show that the paths the
    sidebars navigate to read back as the ids they were built from. */
module Routes {
  import opened Wrappers
  import opened Text
  import WorkspaceSidebar
  import opened Schema

  const WorkspaceMarker := "/workspace/"
  const ChannelMarker := "/channel/"
  const ChatMarker := "/dm/"

  /** `pathname.split("/workspace/")[1]?.split("/")[0]`: `None` (undefined) when the marker
      is absent. */
  function WorkspaceSegment(path: string): (r: Option<string>)
    ensures r.None? <==> !Includes(path, WorkspaceMarker)
    ensures r.Some? ==> '/' !in r.value
  {
    SegmentAfter(path, WorkspaceMarker)
  }

  /** `x || null` on a nullable string. */
  function NonEmpty(s: Option<string>): (r: Option<string>)
    ensures r.Some? <==> Truthy(s)
    ensures r.Some? ==> r == s
  {
    if Truthy(s) then s else None
  }

  // ---------------------------------------------------------------------------
  // Where a marker can occur in a path made of slash-separated segments
  // ---------------------------------------------------------------------------

  /** A `/m/` marker cannot start at a slash followed by a different whole segment `x`. */
  lemma SegmentBlocks(path: string, j: nat, x: string, m: string)
    requires '/' !in x && '/' !in m && x != m
    requires j + 1 + |x| < |path| && path[j] == '/' && path[j + 1..j + 1 + |x|] == x && path[j + 1 + |x|] == '/'
    ensures !OccursAt(path, "/" + m + "/", j)
  {
    var pat := "/" + m + "/";
    if j + |pat| <= |path| {
      var window := path[j..j + |pat|];
      if |x| == |m| {
        assert window[1..1 + |m|] == x && pat[1..1 + |m|] == m;
      } else if |x| < |m| {
        assert window[1 + |x|] == '/' && pat[1 + |x|] == m[|x|];
      } else {
        assert window[1 + |m|] == x[|m|] && pat[1 + |m|] == '/';
      }
    }
  }

  /** Nor at the slash before a last segment, which no slash closes. */
  lemma TailBlocks(path: string, j: nat, x: string, m: string)
    requires '/' !in x
    requires j < |path| && path[j + 1..] == x
    ensures !OccursAt(path, "/" + m + "/", j)
  {
    var pat := "/" + m + "/";
    if j + |pat| <= |path| {
      assert path[j + 1 + |m|] == x[|m|] && pat[1 + |m|] == '/';
    }
  }

  /** A marker starts with a slash, so it cannot start at any other character. */
  lemma NoSlashBlocks(path: string, j: nat, m: string)
    requires j < |path| && path[j] != '/'
    ensures !OccursAt(path, "/" + m + "/", j)
  {
    assert ("/" + m + "/")[0] == '/';
  }

  /** The first occurrence found, and nothing before it: the segment after the marker is
      what follows that occurrence up to the next slash. */
  lemma SegmentAt(path: string, marker: string, k: nat, segment: string)
    requires OccursAt(path, marker, k)
    requires forall j :: 0 <= j < k ==> !OccursAt(path, marker, j)
    requires path[k + |marker|..] == segment && '/' !in segment
    ensures Includes(path, marker) && SegmentAfter(path, marker) == Some(segment)
  {
    assert IndexOf(path, marker) == Some(k);
    assert path[k + |marker|..] == segment + [];
    BeforeOfConcat(segment, [], '/');
  }

  // ---------------------------------------------------------------------------
  // Round trips
  // ---------------------------------------------------------------------------

  /** Every workspace path reads back its workspace id, whatever follows it. */
  lemma WorkspaceSegmentOfPath(ws: Id, rest: string)
    requires '/' !in ws && (rest == [] || rest[0] == '/')
    ensures WorkspaceSegment(WorkspaceSidebar.WorkspacePath(ws) + rest) == Some(ws)
  {
    SegmentAfterRoundTrip(WorkspaceMarker, ws, rest);
  }

  /** In a path `/a/` + `b` + `/m/` + `c` of slash-free pieces, the marker `/m/` first occurs
      before `c` when neither `a` nor `b` is `m`, and `c` is what it reads. */
  lemma {:induction false} ThirdSegment(pre: string, a: string, b: string, marker: string, m: string, c: string)
    requires pre == "/" + a + "/" && marker == "/" + m + "/"
    requires '/' !in a && '/' !in b && '/' !in m && '/' !in c
    requires a != m && b != m
    ensures SegmentAfter(pre + b + marker + c, marker) == Some(c)
  {
    var path := pre + b + marker + c;
    var i := 1 + |a|;
    var k := 2 + |a| + |b|;
    assert |path| == k + |marker| + |c|;
    assert path[..|pre|] == pre && path[|pre|..k] == b && path[k..k + |marker|] == marker && path[k + |marker|..] == c;
    assert path[0] == '/' && path[1..i] == a && path[i] == '/';
    forall j | 0 <= j < k ensures !OccursAt(path, marker, j) {
      if j == 0 {
        SegmentBlocks(path, 0, a, m);
      } else if j == i {
        SegmentBlocks(path, i, b, m);
      } else if j < i {
        assert path[j] == path[1..i][j - 1];
        NoSlashBlocks(path, j, m);
      } else {
        assert path[j] == path[i + 1..k][j - i - 1];
        NoSlashBlocks(path, j, m);
      }
    }
    SegmentAt(path, marker, k, c);
  }

  /** A path `/a/` + `b` + `/d/` + `c` of slash-free pieces holds no marker `/m/` when none
      of `a`, `b` and `d` is `m`. */
  lemma {:induction false} NoMarker(pre: string, a: string, b: string, mid: string, d: string, c: string, marker: string, m: string)
    requires pre == "/" + a + "/" && mid == "/" + d + "/" && marker == "/" + m + "/"
    requires '/' !in a && '/' !in b && '/' !in d && '/' !in c && '/' !in m
    requires a != m && b != m && d != m
    ensures !Includes(pre + b + mid + c, marker)
  {
    var path := pre + b + mid + c;
    var i := 1 + |a|;
    var k := 2 + |a| + |b|;
    var t := 4 + |a| + |b| + |d|;
    assert |path| == t + |c|;
    var pb := pre + b;
    assert |pb| == k && path[..k] == pb && pb[..|pre|] == pre && pb[|pre|..] == b;
    assert path[..|pre|] == pre && path[|pre|..k] == b;
    assert path[k..t] == mid && path[t..] == c;
    assert pre[0] == '/' && pre[1..i] == a && pre[i] == '/';
    assert mid[0] == '/' && mid[1..|mid| - 1] == d && mid[|mid| - 1] == '/';
    assert path[0] == '/' && path[1..i] == a && path[i] == '/';
    assert path[k] == '/' && path[k + 1..t - 1] == d && path[t - 1] == '/';
    forall j | 0 <= j < |path| ensures !OccursAt(path, marker, j) {
      if j == 0 {
        SegmentBlocks(path, 0, a, m);
      } else if j == i {
        SegmentBlocks(path, i, b, m);
      } else if j == k {
        SegmentBlocks(path, k, d, m);
      } else if j == t - 1 {
        TailBlocks(path, j, c, m);
      } else if j < i {
        assert path[j] == path[1..i][j - 1];
        NoSlashBlocks(path, j, m);
      } else if j < k {
        assert path[j] == path[i + 1..k][j - i - 1];
        NoSlashBlocks(path, j, m);
      } else if j < t - 1 {
        assert path[j] == path[k + 1..t - 1][j - k - 1];
        NoSlashBlocks(path, j, m);
      } else {
        assert path[j] == path[t..][j - t];
        NoSlashBlocks(path, j, m);
      }
    }
    IncludesIffOccurs(path, marker);
  }

  /** Channel and direct-chat paths read back their workspace id. */
  lemma WorkspaceOfChildPaths(ws: Id, id: Id)
    requires '/' !in ws
    ensures WorkspaceSegment(WorkspaceSidebar.ChannelPath(ws, id)) == Some(ws)
    ensures WorkspaceSegment(WorkspaceSidebar.ChatPath(ws, id)) == Some(ws)
  {
    var channelRest := ChannelMarker + id;
    var chatRest := ChatMarker + id;
    assert WorkspaceSidebar.ChannelPath(ws, id) == WorkspaceSidebar.WorkspacePath(ws) + channelRest;
    assert WorkspaceSidebar.ChatPath(ws, id) == WorkspaceSidebar.WorkspacePath(ws) + chatRest;
    assert channelRest[0] == '/' && chatRest[0] == '/';
    WorkspaceSegmentOfPath(ws, channelRest);
    WorkspaceSegmentOfPath(ws, chatRest);
  }

  /** A channel path reads back its channel id after `/channel/`, unless the workspace id is
      itself `channel`. */
  lemma ChannelSegmentOfChannelPath(ws: Id, channelId: Id)
    requires '/' !in ws && '/' !in channelId && ws != "channel"
    ensures SegmentAfter(WorkspaceSidebar.ChannelPath(ws, channelId), ChannelMarker) == Some(channelId)
  {
    assert WorkspaceMarker == "/" + "workspace" + "/" && ChannelMarker == "/" + "channel" + "/";
    ThirdSegment(WorkspaceMarker, "workspace", ws, ChannelMarker, "channel", channelId);
  }

  /** A direct-chat path holds no `/channel/` marker unless the workspace id is `channel`. */
  lemma NoChannelInChatPath(ws: Id, chatId: Id)
    requires '/' !in ws && '/' !in chatId && ws != "channel"
    ensures !Includes(WorkspaceSidebar.ChatPath(ws, chatId), ChannelMarker)
  {
    assert WorkspaceMarker == "/" + "workspace" + "/" && ChatMarker == "/" + "dm" + "/";
    assert ChannelMarker == "/" + "channel" + "/";
    NoMarker(WorkspaceMarker, "workspace", ws, ChatMarker, "dm", chatId, ChannelMarker, "channel");
  }

  /** A direct-chat path reads back its chat id after `/dm/`, unless the workspace id is `dm`. */
  lemma ChatSegmentOfChatPath(ws: Id, chatId: Id)
    requires '/' !in ws && '/' !in chatId && ws != "dm"
    ensures SegmentAfter(WorkspaceSidebar.ChatPath(ws, chatId), ChatMarker) == Some(chatId)
  {
    assert WorkspaceMarker == "/" + "workspace" + "/" && ChatMarker == "/" + "dm" + "/";
    ThirdSegment(WorkspaceMarker, "workspace", ws, ChatMarker, "dm", chatId);
  }
}

=== FILE: schema.dfy ===
/** The rows of the conversation store, their column defaults, and the store itself.
    Each table is a sequence of rows; primary keys are kept unique by the actions,
    which fail on a conflicting insert. */
module Schema {
  import opened Wrappers
  import Sequences
  import opened Reactions

  type Id = string

  /** `channel_type` and `workspace_type`: both are public or private. */
  datatype Visibility = Public | Private

  /** Both the channel and the workspace `type` column default to public. */
  const DefaultVisibility: Visibility := Public

  /** `presence_status` (and the identical `user_status`). */
  datatype Status = Online | Offline | Away

  /** The presence `status` column default. */
  const DefaultPresenceStatus: Status := Offline

  /** A `users` row; `id` is the identity provider's user id. */
  datatype User = User(
    id: Id, username: string, email: string, fullName: string, imageUrl: Option<string>,
    status: Status, customStatus: Option<string>, createdAt: nat, updatedAt: nat)

  /** A `workspaces` row; `creatorId` is required. */
  datatype Workspace = Workspace(
    id: Id, name: string, description: Option<string>, kind: Visibility, creatorId: Id)

  /** A `workspace_members` row; the pair (workspaceId, userId) is unique. */
  datatype WorkspaceMember = WorkspaceMember(workspaceId: Id, userId: Id)

  /** A `channels` row, with the `workspaceId` the actions attach to it. */
  datatype Channel = Channel(
    id: Id, workspaceId: Id, name: string, description: Option<string>, kind: Visibility, creatorId: Id)

  /** A `channel_members` row; nothing makes the pair unique. */
  datatype ChannelMember = ChannelMember(channelId: Id, userId: Id)

  /** A `direct_chats` row: an ordered pair of users in one workspace, with no
      uniqueness constraint on the pair. */
  datatype DirectChat = DirectChat(id: Id, user1Id: Id, user2Id: Id, workspaceId: Id)

  /** The integer column `reply_count` is a signed 32-bit integer. */
  const MaxInt32: nat := 0x7FFF_FFFF

  /** A `messages` row (channel message) or a `direct_messages` row. Both carry the
      reactions object, a nullable parent reference for threads and the reply counter.
      Neither table declares an author-name column: `username` (`senderUsername`) is the
      property a joined answer adds from `users.username`, and a stored row has none. */
  datatype Message =
    | ChannelMessage(
        id: Id, channelId: Id, userId: Id, username: Option<string>, content: string,
        fileName: Option<string>, fileUrl: Option<string>, reactions: ReactionMap,
        parentId: Option<Id>, replyCount: nat, createdAt: nat)
    | DirectMessage(
        id: Id, chatId: Id, senderId: Id, senderUsername: Option<string>, content: string,
        fileName: Option<string>, fileUrl: Option<string>, reactions: ReactionMap,
        parentId: Option<Id>, replyCount: nat, createdAt: nat)

  /** A `presence` row, keyed by `userId`; `lastSeen` is always set. */
  datatype Presence = Presence(
    userId: Id, status: Status, statusText: Option<string>, statusEmoji: Option<string>,
    lastSeen: nat, updatedAt: nat)

  /** An `attachments` row: two nullable parent references, neither required nor exclusive;
      `size` is stored as text. */
  datatype Attachment = Attachment(
    id: Id, messageId: Option<Id>, directMessageId: Option<Id>, userId: Id,
    name: string, url: string, size: string, mimeType: string)

  /** The object a caller passes when inserting a message: the columns it supplies, and the
      author-name key some callers add, which no column takes. */
  datatype MessageDraft = MessageDraft(
    conversationId: Id, authorId: Id, authorName: Option<string>, content: string,
    fileName: Option<string>, fileUrl: Option<string>, parentId: Option<Id>)

  /** The two message tables. */
  datatype MessageKind = ChannelKind | DirectKind

  /** The row an insert creates (and `returning()` answers): the declared columns the draft
      supplies, reactions defaulting to the empty object and the reply count to 0. An
      author-name key in the draft is dropped, since no column declares it. */
  function NewRow(kind: MessageKind, d: MessageDraft, id: Id, now: nat): (m: Message)
    ensures m.id == id && m.reactions == map[] && m.replyCount == 0 && m.createdAt == now
    ensures m.parentId == d.parentId && m.content == d.content
    ensures m.fileName == d.fileName && m.fileUrl == d.fileUrl
    ensures KindOf(m) == kind && ConversationId(m) == d.conversationId
    ensures AuthorId(m) == d.authorId && AuthorName(m).None?
  {
    match kind
    case ChannelKind =>
      ChannelMessage(id, d.conversationId, d.authorId, None, d.content,
                     d.fileName, d.fileUrl, map[], d.parentId, 0, now)
    case DirectKind =>
      DirectMessage(id, d.conversationId, d.authorId, None, d.content,
                    d.fileName, d.fileUrl, map[], d.parentId, 0, now)
  }

  function KindOf(m: Message): MessageKind {
    if m.ChannelMessage? then ChannelKind else DirectKind
  }

  /** `"userId" in m ? m.userId : m.senderId`: the author of either kind of message. */
  function AuthorId(m: Message): Id {
    match m
    case ChannelMessage(_, _, userId, _, _, _, _, _, _, _, _) => userId
    case DirectMessage(_, _, senderId, _, _, _, _, _, _, _, _) => senderId
  }

  /** `"username" in m ? m.username : m.senderUsername`: `None` on a stored row. */
  function AuthorName(m: Message): Option<string> {
    match m
    case ChannelMessage(_, _, _, username, _, _, _, _, _, _, _) => username
    case DirectMessage(_, _, _, senderUsername, _, _, _, _, _, _, _) => senderUsername
  }

  /** The channel of a channel message, the chat of a direct message. */
  function ConversationId(m: Message): Id {
    match m
    case ChannelMessage(_, channelId, _, _, _, _, _, _, _, _, _) => channelId
    case DirectMessage(_, chatId, _, _, _, _, _, _, _, _, _) => chatId
  }

  /** The row as a join with `users` answers it: the author's username added, every
      column kept. */
  function WithAuthorName(m: Message, name: string): (r: Message)
    ensures AuthorName(r) == Some(name)
    ensures r.id == m.id && r.parentId == m.parentId && r.createdAt == m.createdAt
    ensures ConversationId(r) == ConversationId(m) && AuthorId(r) == AuthorId(m) && KindOf(r) == KindOf(m)
    ensures r.reactions == m.reactions && r.replyCount == m.replyCount
    ensures r.content == m.content && r.fileName == m.fileName && r.fileUrl == m.fileUrl
  {
    match m
    case ChannelMessage(_, _, _, _, _, _, _, _, _, _, _) => m.(username := Some(name))
    case DirectMessage(_, _, _, _, _, _, _, _, _, _, _) => m.(senderUsername := Some(name))
  }

  /** The whole conversation store. */
  datatype Store = Store(
    users: seq<User>,
    workspaces: seq<Workspace>, workspaceMembers: seq<WorkspaceMember>,
    channels: seq<Channel>, channelMembers: seq<ChannelMember>,
    messages: seq<Message>,
    directChats: seq<DirectChat>, directMessages: seq<Message>,
    presence: seq<Presence>,
    attachments: seq<Attachment>)

  /** The message table of a kind. */
  function MessagesOf(s: Store, kind: MessageKind): seq<Message> {
    match kind
    case ChannelKind => s.messages
    case DirectKind => s.directMessages
  }

  /** The store with the message table of a kind replaced. */
  function WithMessages(s: Store, kind: MessageKind, t: seq<Message>): (r: Store)
    ensures MessagesOf(r, kind) == t
    ensures kind == ChannelKind ==> r == s.(messages := t)
    ensures kind == DirectKind ==> r == s.(directMessages := t)
  {
    match kind
    case ChannelKind => s.(messages := t)
    case DirectKind => s.(directMessages := t)
  }

  /** `findFirst where users.id = id`. */
  function FindUser(users: seq<User>, id: Id): (r: Option<User>)
    ensures r.Some? ==> r.value in users && r.value.id == id
    ensures r.None? ==> forall u :: u in users ==> u.id != id
  {
    Sequences.First(users, (u: User) => u.id == id)
  }
}

=== FILE: sequences.dfy ===
/** List helpers the views and actions share: `find`, `filter`, replacement in place,
    `Array.from(new Set(xs))` and the order-preserving subsequence relation. */
module Sequences {
  import opened Wrappers

  /** No element occurs twice. */
  predicate Distinct<T(==)>(xs: seq<T>) {
    forall i, j :: 0 <= i < j < |xs| ==> xs[i] != xs[j]
  }

  /** `a` can be obtained from `b` by deleting elements, the rest kept in order. */
  predicate SubsequenceOf<T(==)>(a: seq<T>, b: seq<T>)
    decreases |b|
  {
    |a| == 0 || (|b| > 0 && if a[0] == b[0] then SubsequenceOf(a[1..], b[1..]) else SubsequenceOf(a, b[1..]))
  }

  /** `xs.filter(p)`. */
  function Filter<T(==,!new)>(xs: seq<T>, p: T -> bool): (r: seq<T>)
    ensures |r| <= |xs|
    ensures forall x :: x in r <==> x in xs && p(x)
    ensures SubsequenceOf(r, xs)
    ensures forall x {:trigger multiset(r)[x]} :: multiset(r)[x] == if p(x) then multiset(xs)[x] else 0
  {
    if |xs| == 0 then []
    else
      var rest := Filter(xs[1..], p);
      assert forall x :: x in xs <==> x == xs[0] || x in xs[1..];
      assert xs == [xs[0]] + xs[1..];
      if p(xs[0]) then
        assert ([xs[0]] + rest)[1..] == rest;
        [xs[0]] + rest
      else rest
  }

  /** `xs.find(p)`: the first element that passes, if any. */
  function First<T(!new)>(xs: seq<T>, p: T -> bool): (r: Option<T>)
    ensures r.None? <==> forall x :: x in xs ==> !p(x)
    ensures r.Some? ==> r.value in xs && p(r.value)
    ensures r.Some? ==> exists i :: 0 <= i < |xs| && xs[i] == r.value && forall j :: 0 <= j < i ==> !p(xs[j])
  {
    if |xs| == 0 then None
    else if p(xs[0]) then Some(xs[0])
    else
      var r := First(xs[1..], p);
      assert forall x :: x in xs <==> x == xs[0] || x in xs[1..];
      assert forall i :: 1 <= i < |xs| ==> xs[i] == xs[1..][i - 1];
      r
  }

  /** `xs.map(x => p(x) ? row : x)`: every element that passes is replaced, in place. */
  function ReplaceWhere<T>(xs: seq<T>, p: T -> bool, row: T): (r: seq<T>)
    ensures |r| == |xs|
    ensures forall i :: 0 <= i < |xs| ==> r[i] == if p(xs[i]) then row else xs[i]
  {
    seq(|xs|, i requires 0 <= i < |xs| => if p(xs[i]) then row else xs[i])
  }

  /** `n` copies of `x`. */
  function Repeat<T(!new)>(x: T, n: nat): (r: seq<T>)
    ensures |r| == n && forall y :: y in r <==> n > 0 && y == x
  {
    var r := seq(n, _ => x);
    assert forall i :: 0 <= i < n ==> r[i] == x;
    assert n > 0 ==> r[0] in r;
    r
  }

  /** A filter that keeps everything is the identity. */
  lemma {:induction false} FilterAll<T(!new)>(xs: seq<T>, p: T -> bool)
    requires forall x :: x in xs ==> p(x)
    ensures Filter(xs, p) == xs
  {
    if |xs| > 0 {
      assert forall x :: x in xs[1..] ==> x in xs;
      FilterAll(xs[1..], p);
      assert xs == [xs[0]] + xs[1..];
    }
  }

  /** `Array.from(new Set(xs))`: each element once, at its first occurrence. */
  function Unique<T(==,!new)>(xs: seq<T>): (r: seq<T>)
    ensures Distinct(r)
    ensures forall x :: x in r <==> x in xs
    ensures |r| <= |xs|
  {
    if |xs| == 0 then []
    else
      var init := Unique(xs[..|xs| - 1]);
      assert forall x :: x in xs <==> x in xs[..|xs| - 1] || x == xs[|xs| - 1] by {
        assert xs == xs[..|xs| - 1] + [xs[|xs| - 1]];
      }
      if xs[|xs| - 1] in init then init else init + [xs[|xs| - 1]]
  }

  /** On a list without repeats, `Unique` changes nothing. */
  lemma {:induction false} UniqueOfDistinct<T(!new)>(xs: seq<T>)
    requires Distinct(xs)
    ensures Unique(xs) == xs
  {
    if |xs| > 0 {
      var init := xs[..|xs| - 1];
      assert Distinct(init);
      UniqueOfDistinct(init);
      assert xs[|xs| - 1] !in init;
      assert xs == init + [xs[|xs| - 1]];
    }
  }
}

=== FILE: sorting.dfy ===
/** `ORDER BY` and `LIMIT`: a stable insertion sort by a caller-supplied ordering,
    and taking a prefix. */
module Sorting {

  /** `le` is a total preorder: any two elements compare, and comparison chains. */
  ghost predicate TotalPreorder<T(!new)>(le: (T, T) -> bool) {
    && (forall a, b :: le(a, b) || le(b, a))
    && (forall a, b, c :: le(a, b) && le(b, c) ==> le(a, c))
  }

  /** Every element is `le` every later element. */
  ghost predicate SortedBy<T>(s: seq<T>, le: (T, T) -> bool) {
    forall i, j :: 0 <= i < j < |s| ==> le(s[i], s[j])
  }

  /** Inserts `x` before the first element it is `le`. */
  function InsertSorted<T>(x: T, s: seq<T>, le: (T, T) -> bool): (r: seq<T>)
    ensures multiset(r) == multiset(s) + multiset{x}
    ensures |r| == |s| + 1
  {
    if |s| == 0 then [x]
    else if le(x, s[0]) then [x] + s
    else
      var t := InsertSorted(x, s[1..], le);
      assert s == [s[0]] + s[1..];
      [s[0]] + t
  }

  /** Sorts `s` by `le`; the result is a permutation of `s`. */
  function SortBy<T>(s: seq<T>, le: (T, T) -> bool): (r: seq<T>)
    ensures multiset(r) == multiset(s)
    ensures |r| == |s|
  {
    if |s| == 0 then []
    else
      assert s == [s[0]] + s[1..];
      InsertSorted(s[0], SortBy(s[1..], le), le)
  }

  lemma {:induction false} InsertSortedKeepsOrder<T(!new)>(x: T, s: seq<T>, le: (T, T) -> bool)
    requires TotalPreorder(le)
    requires SortedBy(s, le)
    ensures SortedBy(InsertSorted(x, s, le), le)
  {
    if |s| == 0 {
    } else if le(x, s[0]) {
      var r := [x] + s;
      forall i, j | 0 <= i < j < |r| ensures le(r[i], r[j]) {
        if i == 0 && j > 1 {
          assert le(s[0], s[j - 1]);
        }
      }
    } else {
      var t := InsertSorted(x, s[1..], le);
      SortedTail(s, le);
      InsertSortedKeepsOrder(x, s[1..], le);
      var r := [s[0]] + t;
      assert le(s[0], x);
      HeadBelowInsert(x, s, le);
      forall i, j | 0 <= i < j < |r| ensures le(r[i], r[j]) {
        if i == 0 {
          assert r[j] == t[j - 1];
        } else {
          assert r[i] == t[i - 1] && r[j] == t[j - 1];
        }
      }
    }
  }

  lemma SortedTail<T>(s: seq<T>, le: (T, T) -> bool)
    requires |s| > 0 && SortedBy(s, le)
    ensures SortedBy(s[1..], le)
  {
    forall i, j | 0 <= i < j < |s[1..]| ensures le(s[1..][i], s[1..][j]) {
      assert s[1..][i] == s[i + 1] && s[1..][j] == s[j + 1];
    }
  }

  /** The head of a sorted sequence that does not exceed `x` lies below everything the
      insertion into the tail yields. */
  lemma HeadBelowInsert<T>(x: T, s: seq<T>, le: (T, T) -> bool)
    requires |s| > 0 && SortedBy(s, le) && le(s[0], x)
    ensures forall j :: 0 <= j < |InsertSorted(x, s[1..], le)| ==> le(s[0], InsertSorted(x, s[1..], le)[j])
  {
    var t := InsertSorted(x, s[1..], le);
    forall j | 0 <= j < |t| ensures le(s[0], t[j]) {
      assert t[j] in multiset(t);
      assert t[j] in multiset(s[1..]) + multiset{x};
      if t[j] != x {
        assert t[j] in s[1..];
        var k :| 0 <= k < |s[1..]| && s[1..][k] == t[j];
        assert s[k + 1] == t[j];
      }
    }
  }

  /** Under a total preorder the sort really sorts. */
  lemma {:induction false} SortBySorted<T(!new)>(s: seq<T>, le: (T, T) -> bool)
    requires TotalPreorder(le)
    ensures SortedBy(SortBy(s, le), le)
  {
    if |s| > 0 {
      SortBySorted(s[1..], le);
      InsertSortedKeepsOrder(s[0], SortBy(s[1..], le), le);
    }
  }

  /** `.limit(n)`: the first `n` elements, or all of them when there are fewer. */
  function Take<T>(s: seq<T>, n: nat): (r: seq<T>)
    ensures |r| == if |s| < n then |s| else n
    ensures r == s[..|r|]
  {
    if |s| <= n then s else s[..n]
  }

  /** A page taken from the sorted sequence is sorted, and holds elements of `s` only, all of
      them when `s` fits. */
  lemma SortedPage<T(!new)>(s: seq<T>, le: (T, T) -> bool, n: nat)
    requires TotalPreorder(le)
    ensures var r := Take(SortBy(s, le), n);
            && SortedBy(r, le)
            && multiset(r) <= multiset(s)
            && (|s| <= n ==> multiset(r) == multiset(s))
            && (forall x :: x in r ==> x in s)
  {
    var sorted := SortBy(s, le);
    SortBySorted(s, le);
    TakeKeepsSorted(sorted, le, n);
    TakeIsPart(sorted, n);
    forall x | x in Take(sorted, n) ensures x in s {
      assert x in multiset(sorted);
    }
  }

  /** A prefix of a sorted sequence is sorted. */
  lemma TakeKeepsSorted<T>(s: seq<T>, le: (T, T) -> bool, n: nat)
    requires SortedBy(s, le)
    ensures SortedBy(Take(s, n), le)
  {
    var r := Take(s, n);
    forall i, j | 0 <= i < j < |r| ensures le(r[i], r[j]) {
      assert r[i] == s[i] && r[j] == s[j];
    }
  }

  /** A prefix holds elements of the sequence only, and is all of it when it fits. */
  lemma TakeIsPart<T>(s: seq<T>, n: nat)
    ensures multiset(Take(s, n)) <= multiset(s)
    ensures |s| <= n ==> Take(s, n) == s
    ensures forall x :: x in Take(s, n) ==> x in multiset(s)
  {
    var r := Take(s, n);
    assert s == r + s[|r|..];
  }

  /** Sorting then taking a prefix yields the `n` least elements: anything left out is
      no smaller than anything kept. */
  lemma TakeOfSortedIsLeast<T(!new)>(s: seq<T>, le: (T, T) -> bool, n: nat)
    requires TotalPreorder(le)
    ensures var sorted := SortBy(s, le);
            forall i, j :: 0 <= i < |Take(sorted, n)| <= j < |sorted| ==> le(sorted[i], sorted[j])
  {
    SortBySorted(s, le);
  }
}

=== FILE: text.dfy ===
/** The string helpers the components use: `trim`, `toLowerCase`, `includes`,
    `split(sep)[i]` and JavaScript truthiness of optional strings. */
module Text {
  import opened Wrappers

  /** The characters `String.prototype.trim` removes that the model knows about:
      the ASCII white space, the line terminators, no-break space and the byte-order mark. */
  predicate IsSpace(c: char) {
    c == ' ' || c == '\t' || c == '\n' || c == '\r' || c == '\U{B}' || c == '\U{C}'
    || c == '\U{A0}' || c == '\U{FEFF}' || c == '\U{2028}' || c == '\U{2029}'
  }

  /** Drops leading white space. */
  function TrimStart(s: string): (r: string)
    ensures |r| <= |s| && r == s[|s| - |r|..]
    ensures r == [] || !IsSpace(r[0])
    ensures forall i :: 0 <= i < |s| - |r| ==> IsSpace(s[i])
  {
    if |s| > 0 && IsSpace(s[0]) then TrimStart(s[1..]) else s
  }

  /** Drops trailing white space. */
  function TrimEnd(s: string): (r: string)
    ensures |r| <= |s| && r == s[..|r|]
    ensures r == [] || !IsSpace(r[|r| - 1])
    ensures forall i :: |r| <= i < |s| ==> IsSpace(s[i])
  {
    if |s| > 0 && IsSpace(s[|s| - 1]) then TrimEnd(s[..|s| - 1]) else s
  }

  /** `r` sits at index `k` of `s` and everything around it is white space. */
  predicate TrimmedAt(s: string, r: string, k: int) {
    && 0 <= k && k + |r| <= |s| && r == s[k..k + |r|]
    && (forall i :: 0 <= i < k ==> IsSpace(s[i]))
    && (forall i :: k + |r| <= i < |s| ==> IsSpace(s[i]))
  }

  /** `s.trim()`: the infix of `s` left after removing leading and trailing white space;
      it neither starts nor ends with white space. */
  function Trim(s: string): (r: string)
    ensures TrimmedAt(s, r, |s| - |TrimStart(s)|)
    ensures r == [] || (!IsSpace(r[0]) && !IsSpace(r[|r| - 1]))
  {
    var t := TrimStart(s);
    var r := TrimEnd(t);
    TrimmedAtBoth(s, t, r);
    r
  }

  /** Spaces cut from the front of `s` to give `t`, then from the back of `t` to give `r`,
      leave `r` trimmed at the first cut. */
  lemma TrimmedAtBoth(s: string, t: string, r: string)
    requires |t| <= |s| && t == s[|s| - |t|..] && forall i :: 0 <= i < |s| - |t| ==> IsSpace(s[i])
    requires |r| <= |t| && r == t[..|r|] && forall i :: |r| <= i < |t| ==> IsSpace(t[i])
    ensures TrimmedAt(s, r, |s| - |t|)
  {
    var k := |s| - |t|;
    assert r == s[k..k + |r|];
    forall i | k + |r| <= i < |s| ensures IsSpace(s[i]) {
      assert s[i] == t[i - k];
    }
  }

  /** A string that neither starts nor ends with white space is its own trim. */
  lemma TrimOfTrimmed(s: string)
    requires s == [] || (!IsSpace(s[0]) && !IsSpace(s[|s| - 1]))
    ensures Trim(s) == s
  {
  }

  /** `!s.trim()`: the string is empty after trimming. */
  predicate IsBlank(s: string) {
    Trim(s) == []
  }

  /** A string is blank exactly when every character of it is white space. */
  lemma BlankIffAllSpace(s: string)
    ensures IsBlank(s) <==> forall i :: 0 <= i < |s| ==> IsSpace(s[i])
  {
    var r := Trim(s);
    if r != [] {
      assert r[0] == s[|s| - |TrimStart(s)|];
    }
  }

  /** Trimming twice is trimming once. */
  lemma TrimIdempotent(s: string)
    ensures Trim(Trim(s)) == Trim(s)
  {
    var r := Trim(s);
    assert TrimStart(r) == r;
    assert TrimEnd(r) == r;
  }

  /** `toLowerCase` on one character (ASCII letters only). */
  function LowerChar(c: char): char {
    if 'A' <= c <= 'Z' then (c as int + 32) as char else c
  }

  /** `toUpperCase` on one character (ASCII letters only). */
  function UpperChar(c: char): char {
    if 'a' <= c <= 'z' then (c as int - 32) as char else c
  }

  predicate IsLowerLetter(c: char) { 'a' <= c <= 'z' }

  predicate IsUpperLetter(c: char) { 'A' <= c <= 'Z' }

  /** `s.toLowerCase()`, character by character. */
  function ToLower(s: string): (r: string)
    ensures |r| == |s|
    ensures forall i :: 0 <= i < |s| ==> r[i] == LowerChar(s[i])
    ensures forall i :: 0 <= i < |r| ==> !IsUpperLetter(r[i])
  {
    seq(|s|, i requires 0 <= i < |s| => LowerChar(s[i]))
  }

  /** Lower-casing is idempotent, so comparing lower-cased strings ignores case. */
  lemma ToLowerIdempotent(s: string)
    ensures ToLower(ToLower(s)) == ToLower(s)
  {
  }

  /** `pat` occurs in `s` starting at index `j`. */
  predicate OccursAt(s: string, pat: string, j: int) {
    0 <= j && j + |pat| <= |s| && s[j..j + |pat|] == pat
  }

  /** The first occurrence of `pat` in `s` at index `k` or later. */
  function IndexFrom(s: string, pat: string, k: nat): (r: Option<nat>)
    requires k <= |s| + 1
    decreases |s| + 1 - k
    ensures r.Some? ==> k <= r.value && OccursAt(s, pat, r.value)
    ensures r.Some? ==> forall j :: k <= j < r.value ==> !OccursAt(s, pat, j)
    ensures r.None? ==> forall j :: k <= j ==> !OccursAt(s, pat, j)
  {
    if k + |pat| > |s| then None
    else if s[k..k + |pat|] == pat then Some(k)
    else IndexFrom(s, pat, k + 1)
  }

  /** `s.indexOf(pat)`, as an option. */
  function IndexOf(s: string, pat: string): (r: Option<nat>)
    ensures r.Some? ==> OccursAt(s, pat, r.value) && forall j :: 0 <= j < r.value ==> !OccursAt(s, pat, j)
    ensures r.None? ==> forall j :: !OccursAt(s, pat, j)
  {
    IndexFrom(s, pat, 0)
  }

  /** `s.includes(pat)`. */
  predicate Includes(s: string, pat: string) {
    IndexOf(s, pat).Some?
  }

  /** `includes` holds exactly when the pattern occurs somewhere. */
  lemma IncludesIffOccurs(s: string, pat: string)
    ensures Includes(s, pat) <==> exists j :: OccursAt(s, pat, j)
  {
  }

  /** `s.toLowerCase().includes(q.toLowerCase())`: `q` occurs in `s`, ignoring letter case. */
  predicate ContainsIgnoringCase(s: string, q: string) {
    Includes(ToLower(s), ToLower(q))
  }

  /** The empty query occurs in every string; lower-casing the query first changes nothing. */
  lemma ContainsIgnoringCaseFacts(s: string, q: string)
    ensures ContainsIgnoringCase(s, [])
    ensures ContainsIgnoringCase(s, ToLower(q)) == ContainsIgnoringCase(s, q)
  {
    assert OccursAt(ToLower(s), ToLower([]), 0);
    ToLowerIdempotent(q);
  }

  /** `s.split(c)[0]`: the text before the first `c`, or all of `s`. */
  function Before(s: string, c: char): (r: string)
    ensures |r| <= |s| && r == s[..|r|]
    ensures c !in r
    ensures |r| < |s| ==> s[|r|] == c
  {
    if |s| == 0 || s[0] == c then [] else [s[0]] + Before(s[1..], c)
  }

  /** `s.replace(c, d)` with a one-character pattern: only the first `c` is replaced. */
  function ReplaceFirst(s: string, c: char, d: char): (r: string)
    ensures |r| == |s|
    ensures var k := |Before(s, c)|;
            && (forall i :: 0 <= i < |s| && i != k ==> r[i] == s[i])
            && (k < |s| ==> r[k] == d)
    ensures c !in s ==> r == s
  {
    if |s| == 0 then []
    else if s[0] == c then [d] + s[1..]
    else [s[0]] + ReplaceFirst(s[1..], c, d)
  }

  /** The decimal digits of `n`, the text `String(n)` gives. */
  function Decimal(n: nat): (r: string)
    ensures r != []
    ensures forall i :: 0 <= i < |r| ==> '0' <= r[i] <= '9'
  {
    var digit := [(48 + n % 10) as char];
    if n < 10 then digit else Decimal(n / 10) + digit
  }

  /** `s.split(marker)[1]?.split("/")[0]`: the path segment after the first `marker`,
      up to the next `/`; `None` when `marker` does not occur.
      The text between the first and second occurrence of a marker that begins with
      `/` always reaches the first `/` after the first occurrence, so taking everything
      after the first occurrence up to the next `/` gives the same segment. */
  function SegmentAfter(path: string, marker: string): (r: Option<string>)
    ensures r.None? <==> !Includes(path, marker)
    ensures r.Some? ==> '/' !in r.value
    ensures r.Some? ==> var k := IndexOf(path, marker).value + |marker|;
                        k + |r.value| <= |path| && path[k..k + |r.value|] == r.value
                        && (k + |r.value| == |path| || path[k + |r.value|] == '/')
  {
    match IndexOf(path, marker)
    case None => None
    case Some(k) => Some(Before(path[k + |marker|..], '/'))
  }

  /** Building a path from a marker and a segment, then reading the segment back,
      gives that segment. */
  lemma SegmentAfterRoundTrip(marker: string, segment: string, rest: string)
    requires |marker| > 0
    requires '/' !in segment
    requires rest == [] || rest[0] == '/'
    ensures SegmentAfter(marker + segment + rest, marker) == Some(segment)
  {
    var path := marker + segment + rest;
    assert OccursAt(path, marker, 0);
    assert path[|marker|..] == segment + rest;
    BeforeOfConcat(segment, rest, '/');
  }

  lemma BeforeOfConcat(a: string, b: string, c: char)
    requires c !in a
    requires b == [] || b[0] == c
    ensures Before(a + b, c) == a
  {
    if |a| > 0 {
      assert (a + b)[1..] == a[1..] + b;
      BeforeOfConcat(a[1..], b, c);
    } else {
      assert a + b == b;
    }
  }

  /** JavaScript truthiness of a nullable string: present and non-empty. */
  predicate Truthy(s: Option<string>) {
    s.Some? && s.value != []
  }

  /** `a || b` on nullable strings. */
  function OrElse(a: Option<string>, b: Option<string>): (r: Option<string>)
    ensures Truthy(a) ==> r == a
    ensures !Truthy(a) ==> r == b
  {
    if Truthy(a) then a else b
  }

  /** Code-point lexicographic order. It stands in for the order `order by` gives a text
      column, which follows the database's collation: the two agree under the C collation
      and need not under a linguistic one. */
  predicate LexLe(a: string, b: string) {
    |a| == 0 || (|b| > 0 && (a[0] < b[0] || (a[0] == b[0] && LexLe(a[1..], b[1..]))))
  }

  lemma {:induction false} LexLeTotal(a: string, b: string)
    ensures LexLe(a, b) || LexLe(b, a)
    decreases |a|
  {
    if |a| > 0 && |b| > 0 && a[0] == b[0] {
      LexLeTotal(a[1..], b[1..]);
    }
  }

  lemma {:induction false} LexLeTransitive(a: string, b: string, c: string)
    requires LexLe(a, b) && LexLe(b, c)
    ensures LexLe(a, c)
    decreases |a|
  {
    if |a| > 0 && a[0] == b[0] && b[0] == c[0] {
      LexLeTransitive(a[1..], b[1..], c[1..]);
    }
  }
}

=== FILE: top_search_bar.dfy ===
/** The workspace top bar's message search: which channel, chat and workspace the current
    path names, the searches a keystroke starts, how their answers fill the three result
    lists, and the route Enter opens. The search action itself is a parameter: it takes
    the query and the user only. */
module TopSearchBar {
  import opened Wrappers
  import opened Schema
  import opened Text
  import Routes
  import WorkspaceSidebar

  /** The channel id in the path: the segment after `/channel/`, `None` when absent or empty. */
  function CurrentChannelId(path: string): (r: Option<Id>)
    ensures r.Some? ==> Includes(path, Routes.ChannelMarker) && r.value != [] && '/' !in r.value
    ensures !Includes(path, Routes.ChannelMarker) ==> r.None?
  {
    if Includes(path, Routes.ChannelMarker) then Routes.NonEmpty(SegmentAfter(path, Routes.ChannelMarker)) else None
  }

  /** The chat id, read only when the path names no channel. */
  function CurrentChatId(path: string): (r: Option<Id>)
    ensures Includes(path, Routes.ChannelMarker) ==> r.None?
    ensures r.Some? ==> Includes(path, Routes.ChatMarker) && r.value != [] && '/' !in r.value
  {
    if Includes(path, Routes.ChannelMarker) then None
    else if Includes(path, Routes.ChatMarker) then Routes.NonEmpty(SegmentAfter(path, Routes.ChatMarker))
    else None
  }

  /** The workspace id of the props, or failing that the one in the path. */
  function EffectiveWorkspaceId(prop: Option<Id>, path: string): (r: Option<Id>)
    ensures Truthy(prop) ==> r == prop
    ensures !Truthy(prop) && Includes(path, Routes.WorkspaceMarker) ==> r == Routes.WorkspaceSegment(path)
    ensures !Truthy(prop) && !Includes(path, Routes.WorkspaceMarker) ==> r == prop
  {
    if !Truthy(prop) && Includes(path, Routes.WorkspaceMarker) then Routes.WorkspaceSegment(path) else prop
  }

  /** On a channel page the bar knows the channel and the workspace, and no chat. */
  lemma ReadsChannelPath(ws: Id, channelId: Id)
    requires '/' !in ws && '/' !in channelId && channelId != [] && ws != "channel"
    ensures var path := WorkspaceSidebar.ChannelPath(ws, channelId);
            && CurrentChannelId(path) == Some(channelId)
            && CurrentChatId(path).None?
            && EffectiveWorkspaceId(None, path) == Some(ws)
  {
    var path := WorkspaceSidebar.ChannelPath(ws, channelId);
    Routes.ChannelSegmentOfChannelPath(ws, channelId);
    Routes.WorkspaceOfChildPaths(ws, channelId);
    assert Includes(path, Routes.ChannelMarker);
    assert Includes(path, Routes.WorkspaceMarker);
  }

  /** On a direct-chat page the bar knows the chat and the workspace, and no channel. */
  lemma ReadsChatPath(ws: Id, chatId: Id)
    requires '/' !in ws && '/' !in chatId && chatId != [] && ws != "channel" && ws != "dm"
    ensures var path := WorkspaceSidebar.ChatPath(ws, chatId);
            && CurrentChannelId(path).None?
            && CurrentChatId(path) == Some(chatId)
            && EffectiveWorkspaceId(None, path) == Some(ws)
  {
    var path := WorkspaceSidebar.ChatPath(ws, chatId);
    Routes.NoChannelInChatPath(ws, chatId);
    Routes.ChatSegmentOfChatPath(ws, chatId);
    Routes.WorkspaceOfChildPaths(ws, chatId);
    assert Includes(path, Routes.ChatMarker);
    assert Includes(path, Routes.WorkspaceMarker);
  }

  // ---------------------------------------------------------------------------
  // Searching
  // ---------------------------------------------------------------------------

  /** The filters a search passes: the workspace, and the channel for the channel-only one. */
  datatype SearchFilter = SearchFilter(workspaceId: Id, channelId: Option<Id>)

  /** The search action's data; either list may be missing (`|| []`). */
  datatype SearchData = SearchData(channelMessages: Option<seq<Message>>, directMessages: Option<seq<Message>>)

  /** The three lists the dropdown shows. */
  datatype Results = Results(channelMessages: seq<Message>, directMessages: seq<Message>, channelOnly: seq<Message>)

  const NoResults := Results([], [], [])

  function OrEmpty(xs: Option<seq<Message>>): seq<Message> {
    if xs.Some? then xs.value else []
  }

  /** Whether a keystroke searches at all: a non-blank query and a workspace id. */
  predicate Searches(query: string, ws: Option<Id>) {
    !IsBlank(query) && Truthy(ws)
  }

  /** The searches `handleSearch` starts: none for a blank query or without a workspace; the
      workspace-wide one; and the channel-only one when the path names a channel. */
  function SearchRequests(query: string, ws: Option<Id>, channelId: Option<Id>): (r: seq<SearchFilter>)
    ensures !Searches(query, ws) <==> r == []
    ensures Searches(query, ws) ==> r[0] == SearchFilter(ws.value, None)
    ensures |r| == 2 <==> Searches(query, ws) && Truthy(channelId)
    ensures |r| <= 2
    ensures |r| == 2 ==> r[1] == SearchFilter(ws.value, channelId)
  {
    if !Searches(query, ws) then []
    else if Truthy(channelId) then [SearchFilter(ws.value, None), SearchFilter(ws.value, channelId)]
    else [SearchFilter(ws.value, None)]
  }

  /** `handleSearch` once the answers are in: cleared when nothing is searched; a failed
      workspace-wide search leaves the lists as they were; otherwise the lists are the
      answers', the channel-only one empty without a channel or a successful second answer. */
  function HandleSearch(query: string, ws: Option<Id>, channelId: Option<Id>, current: Results,
                        res: ActionState<SearchData>, channelRes: ActionState<SearchData>): (r: Results)
    ensures !Searches(query, ws) ==> r == NoResults
    ensures Searches(query, ws) && res.Failure? ==> r == current
    ensures Searches(query, ws) && res.Success? ==>
              && r.channelMessages == OrEmpty(res.data.channelMessages)
              && r.directMessages == OrEmpty(res.data.directMessages)
    ensures Searches(query, ws) && res.Success? && !(Truthy(channelId) && channelRes.Success?) ==> r.channelOnly == []
    ensures Searches(query, ws) && res.Success? && Truthy(channelId) && channelRes.Success? ==>
              r.channelOnly == OrEmpty(channelRes.data.channelMessages)
  {
    if !Searches(query, ws) then NoResults
    else if res.Failure? then current
    else
      var only := if Truthy(channelId) && channelRes.Success? then OrEmpty(channelRes.data.channelMessages) else [];
      Results(OrEmpty(res.data.channelMessages), OrEmpty(res.data.directMessages), only)
  }

  /** The search action takes the query and the user only; the filters the bar passes are
      dropped. So on a channel page the channel-only list repeats the workspace-wide channel
      results, whichever channel the page shows. */
  lemma ChannelOnlyRepeatsWorkspaceResults(search: (string, Id) -> ActionState<SearchData>, query: string,
                                           userId: Id, ws: Id, channelId: Id, current: Results)
    requires !IsBlank(query) && ws != [] && channelId != []
    requires search(query, userId).Success?
    ensures var r := HandleSearch(query, Some(ws), Some(channelId), current, search(query, userId), search(query, userId));
            r.channelOnly == r.channelMessages
  {
  }

  /** From a channel page the bar asks for the workspace-wide and the channel's results. */
  lemma ChannelPageSearchesChannel(ws: Id, channelId: Id, query: string)
    requires '/' !in ws && '/' !in channelId && channelId != [] && ws != [] && ws != "channel"
    requires !IsBlank(query)
    ensures var path := WorkspaceSidebar.ChannelPath(ws, channelId);
            SearchRequests(query, EffectiveWorkspaceId(None, path), CurrentChannelId(path)) ==
              [SearchFilter(ws, None), SearchFilter(ws, Some(channelId))]
  {
    ReadsChannelPath(ws, channelId);
  }

  /** `slice(0, 5)`: each dropdown section shows at most the first five results. */
  function Shown<T>(xs: seq<T>): (r: seq<T>)
    ensures |r| <= 5 && |r| <= |xs| && r == xs[..|r|]
    ensures |xs| <= 5 ==> r == xs
    ensures |xs| > 5 ==> |r| == 5
  {
    if |xs| <= 5 then xs else xs[..5]
  }

  /** `onEnterSearch`: the workspace's search page with the encoded query, unless there is no
      workspace id or the query is blank. */
  function EnterSearch(ws: Option<Id>, query: string, encode: string -> string): (r: Option<string>)
    ensures r.Some? <==> Searches(query, ws)
    ensures r.Some? ==> r.value == WorkspaceSidebar.WorkspacePath(ws.value) + "/search?query=" + encode(query)
  {
    if Searches(query, ws) then Some(WorkspaceSidebar.WorkspacePath(ws.value) + "/search?query=" + encode(query)) else None
  }

  /** The bar searches as the user types and opens the search page on Enter under the same
      condition: a live search runs exactly when Enter would navigate. */
  lemma EnterWhenSearching(ws: Option<Id>, query: string, encode: string -> string, channelId: Option<Id>)
    ensures EnterSearch(ws, query, encode).Some? <==> SearchRequests(query, ws, channelId) != []
  {
  }
}

=== FILE: user_map.dfy ===
/** The shared user cache of the workspace views (`UserMapProvider`) and its message
    conversion. The lookup action's response is a parameter; `LoadAgainstStore` ties it to
    the action over a store. */
module UserMap {
  import opened Wrappers
  import opened Schema
  import opened Records
  import opened Sequences
  import UsersActions

  /** `Record<string, SelectUser>` keyed by user id. */
  type UserCache = map<Id, User>

  // ---------------------------------------------------------------------------
  // transformMessage
  // ---------------------------------------------------------------------------

  /** `new Date(text + "Z")` for a text date, anything else left as it is. */
  function ParsedDate(v: Value): (r: Value)
    ensures v.Str? ==> r == Instant(v.s + "Z")
    ensures !v.Str? ==> r == v
  {
    if v.Str? then Instant(v.s + "Z") else v
  }

  /** `if (typeof cloned[key] === "string") cloned[key] = new Date(cloned[key] + "Z")`. */
  function WithParsedDate(r: Record, key: string): (t: Record)
    ensures forall k :: HasKey(t, k) <==> HasKey(r, k)
    ensures Get(t, key) == ParsedDate(Get(r, key))
    ensures forall k :: k != key ==> Get(t, k) == Get(r, k)
  {
    match Get(r, key)
    case Str(text) =>
      SetThenGet(r, key, Instant(text + "Z"));
      SetKeys(r, key, Instant(text + "Z"));
      Set(r, key, Instant(text + "Z"))
    case _ => r
  }

  /** `transformMessage`: a shallow copy in which text `createdAt` / `updatedAt` become dates
      and a truthy `reactions` is replaced by its spread copy. No key is added or dropped and
      every other field is kept. */
  function DatesParsed(r: Record): (t: Record)
    ensures forall k :: HasKey(t, k) <==> HasKey(r, k)
    ensures forall k :: k != "createdAt" && k != "updatedAt" && k != "reactions" ==> Get(t, k) == Get(r, k)
    ensures Get(t, "createdAt") == ParsedDate(Get(r, "createdAt"))
    ensures Get(t, "updatedAt") == ParsedDate(Get(r, "updatedAt"))
    ensures Get(t, "reactions") == if Truthy(Get(r, "reactions")) then Spread(Get(r, "reactions")) else Get(r, "reactions")
  {
    SpreadKeepsDates(r);
    SpreadReactions(r);
    SpreadKeepsOthers(r);
    WithSpread(BothDatesParsed(r), "reactions")
  }

  lemma SpreadKeepsDates(r: Record)
    ensures var t := WithSpread(BothDatesParsed(r), "reactions");
            && Get(t, "createdAt") == ParsedDate(Get(r, "createdAt"))
            && Get(t, "updatedAt") == ParsedDate(Get(r, "updatedAt"))
  {
    ConvertedKeysDistinct();
    SpreadKeepsKey(BothDatesParsed(r), "reactions", "createdAt");
    SpreadKeepsKey(BothDatesParsed(r), "reactions", "updatedAt");
  }

  lemma SpreadReactions(r: Record)
    ensures var t := WithSpread(BothDatesParsed(r), "reactions");
            Get(t, "reactions") == if Truthy(Get(r, "reactions")) then Spread(Get(r, "reactions")) else Get(r, "reactions")
  {
    ConvertedKeysDistinct();
    assert Get(BothDatesParsed(r), "reactions") == Get(r, "reactions");
  }

  /** Spreading one key leaves another as it was. */
  lemma SpreadKeepsKey(b: Record, key: string, other: string)
    requires key != other
    ensures Get(WithSpread(b, key), other) == Get(b, other)
  {
  }

  lemma SpreadKeepsOthers(r: Record)
    ensures var t := WithSpread(BothDatesParsed(r), "reactions");
            && (forall k :: HasKey(t, k) <==> HasKey(r, k))
            && (forall k :: k != "createdAt" && k != "updatedAt" && k != "reactions" ==> Get(t, k) == Get(r, k))
  {
  }

  /** The two date conversions: `createdAt` and `updatedAt` parsed, every other key kept. */
  function BothDatesParsed(r: Record): (t: Record)
    ensures forall k :: HasKey(t, k) <==> HasKey(r, k)
    ensures forall k :: k != "createdAt" && k != "updatedAt" ==> Get(t, k) == Get(r, k)
    ensures Get(t, "createdAt") == ParsedDate(Get(r, "createdAt"))
    ensures Get(t, "updatedAt") == ParsedDate(Get(r, "updatedAt"))
  {
    ConvertedKeysDistinct();
    ParsedDateKeepsKey(WithParsedDate(r, "createdAt"), "updatedAt", "createdAt");
    ParsedDateKeepsKey(r, "createdAt", "updatedAt");
    WithParsedDate(WithParsedDate(r, "createdAt"), "updatedAt")
  }

  /** Parsing one date leaves another key as it was. */
  lemma ParsedDateKeepsKey(b: Record, key: string, other: string)
    requires key != other
    ensures Get(WithParsedDate(b, key), other) == Get(b, other)
  {
  }

  /** The three keys the conversion touches are distinct. */
  lemma ConvertedKeysDistinct()
    ensures "createdAt" != "updatedAt" && "createdAt" != "reactions" && "updatedAt" != "reactions"
  {
    assert "createdAt"[0] == 'c' && "updatedAt"[0] == 'u' && "reactions"[0] == 'r';
  }

  /** `if (message[key]) cloned[key] = { ...message[key] }`. */
  function WithSpread(r: Record, key: string): (t: Record)
    ensures forall k :: HasKey(t, k) <==> HasKey(r, k)
    ensures Get(t, key) == if Truthy(Get(r, key)) then Spread(Get(r, key)) else Get(r, key)
    ensures forall k :: k != key ==> Get(t, k) == Get(r, k)
  {
    var x := Get(r, key);
    if Truthy(x) then
      SetThenGet(r, key, Spread(x));
      SetKeys(r, key, Spread(x));
      Set(r, key, Spread(x))
    else r
  }

  /** Converting a converted message changes nothing more: dates are no longer text and the
      reactions are already a plain object. */
  lemma DatesParsedIdempotent(r: Record)
    ensures DatesParsed(DatesParsed(r)) == DatesParsed(r)
  {
    var t := DatesParsed(r);
    assert !Get(t, "createdAt").Str? && !Get(t, "updatedAt").Str? by {
      if Get(r, "createdAt").Str? {
        assert Get(t, "createdAt") == Instant(Get(r, "createdAt").s + "Z");
      }
      if Get(r, "updatedAt").Str? {
        assert Get(t, "updatedAt") == Instant(Get(r, "updatedAt").s + "Z");
      }
    }
    var x := Get(t, "reactions");
    if Truthy(x) {
      assert x.Object?;
      assert HasKey(t, "reactions");
      SetExisting(t, "reactions");
    }
  }

  // ---------------------------------------------------------------------------
  // bulkLoadUsers
  // ---------------------------------------------------------------------------

  /** The authors of a batch: `userId` of channel messages, `senderId` of direct ones. */
  function Authors(msgs: seq<Message>): (r: seq<Id>)
    ensures |r| == |msgs| && forall i :: 0 <= i < |msgs| ==> r[i] == AuthorId(msgs[i])
  {
    seq(|msgs|, i requires 0 <= i < |msgs| => AuthorId(msgs[i]))
  }

  /** The ids `bulkLoadUsers` asks for: each author once, in first-appearance order, less
      those already cached. */
  function MissingIds(cache: UserCache, msgs: seq<Message>): (r: seq<Id>)
    ensures Distinct(r)
    ensures forall id :: id in r <==> id !in cache && exists m :: m in msgs && AuthorId(m) == id
  {
    var r := Filter(Unique(Authors(msgs)), (id: Id) => id !in cache);
    assert forall id :: id in Authors(msgs) <==> exists m :: m in msgs && AuthorId(m) == id by {
      forall id | id in Authors(msgs) ensures exists m :: m in msgs && AuthorId(m) == id {
        var i :| 0 <= i < |msgs| && Authors(msgs)[i] == id;
        assert msgs[i] in msgs;
      }
      forall id | exists m :: m in msgs && AuthorId(m) == id ensures id in Authors(msgs) {
        var m :| m in msgs && AuthorId(m) == id;
        var i :| 0 <= i < |msgs| && msgs[i] == m;
        assert Authors(msgs)[i] == id;
      }
    }
    FilterKeepsDistinct(Unique(Authors(msgs)), (id: Id) => id !in cache);
    r
  }

  lemma {:induction false} FilterKeepsDistinct(xs: seq<Id>, p: Id -> bool)
    requires Distinct(xs)
    ensures Distinct(Filter(xs, p))
  {
    if |xs| > 0 {
      assert Distinct(xs[1..]);
      FilterKeepsDistinct(xs[1..], p);
      assert xs[0] !in xs[1..];
    }
  }

  /** `updateMap[u.id] = u` for each fetched user in turn, over a copy of the cache. */
  function Overlay(cache: UserCache, users: seq<User>): (r: UserCache)
    ensures forall id :: id in r <==> id in cache || exists u :: u in users && u.id == id
    ensures forall id :: id in cache && (forall u :: u in users ==> u.id != id) ==> r[id] == cache[id]
    ensures forall u :: u in users ==> r[u.id] in users && r[u.id].id == u.id
  {
    if |users| == 0 then cache
    else
      var last := users[|users| - 1];
      var init := users[..|users| - 1];
      var r0 := Overlay(cache, init);
      assert forall u :: u in users <==> u in init || u == last by {
        assert users == init + [last];
      }
      r0[last.id := last]
  }

  /** What the cache becomes after `bulkLoadUsers(msgs)`, given the response the lookup of the
      missing ids gave: unchanged when nothing is missing (no request is made) or the lookup
      failed, else the fetched users laid over it. */
  function BulkLoadUsers(cache: UserCache, msgs: seq<Message>, response: ActionState<seq<User>>): (r: UserCache)
    ensures MissingIds(cache, msgs) == [] || response.Failure? ==> r == cache
    ensures MissingIds(cache, msgs) != [] && response.Success? ==> r == Overlay(cache, response.data)
    ensures forall id :: id in cache ==> id in r
  {
    if MissingIds(cache, msgs) == [] then cache
    else if response.Success? then Overlay(cache, response.data)
    else cache
  }

  /** The insert handlers' user load, in the message list and the thread panel alike:
      `bulkLoadUsers([msg])`, called only when the author (`userId || senderId`) is not cached.
      A cached author or a failed lookup leaves the cache; otherwise the fetched users are
      laid over it and nothing but their ids is added. */
  function AuthorLoad(cache: UserCache, m: Message, response: ActionState<seq<User>>): (r: UserCache)
    ensures AuthorId(m) in cache || response.Failure? ==> r == cache
    ensures forall id :: id in cache ==> id in r
    ensures response.Success? ==> forall id :: id in r ==> id in cache || exists u :: u in response.data && u.id == id
    ensures AuthorId(m) !in cache && response.Success? ==> forall u :: u in response.data ==> u.id in r && r[u.id] in response.data && r[u.id].id == u.id
  {
    if AuthorId(m) !in cache then
      assert AuthorId(m) in MissingIds(cache, [m]) by { assert m in [m]; }
      var r := BulkLoadUsers(cache, [m], response);
      assert response.Success? ==> forall u :: u in response.data ==> u.id in r;
      r
    else cache
  }

  /** The cache check before the load changes nothing: `bulkLoadUsers` itself asks only for
      uncached authors and makes no request when there are none. */
  lemma AuthorLoadIsBulkLoad(cache: UserCache, m: Message, response: ActionState<seq<User>>)
    ensures AuthorLoad(cache, m, response) == BulkLoadUsers(cache, [m], response)
  {
    var missing := MissingIds(cache, [m]);
    if AuthorId(m) in cache && missing != [] {
      assert false;
    }
  }

  /** Loaded against the store, with the lookup `getUsersByIdsAction(missingIds)`: every author
      who exists is cached afterwards, no cached entry changes, and nothing else is added. */
  lemma LoadAgainstStore(s: Store, cache: UserCache, msgs: seq<Message>)
    requires UsersActions.UniqueUserIds(s.users)
    ensures var r := BulkLoadUsers(cache, msgs, UsersActions.GetUsersByIds(s, MissingIds(cache, msgs)));
            && (forall m :: m in msgs && FindUser(s.users, AuthorId(m)).Some? ==> AuthorId(m) in r)
            && (forall id :: id in cache ==> r[id] == cache[id])
            && (forall id :: id in r ==> id in cache || exists m :: m in msgs && AuthorId(m) == id)
            && (forall id :: id in r && id !in cache ==> r[id] in s.users)
  {
    var missing := MissingIds(cache, msgs);
    var res := UsersActions.GetUsersByIds(s, missing);
    var r := BulkLoadUsers(cache, msgs, res);
    if missing != [] {
      forall m | m in msgs && FindUser(s.users, AuthorId(m)).Some? ensures AuthorId(m) in r {
        if AuthorId(m) !in cache {
          assert AuthorId(m) in missing;
          var u := FindUser(s.users, AuthorId(m)).value;
          assert u in res.data;
        }
      }
    }
  }
}

=== FILE: users_actions.dfy ===
/** The user server actions: the identity-provider upsert, lookups, partial updates,
    deletion, and the case-insensitive user search. */
module UsersActions {
  import opened Wrappers
  import opened Schema
  import Sequences
  import Text

  /** The columns the upsert supplies; `status` may be left to its default. */
  datatype UserInput = UserInput(
    id: Id, username: string, email: string, fullName: string, imageUrl: Option<string>, status: Option<Status>)

  /** The optional columns of a partial update; `None` means "not supplied". */
  datatype UserPatch = UserPatch(
    username: Option<string>, email: Option<string>, fullName: Option<string>,
    imageUrl: Option<Option<string>>, status: Option<Status>, customStatus: Option<Option<string>>)

  /** The primary key: no two users share an id. */
  ghost predicate UniqueUserIds(users: seq<User>) {
    forall i, j :: 0 <= i < j < |users| ==> users[i].id != users[j].id
  }

  /** Every user with that id replaced by `row`; the others untouched. */
  function ReplaceUser(users: seq<User>, id: Id, row: User): (r: seq<User>)
    ensures |r| == |users|
    ensures forall i :: 0 <= i < |users| ==> r[i] == if users[i].id == id then row else users[i]
  {
    Sequences.ReplaceWhere(users, (u: User) => u.id == id, row)
  }

  /** `createUserAction`: insert the user, or on an id conflict update only the username,
      email, full name and image and stamp `updatedAt`; status, custom status and creation
      time of an existing user are kept. */
  function CreateUser(s: Store, u: UserInput, now: nat): (r: (ActionState<User>, Store))
    ensures r.0.Success? && r.0.message == "User created/updated successfully"
    ensures r.0.data.id == u.id && r.0.data.username == u.username && r.0.data.email == u.email
    ensures r.0.data.fullName == u.fullName && r.0.data.imageUrl == u.imageUrl && r.0.data.updatedAt == now
    ensures FindUser(s.users, u.id).None? ==>
              && r.0.data.status == (if u.status.Some? then u.status.value else Offline)
              && r.0.data.customStatus.None? && r.0.data.createdAt == now
              && r.1 == s.(users := s.users + [r.0.data])
    ensures FindUser(s.users, u.id).Some? ==>
              var prior := FindUser(s.users, u.id).value;
              && r.0.data.status == prior.status && r.0.data.customStatus == prior.customStatus
              && r.0.data.createdAt == prior.createdAt
              && r.1 == s.(users := ReplaceUser(s.users, u.id, r.0.data))
  {
    match FindUser(s.users, u.id)
    case None =>
      var row := User(u.id, u.username, u.email, u.fullName, u.imageUrl,
                      if u.status.Some? then u.status.value else Offline, None, now, now);
      (Success("User created/updated successfully", row), s.(users := s.users + [row]))
    case Some(prior) =>
      var row := prior.(username := u.username, email := u.email, fullName := u.fullName,
                        imageUrl := u.imageUrl, updatedAt := now);
      (Success("User created/updated successfully", row), s.(users := ReplaceUser(s.users, u.id, row)))
  }

  /** With unique ids, the lookup answers the user's only row. */
  lemma {:induction false} FindOnlyUser(users: seq<User>, u: User)
    requires UniqueUserIds(users) && u in users
    ensures FindUser(users, u.id) == Some(u)
  {
    if users[0] != u {
      assert users[0].id != u.id by {
        var k :| 0 < k < |users| && users[k] == u;
      }
      assert u in users[1..];
      FindOnlyUser(users[1..], u);
    }
  }

  /** The upsert keeps ids unique, and afterwards the lookup answers the upserted row. */
  lemma CreateUserKeepsUniqueIds(s: Store, u: UserInput, now: nat)
    requires UniqueUserIds(s.users)
    ensures var (r, s1) := CreateUser(s, u, now);
            UniqueUserIds(s1.users) && FindUser(s1.users, u.id) == Some(r.data)
  {
    var (r, s1) := CreateUser(s, u, now);
    var t := s1.users;
    forall i, j | 0 <= i < j < |t| ensures t[i].id != t[j].id {
      if FindUser(s.users, u.id).None? && j == |s.users| {
        assert s.users[i] in s.users;
      }
    }
    assert r.data in t by {
      if FindUser(s.users, u.id).Some? {
        var i :| 0 <= i < |s.users| && s.users[i] == FindUser(s.users, u.id).value;
        assert t[i] == r.data;
      } else {
        assert t[|s.users|] == r.data;
      }
    }
    FindOnlyUser(t, r.data);
  }

  /** Delivering the same upsert twice has the effect of delivering it once. */
  lemma CreateUserIdempotent(s: Store, u: UserInput, now: nat)
    requires UniqueUserIds(s.users)
    ensures var once := CreateUser(s, u, now);
            CreateUser(once.1, u, now) == once
  {
    var (r, s1) := CreateUser(s, u, now);
    CreateUserKeepsUniqueIds(s, u, now);
    var row := r.data.(username := u.username, email := u.email, fullName := u.fullName,
                       imageUrl := u.imageUrl, updatedAt := now);
    assert row == r.data;
    var t := ReplaceUser(s1.users, u.id, r.data);
    forall i | 0 <= i < |t| ensures t[i] == s1.users[i] {
      if s1.users[i].id == u.id {
        FindOnlyUser(s1.users, s1.users[i]);
      }
    }
    assert t == s1.users;
  }

  /** `getUserAction`. */
  function GetUser(s: Store, id: Id): (r: ActionState<User>)
    ensures r.Failure? <==> forall u :: u in s.users ==> u.id != id
    ensures r.Failure? ==> r.message == "User not found"
    ensures r.Success? ==> r.message == "User retrieved successfully" && r.data in s.users && r.data.id == id
  {
    match FindUser(s.users, id)
    case None => Failure("User not found")
    case Some(u) => Success("User retrieved successfully", u)
  }

  /** The supplied columns set, `updatedAt` stamped with now, the others kept. */
  function PatchedUser(u: User, d: UserPatch, now: nat): (r: User)
    ensures r.id == u.id && r.createdAt == u.createdAt && r.updatedAt == now
    ensures r.username == (if d.username.Some? then d.username.value else u.username)
    ensures r.email == (if d.email.Some? then d.email.value else u.email)
    ensures r.fullName == (if d.fullName.Some? then d.fullName.value else u.fullName)
    ensures r.imageUrl == (if d.imageUrl.Some? then d.imageUrl.value else u.imageUrl)
    ensures r.status == (if d.status.Some? then d.status.value else u.status)
    ensures r.customStatus == (if d.customStatus.Some? then d.customStatus.value else u.customStatus)
  {
    User(u.id,
         match d.username case Some(v) => v case None => u.username,
         match d.email case Some(v) => v case None => u.email,
         match d.fullName case Some(v) => v case None => u.fullName,
         match d.imageUrl case Some(v) => v case None => u.imageUrl,
         match d.status case Some(v) => v case None => u.status,
         match d.customStatus case Some(v) => v case None => u.customStatus,
         u.createdAt, now)
  }

  /** Whether the patch supplies some column. A patch supplying none reaches `.set` with no
      values, which throws "No values to set" before any row is touched. */
  predicate SetsSomeColumn(d: UserPatch) {
    d.username.Some? || d.email.Some? || d.fullName.Some? || d.imageUrl.Some? || d.status.Some? || d.customStatus.Some?
  }

  /** `updateUserAction`: an empty patch fails with nothing written; otherwise every row with
      that id is patched. The returned row is the first updated one, absent (yet still a
      success) when no row matched. */
  function UpdateUser(s: Store, id: Id, d: UserPatch, now: nat): (r: (ActionState<Option<User>>, Store))
    ensures r.0.Success? <==> SetsSomeColumn(d)
    ensures r.0.Failure? ==> r.0.message == "Failed to update user" && r.1 == s
    ensures r.0.Success? ==> r.0.message == "User updated successfully"
    ensures r.0.Success? ==> (r.0.data.None? <==> forall u :: u in s.users ==> u.id != id)
    ensures r.0.Success? && r.0.data.Some? ==> r.0.data.value == PatchedUser(FindUser(s.users, id).value, d, now)
    ensures r.1 == s.(users := r.1.users) && |r.1.users| == |s.users|
    ensures r.0.Success? ==> forall i :: 0 <= i < |s.users| ==>
              r.1.users[i] == if s.users[i].id == id then PatchedUser(s.users[i], d, now) else s.users[i]
  {
    if !SetsSomeColumn(d) then (Failure("Failed to update user"), s)
    else
      var users := seq(|s.users|, i requires 0 <= i < |s.users| =>
                         if s.users[i].id == id then PatchedUser(s.users[i], d, now) else s.users[i]);
      match FindUser(s.users, id)
      case None => (Success("User updated successfully", None), s.(users := users))
      case Some(u) => (Success("User updated successfully", Some(PatchedUser(u, d, now))), s.(users := users))
  }

  /** An update keeps ids unique; reading the user back answers the patched row, or the row
      as it was when the patch was empty and the update failed. */
  lemma UpdateThenGetUser(s: Store, id: Id, d: UserPatch, now: nat)
    requires UniqueUserIds(s.users) && FindUser(s.users, id).Some?
    ensures var s1 := UpdateUser(s, id, d, now).1;
            && UniqueUserIds(s1.users)
            && (SetsSomeColumn(d) ==>
                  GetUser(s1, id) == Success("User retrieved successfully", PatchedUser(FindUser(s.users, id).value, d, now)))
            && (!SetsSomeColumn(d) ==> s1 == s && GetUser(s1, id) == Success("User retrieved successfully", FindUser(s.users, id).value))
  {
    if SetsSomeColumn(d) {
      var s1 := UpdateUser(s, id, d, now).1;
      var u := FindUser(s.users, id).value;
      var i :| 0 <= i < |s.users| && s.users[i] == u;
      assert s1.users[i] == PatchedUser(u, d, now);
      SameIdsKeepUnique(s.users, s1.users);
      FindOnlyUser(s1.users, s1.users[i]);
    }
  }

  /** Rows that keep their ids position by position keep them unique. */
  lemma SameIdsKeepUnique(a: seq<User>, b: seq<User>)
    requires UniqueUserIds(a) && |a| == |b|
    requires forall k :: 0 <= k < |a| ==> b[k].id == a[k].id
    ensures UniqueUserIds(b)
  {
  }

  /** Some row still references the user through a foreign key without a cascade. */
  predicate Referenced(s: Store, id: Id) {
    || (exists i :: 0 <= i < |s.workspaces| && s.workspaces[i].creatorId == id)
    || (exists i :: 0 <= i < |s.workspaceMembers| && s.workspaceMembers[i].userId == id)
    || (exists i :: 0 <= i < |s.channels| && s.channels[i].creatorId == id)
    || (exists i :: 0 <= i < |s.channelMembers| && s.channelMembers[i].userId == id)
    || (exists i :: 0 <= i < |s.directChats| && (s.directChats[i].user1Id == id || s.directChats[i].user2Id == id))
    || (exists i :: 0 <= i < |s.messages| && AuthorId(s.messages[i]) == id)
    || (exists i :: 0 <= i < |s.directMessages| && AuthorId(s.directMessages[i]) == id)
  }

  function UsersExcept(users: seq<User>, id: Id): (r: seq<User>)
    ensures forall u :: u in r <==> u in users && u.id != id
  {
    Sequences.Filter(users, (u: User) => u.id != id)
  }

  function PresenceExcept(rows: seq<Presence>, id: Id): (r: seq<Presence>)
    ensures forall p :: p in r <==> p in rows && p.userId != id
  {
    Sequences.Filter(rows, (p: Presence) => p.userId != id)
  }

  /** `deleteUserAction`: refused while other rows reference the user; otherwise the user
      goes, and its presence row with it by cascade. */
  function DeleteUser(s: Store, id: Id): (r: (ActionState<()>, Store))
    ensures r.0.Failure? <==> Referenced(s, id)
    ensures r.0.Failure? ==> r == (Failure("Failed to delete user"), s)
    ensures r.0.Success? ==> r.0.message == "User deleted successfully"
    ensures r.0.Success? ==> forall u :: u in r.1.users <==> u in s.users && u.id != id
    ensures r.0.Success? ==> forall p :: p in r.1.presence <==> p in s.presence && p.userId != id
    ensures r.1 == s.(users := r.1.users, presence := r.1.presence)
  {
    if Referenced(s, id) then (Failure("Failed to delete user"), s)
    else (Success("User deleted successfully", ()),
          s.(users := UsersExcept(s.users, id), presence := PresenceExcept(s.presence, id)))
  }

  /** `ilike(column, '%query%')` on the username or the full name. */
  predicate MatchesQuery(u: User, query: string) {
    Text.ContainsIgnoringCase(u.username, query) || Text.ContainsIgnoringCase(u.fullName, query)
  }

  function MatchingUsers(users: seq<User>, query: string, currentUserId: Id): (r: seq<User>)
    ensures |r| <= |users|
    ensures forall u :: u in r <==> u in users && MatchesQuery(u, query) && u.id != currentUserId
  {
    Sequences.Filter(users, (u: User) => MatchesQuery(u, query) && u.id != currentUserId)
  }

  /** `searchUsersAction`: the users other than the caller whose username or full name
      contains the query, ignoring case. */
  function SearchUsers(s: Store, query: string, currentUserId: Id): (r: ActionState<seq<User>>)
    ensures r.Success? && r.message == "Users found successfully"
    ensures forall u :: u in r.data ==> u.id != currentUserId
    ensures forall u :: u in r.data <==> (u in s.users && u.id != currentUserId &&
              (Text.ContainsIgnoringCase(u.username, query) || Text.ContainsIgnoringCase(u.fullName, query)))
  {
    Success("Users found successfully", MatchingUsers(s.users, query, currentUserId))
  }

  /** The search ignores case, and the empty query finds every other user. */
  lemma SearchUsersFacts(s: Store, query: string, currentUserId: Id)
    ensures SearchUsers(s, Text.ToLower(query), currentUserId) == SearchUsers(s, query, currentUserId)
    ensures forall u :: u in s.users && u.id != currentUserId ==> u in SearchUsers(s, [], currentUserId).data
  {
    forall u: User ensures MatchesQuery(u, Text.ToLower(query)) == MatchesQuery(u, query) {
      Text.ContainsIgnoringCaseFacts(u.username, query);
      Text.ContainsIgnoringCaseFacts(u.fullName, query);
    }
    SameMatches(s.users, Text.ToLower(query), query, currentUserId);
    forall u | u in s.users && u.id != currentUserId ensures MatchesQuery(u, []) {
      Text.ContainsIgnoringCaseFacts(u.username, query);
    }
  }

  lemma {:induction false} SameMatches(users: seq<User>, q1: string, q2: string, currentUserId: Id)
    requires forall u: User :: MatchesQuery(u, q1) == MatchesQuery(u, q2)
    ensures MatchingUsers(users, q1, currentUserId) == MatchingUsers(users, q2, currentUserId)
  {
    if |users| > 0 {
      SameMatches(users[1..], q1, q2, currentUserId);
    }
  }

  function UsersWithIds(users: seq<User>, ids: seq<Id>): (r: seq<User>)
    ensures |r| <= |users|
    ensures forall u :: u in r <==> u in users && u.id in ids
  {
    Sequences.Filter(users, (u: User) => u.id in ids)
  }

  /** `getUsersByIdsAction`: exactly the users whose id is listed. */
  function GetUsersByIds(s: Store, ids: seq<Id>): (r: ActionState<seq<User>>)
    ensures r.Success? && r.message == "Users retrieved successfully"
    ensures forall u :: u in r.data <==> u in s.users && u.id in ids
  {
    Success("Users retrieved successfully", UsersWithIds(s.users, ids))
  }
}

=== FILE: webhook.dfy ===
/** The identity-provider webhook: header guard, signature verdict, and the user events it
    turns into store changes. The signature check itself is a parameter. */
module ClerkWebhook {
  import opened Wrappers
  import opened Schema
  import Text
  import UsersActions
  import MessageTable
  import MessagesActions
  import DirectMessagesActions

  /** The three signature headers, each possibly missing. */
  datatype Headers = Headers(svixId: Option<string>, svixTimestamp: Option<string>, svixSignature: Option<string>)

  /** The user object an event carries: its email addresses in order and optional names. */
  datatype ClerkUser = ClerkUser(
    id: Id, emailAddresses: seq<string>, username: Option<string>,
    firstName: Option<string>, lastName: Option<string>, imageUrl: Option<string>)

  datatype WebhookEvent =
    | UserCreated(user: ClerkUser)
    | UserUpdated(user: ClerkUser)
    | UserDeleted(id: Id)
    | OtherEvent(eventType: string)

  datatype Response = Response(status: nat, body: string)

  predicate HeadersPresent(h: Headers) {
    Text.Truthy(h.svixId) && Text.Truthy(h.svixTimestamp) && Text.Truthy(h.svixSignature)
  }

  /** `email_addresses?.[0]?.email_address`. */
  function PrimaryEmail(u: ClerkUser): Option<string> {
    if |u.emailAddresses| > 0 then Some(u.emailAddresses[0]) else None
  }

  /** `x || ""` on a nullable string. */
  function OrEmpty(s: Option<string>): (r: string)
    ensures Text.Truthy(s) ==> r == s.value
    ensures !Text.Truthy(s) ==> r == []
  {
    if s.Some? then s.value else []
  }

  /** The trimmed "first last", or the email when that is empty. */
  function FullName(u: ClerkUser, email: string): (r: string)
    ensures r == Text.Trim(OrEmpty(u.firstName) + " " + OrEmpty(u.lastName)) || r == email
    ensures email != [] ==> r != []
    ensures r != email ==> r == Text.Trim(r)
  {
    var t := Text.Trim(OrEmpty(u.firstName) + " " + OrEmpty(u.lastName));
    Text.TrimIdempotent(OrEmpty(u.firstName) + " " + OrEmpty(u.lastName));
    if t != [] then t else email
  }

  /** With both names present and free of surrounding white space, the full name is
      "first last"; with neither, it is the email. */
  lemma FullNameCases(u: ClerkUser, email: string)
    ensures u.firstName.Some? && u.lastName.Some? && u.firstName.value != [] && u.lastName.value != []
            && !Text.IsSpace(u.firstName.value[0]) && !Text.IsSpace(u.lastName.value[|u.lastName.value| - 1])
            ==> FullName(u, email) == u.firstName.value + " " + u.lastName.value
    ensures !Text.Truthy(u.firstName) && !Text.Truthy(u.lastName) ==> FullName(u, email) == email
  {
    var a := OrEmpty(u.firstName) + " " + OrEmpty(u.lastName);
    if u.firstName.Some? && u.lastName.Some? && u.firstName.value != [] && u.lastName.value != []
       && !Text.IsSpace(u.firstName.value[0]) && !Text.IsSpace(u.lastName.value[|u.lastName.value| - 1]) {
      assert a[0] == u.firstName.value[0];
      assert a[|a| - 1] == u.lastName.value[|u.lastName.value| - 1];
      Text.TrimOfTrimmed(a);
    }
    if !Text.Truthy(u.firstName) && !Text.Truthy(u.lastName) {
      assert a == " ";
      Text.BlankIffAllSpace(a);
    }
  }

  /** `username || email.split("@")[0] || id`. */
  function DisplayUsername(u: ClerkUser, email: string): (r: string)
    ensures (u.username.Some? && r == u.username.value) || r == Text.Before(email, '@') || r == u.id
    ensures u.id != [] ==> r != []
    ensures Text.Truthy(u.username) ==> r == u.username.value
  {
    if Text.Truthy(u.username) then u.username.value
    else
      var local := Text.Before(email, '@');
      if local != [] then local else u.id
  }

  /** Without a username, an address "local@domain" with a non-empty local part yields
      that local part; with an address starting at '@', the user id. */
  lemma DisplayUsernameFromAddress(u: ClerkUser, local: string, domain: string)
    requires !Text.Truthy(u.username) && '@' !in local
    ensures local != [] ==> DisplayUsername(u, local + "@" + domain) == local
    ensures local == [] ==> DisplayUsername(u, local + "@" + domain) == u.id
  {
    Text.BeforeOfConcat(local, "@" + domain, '@');
    assert local + "@" + domain == local + ("@" + domain);
  }

  /** The row the upsert receives for a user event with an email. */
  function UpsertInput(u: ClerkUser, email: string): UsersActions.UserInput {
    UsersActions.UserInput(u.id, DisplayUsername(u, email), email, FullName(u, email), u.imageUrl, Some(Offline))
  }

  /** `POST`: missing headers or a failed signature check answer 400 with nothing done; a
      created or updated user without an email answers 400; otherwise the user is upserted.
      The result of the upsert and of the delete is not inspected. */
  function HandleWebhook(s: Store, h: Headers, verified: bool, ev: WebhookEvent, now: nat): (r: (Response, Store))
    ensures !HeadersPresent(h) ==> r == (Response(400, "Error occurred -- no svix headers"), s)
    ensures HeadersPresent(h) && !verified ==> r == (Response(400, "Error occurred"), s)
    ensures r.0.status == 400 ==> r.1 == s
    ensures r.0.status != 400 ==> r.0.status == 200 && HeadersPresent(h) && verified
    ensures HeadersPresent(h) && verified && ev.OtherEvent? ==> r == (Response(200, "Webhook processed successfully"), s)
    ensures HeadersPresent(h) && verified && (ev.UserCreated? || ev.UserUpdated?) ==>
              (r.0.status == 400 <==> !Text.Truthy(PrimaryEmail(ev.user)))
  {
    if !HeadersPresent(h) then (Response(400, "Error occurred -- no svix headers"), s)
    else if !verified then (Response(400, "Error occurred"), s)
    else
      match ev
      case OtherEvent(_) => (Response(200, "Webhook processed successfully"), s)
      case UserDeleted(id) => (Response(200, "User deleted successfully"), UsersActions.DeleteUser(s, id).1)
      case UserCreated(u) => UserEvent(s, u, now)
      case UserUpdated(u) => UserEvent(s, u, now)
  }

  /** A created or updated user: refuse a missing email, otherwise upsert the user. On an
      update the handler also sets `username` on the user's channel messages and
      `senderUsername` on the user's direct messages; neither table declares such a column,
      so each statement writes only the `updated_at` the update hook stamps, which rows here
      do not carry. Only the users table changes. */
  function UserEvent(s: Store, u: ClerkUser, now: nat): (r: (Response, Store))
    ensures r.0.status == 400 <==> !Text.Truthy(PrimaryEmail(u))
    ensures r.0.status == 400 ==> r == (Response(400, "No email found for user"), s)
    ensures r.0.status != 400 ==> r.0 == Response(200, "User processed successfully")
    ensures r.1 == s.(users := r.1.users)
  {
    var email := PrimaryEmail(u);
    if !Text.Truthy(email) then (Response(400, "No email found for user"), s)
    else (Response(200, "User processed successfully"), UsersActions.CreateUser(s, UpsertInput(u, email.value), now).1)
  }

  /** As written, the rename on update reaches no message: both message tables keep their
      rows exactly. */
  lemma UserUpdatedLeavesMessagesAsWritten(s: Store, h: Headers, u: ClerkUser, now: nat)
    requires HeadersPresent(h)
    ensures var s1 := HandleWebhook(s, h, true, UserUpdated(u), now).1;
            s1.messages == s.messages && s1.directMessages == s.directMessages
  {
  }

  /** What the rename aims at holds without it, because every message read joins the
      author's current username: after an accepted update the user is stored under the
      derived name and full name, and each of the user's messages, of either kind, that a
      conversation read answers carries the new name. */
  lemma UserUpdatedShowsNewName(s: Store, h: Headers, u: ClerkUser, now: nat, channelId: Id, chatId: Id)
    requires HeadersPresent(h) && Text.Truthy(PrimaryEmail(u))
    requires UsersActions.UniqueUserIds(s.users)
    ensures var s1 := HandleWebhook(s, h, true, UserUpdated(u), now).1;
            var name := DisplayUsername(u, PrimaryEmail(u).value);
            && FindUser(s1.users, u.id).Some?
            && FindUser(s1.users, u.id).value.username == name
            && FindUser(s1.users, u.id).value.fullName == FullName(u, PrimaryEmail(u).value)
            && (forall x :: x in MessagesActions.GetChannelMessages(s1, channelId).data && AuthorId(x) == u.id ==>
                  AuthorName(x) == Some(name))
            && (forall x :: x in DirectMessagesActions.GetDirectChatMessages(s1, chatId).data && AuthorId(x) == u.id ==>
                  AuthorName(x) == Some(name))
  {
    var email := PrimaryEmail(u).value;
    var name := DisplayUsername(u, email);
    var s1 := HandleWebhook(s, h, true, UserUpdated(u), now).1;
    UsersActions.CreateUserKeepsUniqueIds(s, UpsertInput(u, email), now);
    assert FindUser(s1.users, u.id).value.username == name;
    forall x | x in MessagesActions.GetChannelMessages(s1, channelId).data && AuthorId(x) == u.id
      ensures AuthorName(x) == Some(name)
    {
      var m :| m in s1.messages && MessageTable.JoinAuthor(s1.users, m) == Some(x);
    }
    forall x | x in DirectMessagesActions.GetDirectChatMessages(s1, chatId).data && AuthorId(x) == u.id
      ensures AuthorName(x) == Some(name)
    {
      var m :| m in s1.directMessages && MessageTable.JoinAuthor(s1.users, m) == Some(x);
    }
  }

  /** An accepted delete answers 200 whatever the action answered: an unreferenced user is
      gone with its presence row, while a user other rows still reference stays, and the
      store with it. */
  lemma UserDeletedAnswersOk(s: Store, h: Headers, id: Id, now: nat)
    requires HeadersPresent(h)
    ensures var r := HandleWebhook(s, h, true, UserDeleted(id), now);
            && r.0 == Response(200, "User deleted successfully")
            && (UsersActions.Referenced(s, id) ==> r.1 == s)
            && (!UsersActions.Referenced(s, id) ==>
                  (forall u :: u in r.1.users <==> u in s.users && u.id != id) &&
                  (forall p :: p in r.1.presence <==> p in s.presence && p.userId != id))
  {
  }

  /** A replayed update event changes nothing more. */
  lemma UserUpdatedIdempotent(s: Store, h: Headers, u: ClerkUser, now: nat)
    requires HeadersPresent(h)
    requires UsersActions.UniqueUserIds(s.users)
    ensures var once := HandleWebhook(s, h, true, UserUpdated(u), now);
            HandleWebhook(once.1, h, true, UserUpdated(u), now) == once
  {
    if Text.Truthy(PrimaryEmail(u)) {
      UsersActions.CreateUserIdempotent(s, UpsertInput(u, PrimaryEmail(u).value), now);
    }
  }
}

=== FILE: workspace_message_list.dfy ===
/** The workspace message list: the top-level messages of one channel or direct chat, kept
    in step with the change feed, with the attachments cache and the reaction toggle.
    Server responses are parameters; the lemmas tie them to the actions over a store. On
    typed rows, whose timestamps are abstract, `transformMessage` is the identity. */
module WorkspaceMessageList {
  import opened Wrappers
  import opened Schema
  import opened Reconcile
  import opened Sequences
  import Reactions
  import Text
  import Realtime
  import MessageTable
  import MessagesActions
  import DirectMessagesActions
  import UserMap

  function IdOf(m: Message): Id { m.id }

  /** What the list is meant to show: top-level messages of conversation `c` of one kind. */
  ghost predicate ShowsConversation(list: seq<Message>, kind: MessageKind, c: Id) {
    forall m :: m in list ==> KindOf(m) == kind && ConversationId(m) == c && !Text.Truthy(m.parentId)
  }

  /** The feed the list listens to: `messages` by `channel_id`, or `direct_messages` by `chat_id`. */
  function FeedSubscription(kind: MessageKind, c: Id): (sub: Realtime.Subscription)
    ensures forall m :: Realtime.Receives(sub, m) <==> KindOf(m) == kind && ConversationId(m) == c
  {
    match kind
    case ChannelKind => Realtime.Subscription("messages", Some(("channel_id", c)))
    case DirectKind => Realtime.Subscription("direct_messages", Some(("chat_id", c)))
  }

  /** `handleInsert`'s list effect: a reply is skipped, anything else appended. */
  function HandleInsert(list: seq<Message>, m: Message): (r: seq<Message>)
    ensures Text.Truthy(m.parentId) ==> r == list
    ensures !Text.Truthy(m.parentId) ==> r == Apply(list, Inserted(m), IdOf)
  {
    if Text.Truthy(m.parentId) then list else list + [m]
  }

  /** One event, as the three handlers apply it. */
  function HandleEvent(list: seq<Message>, ev: ChangeEvent<Message>): (r: seq<Message>)
    ensures forall i :: 0 <= i < |r| ==> r[i] in list || (r[i] == ev.row && !ev.Deleted?)
    ensures ev.Inserted? && Text.Truthy(ev.row.parentId) ==> r == list
    ensures ev.Inserted? && !Text.Truthy(ev.row.parentId) ==> |r| == |list| + 1 && r[..|list|] == list && r[|list|] == ev.row
    ensures ev.Updated? ==> |r| == |list| && forall i :: 0 <= i < |list| && list[i].id != ev.row.id ==> r[i] == list[i]
    ensures ev.Deleted? ==> forall m :: m in r <==> m in list && m.id != ev.row.id
  {
    match ev
    case Inserted(m) => HandleInsert(list, m)
    case Updated(m) => Apply(list, Updated(m), IdOf)
    case Deleted(m) => Apply(list, Deleted(m), IdOf)
  }

  /** Events the feed delivers keep the list to its conversation's top-level messages: the
      subscription admits only the conversation's rows, the insert handler drops replies,
      and an update can only replace a listed row by a later version of it. */
  lemma EventKeepsConversation(list: seq<Message>, kind: MessageKind, c: Id, ev: ChangeEvent<Message>)
    requires ShowsConversation(list, kind, c)
    requires Realtime.Receives(FeedSubscription(kind, c), ev.row)
    requires ev.Updated? && (exists i :: 0 <= i < |list| && list[i].id == ev.row.id) ==> !Text.Truthy(ev.row.parentId)
    ensures ShowsConversation(HandleEvent(list, ev), kind, c)
  {
    var r := HandleEvent(list, ev);
    forall x | x in r ensures KindOf(x) == kind && ConversationId(x) == c && !Text.Truthy(x.parentId) {
      var i :| 0 <= i < |r| && r[i] == x;
      match ev
      case Inserted(m) =>
        if !Text.Truthy(m.parentId) && i < |list| {
          assert x == list[i];
        }
      case Updated(m) =>
        if list[i].id != m.id {
          assert x == list[i];
        }
      case Deleted(m) =>
    }
  }

  /** `loadMessages`: with a truthy conversation id, a successful snapshot replaces the list;
      otherwise the list stays. */
  function LoadMessages(conversationId: Option<Id>, current: seq<Message>, response: ActionState<seq<Message>>): (r: seq<Message>)
    ensures Text.Truthy(conversationId) && response.Success? ==> r == response.data
    ensures !Text.Truthy(conversationId) || response.Failure? ==> r == current
  {
    if Text.Truthy(conversationId) && response.Success? then response.data else current
  }

  /** The snapshot action of a kind. */
  function Snapshot(s: Store, kind: MessageKind, c: Id): ActionState<seq<Message>> {
    match kind
    case ChannelKind => MessagesActions.GetChannelMessages(s, c)
    case DirectKind => DirectMessagesActions.GetDirectChatMessages(s, c)
  }

  /** Loading from the store shows the conversation: at most 50 messages, oldest first, all
      top-level rows of that conversation. */
  lemma LoadShowsConversation(s: Store, kind: MessageKind, c: Id, current: seq<Message>)
    requires c != []
    requires forall m :: m in MessagesOf(s, kind) ==> KindOf(m) == kind
    ensures var list := LoadMessages(Some(c), current, Snapshot(s, kind, c));
            && list == Snapshot(s, kind, c).data
            && ShowsConversation(list, kind, c)
            && |list| <= MessageTable.DefaultLimit
  {
    var list := Snapshot(s, kind, c).data;
    forall x | x in list ensures KindOf(x) == kind {
      var m :| m in MessagesOf(s, kind) && MessageTable.JoinAuthor(s.users, m) == Some(x);
    }
  }

  // ---------------------------------------------------------------------------
  // Attachments cache
  // ---------------------------------------------------------------------------

  type AttachmentMap = map<Id, seq<Attachment>>

  function MessageIds(msgs: seq<Message>): (r: seq<Id>)
    ensures |r| == |msgs| && forall i :: 0 <= i < |msgs| ==> r[i] == msgs[i].id
  {
    seq(|msgs|, i requires 0 <= i < |msgs| => msgs[i].id)
  }

  /** The fetches `bulkLoadAttachments` makes, in order: one per message whose id has no
      entry (an entry holding an empty list counts as present). */
  function AttachmentRequests(amap: AttachmentMap, msgs: seq<Message>): (r: seq<Id>)
    ensures forall id :: id in r <==> id !in amap && exists m :: m in msgs && m.id == id
    ensures SubsequenceOf(r, MessageIds(msgs))
    ensures forall id {:trigger multiset(r)[id]} :: multiset(r)[id] == if id in amap then 0 else multiset(MessageIds(msgs))[id]
  {
    var ids := MessageIds(msgs);
    assert forall id :: id in ids <==> exists m :: m in msgs && m.id == id by {
      forall id | exists m :: m in msgs && m.id == id ensures id in ids {
        var m :| m in msgs && m.id == id;
        var i :| 0 <= i < |msgs| && msgs[i] == m;
        assert ids[i] == id;
      }
    }
    Filter(ids, (id: Id) => id !in amap)
  }

  /** `setAttachmentsMap(prev => ({ ...prev, [id]: res.data }))` when the fetch succeeded. */
  function StoreAttachments(amap: AttachmentMap, id: Id, response: ActionState<seq<Attachment>>): (r: AttachmentMap)
    ensures response.Success? ==> r == amap[id := response.data]
    ensures response.Failure? ==> r == amap
  {
    if response.Success? then amap[id := response.data] else amap
  }

  /** The requests answered in turn. */
  function StoreAll(amap: AttachmentMap, ids: seq<Id>, responses: seq<ActionState<seq<Attachment>>>): (r: AttachmentMap)
    requires |responses| == |ids|
    ensures forall id :: id in r <==> id in amap || exists i :: 0 <= i < |ids| && ids[i] == id && responses[i].Success?
    ensures forall id :: id in amap && id !in ids ==> r[id] == amap[id]
  {
    if |ids| == 0 then amap
    else
      var n := |ids| - 1;
      var r0 := StoreAll(amap, ids[..n], responses[..n]);
      assert forall id :: id in ids <==> id in ids[..n] || id == ids[n] by {
        assert ids == ids[..n] + [ids[n]];
      }
      StoreAttachments(r0, ids[n], responses[n])
  }

  /** `bulkLoadAttachments(msgs)`, given the response of each fetch. */
  function BulkLoadAttachments(amap: AttachmentMap, msgs: seq<Message>, responses: seq<ActionState<seq<Attachment>>>): (r: AttachmentMap)
    requires |responses| == |AttachmentRequests(amap, msgs)|
    ensures forall id :: id in amap ==> id in r && r[id] == amap[id]
    ensures forall id :: id in r && id !in amap ==> exists m :: m in msgs && m.id == id
  {
    StoreAll(amap, AttachmentRequests(amap, msgs), responses)
  }

  /** Cached entries are never refetched or overwritten, and every message ends up with an
      entry unless its fetch failed. */
  lemma BulkLoadAttachmentsKeepsCached(amap: AttachmentMap, msgs: seq<Message>, responses: seq<ActionState<seq<Attachment>>>)
    requires |responses| == |AttachmentRequests(amap, msgs)|
    ensures var r := BulkLoadAttachments(amap, msgs, responses);
            && (forall id :: id in amap ==> r[id] == amap[id])
            && (forall m :: m in msgs && m.id !in r ==> exists i :: 0 <= i < |responses| && AttachmentRequests(amap, msgs)[i] == m.id && responses[i].Failure?)
  {
    var ids := AttachmentRequests(amap, msgs);
    var r := BulkLoadAttachments(amap, msgs, responses);
    forall m | m in msgs && m.id !in r
      ensures exists i :: 0 <= i < |responses| && ids[i] == m.id && responses[i].Failure?
    {
      assert m.id in ids;
      var i :| 0 <= i < |ids| && ids[i] == m.id;
      assert responses[i].Failure?;
    }
  }

  // ---------------------------------------------------------------------------
  // Reactions
  // ---------------------------------------------------------------------------

  /** `handleReaction`'s decision: find the message in the list and remove the reaction when
      the user already gave it, else add it. `None` when the message is not listed (the
      handler throws before calling anything). */
  function ReactionChoice(list: seq<Message>, messageId: Id, userId: Id, emoji: string): (r: Option<Reactions.ReactionIntent>)
    ensures r.None? <==> forall m :: m in list ==> m.id != messageId
    ensures r.Some? ==> var m := MessageTable.FindById(list, messageId).value;
                        (r.value == Reactions.RemoveIntent <==> Reactions.HasReacted(m.reactions, emoji, userId))
  {
    match MessageTable.FindById(list, messageId)
    case None => None
    case Some(m) => Some(Reactions.ToggleIntent(m.reactions, emoji, userId))
  }

  /** The action the decision calls, for the list's kind. */
  function Perform(s: Store, kind: MessageKind, intent: Reactions.ReactionIntent, messageId: Id, userId: Id, emoji: string): (r: (ActionState<Message>, Store))
    ensures r.0.Failure? ==> r.1 == s
    ensures kind == ChannelKind ==> r.1 == s.(messages := r.1.messages)
    ensures kind == DirectKind ==> r.1 == s.(directMessages := r.1.directMessages)
    ensures r.0.Success? ==> r.0.data.id == messageId && (intent == Reactions.AddIntent <==> Reactions.HasReacted(r.0.data.reactions, emoji, userId))
  {
    match (kind, intent)
    case (ChannelKind, AddIntent) => MessagesActions.AddReaction(s, messageId, userId, emoji)
    case (ChannelKind, RemoveIntent) => MessagesActions.RemoveReaction(s, messageId, userId, emoji)
    case (DirectKind, AddIntent) => DirectMessagesActions.AddDirectMessageReaction(s, messageId, userId, emoji)
    case (DirectKind, RemoveIntent) => DirectMessagesActions.RemoveDirectMessageReaction(s, messageId, userId, emoji)
  }

  /** When the listed message shows the stored reactions, clicking an emoji flips whether
      the user has reacted with it, in the store. */
  lemma ReactionClickToggles(s: Store, kind: MessageKind, list: seq<Message>, messageId: Id, userId: Id, emoji: string)
    requires MessageTable.FindById(list, messageId).Some?
    requires MessageTable.FindById(MessagesOf(s, kind), messageId).Some?
    requires MessageTable.FindById(list, messageId).value.reactions == MessageTable.FindById(MessagesOf(s, kind), messageId).value.reactions
    ensures var intent := ReactionChoice(list, messageId, userId, emoji).value;
            var before := MessageTable.FindById(MessagesOf(s, kind), messageId).value.reactions;
            var r := Perform(s, kind, intent, messageId, userId, emoji);
            && r.0.Success?
            && (Reactions.HasReacted(r.0.data.reactions, emoji, userId) <==> !Reactions.HasReacted(before, emoji, userId))
  {
  }
}

=== FILE: workspace_picker.dfy ===
/** The workspace picker: the rail's selection of the current workspace, the searchable
    workspace list with its name filter (in the rail's search view and on the search page),
    and the create and join forms. Server responses are parameters; the lemmas tie them to
    the actions over a store. */
module WorkspacePicker {
  import opened Wrappers
  import opened Schema
  import opened Text
  import opened Sequences
  import Routes
  import WorkspaceSidebar
  import WorkspacesActions

  // ---------------------------------------------------------------------------
  // Selection
  // ---------------------------------------------------------------------------

  /** The initial selection: the workspace in the path, else the first of the user's
      workspaces, else none; an empty id counts as none. */
  function InitialSelection(path: string, userWorkspaces: seq<Workspace>): (r: Option<Id>)
    ensures Truthy(Routes.WorkspaceSegment(path)) ==> r == Routes.WorkspaceSegment(path)
    ensures !Truthy(Routes.WorkspaceSegment(path)) ==>
              r == if |userWorkspaces| > 0 && userWorkspaces[0].id != [] then Some(userWorkspaces[0].id) else None
    ensures r.Some? ==> r.value != []
  {
    var current := Routes.WorkspaceSegment(path);
    if Truthy(current) then current
    else if |userWorkspaces| > 0 && userWorkspaces[0].id != [] then Some(userWorkspaces[0].id)
    else None
  }

  /** When the path changes, a workspace in it becomes the selection; otherwise the selection
      stays. */
  function SelectionOnPathChange(selected: Option<Id>, path: string): (r: Option<Id>)
    ensures Truthy(Routes.WorkspaceSegment(path)) ==> r == Routes.WorkspaceSegment(path)
    ensures !Truthy(Routes.WorkspaceSegment(path)) ==> r == selected
  {
    var current := Routes.WorkspaceSegment(path);
    if Truthy(current) then current else selected
  }

  /** On any page inside a workspace, that workspace is selected, at first and after a
      navigation alike. */
  lemma WorkspacePageSelectsIt(ws: Id, rest: string, userWorkspaces: seq<Workspace>, selected: Option<Id>)
    requires ws != [] && '/' !in ws && (rest == [] || rest[0] == '/')
    ensures InitialSelection(WorkspaceSidebar.WorkspacePath(ws) + rest, userWorkspaces) == Some(ws)
    ensures SelectionOnPathChange(selected, WorkspaceSidebar.WorkspacePath(ws) + rest) == Some(ws)
  {
    Routes.WorkspaceSegmentOfPath(ws, rest);
  }

  /** `userWorkspaces.some(ws => ws.id === id)`: the search view offers "Open" rather than
      "Join". */
  function IsUserWorkspace(userWorkspaces: seq<Workspace>, id: Id): (r: bool)
    ensures r <==> exists w :: w in userWorkspaces && w.id == id
  {
    if |userWorkspaces| == 0 then false
    else
      assert forall w :: w in userWorkspaces <==> w == userWorkspaces[0] || w in userWorkspaces[1..];
      userWorkspaces[0].id == id || IsUserWorkspace(userWorkspaces[1..], id)
  }

  // ---------------------------------------------------------------------------
  // The searchable list
  // ---------------------------------------------------------------------------

  /** `loadSearchableWorkspaces`: a successful answer replaces the list. */
  function LoadSearchable(current: seq<Workspace>, response: ActionState<seq<Workspace>>): (r: seq<Workspace>)
    ensures response.Success? ==> r == response.data
    ensures response.Failure? ==> r == current
  {
    if response.Success? then response.data else current
  }

  /** The name filter: everything for a blank query; otherwise the workspaces whose lower-cased
      name contains the lower-cased query, untrimmed, in list order. */
  predicate NameMatches(w: Workspace, query: string) {
    Includes(ToLower(w.name), ToLower(query))
  }

  function FilterWorkspaces(ws: seq<Workspace>, query: string): (r: seq<Workspace>)
    ensures IsBlank(query) ==> r == ws
    ensures forall w :: w in r <==> w in ws && (IsBlank(query) || NameMatches(w, query))
    ensures SubsequenceOf(r, ws)
  {
    if IsBlank(query) then
      SubsequenceOfSelf(ws);
      ws
    else Filter(ws, (w: Workspace) => NameMatches(w, query))
  }

  lemma SubsequenceOfSelf(xs: seq<Workspace>)
    ensures SubsequenceOf(xs, xs)
  {
    FilterAll(xs, (x: Workspace) => true);
  }

  /** `s` starts with the lower-cased `a` wherever it starts with the lower-cased `a + b`. */
  lemma OccursPrefix(s: string, a: string, b: string, j: int)
    requires OccursAt(s, ToLower(a + b), j)
    ensures OccursAt(s, ToLower(a), j)
  {
    assert ToLower(a + b)[..|a|] == ToLower(a);
    assert s[j..j + |a|] == s[j..j + |a + b|][..|a|];
  }

  /** A query that is blank throughout its start is blank. */
  lemma BlankPrefix(a: string, b: string)
    requires IsBlank(a + b)
    ensures IsBlank(a)
  {
    BlankIffAllSpace(a + b);
    BlankIffAllSpace(a);
    assert forall i :: 0 <= i < |a| ==> a[i] == (a + b)[i];
  }

  /** Typing more only narrows the list: every workspace listed for the longer query is
      listed for the shorter one. */
  lemma FilterNarrows(ws: seq<Workspace>, query: string, more: string)
    ensures forall w :: w in FilterWorkspaces(ws, query + more) ==> w in FilterWorkspaces(ws, query)
  {
    if !IsBlank(query) {
      if IsBlank(query + more) {
        BlankPrefix(query, more);
      }
      forall w | w in FilterWorkspaces(ws, query + more) ensures NameMatches(w, query) {
        var name := ToLower(w.name);
        IncludesIffOccurs(name, ToLower(query + more));
        IncludesIffOccurs(name, ToLower(query));
        var j :| OccursAt(name, ToLower(query + more), j);
        OccursPrefix(name, query, more, j);
      }
    }
  }

  /** As written, the searchable list never fills: the action fails, so the list keeps its
      empty start whatever the query. */
  lemma SearchViewEmptyAsWritten(s: Store, userId: Id, query: string)
    ensures FilterWorkspaces(LoadSearchable([], WorkspacesActions.GetSearchableWorkspacesAsWritten(s, userId)), query) == []
  {
  }

  /** With the intended query, the view lists exactly the public workspaces and the user's
      own whose name matches. */
  lemma SearchViewListsSearchable(s: Store, userId: Id, query: string, current: seq<Workspace>)
    ensures forall w :: w in FilterWorkspaces(LoadSearchable(current, WorkspacesActions.GetSearchableWorkspaces(s, userId)), query) <==>
              w in s.workspaces && (w.kind == Public || w.creatorId == userId) && (IsBlank(query) || NameMatches(w, query))
  {
  }

  // ---------------------------------------------------------------------------
  // Create and join
  // ---------------------------------------------------------------------------

  /** `handleCreateWorkspace`'s request: nothing for a blank name; otherwise a public
      workspace with the trimmed name and an empty description, the user as creator and
      only member. */
  function CreateWorkspaceRequest(userId: Id, name: string): (r: Option<(WorkspacesActions.WorkspaceDraft, seq<Id>)>)
    ensures r.None? <==> IsBlank(name)
    ensures r.Some? ==> r.value.0.name == Trim(name) && !IsBlank(r.value.0.name)
    ensures r.Some? ==> r.value.0.kind == Public && r.value.0.creatorId == userId && r.value.0.description == Some([])
    ensures r.Some? ==> r.value.1 == [userId]
  {
    if IsBlank(name) then None
    else
      TrimIdempotent(name);
      Some((WorkspacesActions.WorkspaceDraft(Trim(name), Some([]), Public, userId), [userId]))
  }

  /** After the action answers: on success the new workspace is selected and the box
      cleared; otherwise nothing changes. */
  function AfterCreateWorkspace(selected: Option<Id>, name: string, response: ActionState<Workspace>): (r: (Option<Id>, string))
    ensures response.Success? ==> r == (Some(response.data.id), [])
    ensures response.Failure? ==> r == (selected, name)
  {
    if response.Success? then (Some(response.data.id), []) else (selected, name)
  }

  /** Creating a workspace through the store selects it, and the user's workspaces, reloaded
      by the refresh, include it. */
  lemma CreateWorkspaceSelectsIt(s: Store, userId: Id, name: string, id: Id, selected: Option<Id>)
    requires !IsBlank(name)
    requires !WorkspacesActions.WorkspaceIdTaken(s, id) && FindUser(s.users, userId).Some?
    requires WorkspaceMember(id, userId) !in s.workspaceMembers
    ensures var req := CreateWorkspaceRequest(userId, name).value;
            var r := WorkspacesActions.CreateWorkspace(s, req.0, req.1, id);
            && r.0.Success? && r.0.data.name == Trim(name)
            && AfterCreateWorkspace(selected, name, r.0) == (Some(id), [])
            && r.0.data in WorkspacesActions.GetUserWorkspaces(r.1, userId).data
  {
    var req := CreateWorkspaceRequest(userId, name).value;
    assert req.1 == [userId] && req.0.creatorId == userId;
    CreatorListed(s, req.0, userId, id);
  }

  /** A workspace created with its creator as the only member is listed among the creator's
      workspaces. */
  lemma CreatorListed(s: Store, d: WorkspacesActions.WorkspaceDraft, userId: Id, id: Id)
    requires d.creatorId == userId
    requires !WorkspacesActions.WorkspaceIdTaken(s, id) && FindUser(s.users, userId).Some?
    requires WorkspaceMember(id, userId) !in s.workspaceMembers
    ensures var r := WorkspacesActions.CreateWorkspace(s, d, [userId], id);
            && r.0.Success? && r.0.data.id == id && r.0.data.name == d.name
            && r.0.data in WorkspacesActions.GetUserWorkspaces(r.1, userId).data
  {
    assert WorkspacesActions.InitialMembersInsertable(s, id, [userId]);
    var r := WorkspacesActions.CreateWorkspace(s, d, [userId], id);
    var rows := WorkspacesActions.WorkspaceMemberRows(id, [userId]);
    assert rows[0] == WorkspaceMember(id, userId);
    assert WorkspaceMember(r.0.data.id, userId) in r.1.workspaceMembers;
    assert r.0.data in r.1.workspaces;
  }

  /** `handleJoinWorkspace`: on success, go to the workspace; otherwise stay. */
  function AfterJoin(workspaceId: Id, response: ActionState<WorkspaceMember>): (r: Option<string>)
    ensures response.Success? <==> r.Some?
    ensures r.Some? ==> r.value == WorkspaceSidebar.WorkspacePath(workspaceId)
  {
    if response.Success? then Some(WorkspaceSidebar.WorkspacePath(workspaceId)) else None
  }

  /** Joining a listed workspace through the store opens it: the new page selects it, and
      the user's workspaces, reloaded, include it, so the list offers "Open" from then on. */
  lemma JoinOpensWorkspace(s: Store, w: Workspace, userId: Id, selected: Option<Id>)
    requires w in s.workspaces && w.id != [] && '/' !in w.id && FindUser(s.users, userId).Some?
    ensures var r := WorkspacesActions.JoinWorkspace(s, w.id, userId);
            var path := AfterJoin(w.id, r.0);
            && path.Some?
            && SelectionOnPathChange(selected, path.value) == Some(w.id)
            && w in WorkspacesActions.GetUserWorkspaces(r.1, userId).data
            && IsUserWorkspace(WorkspacesActions.GetUserWorkspaces(r.1, userId).data, w.id)
  {
    var r := WorkspacesActions.JoinWorkspace(s, w.id, userId);
    assert WorkspacesActions.WorkspaceIdTaken(s, w.id);
    assert WorkspaceSidebar.WorkspacePath(w.id) == WorkspaceSidebar.WorkspacePath(w.id) + [];
    Routes.WorkspaceSegmentOfPath(w.id, []);
    assert r.1.workspaces == s.workspaces;
  }
}

=== FILE: workspace_sidebar.dfy ===
/** The workspace sidebar: the workspace's channels and direct chats kept in step with their
    feeds, the names of the other participants, and the create / delete / start-chat forms.
    Server responses are parameters; the lemmas tie them to the actions over a store. */
module WorkspaceSidebar {
  import opened Wrappers
  import opened Schema
  import opened Reconcile
  import opened Sequences
  import Text
  import UserMap
  import ChannelsActions
  import DirectMessagesActions
  import UsersActions

  function ChannelIdOf(c: Channel): Id { c.id }

  function ChatIdOf(c: DirectChat): Id { c.id }

  /** The routes the sidebar navigates to. */
  function WorkspacePath(workspaceId: Id): string { "/workspace/" + workspaceId }

  function ChannelPath(workspaceId: Id, channelId: Id): string { WorkspacePath(workspaceId) + "/channel/" + channelId }

  function ChatPath(workspaceId: Id, chatId: Id): string { WorkspacePath(workspaceId) + "/dm/" + chatId }

  // ---------------------------------------------------------------------------
  // The two feeds, filtered on `workspace_id`
  // ---------------------------------------------------------------------------

  /** A `channels` event: the row is appended, replaced or removed by id. */
  function ChannelEvent(channels: seq<Channel>, ev: ChangeEvent<Channel>): (r: seq<Channel>)
    ensures forall c :: c in r ==> c in channels || (c == ev.row && !ev.Deleted?)
    ensures !ev.Deleted? && (ev.Inserted? || exists i :: 0 <= i < |channels| && channels[i].id == ev.row.id) ==> ev.row in r
    ensures ev.Deleted? ==> forall c :: c in r <==> c in channels && c.id != ev.row.id
  {
    Apply(channels, ev, ChannelIdOf)
  }

  /** A `direct_chats` event, handled the same way. */
  function ChatEvent(chats: seq<DirectChat>, ev: ChangeEvent<DirectChat>): (r: seq<DirectChat>)
    ensures forall c :: c in r ==> c in chats || (c == ev.row && !ev.Deleted?)
    ensures !ev.Deleted? && (ev.Inserted? || exists i :: 0 <= i < |chats| && chats[i].id == ev.row.id) ==> ev.row in r
    ensures ev.Deleted? ==> forall c :: c in r <==> c in chats && c.id != ev.row.id
  {
    Apply(chats, ev, ChatIdOf)
  }

  /** The filter `workspace_id=eq.<id>` admits only the workspace's rows, so the lists keep
      holding only the workspace's channels and chats. */
  lemma FeedsKeepWorkspace(channels: seq<Channel>, chats: seq<DirectChat>, workspaceId: Id,
                           cev: ChangeEvent<Channel>, dev: ChangeEvent<DirectChat>)
    requires forall c :: c in channels ==> c.workspaceId == workspaceId
    requires forall c :: c in chats ==> c.workspaceId == workspaceId
    requires cev.row.workspaceId == workspaceId && dev.row.workspaceId == workspaceId
    ensures forall c :: c in ChannelEvent(channels, cev) ==> c.workspaceId == workspaceId
    ensures forall c :: c in ChatEvent(chats, dev) ==> c.workspaceId == workspaceId
  {
    ApplyKeeps(channels, cev, ChannelIdOf, (c: Channel) => c.workspaceId == workspaceId);
    ApplyKeeps(chats, dev, ChatIdOf, (c: DirectChat) => c.workspaceId == workspaceId);
  }

  // ---------------------------------------------------------------------------
  // The other participant of a direct chat
  // ---------------------------------------------------------------------------

  /** `chat.user1Id === userId ? chat.user2Id : chat.user1Id`. */
  function OtherUser(c: DirectChat, userId: Id): (r: Id)
    ensures r == c.user1Id || r == c.user2Id
    ensures c.user1Id == userId ==> r == c.user2Id
    ensures c.user1Id != userId ==> r == c.user1Id
  {
    if c.user1Id == userId then c.user2Id else c.user1Id
  }

  /** For a participant, the other user is the other side of the pair, from either side,
      and is the participant only in a chat with oneself. */
  lemma OtherUserOfParticipant(c: DirectChat, userId: Id)
    requires c.user1Id == userId || c.user2Id == userId
    ensures OtherUser(c, userId) == userId <==> c.user1Id == c.user2Id
    ensures OtherUser(c, OtherUser(c, userId)) == userId || c.user1Id == c.user2Id
  {
  }

  /** The other participants of the listed chats, in list order. */
  function Others(chats: seq<DirectChat>, userId: Id): (r: seq<Id>)
    ensures |r| == |chats| && forall i :: 0 <= i < |chats| ==> r[i] == OtherUser(chats[i], userId)
  {
    seq(|chats|, i requires 0 <= i < |chats| => OtherUser(chats[i], userId))
  }

  /** The lookups `fillChatUsers` starts: one per chat whose other user is not cached, a user
      shared by several chats being looked up once per chat. */
  function ChatUserRequests(cache: UserMap.UserCache, chats: seq<DirectChat>, userId: Id): (r: seq<Id>)
    ensures forall id :: id in r <==> id !in cache && exists c :: c in chats && OtherUser(c, userId) == id
    ensures SubsequenceOf(r, Others(chats, userId))
    ensures forall id {:trigger multiset(r)[id]} :: multiset(r)[id] == if id in cache then 0 else multiset(Others(chats, userId))[id]
  {
    var others := Others(chats, userId);
    assert forall id :: id in others <==> exists c :: c in chats && OtherUser(c, userId) == id by {
      forall id | exists c :: c in chats && OtherUser(c, userId) == id ensures id in others {
        var c :| c in chats && OtherUser(c, userId) == id;
        var i :| 0 <= i < |chats| && chats[i] == c;
        assert others[i] == id;
      }
    }
    Filter(others, (id: Id) => id !in cache)
  }

  /** The users of the successful lookups, in request order. */
  function Fetched(responses: seq<ActionState<User>>): (r: seq<User>)
    ensures forall u :: u in r <==> exists i :: 0 <= i < |responses| && responses[i] == Success(responses[i].message, u)
  {
    if |responses| == 0 then []
    else
      var n := |responses| - 1;
      var init := Fetched(responses[..n]);
      assert forall i :: 0 <= i < n ==> responses[..n][i] == responses[i];
      if responses[n].Success? then init + [responses[n].data] else init
  }

  /** `fillChatUsers`, given the answer of each lookup: nothing happens when no lookup is
      needed; otherwise `{ ...prev, ...newMap }` with `newMap` keyed by the fetched users' ids. */
  function FillChatUsers(cache: UserMap.UserCache, chats: seq<DirectChat>, userId: Id, responses: seq<ActionState<User>>): (r: UserMap.UserCache)
    requires |responses| == |ChatUserRequests(cache, chats, userId)|
    ensures ChatUserRequests(cache, chats, userId) == [] ==> r == cache
    ensures forall id :: id in cache ==> id in r
    ensures forall id :: id in r ==> id in cache || exists u :: u in Fetched(responses) && u.id == id
    ensures forall u :: u in Fetched(responses) ==> u.id in r
  {
    if ChatUserRequests(cache, chats, userId) == [] then cache
    else UserMap.Overlay(cache, Fetched(responses))
  }

  /** One `getUserAction` answer per lookup, in request order. */
  function LookUpAll(s: Store, req: seq<Id>): (r: seq<ActionState<User>>)
    ensures |r| == |req| && forall i :: 0 <= i < |req| ==> r[i] == UsersActions.GetUser(s, req[i])
  {
    seq(|req|, i requires 0 <= i < |req| => UsersActions.GetUser(s, req[i]))
  }

  /** The users the store answers are stored users, each under an id that was asked for. */
  lemma FetchedFromStore(s: Store, req: seq<Id>)
    ensures forall u :: u in Fetched(LookUpAll(s, req)) ==> u in s.users && u.id in req
  {
    var responses := LookUpAll(s, req);
    forall u | u in Fetched(responses) ensures u in s.users && u.id in req {
      var i :| 0 <= i < |responses| && responses[i] == Success(responses[i].message, u);
    }
  }

  /** Every asked-for id of a stored user is answered. */
  lemma StoredUserFetched(s: Store, req: seq<Id>, id: Id)
    requires id in req && FindUser(s.users, id).Some?
    ensures exists u :: u in Fetched(LookUpAll(s, req)) && u.id == id
  {
    var responses := LookUpAll(s, req);
    var i :| 0 <= i < |req| && req[i] == id;
    assert responses[i] == Success(responses[i].message, responses[i].data);
    assert responses[i].data in Fetched(responses);
  }

  /** Filled from the store with `getUserAction` per request: every other participant who
      exists ends up cached, cached entries never change, and every new entry is a stored user
      under its own id who is another participant. */
  lemma FillAgainstStore(s: Store, cache: UserMap.UserCache, chats: seq<DirectChat>, userId: Id)
    ensures var req := ChatUserRequests(cache, chats, userId);
            var r := FillChatUsers(cache, chats, userId, LookUpAll(s, req));
            && (forall c :: c in chats && FindUser(s.users, OtherUser(c, userId)).Some? ==> OtherUser(c, userId) in r)
            && (forall id :: id in cache ==> r[id] == cache[id])
            && (forall id :: id in r && id !in cache ==>
                  (r[id] in s.users && r[id].id == id && exists c :: c in chats && OtherUser(c, userId) == id))
  {
    var req := ChatUserRequests(cache, chats, userId);
    var responses := LookUpAll(s, req);
    var fetched := Fetched(responses);
    FetchedFromStore(s, req);
    if req != [] {
      forall id | id in req && FindUser(s.users, id).Some? ensures exists u :: u in fetched && u.id == id {
        StoredUserFetched(s, req, id);
      }
      OverlayOfStoredUsers(s, cache, chats, userId, fetched);
    }
  }

  /** The overlay step of `FillAgainstStore`, for any users that are stored users under
      requested ids and that answer every requested id of a stored user. */
  lemma OverlayOfStoredUsers(s: Store, cache: UserMap.UserCache, chats: seq<DirectChat>, userId: Id, fetched: seq<User>)
    requires forall u :: u in fetched ==> u in s.users && u.id in ChatUserRequests(cache, chats, userId)
    requires forall id :: id in ChatUserRequests(cache, chats, userId) && FindUser(s.users, id).Some? ==>
               exists u :: u in fetched && u.id == id
    ensures var r := UserMap.Overlay(cache, fetched);
            && (forall c :: c in chats && FindUser(s.users, OtherUser(c, userId)).Some? ==> OtherUser(c, userId) in r)
            && (forall id :: id in cache ==> r[id] == cache[id])
            && (forall id :: id in r && id !in cache ==>
                  (r[id] in s.users && r[id].id == id && exists c :: c in chats && OtherUser(c, userId) == id))
  {
    var req := ChatUserRequests(cache, chats, userId);
    var r := UserMap.Overlay(cache, fetched);
    forall c | c in chats && FindUser(s.users, OtherUser(c, userId)).Some? ensures OtherUser(c, userId) in r {
      if OtherUser(c, userId) !in cache {
        assert OtherUser(c, userId) in req;
      }
    }
    forall id | id in r && id !in cache
      ensures r[id] in s.users && r[id].id == id && exists c :: c in chats && OtherUser(c, userId) == id
    {
      var u :| u in fetched && u.id == id;
      assert r[u.id] in fetched;
    }
  }


  // ---------------------------------------------------------------------------
  // Forms
  // ---------------------------------------------------------------------------

  /** `handleCreateChannel`'s request: nothing for a blank name; otherwise the trimmed name,
      the chosen visibility, the user as creator and only member, and this workspace. */
  function CreateChannelRequest(workspaceId: Id, userId: Id, name: string, kind: Visibility): (r: Option<(ChannelsActions.ChannelDraft, seq<Id>)>)
    ensures r.None? <==> Text.IsBlank(name)
    ensures r.Some? ==> r.value.0 == ChannelsActions.ChannelDraft(Text.Trim(name), None, kind, userId, Some(workspaceId))
                        && r.value.1 == [userId]
    ensures r.Some? ==> !Text.IsBlank(r.value.0.name)
  {
    if Text.IsBlank(name) then None
    else
      Text.TrimIdempotent(name);
      Some((ChannelsActions.ChannelDraft(Text.Trim(name), None, kind, userId, Some(workspaceId)), [userId]))
  }

  /** Where the form goes after the action answers: to the new channel on success (and the
      name box is cleared), nowhere otherwise. */
  function AfterCreateChannel(workspaceId: Id, name: string, response: ActionState<Channel>): (r: (string, Option<string>))
    ensures response.Success? ==> r == ([], Some(ChannelPath(workspaceId, response.data.id)))
    ensures response.Failure? ==> r == (name, None)
  {
    if response.Success? then ([], Some(ChannelPath(workspaceId, response.data.id))) else (name, None)
  }

  /** A channel created from the sidebar belongs to the workspace, carries the trimmed name
      and is visible to its creator, who is its member. */
  lemma CreatedChannelInSidebar(s: Store, workspaceId: Id, userId: Id, name: string, kind: Visibility, id: Id)
    requires workspaceId != [] && !Text.IsBlank(name)
    requires !ChannelsActions.ChannelIdTaken(s, id) && FindUser(s.users, userId).Some?
    requires ChannelsActions.MembersInsertable(s, [userId])
    ensures var req := CreateChannelRequest(workspaceId, userId, name, kind).value;
            var r := ChannelsActions.CreateChannel(s, req.0, req.1, id);
            && r.0.Success?
            && r.0.data.workspaceId == workspaceId && r.0.data.name == Text.Trim(name) && r.0.data.id == id
            && ChannelsActions.VisibleTo(r.0.data, r.1.channelMembers, userId)
  {
    var req := CreateChannelRequest(workspaceId, userId, name, kind).value;
    var r := ChannelsActions.CreateChannel(s, req.0, req.1, id);
    assert ChannelsActions.MemberRows(id, [userId])[0] == ChannelMember(id, userId);
    assert r.1.channelMembers[|s.channelMembers|] == ChannelMember(id, userId);
  }

  /** `handleSearch` in the new-chat dialog: a blank query clears the results; otherwise a
      successful search replaces them and a failed one leaves them. */
  function SearchResults(query: string, current: seq<User>, response: ActionState<seq<User>>): (r: seq<User>)
    ensures Text.IsBlank(query) ==> r == []
    ensures !Text.IsBlank(query) && response.Success? ==> r == response.data
    ensures !Text.IsBlank(query) && response.Failure? ==> r == current
  {
    if Text.IsBlank(query) then [] else if response.Success? then response.data else current
  }

  /** Searched against the store, the dialog offers exactly the other users whose name or
      full name contains the query. */
  lemma SearchOffersOtherUsers(s: Store, query: string, userId: Id, current: seq<User>)
    requires !Text.IsBlank(query)
    ensures forall u :: u in SearchResults(query, current, UsersActions.SearchUsers(s, query, userId)) <==>
              u in s.users && u.id != userId &&
              (Text.ContainsIgnoringCase(u.username, query) || Text.ContainsIgnoringCase(u.fullName, query))
  {
  }

  /** `handleCreateDirectMessage`: on success, go to the chat; otherwise stay. */
  function AfterCreateDirectChat(workspaceId: Id, response: ActionState<DirectChat>): (r: Option<string>)
    ensures response.Success? <==> r.Some?
    ensures response.Success? ==> r.value == ChatPath(workspaceId, response.data.id)
  {
    if response.Success? then Some(ChatPath(workspaceId, response.data.id)) else None
  }

  /** Starting a chat with the same user twice opens the same chat both times. */
  lemma StartChatTwiceOpensSameChat(s: Store, workspaceId: Id, userId: Id, other: Id, id: Id, id2: Id)
    requires DirectMessagesActions.CreateDirectChat(s, userId, other, workspaceId, id).0.Success?
    ensures var r := DirectMessagesActions.CreateDirectChat(s, userId, other, workspaceId, id);
            var r2 := DirectMessagesActions.CreateDirectChat(r.1, userId, other, workspaceId, id2);
            AfterCreateDirectChat(workspaceId, r2.0) == AfterCreateDirectChat(workspaceId, r.0)
  {
    DirectMessagesActions.CreateDirectChatIdempotent(s, userId, other, workspaceId, id, id2);
  }

  /** `handleDeleteChannel` once the action answered: on success the channel leaves the list,
      and the view goes to `home` if it was showing that channel. */
  function AfterDeleteChannel(channels: seq<Channel>, home: string, shown: Option<Id>, target: Id, response: ActionState<()>): (r: (seq<Channel>, Option<string>))
    ensures response.Failure? ==> r == (channels, None)
    ensures response.Success? ==> r.0 == RemoveById(channels, target, ChannelIdOf)
    ensures response.Success? ==> (r.1.Some? <==> shown == Some(target))
    ensures r.1.Some? ==> r.1.value == home
  {
    if response.Failure? then (channels, None)
    else (RemoveById(channels, target, ChannelIdOf), if shown == Some(target) then Some(home) else None)
  }

  /** Deleting through the store always succeeds: the channel is gone from both the sidebar
      and the store, and every other listed channel stays. */
  lemma DeleteChannelEverywhere(s: Store, channels: seq<Channel>, workspaceId: Id, shown: Option<Id>, target: Id)
    ensures var r := ChannelsActions.DeleteChannel(s, target);
            var v := AfterDeleteChannel(channels, WorkspacePath(workspaceId), shown, target, r.0);
            && (forall c :: c in v.0 ==> c.id != target)
            && (forall c :: c in channels && c.id != target ==> c in v.0)
            && (forall c :: c in r.1.channels ==> c.id != target)
  {
    var v := AfterDeleteChannel(channels, WorkspacePath(workspaceId), shown, target, ChannelsActions.DeleteChannel(s, target).0);
    forall c | c in v.0 ensures c.id != target {
      var i :| 0 <= i < |v.0| && v.0[i] == c;
    }
    forall c | c in channels && c.id != target ensures c in v.0 {
      var i :| 0 <= i < |channels| && channels[i] == c;
    }
  }
}

=== FILE: workspace_thread_panel.dfy ===
/** The workspace thread panel: the replies to one parent message, kept in step with the
    change feed, the reply form and the reaction toggle on the parent and its replies.
    Server responses are parameters; the lemmas tie them to the actions over a store. */
module WorkspaceThreadPanel {
  import opened Wrappers
  import opened Schema
  import opened Reconcile
  import Reactions
  import Text
  import Sorting
  import Realtime
  import MessageTable
  import MessagesActions
  import DirectMessagesActions
  import UserMap

  function IdOf(m: Message): Id { m.id }

  /** What the panel is meant to show: replies of one kind to `parentId`. */
  ghost predicate ShowsThread(replies: seq<Message>, kind: MessageKind, parentId: Id) {
    forall m :: m in replies ==> KindOf(m) == kind && m.parentId == Some(parentId)
  }

  /** The feed the panel listens to: the kind's table filtered on `parent_id`. */
  function ThreadSubscription(kind: MessageKind, parentId: Id): (sub: Realtime.Subscription)
    ensures forall m :: Realtime.Receives(sub, m) <==> KindOf(m) == kind && m.parentId == Some(parentId)
  {
    var table := match kind case ChannelKind => "messages" case DirectKind => "direct_messages";
    Realtime.Subscription(table, Some(("parent_id", parentId)))
  }

  /** `handleReplyInsert`'s list effect: only a reply to this parent is appended. */
  function HandleReplyInsert(replies: seq<Message>, parentId: Id, m: Message): (r: seq<Message>)
    ensures m.parentId == Some(parentId) ==> r == Apply(replies, Inserted(m), IdOf)
    ensures m.parentId != Some(parentId) ==> r == replies
  {
    if m.parentId == Some(parentId) then replies + [m] else replies
  }

  /** One event, as the three handlers apply it: updates and deletes by id, with no parent check. */
  function HandleEvent(replies: seq<Message>, parentId: Id, ev: ChangeEvent<Message>): (r: seq<Message>)
    ensures forall i :: 0 <= i < |r| ==> r[i] in replies || (r[i] == ev.row && !ev.Deleted?)
    ensures ev.Inserted? && ev.row.parentId != Some(parentId) ==> r == replies
    ensures ev.Inserted? && ev.row.parentId == Some(parentId) ==> |r| == |replies| + 1 && r[..|replies|] == replies && r[|replies|] == ev.row
    ensures ev.Updated? ==> |r| == |replies| && forall i :: 0 <= i < |replies| && replies[i].id != ev.row.id ==> r[i] == replies[i]
    ensures ev.Deleted? ==> forall m :: m in r <==> m in replies && m.id != ev.row.id
  {
    match ev
    case Inserted(m) => HandleReplyInsert(replies, parentId, m)
    case Updated(m) => Apply(replies, Updated(m), IdOf)
    case Deleted(m) => Apply(replies, Deleted(m), IdOf)
  }

  /** Events the feed delivers keep the panel to the thread: the subscription admits only
      rows whose parent is this message, and an update replaces a row by a version of it. */
  lemma EventKeepsThread(replies: seq<Message>, kind: MessageKind, parentId: Id, ev: ChangeEvent<Message>)
    requires ShowsThread(replies, kind, parentId)
    requires Realtime.Receives(ThreadSubscription(kind, parentId), ev.row)
    ensures ShowsThread(HandleEvent(replies, parentId, ev), kind, parentId)
  {
    var r := HandleEvent(replies, parentId, ev);
    forall x | x in r ensures KindOf(x) == kind && x.parentId == Some(parentId) {
      var i :| 0 <= i < |r| && r[i] == x;
      match ev
      case Inserted(m) =>
        if i < |replies| {
          assert x == replies[i];
        }
      case Updated(m) =>
        if replies[i].id != m.id {
          assert x == replies[i];
        }
      case Deleted(m) =>
    }
  }

  /** The thread action of a kind. */
  function ThreadSnapshot(s: Store, kind: MessageKind, parentId: Id): ActionState<seq<Message>> {
    match kind
    case ChannelKind => MessagesActions.GetThreadMessages(s, parentId)
    case DirectKind => DirectMessagesActions.GetDirectThreadMessages(s, parentId)
  }

  /** `loadReplies`, run only for a non-empty parent id: a successful answer replaces the list. */
  function LoadReplies(parentId: Id, current: seq<Message>, response: ActionState<seq<Message>>): (r: seq<Message>)
    ensures parentId != [] && response.Success? ==> r == response.data
    ensures parentId == [] || response.Failure? ==> r == current
  {
    if parentId != [] && response.Success? then response.data else current
  }

  /** Loading from the store shows the thread, oldest reply first. */
  lemma LoadShowsThread(s: Store, kind: MessageKind, parentId: Id, current: seq<Message>)
    requires parentId != []
    requires forall m :: m in MessagesOf(s, kind) ==> KindOf(m) == kind
    ensures var list := LoadReplies(parentId, current, ThreadSnapshot(s, kind, parentId));
            && ShowsThread(list, kind, parentId)
            && Sorting.SortedBy(list, MessageTable.ByCreatedAt)
  {
    var list := ThreadSnapshot(s, kind, parentId).data;
    forall x | x in list ensures KindOf(x) == kind {
      var m :| m in MessagesOf(s, kind) && MessageTable.JoinAuthor(s.users, m) == Some(x);
    }
  }

  // ---------------------------------------------------------------------------
  // The reply form
  // ---------------------------------------------------------------------------

  /** The outcome of submitting the form: the draft sent (if any) and the text left in the box. */
  datatype Submission = Submission(sent: Option<MessageDraft>, box: string)

  /** `handleSubmitReply`: a blank box does nothing; otherwise the box's text, untrimmed, goes
      to the parent's conversation with the parent as `parentId`, under the signed-in user's
      id and the name `getMessageUsername(parentMessage)`, and the box is cleared. */
  function SubmitReply(parent: Message, userId: Id, box: string): (r: Submission)
    ensures Text.IsBlank(box) <==> r.sent.None?
    ensures r.sent.None? ==> r.box == box
    ensures r.sent.Some? ==> r.box == [] && r.sent.value.content == box
    ensures r.sent.Some? ==> var d := r.sent.value;
              && d.conversationId == ConversationId(parent) && d.parentId == Some(parent.id)
              && d.authorId == userId && d.authorName == AuthorName(parent)
              && d.fileName.None? && d.fileUrl.None?
  {
    if Text.IsBlank(box) then Submission(None, box)
    else Submission(Some(MessageDraft(ConversationId(parent), userId, AuthorName(parent), box, None, None, Some(parent.id))), [])
  }

  /** The parent author's name the panel sends goes nowhere, since no column takes it: the
      stored reply has no name, a channel answer carries the replier's own username from the
      author lookup, and a direct answer carries none. */
  lemma ReplyAnswerNamesReplier(s: Store, parent: Message, userId: Id, box: string, id: Id, now: nat)
    requires !Text.IsBlank(box)
    ensures var d := SubmitReply(parent, userId, box).sent.value;
            && d.authorName == AuthorName(parent)
            && (parent.ChannelMessage? && MessagesActions.CreateThreadMessage(s, d, id, now).0.Success? ==>
                  var r := MessagesActions.CreateThreadMessage(s, d, id, now);
                  && AuthorName(r.1.messages[|s.messages|]).None?
                  && AuthorName(r.0.data) == Some(FindUser(s.users, userId).value.username))
            && (parent.DirectMessage? && DirectMessagesActions.CreateDirectThreadMessage(s, d, id, now).0.Success? ==>
                  var r := DirectMessagesActions.CreateDirectThreadMessage(s, d, id, now);
                  && AuthorName(r.1.directMessages[|s.directMessages|]).None?
                  && AuthorName(r.0.data).None?)
  {
  }

  /** A submitted reply lands in the thread: stored as a reply to the parent, in its
      conversation, and the feed the panel listens to delivers it. */
  lemma SubmittedReplyReachesPanel(s: Store, parent: Message, userId: Id, box: string, id: Id, now: nat)
    requires !Text.IsBlank(box)
    ensures var d := SubmitReply(parent, userId, box).sent.value;
            var row := NewRow(KindOf(parent), d, id, now);
            && row.parentId == Some(parent.id) && ConversationId(row) == ConversationId(parent)
            && Realtime.Receives(ThreadSubscription(KindOf(parent), parent.id), row)
            && HandleReplyInsert([], parent.id, row) == [row]
  {
  }

  // ---------------------------------------------------------------------------
  // Reactions
  // ---------------------------------------------------------------------------

  /** `handleReaction`'s target: the parent when the id is the parent's, else the reply with
      that id; `None` when neither (the handler throws). */
  function ReactionTarget(parent: Message, replies: seq<Message>, messageId: Id): (r: Option<Message>)
    ensures messageId == parent.id ==> r == Some(parent)
    ensures messageId != parent.id ==> r == MessageTable.FindById(replies, messageId)
    ensures r.Some? ==> r.value.id == messageId
  {
    if messageId == parent.id then Some(parent) else MessageTable.FindById(replies, messageId)
  }

  /** The decision: remove when the target already lists the user under the emoji, else add. */
  function ReactionChoice(parent: Message, replies: seq<Message>, messageId: Id, userId: Id, emoji: string): (r: Option<Reactions.ReactionIntent>)
    ensures r.None? <==> ReactionTarget(parent, replies, messageId).None?
    ensures r.Some? ==> (r.value == Reactions.RemoveIntent <==>
              Reactions.HasReacted(ReactionTarget(parent, replies, messageId).value.reactions, emoji, userId))
  {
    match ReactionTarget(parent, replies, messageId)
    case None => None
    case Some(m) => Some(Reactions.ToggleIntent(m.reactions, emoji, userId))
  }

  /** Clicking an emoji the user has not given twice, with the panel showing the stored
      reactions each time, puts the target's reactions back as they were. */
  lemma ReactionClickTwiceRestores(rm: Reactions.ReactionMap, parent: Message, replies: seq<Message>, messageId: Id, userId: Id, emoji: string)
    requires Reactions.NoEmptyLists(rm) && !Reactions.HasReacted(rm, emoji, userId)
    requires ReactionTarget(parent, replies, messageId).Some?
    requires ReactionTarget(parent, replies, messageId).value.reactions == rm
    ensures var i1 := ReactionChoice(parent, replies, messageId, userId, emoji).value;
            var rm1 := Reactions.ApplyIntent(rm, i1, emoji, userId);
            var i2 := Reactions.ToggleIntent(rm1, emoji, userId);
            Reactions.ApplyIntent(rm1, i2, emoji, userId) == rm
  {
    Reactions.ToggleTwiceRestores(rm, emoji, userId);
  }
}

=== FILE: workspaces_actions.dfy ===
/** The workspace server actions: creation with its initial members, lookup, the visibility
    query, idempotent joining, deletion, and the searchable-workspace listing. */
module WorkspacesActions {
  import opened Wrappers
  import opened Schema
  import Text
  import Sorting
  import opened Sequences

  /** The columns a caller supplies when creating a workspace. */
  datatype WorkspaceDraft = WorkspaceDraft(name: string, description: Option<string>, kind: Visibility, creatorId: Id)

  predicate WorkspaceIdTaken(s: Store, id: Id) {
    exists i :: 0 <= i < |s.workspaces| && s.workspaces[i].id == id
  }

  /** The unique index on (workspace, user): no membership pair occurs twice. */
  ghost predicate MembershipUnique(members: seq<WorkspaceMember>) {
    Distinct(members)
  }

  function WorkspaceMemberRows(workspaceId: Id, members: seq<Id>): (r: seq<WorkspaceMember>)
    ensures |r| == |members|
    ensures forall i :: 0 <= i < |members| ==> r[i] == WorkspaceMember(workspaceId, members[i])
  {
    seq(|members|, i requires 0 <= i < |members| => WorkspaceMember(workspaceId, members[i]))
  }

  /** The multi-row member insert is one statement: at least one row, every user known, and
      no pair already present or repeated within the batch (the unique index). */
  predicate InitialMembersInsertable(s: Store, workspaceId: Id, members: seq<Id>) {
    && |members| > 0 && Distinct(members)
    && (forall i :: 0 <= i < |members| ==> FindUser(s.users, members[i]).Some?)
    && (forall i :: 0 <= i < |members| ==> WorkspaceMember(workspaceId, members[i]) !in s.workspaceMembers)
  }

  /** `createWorkspaceAction`: insert the workspace, then its member rows. The two inserts are
      separate statements, so a failing member insert leaves the workspace in place. */
  function CreateWorkspace(s: Store, d: WorkspaceDraft, members: seq<Id>, id: Id): (r: (ActionState<Workspace>, Store))
    ensures r.0.Success? <==> (!WorkspaceIdTaken(s, id) && FindUser(s.users, d.creatorId).Some? &&
                               InitialMembersInsertable(s, id, members))
    ensures r.0.Success? ==>
              && r.0 == Success("Workspace created successfully", Workspace(id, d.name, d.description, d.kind, d.creatorId))
              && r.1 == s.(workspaces := s.workspaces + [r.0.data],
                           workspaceMembers := s.workspaceMembers + WorkspaceMemberRows(id, members))
    ensures r.0.Failure? ==>
              && r.0.message == "Failed to create workspace"
              && r.1.workspaceMembers == s.workspaceMembers
              && (r.1 == s || r.1 == s.(workspaces := s.workspaces + [Workspace(id, d.name, d.description, d.kind, d.creatorId)]))
  {
    if WorkspaceIdTaken(s, id) || FindUser(s.users, d.creatorId).None? then (Failure("Failed to create workspace"), s)
    else
      var w := Workspace(id, d.name, d.description, d.kind, d.creatorId);
      var s1 := s.(workspaces := s.workspaces + [w]);
      if InitialMembersInsertable(s1, id, members) then
        (Success("Workspace created successfully", w), s1.(workspaceMembers := s1.workspaceMembers + WorkspaceMemberRows(id, members)))
      else (Failure("Failed to create workspace"), s1)
  }

  /** Creating a workspace keeps membership pairs unique. */
  lemma CreateWorkspaceKeepsMembershipUnique(s: Store, d: WorkspaceDraft, members: seq<Id>, id: Id)
    requires MembershipUnique(s.workspaceMembers)
    ensures MembershipUnique(CreateWorkspace(s, d, members, id).1.workspaceMembers)
  {
    var (r, s1) := CreateWorkspace(s, d, members, id);
    if r.Success? {
      MemberRowsKeepUnique(s.workspaceMembers, id, members);
    }
  }

  /** Appending the rows of distinct new members keeps membership pairs unique. */
  lemma MemberRowsKeepUnique(before: seq<WorkspaceMember>, id: Id, members: seq<Id>)
    requires MembershipUnique(before)
    requires Distinct(members)
    requires forall i :: 0 <= i < |members| ==> WorkspaceMember(id, members[i]) !in before
    ensures MembershipUnique(before + WorkspaceMemberRows(id, members))
  {
    var rows := WorkspaceMemberRows(id, members);
    var t := before + rows;
    forall i, j | 0 <= i < j < |t| ensures t[i] != t[j] {
      if j >= |before| && i < |before| {
        assert t[j] == WorkspaceMember(id, members[j - |before|]);
        assert t[i] in before;
      } else if i >= |before| {
        assert t[i] == WorkspaceMember(id, members[i - |before|]);
      }
    }
  }


  /** `getWorkspaceAction`: the first workspace with that id. */
  function GetWorkspace(s: Store, id: Id): (r: ActionState<Workspace>)
    ensures r.Failure? <==> !WorkspaceIdTaken(s, id)
    ensures r.Failure? ==> r.message == "Workspace not found"
    ensures r.Success? ==> r.message == "Workspace retrieved successfully" && r.data in s.workspaces && r.data.id == id
  {
    FindWorkspace(s.workspaces, id)
  }

  function FindWorkspace(ws: seq<Workspace>, id: Id): (r: ActionState<Workspace>)
    ensures r.Failure? <==> forall i :: 0 <= i < |ws| ==> ws[i].id != id
    ensures r.Failure? ==> r.message == "Workspace not found"
    ensures r.Success? ==> r.message == "Workspace retrieved successfully" && r.data in ws && r.data.id == id
  {
    match Sequences.First(ws, (w: Workspace) => w.id == id)
    case None =>
      assert forall i :: 0 <= i < |ws| ==> ws[i] in ws;
      Failure("Workspace not found")
    case Some(w) => Success("Workspace retrieved successfully", w)
  }

  /** The number of membership rows of a workspace, whoever the member. */
  function RowsOf(members: seq<WorkspaceMember>, workspaceId: Id): (n: nat)
    ensures n == 0 <==> forall m :: m in members ==> m.workspaceId != workspaceId
  {
    if |members| == 0 then 0
    else
      assert forall m :: m in members <==> m == members[0] || m in members[1..];
      RowsOf(members[1..], workspaceId) + (if members[0].workspaceId == workspaceId then 1 else 0)
  }

  /** The workspace is public, or the user has a membership row for it. */
  predicate VisibleTo(w: Workspace, members: seq<WorkspaceMember>, userId: Id) {
    w.kind == Public || WorkspaceMember(w.id, userId) in members
  }

  /** How many rows the left join on the workspace id alone, filtered by "public or the
      joined row is the user's", produces for one workspace: a public workspace yields one
      row per member (or one null-extended row when it has none); a private one yields only
      the user's own membership rows. */
  function JoinCopies(w: Workspace, members: seq<WorkspaceMember>, userId: Id): (n: nat)
    ensures n > 0 <==> VisibleTo(w, members, userId)
  {
    var all := RowsOf(members, w.id);
    var mine := multiset(members)[WorkspaceMember(w.id, userId)];
    if all == 0 then (if w.kind == Public then 1 else 0)
    else if w.kind == Public then all
    else mine
  }

  function UserWorkspaceRows(ws: seq<Workspace>, members: seq<WorkspaceMember>, userId: Id): (r: seq<Workspace>)
    ensures forall w :: w in r <==> w in ws && VisibleTo(w, members, userId)
  {
    if |ws| == 0 then []
    else
      assert forall w :: w in ws <==> w == ws[0] || w in ws[1..];
      Sequences.Repeat(ws[0], JoinCopies(ws[0], members, userId)) + UserWorkspaceRows(ws[1..], members, userId)
  }

  /** `getUserWorkspacesAction`: a workspace is returned iff it is public or the user is a member. */
  function GetUserWorkspaces(s: Store, userId: Id): (r: ActionState<seq<Workspace>>)
    ensures r.Success? && r.message == "User workspaces retrieved successfully"
    ensures forall w :: w in r.data <==> w in s.workspaces && (w.kind == Public || WorkspaceMember(w.id, userId) in s.workspaceMembers)
  {
    Success("User workspaces retrieved successfully", UserWorkspaceRows(s.workspaces, s.workspaceMembers, userId))
  }

  /** Because the join ignores the user, a public workspace comes back once per member. */
  lemma PublicWorkspaceRepeatsPerMember(w: Workspace, a: Id, b: Id, userId: Id)
    requires w.kind == Public && a != b
    ensures UserWorkspaceRows([w], [WorkspaceMember(w.id, a), WorkspaceMember(w.id, b)], userId) == [w, w]
  {
    var ms := [WorkspaceMember(w.id, a), WorkspaceMember(w.id, b)];
    assert RowsOf(ms[1..][1..], w.id) == 0;
    assert RowsOf(ms, w.id) == 2;
    assert UserWorkspaceRows([w][1..], ms, userId) == [];
  }

  /** `joinWorkspaceAction`: insert the pair unless it exists (`on conflict do nothing`), in
      which case the existing row is answered. A new row must reference an existing
      workspace and user. */
  function JoinWorkspace(s: Store, workspaceId: Id, userId: Id): (r: (ActionState<WorkspaceMember>, Store))
    ensures WorkspaceMember(workspaceId, userId) in s.workspaceMembers ==>
              r == (Success("Joined workspace successfully", WorkspaceMember(workspaceId, userId)), s)
    ensures r.0.Failure? <==> WorkspaceMember(workspaceId, userId) !in s.workspaceMembers &&
                               (!WorkspaceIdTaken(s, workspaceId) || FindUser(s.users, userId).None?)
    ensures r.0.Failure? ==> r == (Failure("Failed to join workspace"), s)
    ensures r.0.Success? ==> r.0 == Success("Joined workspace successfully", WorkspaceMember(workspaceId, userId))
    ensures r.0.Success? ==> WorkspaceMember(workspaceId, userId) in r.1.workspaceMembers
    ensures r.0.Success? ==> forall m :: m in r.1.workspaceMembers <==> m in s.workspaceMembers || m == r.0.data
  {
    var m := WorkspaceMember(workspaceId, userId);
    if m in s.workspaceMembers then (Success("Joined workspace successfully", m), s)
    else if !WorkspaceIdTaken(s, workspaceId) || FindUser(s.users, userId).None? then (Failure("Failed to join workspace"), s)
    else (Success("Joined workspace successfully", m), s.(workspaceMembers := s.workspaceMembers + [m]))
  }

  /** Joining twice has the effect of joining once. */
  lemma JoinWorkspaceIdempotent(s: Store, workspaceId: Id, userId: Id)
    ensures var once := JoinWorkspace(s, workspaceId, userId);
            once.0.Success? ==> JoinWorkspace(once.1, workspaceId, userId) == once
  { }

  /** Joining never creates a duplicate membership pair, and a joined user sees the workspace. */
  lemma JoinWorkspaceKeepsMembershipUnique(s: Store, w: Workspace, userId: Id)
    requires MembershipUnique(s.workspaceMembers)
    ensures MembershipUnique(JoinWorkspace(s, w.id, userId).1.workspaceMembers)
    ensures w in s.workspaces && JoinWorkspace(s, w.id, userId).0.Success? ==>
              w in GetUserWorkspaces(JoinWorkspace(s, w.id, userId).1, userId).data
  {
    var m := WorkspaceMember(w.id, userId);
    var t := JoinWorkspace(s, w.id, userId).1.workspaceMembers;
    if t != s.workspaceMembers {
      forall i, j | 0 <= i < j < |t| ensures t[i] != t[j] {
        if j == |s.workspaceMembers| {
          assert t[i] in s.workspaceMembers;
        }
      }
    }
  }

  function WorkspacesExcept(ws: seq<Workspace>, id: Id): (r: seq<Workspace>)
    ensures forall w :: w in r <==> w in ws && w.id != id
  {
    Sequences.Filter(ws, (w: Workspace) => w.id != id)
  }

  function MembersExcept(members: seq<WorkspaceMember>, workspaceId: Id): (r: seq<WorkspaceMember>)
    ensures forall m :: m in r <==> m in members && m.workspaceId != workspaceId
  {
    Sequences.Filter(members, (m: WorkspaceMember) => m.workspaceId != workspaceId)
  }

  /** `deleteWorkspaceAction`: removes the workspace and, by cascade, its memberships. The
      channels and chats that name the workspace have no foreign key to it and remain. */
  function DeleteWorkspace(s: Store, id: Id): (r: (ActionState<()>, Store))
    ensures r.0 == Success("Workspace deleted successfully", ())
    ensures forall w :: w in r.1.workspaces <==> w in s.workspaces && w.id != id
    ensures forall m :: m in r.1.workspaceMembers <==> m in s.workspaceMembers && m.workspaceId != id
    ensures r.1 == s.(workspaces := r.1.workspaces, workspaceMembers := r.1.workspaceMembers)
  {
    (Success("Workspace deleted successfully", ()),
     s.(workspaces := WorkspacesExcept(s.workspaces, id), workspaceMembers := MembersExcept(s.workspaceMembers, id)))
  }

  /** After the delete no user is shown the workspace, and every other workspace is shown to
      exactly the users who saw it before. */
  lemma DeletedWorkspaceInvisible(s: Store, id: Id, userId: Id)
    ensures forall w :: w in GetUserWorkspaces(DeleteWorkspace(s, id).1, userId).data ==> w.id != id
    ensures forall w: Workspace :: w.id != id ==>
              (w in GetUserWorkspaces(DeleteWorkspace(s, id).1, userId).data <==> w in GetUserWorkspaces(s, userId).data)
  { }

  // ---------------------------------------------------------------------------
  // Searchable workspaces.
  // ---------------------------------------------------------------------------

  /** The keys of the relational query object: the names the schema is registered under
      when the database client is built. */
  const QueryKeys: set<string> := {
    "profiles", "users", "channels", "channelMembers", "messages", "directChats",
    "directMessages", "presence", "workspaces", "workspaceMembers", "attachments"
  }

  /** The workspace is public or was created by the user: anyone finds a public workspace,
      and only its creator finds a private one. */
  predicate Searchable(w: Workspace, userId: Id): (b: bool)
    ensures w.kind == Public ==> b
    ensures w.kind == Private ==> (b <==> w.creatorId == userId)
  {
    w.kind == Public || w.creatorId == userId
  }

  function SearchableRows(ws: seq<Workspace>, userId: Id): (r: seq<Workspace>)
    ensures |r| <= |ws|
    ensures forall w :: w in r <==> w in ws && Searchable(w, userId)
  {
    Sequences.Filter(ws, (w: Workspace) => Searchable(w, userId))
  }

  /** `order by name`, with names compared by code point in place of the database collation. */
  function ByName(a: Workspace, b: Workspace): (r: bool)
    ensures |a.name| == 0 ==> r
    ensures a.name == b.name ==> r
    ensures r || Text.LexLe(b.name, a.name)
  {
    Text.LexLeTotal(a.name, b.name);
    Text.LexLe(a.name, b.name)
  }

  lemma ByNameIsTotalPreorder()
    ensures Sorting.TotalPreorder(ByName)
  {
    forall a: Workspace, b: Workspace ensures ByName(a, b) || ByName(b, a) {
      Text.LexLeTotal(a.name, b.name);
    }
    forall a: Workspace, b: Workspace, c: Workspace | ByName(a, b) && ByName(b, c) ensures ByName(a, c) {
      Text.LexLeTransitive(a.name, b.name, c.name);
    }
  }

  /** `findMany` through the relational query object under `key`: an unregistered key is an
      undefined property, and calling `findMany` on it throws. */
  function SearchableVia(key: string, s: Store, userId: Id): (r: ActionState<seq<Workspace>>)
    ensures key !in QueryKeys ==> r == Failure("Failed to get workspaces")
    ensures key in QueryKeys ==> r.Success? && r.message == "Workspaces retrieved successfully"
    ensures key in QueryKeys ==> forall w :: w in r.data <==> w in s.workspaces && Searchable(w, userId)
    ensures key in QueryKeys ==> Sorting.SortedBy(r.data, ByName)
    ensures key in QueryKeys ==> multiset(r.data) == multiset(SearchableRows(s.workspaces, userId))
  {
    if key !in QueryKeys then Failure("Failed to get workspaces")
    else
      var rows := SearchableRows(s.workspaces, userId);
      var sorted := Sorting.SortBy(rows, ByName);
      ByNameIsTotalPreorder();
      Sorting.SortBySorted(rows, ByName);
      assert forall w :: w in sorted <==> w in rows by {
        forall w ensures w in sorted <==> w in rows {
          assert w in sorted <==> w in multiset(sorted);
        }
      }
      Success("Workspaces retrieved successfully", sorted)
  }

  /** `getSearchableWorkspacesAction` as written: it queries under the key `workspacesTable`,
      which is not registered. */
  function GetSearchableWorkspacesAsWritten(s: Store, userId: Id): (r: ActionState<seq<Workspace>>)
    ensures r.Failure?
  {
    SearchableVia("workspacesTable", s, userId)
  }

  /** `getSearchableWorkspacesAction` as intended, through the registered key `workspaces`:
      the public workspaces and the user's own, ordered by name. */
  function GetSearchableWorkspaces(s: Store, userId: Id): (r: ActionState<seq<Workspace>>)
    ensures r.Success? && r.message == "Workspaces retrieved successfully"
    ensures forall w :: w in r.data <==> w in s.workspaces && (w.kind == Public || w.creatorId == userId)
    ensures Sorting.SortedBy(r.data, ByName)
  {
    SearchableVia("workspaces", s, userId)
  }

  /** The discrepancy: with a public workspace in the store, the action as written answers a
      failure where the intended query lists that workspace. */
  lemma SearchableAsWrittenMissesPublicWorkspace(s: Store, w: Workspace, userId: Id)
    requires w in s.workspaces && w.kind == Public
    ensures GetSearchableWorkspacesAsWritten(s, userId) == Failure("Failed to get workspaces")
    ensures w in GetSearchableWorkspaces(s, userId).data
  {
    assert "workspacesTable" !in QueryKeys;
  }
}

=== FILE: wrappers.dfy ===
/** Failure-carrying datatypes shared by every module of the model. */
module Wrappers {

  /** A value that may be absent: SQL NULL, a JavaScript `undefined`, a missing map entry. */
  datatype Option<+T> = None | Some(value: T)

  /** The uniform result of every server action, `{ isSuccess, message, data? }`.
      A failure carries only its human-readable message. */
  datatype ActionState<+T> = Success(message: string, data: T) | Failure(message: string)
}
